=== FILE: README.md ===
# Tonal scale colour engine in Dafny

This project models the colour engine of the tonal-scale builder. The builder takes one base colour and derives a ramp of 101 tones, from black through the base colour towards white. Along the way it tints the ramp with a blend colour in one of eleven blend modes, pushes saturation, and reports WCAG contrast neighbours. The model covers these parts:

- the hex codec and the HSV/HSL conversions (`src/utils/color.ts`, `src/utils/tonal/color-math.ts`);
- the blend algebra and the saturation push (`blending.ts`);
- the Bézier intensity envelopes (`easing.ts`);
- the contrast ratio (`contrast.ts`);
- the ramp assembler (`scale.ts`);
- the store's pure helpers, setters and import normalisation (`src/stores/tonalScale.ts`);
- the strip builder, the two SVG exporters and the URL query codec;
- the slider and picker state machines, locale resolution and title-casing;
- the older prototype under `temp/src/js`, with lemmas that compare each of its duplicated formulas with the current code.

One Dafny module per source file; the legacy modules are prefixed `Legacy`:

- `Wrappers`: `Option` and `Result`.
- `JsMath`: JavaScript's `Math.round`, `Math.min`/`max`, `clamp(v, lo, hi)` read as `min(max(v, lo), hi)`, and truncating `%`. `src/utils/color.ts` imports `clamp` from `src/utils/collection.ts`, whose body for it is not part of this model; the min/max reading is assumed.
- `JsText`: ASCII case mapping, `trim`, decimal and hexadecimal printing and parsing, and `Number(...)` with the fractional part passed in.
- `Powers`: the abstract `**`, `Math.sqrt` and `Math.cbrt` (`Numerics`) with the axioms the proofs use.
- `Color`, `ColorMath`, `Blending`, `Easing`, `Contrast`, `Scale`.
- `Indices`, `Store`, `Strips`, `SvgExport`, `UrlSync`, `BuilderControls`, `PickerColors`, `Locale`, `TitleCase`.
- `LegacyMath`, `LegacyColor`, `LegacyBlending`, `LegacyEasing`, `LegacyScale`.

How JavaScript is modelled:

- JavaScript numbers are Dafny `real`s.
- `Math.round(x)` is `(x + 0.5).Floor`.
- A `NaN` that the code can produce is `None` of an `Option`, except where a line under "Left out" says otherwise: a number field of an imported payload whose `Number(...)` is `NaN` or infinite is read as missing.
- Stateful composables and the store are state records with pure transition functions. Each transition returns the next state together with the function's boolean result.

## Model

| member | source | states |
|---|---|---|
| Color.HexBody | src/utils/color.ts:6-10 | a string the pattern accepts carries exactly six hex digits after the optional `#` |
| Color.NormalizeHex | src/utils/color.ts:12-20 | the normal form starts with `#`, is lower case and is never the four-character shorthand form |
| Color.NormalizeValid | src/utils/color.ts:6-20 | for a valid hex, normalising gives `#` plus its six digits lowered, which is canonical |
| Color.InvalidLength | src/utils/color.ts:6-10 | a trimmed input of any length other than 6 or 7 is rejected |
| Color.NormalizeShorthand | src/utils/color.ts:12-17 | a three-digit body, with or without `#`, expands by doubling each digit and lowering; the validator still rejects it |
| Color.NormalizeFixed | src/utils/color.ts:12-20 | a lower-case `#`-string of length 1..7 (not 4) is its own normal form |
| Color.NormalizeIdempotent | src/utils/color.ts:12-20 | normalising twice is normalising once |
| Color.HexToRgb | src/utils/color.ts:22-29 | every channel `parseInt` yields is an integer, and a non-number is reported as `None` |
| Color.HexToRgbRange | src/utils/color.ts:22-29 | whatever the input, each parsed two-character channel lies in [-15, 255] |
| Color.ToByte | src/utils/color.ts:32 | the printed channel is in [0, 255] and is the rounded value for inputs already in range |
| Color.RgbToHex | src/utils/color.ts:31-34 | the result is always `#` plus six lower-case hex digits |
| Color.RgbToHexExamples | src/utils/color.ts:31-34 | (300, -50, 128) prints `#ff0080` and (100.5, 100.2, 99.9) prints `#656464` |
| Color.BlackWhiteHex | src/utils/color.ts:31-34 | black and white print as `#000000` and `#ffffff` |
| Color.CanonicalRoundTrip | src/utils/color.ts:12-34 | a canonical hex is its own normal form, decodes to byte channels and prints back to itself |
| Color.HexRoundTrip | src/utils/color.ts:6-34 | for a valid hex, printing the decoded channels gives its normal form |
| Color.RgbRoundTrip | src/utils/color.ts:22-34 | integer channels in [0, 255] printed and decoded come back unchanged |
| Color.RgbToHsv | src/utils/color.ts:36-64 | the three components are integers and the hue lies in [0, 360) |
| Color.RgbToHsvGrey | src/utils/color.ts:43-60 | a grey has hue 0 and saturation 0 |
| Color.RgbToHsvBounds | src/utils/color.ts:60-63 | for channels in [0, 255], s and v lie in [0, 100] and v is the rounded largest channel over 2.55 |
| Color.RgbToHsvSaturated | src/utils/color.ts:60-63 | a colour spanning 0 to 255 has s = v = 100 |
| Color.RgbToHsvPrimaries | src/utils/color.ts:36-64 | red, green and blue map to hues 0, 120 and 240 at full s and v |
| Color.RgbToHsvSecondaries | src/utils/color.ts:36-64 | yellow, cyan and magenta map to hues 60, 180 and 300 |
| Color.HsvToRgb | src/utils/color.ts:66-102 | every channel is an integer |
| Color.HsvToRgbGrey | src/utils/color.ts:66-101 | with s = 0 every channel is the grey round(v * 2.55) |
| Color.HsvToRgbBounds | src/utils/color.ts:66-102 | h in [0, 360) and s, v in [0, 100] give integer channels in [0, 255] |
| Color.HsvToRgbSectors | src/utils/color.ts:77-101 | the six sector mid-points give the mixtures `src/tests/utils/color.spec.ts` expects, e.g. h = 30 gives (255, 128, 0) |
| Color.HexToHsv | src/utils/color.ts:104-106 | defined exactly when the hex decodes, with a hue in [0, 360) |
| ColorMath.ParseBlendMode | src/utils/tonal/color-math.ts:14-30 | a string is a mode exactly when it is one of the listed names, and the name of the parsed mode is the string |
| ColorMath.ModeNames | src/utils/tonal/color-math.ts:14-30 | every mode's name parses back to it, and the set holds exactly eleven distinct modes |
| ColorMath.ClampRgb | src/utils/tonal/color-math.ts:43 | the result is an integer in [0, 255], and the rounded input when that is already in range |
| ColorMath.PivotRgbUnit | src/utils/tonal/color-math.ts:32-33 | for the abstract power, the linearisation maps [0, 1] into [0, 1], fixing 0 and 1 |
| ColorMath.PivotLabOfPivotXyz | src/utils/tonal/color-math.ts:35-41 | `pivotLab` undoes `pivotXyz` on every non-negative input |
| ColorMath.PivotXyzOfPivotLab | src/utils/tonal/color-math.ts:35-41 | `pivotXyz` undoes `pivotLab` on every input |
| ColorMath.PivotXyzBounds | src/utils/tonal/color-math.ts:35-36 | the response is at least 16/116, at most 1 on [0, 1], and at most its input above 1 |
| ColorMath.XyzToRgb | src/utils/tonal/color-math.ts:57-70 | every channel is an integer in [0, 255], whatever the XYZ input |
| ColorMath.LabToRgb | src/utils/tonal/color-math.ts:86-98 | every channel is an integer in [0, 255] |
| ColorMath.XyzLuminanceBounds | src/utils/tonal/color-math.ts:45-55 | for byte channels the Y component lies in [0, 1.0000001] |
| ColorMath.LightnessRange | src/utils/tonal/color-math.ts:72-84 | for byte channels L* lies in [0, 100.5), so its rounding is in 0..100 |
| ColorMath.LabBlack | src/utils/tonal/color-math.ts:35-98 | black has L\*a\*b\* (0, 0, 0) and (0, 0, 0) converts back to black through the polynomial and linear branches |
| ColorMath.LabWhiteRgb | src/utils/tonal/color-math.ts:12-98 | L\*a\*b\* white (100, 0, 0) converts back to RGB white (255, 255, 255) through the cube and gamma branches |
| ColorMath.LabWhite | src/utils/tonal/color-math.ts:72-84 | white has a rounded L* of 100 |
| ColorMath.RgbToHsl | src/utils/tonal/color-math.ts:100-132 | for byte channels h lies in [0, 1) and s and l in [0, 1], with no division by zero |
| ColorMath.RgbToHslShape | src/utils/tonal/color-math.ts:105-129 | l is the mean of the largest and smallest unit channel; a grey has h = s = 0 and any other colour s in (0, 1] |
| ColorMath.HslToRgb | src/utils/tonal/color-math.ts:144-158 | every channel is an integer in [0, 255], and s = 0 gives the grey clampRgb(l * 255) |
| ColorMath.RgbToUnitHsv | src/utils/tonal/color-math.ts:160-189 | h lies in [0, 1), v is the largest channel over 255, and s lies in [0, 1] for byte channels |
| ColorMath.UnitHsvGrey | src/utils/tonal/color-math.ts:170-176 | black has s = 0, and a grey has h = 0 and s = 0 |
| ColorMath.UnitHsvToRgb | src/utils/tonal/color-math.ts:191-236 | every channel is an integer in [0, 255] |
| ColorMath.UnitHsvToRgbGrey | src/utils/tonal/color-math.ts:191-236 | with s = 0 every channel is the grey clampRgb(v * 255) |
| ColorMath.UnitHsvChannelsRoundTrip | src/utils/tonal/color-math.ts:160-233 | the sector channels of the HSV of non-negative unit channels are those channels |
| ColorMath.UnitHsvRoundTrip | src/utils/tonal/color-math.ts:160-236 | converting byte-range channels to HSV and back gives their rounded values, and byte channels unchanged |
| ColorMath.GetLuminance | src/utils/tonal/color-math.ts:238-249 | defined exactly when the hex decodes, and then the weighted sum of the linearised channels |
| ColorMath.LinearChannelUnit | src/utils/tonal/color-math.ts:241-244 | the linearisation maps [0, 255] into [0, 1], with 0 at 0 and 1 at 255 |
| ColorMath.LuminanceUnit | src/utils/tonal/color-math.ts:246-248 | for byte channels the luminance lies in [0, 1], is 0 for black and 1 for white |
| ColorMath.LuminanceAboveOffset | src/utils/tonal/color-math.ts:241-248 | for any channel `parseInt` can produce (at least -15) the luminance exceeds -0.05, so a contrast denominator is positive |
| ColorMath.ToHex | src/utils/tonal/color-math.ts:253 | the result is a canonical six-digit lower-case hex |
| Blending.BlendInputError | src/utils/tonal/blending.ts:5-68 | there is no error exactly when the three channels, the intensity and the strength are in [0, 1] and the mode is known; a bad red channel is reported first and a bad strength after the channels and intensity |
| Blending.VividLightAsWritten | src/utils/tonal/blending.ts:35-36 | the formula as written has no finite value exactly at (a, b) = (1, 0) and (0, 1), where it divides zero by zero |
| Blending.VividLightCorrected | src/utils/tonal/blending.ts:35-36 | the guarded formula agrees with the written one wherever that is a number, and gives 0 and 1 at the two undefined points |
| Blending.ChannelBlendUnit | src/utils/tonal/blending.ts:23-36 | each of the ten channel formulas maps [0, 1] x [0, 1] into [0, 1], soft light assuming only a <= sqrt(a) <= 1 |
| Blending.ChannelBlendAsWrittenUnit | src/utils/tonal/blending.ts:23-52 | as written, a channel blend fails to be a number exactly under vivid light for a white base over a zero blend or a black base over a full one; elsewhere it equals the corrected blend and lies in [0, 1] |
| Blending.SoftLightUnit | src/utils/tonal/blending.ts:25-26 | soft light stays in [0, 1] given only a <= sqrt(a) <= 1 |
| Blending.NeutralBlend | src/utils/tonal/blending.ts:23-36 | every channel formula has a blend value that leaves the base channel unchanged |
| Blending.ApplyBlend | src/utils/tonal/blending.ts:54-102 | the call fails exactly when the validators raise, with their error; after validation a black blend, zero intensity or zero strength returns the input; every result stays in [0, 255] |
| Blending.HueBlend | src/utils/tonal/blending.ts:74-88 | the hue path keeps every channel in [0, 255] without rounding it |
| Blending.BlendByte | src/utils/tonal/blending.ts:76-80 | the blend colour rounded to bytes has integer channels in [0, 255] |
| Blending.ChannelMix | src/utils/tonal/blending.ts:90-101 | the non-hue path gives integer channels in [0, 255] |
| Blending.MixBetween | src/utils/tonal/blending.ts:94-100 | a mixed channel lies between the rounded base and rounded blended values, and is the blended value at weight 1 and the base at weight 0 |
| Blending.ApplyBlendNeutral | src/utils/tonal/blending.ts:54-102 | blending with a mode's neutral colour succeeds and returns the input or its rounded channels |
| Blending.ApplyBlendOverlayExample | src/utils/tonal/blending.ts:54-102 | overlay of (120, 160, 200) with (0.2, 0.4, 0.6) at strength 0.5 and intensity 0.8 gives (91, 152, 204) |
| Blending.VividLightNaNExample | src/utils/tonal/blending.ts:35-36 | a white base channel under a zero blend channel has no value as written and 0 when guarded |
| Blending.ApplySaturation | src/utils/tonal/blending.ts:104-111 | succeeds exactly when saturation and intensity are in [0, 1], else fails naming the first bad one; a result has integer channels in [0, 255] |
| Blending.Saturated | src/utils/tonal/blending.ts:108-110 | the push keeps hue and value |
| Blending.SaturatedBounds | src/utils/tonal/blending.ts:109 | the new saturation lies between the old one and 1 |
| Blending.ApplySaturationZeroWeight | src/utils/tonal/blending.ts:104-111 | with saturation or intensity 0 the colour is only rounded, and byte colours come back unchanged |
| Blending.SaturatedGreyTurnsRed | src/utils/tonal/blending.ts:104-111 | a grey pushed towards saturation keeps red at its level and makes green and blue equal, since its hue is 0 |
| Easing.EaseInOutQuad | src/utils/tonal/easing.ts:1-5 | an empty range gives 0, and a position inside a positive range gives a value in [0, 1] |
| Easing.EaseSymmetric | src/utils/tonal/easing.ts:1-5 | the envelope is symmetric about the middle of the range |
| Easing.EasePeak | src/utils/tonal/easing.ts:3-4 | the envelope is 1 at the middle of a non-empty range |
| Easing.Eval | src/utils/tonal/easing.ts:9-22 | the curve starts at (0, 0) and ends at (1, 1) |
| Easing.BernsteinUnit | src/utils/tonal/easing.ts:18-19 | with control coordinates in [0, 1], each coordinate stays in [0, 1] for t in [0, 1] |
| Easing.BernsteinMirror | src/utils/tonal/easing.ts:18-19 | control coordinates summing to 1 make the curve point-symmetric: B(1 - t) = 1 - B(t) |
| Easing.BezierMidpoint | src/utils/tonal/easing.ts:9-22 | with p1y = 0 and p2y = 1 the curve's y at 0.5 is 0.5, and with p1x + p2x = 1 so is its x |
| Easing.IntensityCurve | src/utils/tonal/easing.ts:24-42 | p1y = 0, p2y = 1, y(0.5) = 0.5, and the closed forms of p1x and p2x on each side of middle = 0.5 |
| Easing.IntensityCurveUnit | src/utils/tonal/easing.ts:24-42 | for middle and spread in [0, 1] both control x-coordinates lie in [0, 1] |
| Easing.IntensityCurveCentred | src/utils/tonal/easing.ts:24-42 | at middle = 0.5 the control x-coordinates sum to 1 |
| Easing.FoldUnit | src/utils/tonal/easing.ts:55-56 | the fold 2u / 2 - 2u maps [0, 1] into [0, 1] and is symmetric about 0.5 |
| Easing.GetIntensity | src/utils/tonal/easing.ts:44-59 | the intensity is 0 at i = 0 and at i = luminance |
| Easing.IntensityIsFold | src/utils/tonal/easing.ts:44-59 | between the ends the intensity is the fold of the curve's x at i / luminance |
| Easing.IntensityUnit | src/utils/tonal/easing.ts:24-59 | for middle and spread in [0, 1] and 0 <= i <= luminance the intensity lies in [0, 1] |
| Easing.IntensitySymmetric | src/utils/tonal/easing.ts:24-59 | at middle = 0.5 the intensity at i equals the intensity at luminance - i |
| Contrast.RoundToOneDecimal | src/utils/tonal/contrast.ts:3 | the result is a whole number of tenths within 0.05 of the input |
| Contrast.RoundToOneDecimalAtLeastOne | src/utils/tonal/contrast.ts:3 | rounding keeps a value of at least 1 at least 1 |
| Contrast.ContrastOfLuminances | src/utils/tonal/contrast.ts:8-11 | defined exactly when the smaller luminance plus 0.05 is non-zero; then a whole number of tenths, at least 1 when that denominator is positive |
| Contrast.ContrastOfKnown | src/utils/tonal/contrast.ts:5-12 | with both luminances known, the ratio of the hex strings is the ratio of the luminances |
| Contrast.ContrastSymmetric | src/utils/tonal/contrast.ts:5-12 | the ratio does not depend on the order of its arguments |
| Contrast.ContrastAtLeastOne | src/utils/tonal/contrast.ts:5-12 | for two decodable colours the ratio exists and is at least 1 |
| Contrast.ContrastWithSelf | src/utils/tonal/contrast.ts:5-12 | a colour against itself has ratio 1 |
| Contrast.ContrastBlackWhite | src/utils/tonal/contrast.ts:5-12 | black against white has ratio 21 |
| Contrast.FormatContrastRatio | src/utils/tonal/contrast.ts:14-17 | the text ends in `:1`, and has no decimal point exactly when the rounded ratio is whole |
| Contrast.FormatReadRoundTrip | src/utils/tonal/contrast.ts:14-17 | reading the formatted text back gives the ratio rounded to tenths |
| Contrast.FormatExamples | src/utils/tonal/contrast.ts:14-17 | 21 formats as `21:1` and 4.5 as `4.5:1` |
| Scale.ScaleChroma | src/utils/tonal/scale.ts:24-32 | the component is unchanged at the base lightness, 0 at the black end below a positive base and at the white end above one under 100, and otherwise scaled by a factor in [0, 1] |
| Scale.ToNormalized | src/utils/tonal/scale.ts:34 | the result lies in [0, 1], and is value / 255 for values in [0, 255] |
| Scale.PlainRgb | src/utils/tonal/scale.ts:58-64 | the unadjusted step colour has integer channels in [0, 255] |
| Scale.Darker | src/utils/tonal/scale.ts:68-88 | an adjusted darker step that does not fail stays in [0, 255] |
| Scale.Lighter | src/utils/tonal/scale.ts:89-92 | an adjusted lighter step that does not fail stays in [0, 255] |
| Scale.AdjustedRgb | src/utils/tonal/scale.ts:64-92 | the step at the base lightness is the base colour itself, and every other step stays in [0, 255] |
| Scale.StepAt | src/utils/tonal/scale.ts:57-95 | a step fails exactly when its adjustment fails, and carries its own index |
| Scale.CollectSpec | src/utils/tonal/scale.ts:57-95 | the loop succeeds exactly when every turn does and then keeps every step in order; otherwise it fails with the error of the first failing turn |
| Scale.TurnAt | src/utils/tonal/scale.ts:57-95 | entry `k` of the turn results is what turn `k` yields |
| Scale.ScaleOf | src/utils/tonal/scale.ts:55-97 | a successful scale has 101 steps and reports the base lightness |
| Scale.ScaleOfSteps | src/utils/tonal/scale.ts:55-97 | a successful scale holds exactly the steps 0..100, in order |
| Scale.ScaleOfFails | src/utils/tonal/scale.ts:55-97 | a scale fails exactly when one of its steps 0..100 fails |
| Scale.GenerateTonalScale | src/utils/tonal/scale.ts:36-98 | a scale has 101 steps with indices 0..100 in order, and its luminance is the rounded L* of the base colour |
| Scale.StepNeverThrows | src/utils/tonal/scale.ts:10-92 | with the parameters inside their documented ranges the blend channels are normalised into [0, 1] and no blending or saturation call inside a step raises a range error |
| Scale.ScaleNeverThrows | src/utils/tonal/scale.ts:10-98 | with the parameters inside their documented ranges the whole scale is produced |
| Scale.ScaleBaseStep | src/utils/tonal/scale.ts:37-94 | the luminance of a valid hex, its rounded L*, lies in 0..100, and the step at that luminance takes the base colour and prints as the normalised input hex |
| Scale.ScaleStartsBlack | src/utils/tonal/scale.ts:57-94 | when the luminance is positive step 0 is `#000000` |
| Scale.ScaleEndsWhite | src/utils/tonal/scale.ts:36-98 | a generated scale whose luminance is below 100 has `#ffffff` at step 100 |
| Scale.StepHundredWhite | src/utils/tonal/scale.ts:57-94 | above a base below 100, step 100 is `#ffffff` whenever it succeeds, and with parameters in range it always succeeds |
| Scale.StepZeroBlack | src/utils/tonal/scale.ts:60-88 | below a positive base, step 0 stays black through chroma scaling, blend and saturation |
| Scale.UnadjustedSteps | src/utils/tonal/scale.ts:41-92 | blending needs a positive strength and a positive blend channel, and saturation a positive setting; a darker step with blending and darker saturation off, or a lighter step with lighter saturation off, is exactly the unadjusted LAB colour |
| Store.ClampControl | src/stores/tonalScale.ts:72-87 | the value is kept in its control's range, unchanged when already inside and moved to the nearer bound otherwise |
| Store.ClampControlIdempotent | src/stores/tonalScale.ts:72-87 | clamping twice is clamping once |
| Store.Set | src/stores/tonalScale.ts:268-270 | writing one control sets it and leaves every other control as it was |
| Store.FindClosestCandidate | src/stores/tonalScale.ts:89-109 | no candidate for an origin outside the scale; otherwise none exactly when no step strictly on the requested side reaches the ratio, and a found candidate is the first such step, with its index and hex copied and its ratio the computed one |
| Store.LowerThresholdFinds | src/stores/tonalScale.ts:89-109 | a search that succeeds at a threshold also succeeds at any lower threshold |
| Store.StoreCandidateRatio | src/stores/tonalScale.ts:89-109 | with the real contrast function a found candidate's ratio is at least 1 |
| Store.BuildMetadata | src/stores/tonalScale.ts:111-118 | one entry per step, entry k holding step k and its four searches at 3 and 4.5 in both directions |
| Store.FindStep | src/stores/tonalScale.ts:122 | a step is found exactly when some step has the index, and the one found has it |
| Store.PickIndices | src/stores/tonalScale.ts:120-123 | no more steps than indices, each the step the scale holds for its index |
| Store.PickMembers | src/stores/tonalScale.ts:120-123 | the picked indices are exactly the requested ones that the scale has |
| Store.PickIncreasing | src/stores/tonalScale.ts:120-123 | picking from increasing indices keeps them increasing |
| Store.IncludeBaseIndex | src/stores/tonalScale.ts:125-132 | the picked indices are strictly increasing and are exactly the listed ones plus the base that the scale has |
| Store.ProbeIndex | src/stores/tonalScale.ts:135-138 | the probe position is non-negative, inside a non-empty scale, and half the luminance rounded when that is inside |
| Store.PickLineColor | src/stores/tonalScale.ts:134-147 | the line colour is one of the two options |
| Store.LineColorChoice | src/stores/tonalScale.ts:134-147 | for a decodable probe the light option is chosen exactly when its contrast is at least the dark option's |
| Store.LineColorUnparsed | src/stores/tonalScale.ts:139-146 | a probe that does not decode makes both ratios NaN and the dark option is chosen |
| Store.Plot | src/stores/tonalScale.ts:155-162 | x runs 0..luminance - 1, y has the same length and starts at 0, and every y lies in [0, 1] for parameters in range |
| Store.BuildBlendDistribution | src/stores/tonalScale.ts:149-169 | the width is max(0, luminance - 1), one less than the number of plotted points when there are any |
| Store.DistributionUnit | src/stores/tonalScale.ts:153-162 | every plotted intensity lies in [0, 1] for parameters in range |
| Store.InitialState | src/stores/tonalScale.ts:54-181 | the store starts from the normalised default colours, the default mode and the five default controls, all in range |
| Store.UpdateControl | src/stores/tonalScale.ts:268-270 | the control receives its clamped value, nothing else changes, and controls in range stay in range |
| Store.SetBaseHex | src/stores/tonalScale.ts:272-276 | accepted exactly for a valid hex, which is stored normalised; otherwise the state is unchanged |
| Store.SetBlendHex | src/stores/tonalScale.ts:278-282 | accepted exactly for a valid hex, which is stored normalised; otherwise the state is unchanged |
| Store.SetBlendMode | src/stores/tonalScale.ts:284-288 | accepted exactly for a known mode, which is the only change; otherwise the state is unchanged |
| Store.ScaleParams | src/stores/tonalScale.ts:188-203 | the parameters carry the store's colour, mode and controls, and the blend hex decoded into channels |
| Store.ScaleBlendChannels | src/stores/tonalScale.ts:188-196 | the three blend channels are read one pair of digits each; all three are numbers exactly when the blend hex decodes, and then they are its decoded channels |
| Store.ImportedHex | src/stores/tonalScale.ts:315-317 | a valid imported colour is taken normalised, any other keeps the current base colour |
| Store.ImportedMode | src/stores/tonalScale.ts:318-320 | a known imported mode is taken, any other keeps the current mode |
| Store.ImportedChannel | src/stores/tonalScale.ts:322-324 | a channel is `NaN` exactly when neither the given value nor the current channel is a number; otherwise it lands in [0, 255]: the value used (the given one, or the current one when none is given) is kept when in range, and lands on 0 below the range and on 255 above it, so 300 gives 255 |
| Store.BlendChannelsOfDecoded | src/stores/tonalScale.ts:322-324 | when the current blend hex decodes, the channels read one at a time as fallbacks are the decoded channels |
| Store.NextParams | src/stores/tonalScale.ts:314-329 | the imported colour and mode; every control in range, a given one clamped into its range and a missing one the current value clamped; each channel the imported channel of the given value over the current pair of the blend hex, in [0, 255] when a number, and `NaN` exactly when the payload lacks it and the current blend hex does not give it |
| Store.Merged | src/stores/tonalScale.ts:314-329 | for any fallback channels: the imported colour and mode, each given control clamped and each missing one the current value clamped, each channel the imported channel of the given value over its fallback, in [0, 255] when a number, and `NaN` exactly when neither gives one |
| Store.NextParamsOfComplete | src/stores/tonalScale.ts:314-329 | a payload carrying every field, each valid and in range, is taken as it is, whatever the current state |
| Store.NextParamsOfDecoded | src/stores/tonalScale.ts:322-324 | when the current blend hex decodes, every imported channel is a number, and a missing one is the decoded channel clamped |
| Store.ImportState | src/stores/tonalScale.ts:303-346 | an unreadable payload is refused and changes nothing; an accepted one installs the normalised parameters with controls in range, and the blend hex printed from the imported channels, `NaN` ones included |
| Store.InitialConsistent | src/stores/tonalScale.ts:54-181 | the default colours are canonical, the default controls in range, and the initial state built from them is consistent |
| Store.SettersKeepConsistent | src/stores/tonalScale.ts:268-288 | every setter keeps canonical colours and controls in range |
| Store.ImportKeepsConsistent | src/stores/tonalScale.ts:303-346 | an import whose blend channels come out as whole numbers keeps the state consistent |
| Store.StoreScaleNeverThrows | src/stores/tonalScale.ts:183-238 | from any consistent state the store's parameters decode and the computed scale is generated from them without a range error |
| Indices.WithBase | src/composables/useTonalBuilderStrips.ts:30-31 | the result is strictly ascending, holds the base index, and holds exactly the given indices and the base |
| Indices.SortUnique | src/composables/useTonalBuilderStrips.ts:31 | the set-then-sort leaves each value once, ascending, with exactly the input's values |
| Indices.WithBaseOfIncreasing | src/composables/useTonalBuilderStrips.ts:30-31 | for an ascending list already holding the base, adding the base changes nothing |
| Indices.WithBaseLength | src/composables/useTonalBuilderStrips.ts:30-31 | adding the base never makes an ascending list shorter |
| Indices.IncreasingUnique | src/composables/useTonalBuilderStrips.ts:31 | two strictly ascending lists with the same members are equal, so the normalised list is determined by its members |
| Indices.IndexListsIncreasing | src/composables/useTonalBuilderStrips.ts:12-14 | the full, extended and key index lists are strictly ascending, with 101, 18 and 16 entries |
| Strips.MixChannel | src/composables/useTonalBuilderStrips.ts:16-17 | amount 0 gives the start channel, amount 1 the end channel, and an amount in [0, 1] a whole value between the two |
| Strips.MixRgbBetween | src/composables/useTonalBuilderStrips.ts:19-28 | mixing two byte colours by an amount in [0, 1] gives a byte colour whose every channel lies between the two |
| Strips.MixRgbEnds | src/composables/useTonalBuilderStrips.ts:19-28 | mixing by 0 returns the start colour and by 1 the end colour |
| Strips.MixHex | src/composables/useTonalBuilderStrips.ts:19-28 | defined exactly when both colours decode, and then a canonical hex |
| Strips.MixDecoded | src/composables/useTonalBuilderStrips.ts:19-28 | the mix of two decoded colours is a colour exactly when both are, and then a canonical hex |
| Strips.MixHexEnds | src/composables/useTonalBuilderStrips.ts:19-28 | for valid colours amount 0 gives the normalised start and amount 1 the normalised end |
| Strips.SwatchOf | src/composables/useTonalBuilderStrips.ts:39-49 | a swatch keeps its index and is the base exactly at the base index; it has a colour, a canonical hex, exactly when the base decodes and, above the base index, the blend decodes too |
| Strips.SwatchIsMix | src/composables/useTonalBuilderStrips.ts:40-46 | whichever colours decode, the swatch colour up to the base index is the mix of black into the base colour, and above it the mix of the base colour into the blend colour, with the clamped fractions |
| Strips.SwatchIsMixDecoded | src/composables/useTonalBuilderStrips.ts:40-46 | for decoded colours, a swatch up to the base index mixes black into the base, and one above it mixes the base into the blend |
| Strips.SwatchOfDecoded | src/composables/useTonalBuilderStrips.ts:40-46 | when both colours decode a swatch's colour is the printed mix of the two legs' colours |
| Strips.StripOf | src/composables/useTonalBuilderStrips.ts:33-49 | one swatch per index, in the given order |
| Strips.BuildStrip | src/composables/useTonalBuilderStrips.ts:33-49 | one swatch per index in order, each with its index and base flag; a swatch has a canonical colour exactly when the colours its side of the base mixes decode |
| Strips.SwatchZeroBlack | src/composables/useTonalBuilderStrips.ts:40-45 | index 0 is black for any base index, whether or not the blend colour decodes |
| Strips.SwatchAtBase | src/composables/useTonalBuilderStrips.ts:40-48 | the swatch at a positive base index is the base colour and is marked as the base, even when the blend colour does not decode |
| Strips.SwatchHundredBlend | src/composables/useTonalBuilderStrips.ts:41-46 | index 100 is the blend colour when the base index is below 100 |
| Strips.SwatchBetween | src/composables/useTonalBuilderStrips.ts:40-46 | every swatch is a byte colour, no brighter than the base up to the base index and between base and blend above it |
| Strips.SwatchDecodes | src/composables/useTonalBuilderStrips.ts:23-27 | a swatch's hex decodes back to the mixed colour |
| Strips.StripOneBase | src/composables/useTonalBuilderStrips.ts:48 | over ascending distinct indices holding the base index, exactly one swatch is the base, the one at that index |
| Strips.BaseLuminance | src/composables/useTonalBuilderStrips.ts:52 | defined exactly when the colour decodes, and then in [1, 99] |
| Strips.LuminanceOfBrightest | src/composables/useTonalBuilderStrips.ts:52 | the base luminance is the brightest channel as a percentage, rounded and clamped to [1, 99] |
| Strips.UseStrips | src/composables/useTonalBuilderStrips.ts:51-80 | defined exactly when the base colour decodes; a luminance in [1, 99], a full strip of 101 swatches, and list strips no shorter than their lists |
| Strips.UseStripsBuilds | src/composables/useTonalBuilderStrips.ts:54-72 | the three strips are the strips built over the full list and over the two lists with the base added |
| Strips.StripLengths | src/composables/useTonalBuilderStrips.ts:12-31 | the full index list has 101 entries, and adding the base index never shortens an ascending list |
| Strips.FullStripAnchors | src/composables/useTonalBuilderStrips.ts:54-56 | the full strip has swatch k at index k, one base, black at 0, the base colour at the base index and the blend colour at 100 |
| Strips.ListStripAnchors | src/composables/useTonalBuilderStrips.ts:57-72 | a strip over a list with the base added has exactly one base swatch |
| Strips.StripsAnchored | src/composables/useTonalBuilderStrips.ts:51-80 | for valid colours all three strips have one base at the base luminance and the full strip runs from black through the normalised base to the normalised blend |
| SvgExport.ReplaceAll | src/utils/tonal/export.ts:15-19 | after replacing every occurrence of a character by text that does not contain it, the character no longer appears |
| SvgExport.ReplaceAllAppend | src/utils/tonal/export.ts:15-19 | a global replace distributes over concatenation |
| SvgExport.EscapeEach | src/utils/tonal/export.ts:13-19 | escaping character by character leaves no `<`, `>`, `"` or `'` in the text |
| SvgExport.EscapeXmlAppend | src/utils/tonal/export.ts:13-19 | the escape chain distributes over concatenation |
| SvgExport.EscapeXmlAmp | src/utils/tonal/export.ts:15 | `&` becomes `&amp;`, and the later replacements leave that entity alone |
| SvgExport.EscapeXmlLt | src/utils/tonal/export.ts:16 | `<` becomes `&lt;` |
| SvgExport.EscapeXmlGt | src/utils/tonal/export.ts:17 | `>` becomes `&gt;` |
| SvgExport.EscapeXmlQuot | src/utils/tonal/export.ts:18 | `"` becomes `&quot;` |
| SvgExport.EscapeXmlApos | src/utils/tonal/export.ts:19 | `'` becomes `&apos;` |
| SvgExport.EscapeXmlPlain | src/utils/tonal/export.ts:13-19 | any other character is left as it is |
| SvgExport.EscapeXmlIsEach | src/utils/tonal/export.ts:13-19 | the chain of five global replaces equals escaping each character on its own, so `&` is escaped exactly once |
| SvgExport.EscapeXmlNoMarkup | src/utils/tonal/export.ts:13-19 | escaped text contains no `<`, `>`, `"` or `'` |
| SvgExport.EscapeRoundTrip | src/utils/tonal/export.ts:13-19 | unescaping the five entities gives back the original text |
| SvgExport.RowCells | src/utils/tonal/export.ts:28-33 | a row has one cell per tone, cell c at x = 40c on the row's y with the tone's hex |
| SvgExport.LayoutCell | src/utils/tonal/export.ts:26-35 | tone c of strip r is drawn, in row-major order, at x = 40c and y = 40r with its hex |
| SvgExport.MarkupIsLayout | src/utils/tonal/export.ts:26-35 | the concatenated rectangle markup is the rendering of the cell layout |
| SvgExport.MaxLength | src/utils/tonal/export.ts:23 | the longest strip's length, 0 when there are no strips |
| SvgExport.MetaX | src/utils/tonal/export.ts:22-24 | the text column is 20 to the right of the longest strip and at 20 with no strips |
| SvgExport.BuildScaleSvgShape | src/utils/tonal/export.ts:21-44 | the document is the rectangles in row-major order, the escaped address at y = 0 and the escaped parameters at y = 16, both markup-free and unescaping to the inputs |
| SvgExport.MaxWidthIsLongest | src/composables/useTonalExport.ts:20-33 | the running maximum of the row widths is the longest row's width, or the start value if that is larger |
| SvgExport.GeneratedCore | src/composables/useTonalExport.ts:47-54 | the trimmed document starts with `<` and ends with `>` |
| SvgExport.GenerateTrimmed | src/composables/useTonalExport.ts:47-54 | trimming removes exactly the template's surrounding whitespace |
| SvgExport.GenerateScaleSvgShape | src/composables/useTonalExport.ts:12-55 | the three strips are stacked at y = 0, 40 and 80 in a 120-high image, the text column follows the longest strip, and the rectangles are the row-major cell layout |
| SvgExport.GeneratedCells | src/composables/useTonalExport.ts:22-33 | tone c of strip r is drawn at x = 40c and y = 40r with its hex |
| UrlSync.Restore | src/composables/useTonalUrlSync.ts:10-26 | an empty query restores nothing; otherwise every key is carried over, a single value as it is and a list as its first element, or undefined for an empty list |
| UrlSync.PayloadOf | src/stores/tonalScale.ts:314-329 | the colour and mode are read exactly when present as text, and an absent number stays absent for the store's fallback |
| UrlSync.OnMounted | src/composables/useTonalUrlSync.ts:10-29 | an empty query leaves the store unchanged, and any query leaves its controls in range and its base colour canonical |
| UrlSync.ToQuery | src/composables/useTonalUrlSync.ts:35-46 | the ten parameter keys are written, the colour as its six digits without the `#` |
| UrlSync.QueryFields | src/composables/useTonalUrlSync.ts:39-46 | every numeric key holds its parameter as `String` prints it |
| UrlSync.QueryOf | src/composables/useTonalUrlSync.ts:48 | the router hands back the written keys, each holding its written text |
| UrlSync.NumberOfText | src/composables/useTonalUrlSync.ts:39-46 | a whole number printed by `String` reads back through `Number` as itself |
| UrlSync.DigitsNormalize | src/composables/useTonalUrlSync.ts:37 | a canonical colour without its `#` is valid and normalises back to itself |
| UrlSync.WrittenField | src/composables/useTonalUrlSync.ts:17-26 | every written key comes back in the restored payload as its text |
| UrlSync.ReadWrittenNumber | src/composables/useTonalUrlSync.ts:17-46 | a whole number written to the query prints in decimal, and the value the mount hook reads back for that key is that number |
| UrlSync.WrittenPayload | src/composables/useTonalUrlSync.ts:10-46 | restoring a written query yields a payload holding every parameter, the colour as its digits and the mode as its name |
| UrlSync.WrittenParams | src/stores/tonalScale.ts:314-329 | importing that payload into any store, even one whose blend hex does not decode, yields exactly the parameters that were written |
| UrlSync.UrlRoundTrip | src/composables/useTonalUrlSync.ts:10-51 | a consistent state with whole-number controls written to the address and restored on mount into any consistent store is recovered exactly |
| UrlSync.ImportedBlendHex | src/stores/tonalScale.ts:333-337 | the blend colour rebuilt from the parameters' channels is the store's own blend colour |
| BuilderControls.Find | src/composables/useTonalBuilderControls.ts:105-106 | a definition is found exactly when one has that id, and the one found is in the table with that id |
| BuilderControls.DefinitionOf | src/composables/useTonalBuilderControls.ts:45-81 | every control id has its definition in the table |
| BuilderControls.DefinitionsAgree | src/composables/useTonalBuilderControls.ts:45-81 | the table's bounds are the store's control bounds, each default lies within its bounds, every step is 1, and the defaults are in range |
| BuilderControls.NoErrorsComplete | src/composables/useTonalBuilderControls.ts:89-93 | the initial error record has an empty entry for every control |
| BuilderControls.Initial | src/composables/useTonalBuilderControls.ts:95-98 | a fresh composable holds every control's default value and no errors |
| BuilderControls.SetBlendMode | src/composables/useTonalBuilderControls.ts:100-102 | only the blend mode changes |
| BuilderControls.UpdateControl | src/composables/useTonalBuilderControls.ts:104-125 | an unknown id is refused and changes nothing; otherwise accepted exactly for a finite number within the bounds, which is stored rounded with its error cleared, a non-number records the invalid-number error, an out-of-range number records the range error with the bounds, and other controls are untouched |
| BuilderControls.UpdateKeepsValid | src/composables/useTonalBuilderControls.ts:114-123 | controls in range stay in range, and an accepted value is its own clamp |
| BuilderControls.UpdateErrors | src/composables/useTonalBuilderControls.ts:104-135 | when no other control has an error, the update is accepted exactly when no error remains |
| BuilderControls.UpdateIdempotent | src/composables/useTonalBuilderControls.ts:104-125 | repeating an update changes nothing further |
| BuilderControls.ResetControls | src/composables/useTonalBuilderControls.ts:127-133 | every control returns to its default, every error is cleared, and the blend mode is kept |
| BuilderControls.ResetIsInitial | src/composables/useTonalBuilderControls.ts:95-133 | reset restores the default values, giving the state the composable starts in |
| PickerColors.BuildPickerState | src/composables/useTonalBuilderColors.ts:28-35 | the stored hex is the normalised input, rgb and hsv are both present or both absent, and for a valid hex they are its decodings |
| PickerColors.Initial | src/composables/useTonalBuilderColors.ts:37-42 | the pickers start from the given colours or the defaults, normalised, and from the given slider mode or hsv |
| PickerColors.InitialDefaults | src/composables/useTonalBuilderColors.ts:25-42 | with no options the two default colours are used, and the pickers start in hsv mode with the colours coherently decoded |
| PickerColors.UpdateBase | src/composables/useTonalBuilderColors.ts:48-54 | accepted exactly when the normalised input is valid; otherwise nothing changes; when accepted only the base picker changes, to the normalised colour and its decodings |
| PickerColors.UpdateBlend | src/composables/useTonalBuilderColors.ts:56-62 | accepted exactly when the normalised input is valid; otherwise nothing changes; when accepted only the blend picker changes, to the normalised colour and its decodings |
| PickerColors.SetSliderMode | src/composables/useTonalBuilderColors.ts:64-66 | only the slider mode changes |
| PickerColors.NormalizeAgain | src/composables/useTonalBuilderColors.ts:49-52 | normalising an accepted colour again changes nothing, and it is canonical |
| PickerColors.ShorthandAccepted | src/composables/useTonalBuilderColors.ts:48-54 | a three-digit colour, which the validator alone rejects, is accepted after normalisation as its doubled six-digit form |
| PickerColors.OverlongAccepted | src/composables/useTonalBuilderColors.ts:48-54 | six digits followed by anything non-blank, which the validator alone rejects, are accepted as the first six digits |
| PickerColors.UpdateWithOwnHex | src/composables/useTonalBuilderColors.ts:48-54 | setting the base to its own colour is accepted and changes nothing |
| Locale.FindSupported | src/plugins/i18n.ts:12-16 | the exact-match and the base-language searches find a tag exactly when it is a supported locale, and find it as itself |
| Locale.BeforeDash | src/plugins/i18n.ts:15 | the part before the first `-`: a prefix with no `-`, followed by `-` when shorter than the tag |
| Locale.NormalizeLocale | src/plugins/i18n.ts:9-17 | a missing or empty candidate gives nothing; a lower-cased supported tag is returned; otherwise the lower-cased part before the first `-` if that is supported; any result is supported |
| Locale.FirstNormalizing | src/plugins/i18n.ts:30 | the first language that normalises to a supported locale, or none exactly when no language does |
| Locale.ResolveInitialLocale | src/plugins/i18n.ts:19-35 | always a supported locale: the stored one if it normalises, else the first browser language that does, else the default |
| Locale.NormalizeIdempotent | src/plugins/i18n.ts:9-17 | normalising a normalised locale returns it unchanged |
| Locale.RegionalTags | src/plugins/i18n.ts:9-17 | `fr-CA` becomes `fr`, `EN-gb` becomes `en`, and `de-DE` is unsupported |
| Locale.NavigatorFallback | src/plugins/i18n.ts:19-35 | with no stored locale the first supported browser language wins, a stored locale beats the browser, and with neither the default is `en` |
| TitleCase.CollapseShape | src/utils/text.ts:11 | no two adjacent spaces and no other blank remain, the result is never longer and is empty only for empty input, and it starts and ends with a space exactly where the input starts and ends with blank |
| TitleCase.Capitalize | src/utils/text.ts:13 | the length is kept, and a character is upper-cased exactly when it starts a word |
| TitleCase.ToTitleCase | src/utils/text.ts:4-14 | empty input gives empty output |
| TitleCase.TitleCaseSpacing | src/utils/text.ts:9-13 | the result has single spaces between words and no leading or trailing space |
| TitleCase.TitleCaseLetters | src/utils/text.ts:12-13 | a letter of the result is upper case exactly when it starts a word |
| TitleCase.TitleCaseIdempotent | src/utils/text.ts:4-14 | title-casing a title-cased text changes nothing |
| TitleCase.CollapseOfCollapsed | src/utils/text.ts:11 | collapsing text that is already collapsed (every white space a single space, no two in a row) changes nothing |
| TitleCase.TwoWords | src/utils/text.ts:9-13 | two words with any blank around and between them become the two words lower-cased, capitalised and joined by one space |
| TitleCase.HelloCapitalize | src/utils/text.ts:13 | `hello world` becomes `Hello World` |
| LegacyMath.InRangeOfInteger | temp/src/js/utils/math.js:4-7 | a missing value is never in range; a printed integer is in range exactly when it lies between the bounds, inclusive |
| LegacyMath.RoundDecimalPlacesStep | temp/src/js/utils/math.js:9-12 | the result is a whole number of steps of 10^-precision within half a step of the input plus `EPSILON` |
| LegacyMath.RoundDecimalPlacesMonotone | temp/src/js/utils/math.js:9-12 | a larger input never rounds lower |
| LegacyMath.RoundDecimalPlacesOfStep | temp/src/js/utils/math.js:9-12 | a number already on the grid rounds to itself while the `EPSILON` nudge stays below half a step |
| LegacyMath.RoundDecimalPlacesIdempotent | temp/src/js/utils/math.js:9-12 | rounding a rounded number again changes nothing |
| LegacyMath.Pow10 | temp/src/js/utils/math.js:10 | the scale 10^precision is at least 1 |
| LegacyEasing.EaseInOutQuad | temp/src/js/utils/easing.js:5-8 | a number exactly when the range is non-zero |
| LegacyEasing.EaseAgrees | temp/src/js/utils/easing.js:5-8 | over a non-empty range the envelope equals the current one; over an empty range it is no number where the current one returns 0 |
| LegacyEasing.EaseShape | temp/src/js/utils/easing.js:5-8 | symmetric about the middle of the range, 1 at the middle, and in [0, 1] inside a positive range |
| LegacyEasing.CubicBezier | temp/src/js/utils/easing.js:14-27 | the curve starts at (0, 0) and ends at (1, 1) |
| LegacyEasing.CubicBezierAgrees | temp/src/js/utils/easing.js:14-27 | the written-out polynomial equals the current Bernstein form |
| LegacyEasing.GetIntensityCurve | temp/src/js/index.js:523-540 | the curve's control points have heights 0 and 1 |
| LegacyEasing.IntensityCurveAgrees | temp/src/js/index.js:523-540 | the control points equal the current intensity curve's for every middle and spread |
| LegacyEasing.GetIntensity | temp/src/js/index.js:542-555 | the intensity is 0 at both ends of the scale |
| LegacyEasing.IntensityAgrees | temp/src/js/index.js:523-555 | the curve's midpoint height is 0.5, the intensity equals the current one, and it lies in [0, 1] for middle and spread in [0, 1] |
| LegacyColor.Clamped | temp/src/js/utils/color.js:57-61 | the clamped colour has byte channels and a byte colour is its own clamp |
| LegacyColor.ChannelAgrees | temp/src/js/utils/color.js:58-60 | clamping after rounding gives the current rounded and clamped channel |
| LegacyColor.RgbToHslAgrees | temp/src/js/utils/color.js:5-33 | for byte channels the conversion equals the current one, with hue in [0, 1) and saturation and lightness in [0, 1] |
| LegacyColor.HslToRgb | temp/src/js/utils/color.js:35-62 | whole channels, and a grey of the rounded lightness when saturation is 0 |
| LegacyColor.HslToRgbAgrees | temp/src/js/utils/color.js:35-62 | the current conversion is the prototype's clamped to bytes, and equal where the prototype already gives bytes |
| LegacyColor.RgbToHsvAgrees | temp/src/js/utils/color.js:107-138 | the conversion equals the current unit hsv conversion, with hue in [0, 1) and saturation in [0, 1] for non-negative channels |
| LegacyColor.HsvToRgb | temp/src/js/utils/color.js:140-175 | a colour exactly when the sector remainder is non-negative, always for a non-negative hue, with whole channels |
| LegacyColor.HsvToRgbAgrees | temp/src/js/utils/color.js:140-175 | where the prototype gives a colour the current conversion is that colour clamped, and a negative hue such as -1/12 leaves every channel unset |
| LegacyColor.GetLuminanceAgrees | temp/src/js/utils/color.js:64-78 | the luminance equals the current relative luminance and lies in [0, 1] for byte colours |
| LegacyColor.IsValidColorAgrees | temp/src/js/utils/color.js:242-246 | a colour is valid exactly when it is a current valid hex that starts with `#` and has no blank around it |
| LegacyColor.BareDigits | temp/src/js/utils/color.js:242-246 | six hex digits without `#` are rejected, though the current validator accepts them, and accepted with `#` |
| LegacyColor.CalculateContrastRatio | temp/src/js/utils/color.js:248-262 | a ratio only for two decoded colours |
| LegacyColor.ContrastAgrees | temp/src/js/utils/color.js:248-262 | defined exactly where the current ratio is, and equal to it or larger by 0.1 because of the `EPSILON` nudge |
| LegacyColor.NudgedOneDecimal | temp/src/js/utils/math.js:9-12 | rounding to one decimal with the nudge equals rounding without it or is one step higher |
| LegacyColor.ContrastSymmetric | temp/src/js/utils/color.js:248-262 | the ratio does not depend on the order of the two colours |
| LegacyColor.ContrastAtLeastOne | temp/src/js/utils/color.js:248-262 | for byte colours the ratio is defined and at least 1 |
| LegacyColor.ConvertShorthandToFullHexColor | temp/src/js/utils/color.js:264-276 | the result starts with `#`, and anything but three characters after dropping the first `#` is kept as it is |
| LegacyColor.ShorthandAgrees | temp/src/js/utils/color.js:264-276 | for trimmed input of at most six characters, lower-casing the expansion gives the current normal form |
| LegacyColor.ShorthandValid | temp/src/js/utils/color.js:264-276 | three hex digits, with or without `#`, expand to the doubled six-digit colour, which is valid |
| LegacyColor.GetOppositeColor | temp/src/js/utils/color.js:278-292 | always `#` and six more characters |
| LegacyColor.OppositeIsComplement | temp/src/js/utils/color.js:278-292 | for a valid colour the opposite is the canonical hex of the colour with every channel replaced by 255 minus it |
| LegacyColor.InvertInvolution | temp/src/js/utils/color.js:281-283 | complementing twice gives the colour back |
| LegacyColor.OppositeInvolution | temp/src/js/utils/color.js:278-292 | the opposite of the opposite of a valid colour is the colour, lower-cased |
| LegacyColor.OppositeWithoutHash | temp/src/js/utils/color.js:279 | a colour without `#` has the same opposite as with it |
| LegacyColor.OppositeOfNonHex | temp/src/js/utils/color.js:281-291 | channels that do not parse print as `aN`, so `#zzzzzz` gives `#aNaNaN` |
| LegacyColor.ModernChannels | temp/src/js/utils/color.js:93-105 | a valid colour decodes to its three hex pairs |
| LegacyBlending.LookupMode | temp/src/js/utils/blendingmodes.js:5-51 | a mode is found exactly when its name is a key of the table, and it is the mode stored under that key |
| LegacyBlending.SameModes | temp/src/js/utils/blendingmodes.js:5-51 | the table knows the same eleven mode names as the current blend-mode parser |
| LegacyBlending.KeysAreNames | temp/src/js/utils/blendingmodes.js:5-51 | the table's keys are the current mode names, in order |
| LegacyBlending.ChannelAgrees | temp/src/js/utils/blendingmodes.js:7-45 | every channel formula equals the current one, except vivid light, which is the current formula as written and equal to the current one wherever it is a number |
| LegacyBlending.TableIdentities | temp/src/js/utils/blendingmodes.js:7-45 | dodge of 1 is 1, burn of 0 is 0, hard light is overlay with its arguments swapped, and darken and lighten are the symmetric minimum and maximum |
| LegacyBlending.BlendHueOfUnitChannels | temp/src/js/utils/blendingmodes.js:47-51 | the blend colour given as fractions has the same hue as the same colour given in bytes |
| LegacyBlending.ApplyBlend | temp/src/js/utils/color.js:177-216 | the colour is returned unchanged exactly for a black blend colour or intensity 0; otherwise an error is logged exactly for a channel or intensity outside [0, 1]; past those checks an unknown mode name is called as a non-function |
| LegacyBlending.HuePath | temp/src/js/utils/color.js:192-196 | the hue path always gives numbers, the base colour at weight 0 |
| LegacyBlending.MixHue | temp/src/js/utils/color.js:194-196 | weight 0 gives the base colour and weight 1 the hue colour |
| LegacyBlending.ApplySaturation | temp/src/js/utils/color.js:218-240 | an error is logged exactly for saturation or intensity outside [0, 1], and a saturated colour has whole channels |
| LegacyBlending.EarlyReturnBeforeChecks | temp/src/js/utils/color.js:178 | a black blend colour or intensity 0 returns the colour before the checks, where the current code rejects the input |
| LegacyBlending.LoggedWhereChannelThrows | temp/src/js/utils/color.js:180-188 | an error is logged exactly where the current code rejects a channel or the intensity |
| LegacyBlending.StrengthUnchecked | temp/src/js/utils/color.js:177-216 | a strength the current code rejects still blends whenever the mode is a table key |
| LegacyBlending.UnknownModeThrows | temp/src/js/utils/color.js:198 | an unknown mode fails exactly where the current parser finds no mode, where the current code reports it |
| LegacyBlending.ZeroStrength | temp/src/js/utils/color.js:204-212 | at strength 0 every channel that is a number is the base channel, and every mode but vivid light returns the colour |
| LegacyBlending.VividLightNaNAtZeroStrength | temp/src/js/utils/blendingmodes.js:43-45 | a white red channel over a black blend channel has no number even at strength 0, where the current code returns the colour |
| LegacyBlending.ChannelPathTaken | temp/src/js/utils/color.js:197-213 | past the checks every mode but `hue` mixes per channel with weight intensity times strength |
| LegacyBlending.ChannelPathAgrees | temp/src/js/utils/color.js:197-213 | where both produce numbers, the current result is the prototype's clamped to bytes, and both return the colour at strength 0 |
| LegacyBlending.MixAgrees | temp/src/js/utils/color.js:204-212 | the current mixed channel is the prototype's mixed channel clamped to a byte |
| LegacyBlending.SaturationAgrees | temp/src/js/utils/color.js:218-240 | an error is logged exactly where the current code rejects the input, and the current result is the prototype's clamped, or equal for byte colours |
| LegacyBlending.SaturatedRange | temp/src/js/utils/color.js:231 | the pushed saturation stays in [0, 1] |
| LegacyBlending.SaturatedBytes | temp/src/js/utils/color.js:140-175 | a hue in [0, 1) with saturation and value in [0, 1] converts to a byte colour |
| LegacyScale.Get | temp/src/js/index.js:334 | a parameter is present exactly when its key is in the query, with the query's text |
| LegacyScale.ReadField | temp/src/js/index.js:357-387 | a parameter that passes its check is kept as written, any other is replaced by its default |
| LegacyScale.ReadScaleParams | temp/src/js/index.js:328-390 | an empty query gives the defaults, and otherwise the colour is read through its check |
| LegacyScale.ReadFields | temp/src/js/index.js:357-387 | for a non-empty query every parameter is read on its own through its own check, by both readers |
| LegacyScale.KeysDistinct | temp/src/js/index.js:60-73 | the ten parameter keys are pairwise distinct |
| LegacyScale.DefaultsPassChecks | temp/src/js/index.js:60-387 | every default parameter but the colour passes its own check; the default colour `8000ff`, written without `#`, fails the colour check and passes the corrected one |
| LegacyScale.SixDigits | temp/src/js/utils/color.js:242-246 | six hex digits are rejected without `#` and accepted with it |
| LegacyScale.ReadScaleParamsPasses | temp/src/js/index.js:328-390 | every parameter read passes its check, and the colour is either valid or the default |
| LegacyScale.FieldKept | temp/src/js/index.js:357-387 | an absent parameter is its default; a present one is kept exactly when it passes its check or already equals the default |
| LegacyScale.FieldsIndependent | temp/src/js/index.js:357-387 | changing one key of a non-empty query changes no other parameter |
| LegacyScale.CurrentColorHex | temp/src/js/index.js:907 | the picker's colour loses its leading `#`, and a colour without one is kept |
| LegacyScale.QueryOf | temp/src/js/index.js:315-326 | every parameter is written under its own key as its text |
| LegacyScale.ParamsOfFields | temp/src/js/index.js:60-73 | parameters agreeing on every field are equal |
| LegacyScale.QueryRoundTrip | temp/src/js/index.js:315-390 | parameters that all pass their checks survive writing to the query and reading back |
| LegacyScale.HashlessColorLost | temp/src/js/index.js:357-907 | the page writes the colour as six digits without `#`, and the colour check of the query reader demands `#`, so the colour always reads back as the default |
| LegacyScale.ReadScaleParamsFixed | temp/src/js/index.js:357-360 | the reader with the colour checked as `#` plus the digits: defaults for an empty query, otherwise the colour kept exactly when that check passes and every other parameter as before |
| LegacyScale.QueryRoundTripFixed | temp/src/js/index.js:315-907 | with the corrected colour check, the page's own parameters, the colour written as six digits without `#` included, survive writing and reading back |
| LegacyScale.ValidModesAreTableKeys | temp/src/js/index.js:339-351 | the reader's list of valid modes is the blending table's list of keys |
| LegacyScale.LastReaching | temp/src/js/index.js:769-776 | none exactly when no step below reaches the ratio; otherwise a reaching step with none reaching between it and the colour |
| LegacyScale.FirstReaching | temp/src/js/index.js:799-805 | none exactly when no step above reaches the ratio; otherwise a reaching step with none reaching between the colour and it |
| LegacyScale.DarkerResult | temp/src/js/index.js:764-792 | none exactly when no darker step reaches the ratio; otherwise a darker step with its index, which is the closest reaching step moved by the offset when that stays inside, and clamped to the darker side otherwise |
| LegacyScale.LighterResult | temp/src/js/index.js:794-821 | none exactly when no lighter step reaches the ratio; otherwise a lighter step with its index, which is the closest reaching step moved by the offset when that stays inside, and clamped to the lighter side otherwise |
| LegacyScale.FindClosestDarkerColor | temp/src/js/index.js:764-792 | the loop returns the darker result |
| LegacyScale.FindClosestLighterColor | temp/src/js/index.js:794-821 | the loop returns the lighter result |
| LegacyScale.Closest | temp/src/js/index.js:577-579 | the reduce returns an entry at a position nearest to the luminance, the earliest on a tie |
| LegacyScale.IndexOfInt | temp/src/js/index.js:582 | `indexOf` returns the first position holding the value |
| LegacyScale.NearestPosition | temp/src/js/index.js:577-582 | the position of the first nearest entry |
| LegacyScale.SubstituteLuminance | temp/src/js/index.js:575-584 | the list keeps its length and holds the luminance: unchanged when it already did, and otherwise with only the first nearest entry replaced |
| LegacyScale.NearestNeighbours | temp/src/js/index.js:577-582 | in an ascending list without the luminance, the entries next to the nearest one lie on either side of the luminance |
| LegacyScale.SubstituteKeepsOrder | temp/src/js/index.js:575-584 | substituting into an ascending list keeps it strictly ascending |
| LegacyScale.PartialScalesSubstituted | temp/src/js/index.js:557-591 | for luminance 0..100 both partial lists keep 18 and 16 entries, hold the luminance, stay ascending and index inside the scale |
| LegacyScale.SubstituteWithin | temp/src/js/index.js:575-584 | the substituted list stays within bounds that hold the luminance and the original entries |
| LegacyScale.IndexListsIncreasing | temp/src/js/index.js:560-569 | both partial lists are strictly ascending within 0..100 |

## Left out

- Vue and Pinia reactivity is not modelled: watchers, `computed`, the 50 ms debounced refresh, the `nextTick` suppression flag and the snapshot listeners. The composables and the store are modelled as pure state transitions.
- The router calls in `useTonalUrlSync.ts` (`useRoute`, `router.replace`) are left out. The query the router hands back is a parameter (`UrlSync.QueryOf`).
- The store does not return `scaleParams`, yet the URL watcher reads it. The query builder `UrlSync.ToQuery` is therefore a pure function of the parameters.
- `window.location.href` is passed in as a string, and so is the output of `JSON.stringify`. The same holds for `JSON.parse`: the import payload arrives already parsed, with `None` for an unreadable payload.
- `Number(string)` is modelled only for the text an integer prints as. For other text the fractional reading is a function parameter (`fraction`).
- `String(x)` of a non-integer is a function parameter (`show`), and so is `toString(16)` of a non-integer channel (`radix16`).
- `Number` of a value that is neither a string nor missing (a boolean, an object) is left out; payload numbers are `Option<real>`.
- `localStorage` and `navigator.languages` are passed in as values. `buildI18n`, `loadLocaleMessages` and `setLocale` are left out: they only configure the i18n library and storage.
- The message catalogue is not part of this model. The supported locales are the two it provides, `en` and `fr`.
- `** 2.4`, `** (5/12)`, `Math.cbrt` and `Math.sqrt` are fields of `Powers.Numerics`. Each is characterised only by the algebraic identity it satisfies on non-negative reals, for example `sqrt(x)^2 = x`. Lemmas that need them require `Powers.Valid`.
- The round trip RGB to L\*a\*b\* and back is not stated. The two matrices of `src/utils/tonal/color-math.ts` are inverse only to about seven decimal places, so the identity holds only after rounding. Proving that would need error bounds on `** 2.4` and `** (1/2.4)` carried through both matrices. The conversions themselves are modelled on every branch: the cube and gamma branches go through `Powers.Numerics`.
- Soft light is bounded using only `a <= sqrt(a) <= 1`.
- `easeInSine` (`Math.cos`) is left out; nothing in the engine calls it.
- IEEE-754 rounding, overflow to infinity and the float tolerance of the hue-mode test are not modelled: arithmetic is exact.
- Case mapping is ASCII only, and so are `\w` and the word boundary `\b`. White space `\s` (and what `trim` removes) is the full ECMAScript set of white-space and line-terminator characters.
- Where the code and its tests disagree, the model follows the code:
  - `isValidHex` rejects three-digit colours, which a test expects to pass;
  - the control defaults are 85/-35/100/30/50 where a test expects 0/0/50/0/0;
  - the store's default `middle` is 0 where a test expects -35.
- The d3-backed `hexToRgb`/`rgbToHex` of `temp/src/js/utils/color.js` are not modelled: they call into a library. The legacy code is compared using the current codec. `generateColorScale` and the `State` class of `temp/src/js/index.js` are left out for the same reason.
- The prototype's DOM code is left out: `renderScale`, the event handlers, the context menu, the Plotly graph and `updateControlsValues`. `updateQueryString` is modelled only as the map it writes (`LegacyScale.QueryOf`).
- The prototype looks blend modes up on a plain object. Inherited property names such as `toString` would be found there; they are treated as unknown modes.
- The query reader ignores keys other than the ten parameters.
- LegacyBlending.ApplyBlend: requires the base colour in byte range, because the channel table is modelled on arguments in [0, 1]. The scale loop of the prototype passes `Math.round` of an unclamped LAB-to-RGB conversion, which can fall outside 0..255; that case is not modelled.
- LegacyBlending.HuePath: compared with the current hue path only through the blend colour's hue (`LegacyBlending.BlendHueOfUnitChannels`). The prototype's `hslToRgb` rounds without clamping, while the current one clamps.
- LegacyEasing.EaseInOutQuad: an empty range gives `None` rather than the `NaN` or infinity of the division.
- LegacyScale.FindClosestDarkerColor: the contrast function is a parameter, `calculateContrastRatio` of the prototype being modelled in `LegacyColor`. The same holds for `LegacyScale.FindClosestLighterColor`.
- Blending.ChannelBlendUnit: bounds the vivid light with its two end points fixed (see "Findings"). As written the vivid light gives `NaN` for a white base channel over a zero blend channel and for a black one over a full blend channel; `Blending.ChannelBlendAsWrittenUnit` states that version.
- Blending.ApplyBlend: uses the corrected vivid light. Where the source's vivid light yields `NaN`, the source returns a `NaN` channel and the model a number. For example white (255, 255, 255) under vivid light at strength 1 with blend (1, 0, 0) and intensity 1 gives (255, NaN, NaN) in the source and (255, 0, 0) here.
- Blending.ChannelMix: the same substitution of the corrected vivid light as in `Blending.ApplyBlend`.
- Scale.Darker: blends through `Blending.ApplyBlend`, so the same vivid-light substitution applies to darker steps.
- Scale.AdjustedRgb: the same vivid-light substitution, through `Scale.Darker`.
- UrlSync.PayloadOf: a number field that is present but whose `Number(...)` is `NaN` (`?middle=abc`) or infinite (`?spread=Infinity`) is read as missing, so the store keeps its current value. In the source `NaN` passes through `clamp` into the store, and an infinity is clamped to the nearer bound.
- UrlSync.OnMounted: inherits the reading of non-finite number fields as missing from `UrlSync.PayloadOf`.
- Store.ScaleParams: defined only when the blend hex decodes. A blend hex that does not, such as `#0.80.8` (reachable by importing fractional channels or from `?blendR=127.5`), is excluded. The source then passes `generateTonalScale` the channels 0, 128 and `NaN`. Those per-channel values are given by `Store.ScaleBlendChannels`, but the scale computed from a `NaN` channel is not modelled.
- Store.ImportState: a non-finite number in the payload counts as missing (see `UrlSync.PayloadOf`). So the promise that an accepted import leaves the controls in range holds only for such a model payload. In the source a `NaN` control is stored as it is.
- Store.NextParams: the same reading of non-finite numbers as missing, for the controls and for the blend channels.
- Store.ImportedChannel: a given channel that is `NaN` or infinite is not modelled. `None` for the given value means missing, and `None` for the result means that the current channel is `NaN` too.
- Strips.UseStrips: a base colour that does not decode gives `None`. In the source its HSV value is `NaN`, and the strips built from the resulting luminance are not modelled.
- Scale.GenerateTonalScale: requires a colour that decodes. A colour that does not decode gives `NaN` channels in the source, and this is not modelled.

## Findings

| source | as written | input that shows it | evidently intended | confidence | as-written member | corrected member |
|---|---|---|---|---|---|---|
| src/utils/tonal/blending.ts:35-36 | `blendVividLight` divides `1 - a` by `2 * b` and `a` by `2 * (1 - b)` without a zero guard | a = 1, b = 0 (a white base channel under a zero blend channel) gives `0 / 0`, so `NaN` | end points fixed the way colour burn (0 at b = 0) and colour dodge (1 at b = 1) fix theirs | not executed | Blending.VividLightAsWritten, Blending.VividLightNaNExample | Blending.BlendVividLight, Blending.VividLightCorrected |
| temp/src/js/index.js:357-360 | the query reader checks `colorHex` with `isValidColor`, which demands a leading `#`, while the page writes the colour without it (line 907) | any colour written by the page, such as `7c3aed`, reads back as the default `8000ff` | the colour checked with `#` in front, so the page's own colour survives a reload | not executed | LegacyScale.HashlessColorLost | LegacyScale.ReadScaleParamsFixed, LegacyScale.QueryRoundTripFixed |

=== FILE: blending.dfy ===
/** The blend and saturation adjustments of `src/utils/tonal/blending.ts`. A
    blend mixes a base colour with a per-channel blend function of a
    normalised blend colour; the weight of the mix is `intensity * strength`.
    The source throws a `RangeError` for out-of-range inputs; here that is the
    `Err` of a `Result`. */
module Blending {
  import opened Wrappers
  import opened JsMath
  import opened Powers
  import opened Color
  import opened ColorMath

  datatype RangeError =
    | ChannelOutOfRange(field: string)
    | StrengthOutOfRange
    | UnsupportedMode(mode: string)

  /** The message each `RangeError` carries. */
  function Message(e: RangeError): string {
    match e
    case ChannelOutOfRange(field) => field + " must be between 0 and 1."
    case StrengthOutOfRange => "Blend strength must be between 0 and 1."
    case UnsupportedMode(mode) => "Unsupported blend mode: " + mode
  }

  predicate InUnit(x: real) {
    0.0 <= x <= 1.0
  }

  /** The validations of `applyBlend`, in the order the source runs them:
      the three blend channels, the intensity, the strength, the mode. */
  function BlendInputError(mode: string, strength: real, br: real, bg: real, bb: real, intensity: real): (e: Option<RangeError>)
    ensures e.None? <==>
      InUnit(br) && InUnit(bg) && InUnit(bb) && InUnit(intensity) && InUnit(strength)
      && ParseBlendMode(mode).Some?
    ensures !InUnit(br) ==> e == Some(ChannelOutOfRange("Red"))
    ensures InUnit(br) && InUnit(bg) && InUnit(bb) && InUnit(intensity) && !InUnit(strength)
      ==> e == Some(StrengthOutOfRange)
  {
    if !InUnit(br) then Some(ChannelOutOfRange("Red"))
    else if !InUnit(bg) then Some(ChannelOutOfRange("Green"))
    else if !InUnit(bb) then Some(ChannelOutOfRange("Blue"))
    else if !InUnit(intensity) then Some(ChannelOutOfRange("Intensity"))
    else if !InUnit(strength) then Some(StrengthOutOfRange)
    else if ParseBlendMode(mode).None? then Some(UnsupportedMode(mode))
    else None
  }

  // ---------------------------------------------------------------------
  // Per-channel blend functions: `a` is the base, `b` the blend, both on
  // the unit scale.

  function BlendOverlay(a: real, b: real): real {
    if a <= 0.5 then 2.0 * a * b else 1.0 - 2.0 * (1.0 - a) * (1.0 - b)
  }

  function BlendSoftLight(n: Numerics, a: real, b: real): real {
    if b <= 0.5 then a - (1.0 - 2.0 * b) * a * (1.0 - a)
    else a + (2.0 * b - 1.0) * (n.sqrt(a) - a)
  }

  function BlendColorDodge(a: real, b: real): real {
    if b < 1.0 then Min(a / (1.0 - b), 1.0) else 1.0
  }

  function BlendColorBurn(a: real, b: real): real {
    if b > 0.0 then 1.0 - Min((1.0 - a) / b, 1.0) else 0.0
  }

  function BlendScreen(a: real, b: real): real {
    1.0 - (1.0 - a) * (1.0 - b)
  }

  function BlendHardLight(a: real, b: real): real {
    if b <= 0.5 then 2.0 * a * b else 1.0 - 2.0 * (1.0 - a) * (1.0 - b)
  }

  /** `blendVividLight` as written. At `b = 0` the source divides `1 - a` by
      zero and at `b = 1` it divides `a` by zero; a non-zero numerator gives
      an infinity that `Math.min` absorbs, but `a = 1, b = 0` and
      `a = 0, b = 1` give `0 / 0`, the `NaN` written `None` here. */
  function VividLightAsWritten(a: real, b: real): (v: Option<real>)
    requires InUnit(a) && InUnit(b)
    ensures v.None? <==> (a == 1.0 && b == 0.0) || (a == 0.0 && b == 1.0)
  {
    if b <= 0.5 then
      if 2.0 * b == 0.0 then (if 1.0 - a == 0.0 then None else Some(1.0 - 1.0))
      else Some(1.0 - Min((1.0 - a) / (2.0 * b), 1.0))
    else
      if 2.0 * (1.0 - b) == 0.0 then (if a == 0.0 then None else Some(1.0))
      else Some(Min(a / (2.0 * (1.0 - b)), 1.0))
  }

  /** `blendVividLight` with the two end points of the blend fixed the way
      the neighbouring colour-burn (`b = 0` gives 0) and colour-dodge (`b = 1`
      gives 1) functions fix theirs. */
  function BlendVividLight(a: real, b: real): real {
    if b <= 0.5 then
      if b == 0.0 then 0.0 else 1.0 - Min((1.0 - a) / (2.0 * b), 1.0)
    else
      if b == 1.0 then 1.0 else Min(a / (2.0 * (1.0 - b)), 1.0)
  }

  /** The corrected vivid light agrees with the source wherever the source
      yields a number, and is a number at the two points where the source
      yields `NaN`. */
  lemma VividLightCorrected(a: real, b: real)
    requires InUnit(a) && InUnit(b)
    ensures VividLightAsWritten(a, b).Some? ==> VividLightAsWritten(a, b).value == BlendVividLight(a, b)
    ensures VividLightAsWritten(1.0, 0.0).None? && BlendVividLight(1.0, 0.0) == 0.0
    ensures VividLightAsWritten(0.0, 1.0).None? && BlendVividLight(0.0, 1.0) == 1.0
  {
  }

  /** `channelBlendMap[mode](a, b)`; `hue` has no channel function. */
  function ChannelBlend(n: Numerics, m: BlendMode, a: real, b: real): real
    requires m != Hue
  {
    match m
    case ColorDodge => BlendColorDodge(a, b)
    case Overlay => BlendOverlay(a, b)
    case SoftLight => BlendSoftLight(n, a, b)
    case Darken => Min(a, b)
    case Multiply => a * b
    case ColorBurn => BlendColorBurn(a, b)
    case Lighten => Max(a, b)
    case Screen => BlendScreen(a, b)
    case HardLight => BlendHardLight(a, b)
    case VividLight => BlendVividLight(a, b)
  }

  /** Every channel blend keeps the unit interval. */
  lemma ChannelBlendUnit(n: Numerics, m: BlendMode, a: real, b: real)
    requires Valid(n) && m != Hue && InUnit(a) && InUnit(b)
    ensures InUnit(ChannelBlend(n, m, a, b))
  {
    match m
    case ColorDodge =>
      if b < 1.0 {
        Ratio(a, 1.0 - b);
      }
    case Overlay =>
      UnitProducts(a, b);
    case SoftLight =>
      SoftLightUnit(n, a, b);
    case Darken =>
    case Multiply =>
      UnitProducts(a, b);
    case ColorBurn =>
      if b > 0.0 {
        Ratio(1.0 - a, b);
      }
    case Lighten =>
    case Screen =>
      UnitProducts(a, b);
    case HardLight =>
      UnitProducts(a, b);
    case VividLight =>
      if 0.0 < b <= 0.5 {
        Ratio(1.0 - a, 2.0 * b);
      } else if 0.5 < b < 1.0 {
        Ratio(a, 2.0 * (1.0 - b));
      }
  }

  /** `channelBlendMap[mode](a, b)` as written, vivid light unguarded:
      `None` is the `NaN` of `0 / 0`. */
  function ChannelBlendAsWritten(n: Numerics, m: BlendMode, a: real, b: real): Option<real>
    requires m != Hue && InUnit(a) && InUnit(b)
  {
    if m == VividLight then VividLightAsWritten(a, b) else Some(ChannelBlend(n, m, a, b))
  }

  /** As written, every channel blend keeps the unit interval where it gives
      a number, and fails to give one only under vivid light with a white
      base over a zero blend or a black base over a full one; elsewhere it is
      the guarded channel blend. */
  lemma ChannelBlendAsWrittenUnit(n: Numerics, m: BlendMode, a: real, b: real)
    requires Valid(n) && m != Hue && InUnit(a) && InUnit(b)
    ensures ChannelBlendAsWritten(n, m, a, b).None? <==>
      m == VividLight && ((a == 1.0 && b == 0.0) || (a == 0.0 && b == 1.0))
    ensures ChannelBlendAsWritten(n, m, a, b).Some? ==>
      && ChannelBlendAsWritten(n, m, a, b).value == ChannelBlend(n, m, a, b)
      && InUnit(ChannelBlendAsWritten(n, m, a, b).value)
  {
    ChannelBlendUnit(n, m, a, b);
    if m == VividLight {
      VividLightCorrected(a, b);
    }
  }

  /** The products the overlay, multiply, screen and hard-light formulas are
      made of stay in the unit interval. */
  lemma UnitProducts(a: real, b: real)
    requires InUnit(a) && InUnit(b)
    ensures InUnit(a * b) && InUnit((1.0 - a) * (1.0 - b))
    ensures a <= 0.5 ==> InUnit(2.0 * a * b)
    ensures 0.5 < a ==> InUnit(2.0 * (1.0 - a) * (1.0 - b))
    ensures b <= 0.5 ==> InUnit(2.0 * a * b)
    ensures 0.5 < b ==> InUnit(2.0 * (1.0 - a) * (1.0 - b))
  {
    MulUnit(a, b);
    MulUnit(1.0 - a, 1.0 - b);
    MulUnit(2.0 * a, b);
    MulUnit(2.0 * b, a);
    MulUnit(2.0 * (1.0 - a), 1.0 - b);
    MulUnit(2.0 * (1.0 - b), 1.0 - a);
  }

  lemma SoftLightUnit(n: Numerics, a: real, b: real)
    requires Valid(n) && InUnit(a) && InUnit(b)
    ensures InUnit(BlendSoftLight(n, a, b))
  {
    if b <= 0.5 {
      SoftLightDark(a, b);
    } else {
      var root := n.sqrt(a);
      SqrtUnit(n, a);
      SoftLightBright(a, b, root);
      assert BlendSoftLight(n, a, b) == a + (2.0 * b - 1.0) * (root - a);
    }
  }

  lemma SoftLightDark(a: real, b: real)
    requires InUnit(a) && 0.0 <= b <= 0.5
    ensures InUnit(a - (1.0 - 2.0 * b) * a * (1.0 - a))
  {
    var x := a * (1.0 - a);
    MulUnit(a, 1.0 - a);
    MulUnit(x, 1.0 - 2.0 * b);
    assert (1.0 - 2.0 * b) * a * (1.0 - a) == x * (1.0 - 2.0 * b);
    MulUnit(a, a);
    assert a - x == a * a;
  }

  lemma SoftLightBright(a: real, b: real, root: real)
    requires InUnit(a) && 0.5 < b <= 1.0 && a <= root <= 1.0
    ensures InUnit(a + (2.0 * b - 1.0) * (root - a))
  {
    MulUnit(root - a, 2.0 * b - 1.0);
    assert (2.0 * b - 1.0) * (root - a) == (root - a) * (2.0 * b - 1.0);
  }

  /** The blend value that leaves a base channel as it is. */
  function Neutral(m: BlendMode): real
    requires m != Hue
  {
    match m
    case ColorDodge => 0.0
    case Screen => 0.0
    case Lighten => 0.0
    case Multiply => 1.0
    case Darken => 1.0
    case ColorBurn => 1.0
    case Overlay => 0.5
    case SoftLight => 0.5
    case HardLight => 0.5
    case VividLight => 0.5
  }

  lemma NeutralBlend(n: Numerics, m: BlendMode, a: real)
    requires m != Hue && InUnit(a)
    ensures ChannelBlend(n, m, a, Neutral(m)) == a
  {
    match m
    case ColorDodge =>
      assert a / (1.0 - 0.0) == a;
    case ColorBurn =>
      assert (1.0 - a) / 1.0 == 1.0 - a;
    case VividLight =>
      assert (1.0 - a) / (2.0 * 0.5) == 1.0 - a;
    case _ =>
  }

  // ---------------------------------------------------------------------
  // applyBlend

  /** `applyBlend` on a base colour with channels in 0..255 (the colours the
      tonal scale passes; the hue path computes HSL, which divides by zero
      for some colours outside that range). */
  function ApplyBlend(n: Numerics, rgb: Rgb, mode: string, strength: real, br: real, bg: real, bb: real, intensity: real): (r: Result<Rgb, RangeError>)
    requires InByteRange(rgb)
    ensures r.Err? <==> BlendInputError(mode, strength, br, bg, bb, intensity).Some?
    ensures r.Err? ==> r.error == BlendInputError(mode, strength, br, bg, bb, intensity).value
    ensures r.Ok? && ((br == 0.0 && bg == 0.0 && bb == 0.0) || intensity == 0.0 || strength == 0.0)
      ==> r.value == rgb
    ensures r.Ok? ==> InByteRange(r.value)
  {
    match BlendInputError(mode, strength, br, bg, bb, intensity)
    case Some(e) => Err(e)
    case None =>
      if (br == 0.0 && bg == 0.0 && bb == 0.0) || intensity == 0.0 || strength == 0.0 then Ok(rgb)
      else
        var m := ParseBlendMode(mode).value;
        var w := intensity * strength;
        MulUnit(intensity, strength);
        if m == Hue then Ok(HueBlend(rgb, br, bg, bb, w))
        else Ok(ChannelMix(n, m, rgb, br, bg, bb, w))
  }

  /** The hue path: the base's saturation and lightness with the blend
      colour's hue, mixed in by weight `w` and clamped but not rounded. */
  function HueBlend(rgb: Rgb, br: real, bg: real, bb: real, w: real): (c: Rgb)
    requires InByteRange(rgb) && InUnit(br) && InUnit(bg) && InUnit(bb)
    ensures InByteRange(c)
  {
    var baseHsl := RgbToHsl(rgb);
    var blendHsl := RgbToHsl(BlendByte(br, bg, bb));
    var hueMixed := HslToRgb(Hsl(blendHsl.h, baseHsl.s, baseHsl.l));
    ClampBounds(rgb.r + w * (hueMixed.r - rgb.r), 0.0, 255.0);
    ClampBounds(rgb.g + w * (hueMixed.g - rgb.g), 0.0, 255.0);
    ClampBounds(rgb.b + w * (hueMixed.b - rgb.b), 0.0, 255.0);
    Rgb(
      Clamp(rgb.r + w * (hueMixed.r - rgb.r), 0.0, 255.0),
      Clamp(rgb.g + w * (hueMixed.g - rgb.g), 0.0, 255.0),
      Clamp(rgb.b + w * (hueMixed.b - rgb.b), 0.0, 255.0))
  }

  /** The blend colour back on the 0..255 scale, rounded. */
  function BlendByte(br: real, bg: real, bb: real): (c: Rgb)
    requires InUnit(br) && InUnit(bg) && InUnit(bb)
    ensures IsByteRgb(c)
  {
    RoundBetween(br * 255.0, 0, 255);
    RoundBetween(bg * 255.0, 0, 255);
    RoundBetween(bb * 255.0, 0, 255);
    Rgb(Round(br * 255.0) as real, Round(bg * 255.0) as real, Round(bb * 255.0) as real)
  }

  /** The channel path: each channel blended, then mixed with the base. */
  function ChannelMix(n: Numerics, m: BlendMode, rgb: Rgb, br: real, bg: real, bb: real, w: real): (c: Rgb)
    requires m != Hue
    ensures IsByteRgb(c)
  {
    Rgb(
      MixChannel(rgb.r, ChannelBlend(n, m, rgb.r / 255.0, br), w),
      MixChannel(rgb.g, ChannelBlend(n, m, rgb.g / 255.0, bg), w),
      MixChannel(rgb.b, ChannelBlend(n, m, rgb.b / 255.0, bb), w))
  }

  /** `clamp(Math.round(mixChannel(base, blended) * 255), 0, 255)`. */
  function MixChannel(base: real, blended: real, w: real): (c: real)
    ensures IsInteger(c) && 0.0 <= c <= 255.0
  {
    ToByte(((base / 255.0) * (1.0 - w) + blended * w) * 255.0) as real
  }

  /** A mixed channel lies between the rounded base and the rounded blend,
      and at full weight it is the blend. */
  lemma MixBetween(base: real, blended: real, w: real)
    requires 0.0 <= base <= 255.0 && InUnit(blended) && InUnit(w)
    ensures Round(Min(base, blended * 255.0)) as real <= MixChannel(base, blended, w)
    ensures MixChannel(base, blended, w) <= Round(Max(base, blended * 255.0)) as real
    ensures w == 1.0 ==> MixChannel(base, blended, w) == Round(blended * 255.0) as real
    ensures w == 0.0 ==> MixChannel(base, blended, w) == Round(base) as real
  {
    var x := ((base / 255.0) * (1.0 - w) + blended * w) * 255.0;
    var t := blended * 255.0;
    assert x == base * (1.0 - w) + t * w;
    MulUnit(base, 1.0 - w);
    MulUnit(t, w);
    assert Min(base, t) <= x <= Max(base, t) by {
      Between(base, t, w);
    }
    RoundMonotone(Min(base, t), x);
    RoundMonotone(x, Max(base, t));
    RoundBetween(x, 0, 255);
  }

  /** A convex combination lies between its two end points. */
  lemma Between(a: real, b: real, w: real)
    requires InUnit(w)
    ensures Min(a, b) <= a * (1.0 - w) + b * w <= Max(a, b)
  {
    var x := a * (1.0 - w) + b * w;
    assert x == a + w * (b - a);
    if a <= b {
      MulUnit(b - a, w);
    } else {
      MulUnit(a - b, w);
    }
  }

  /** Blending with each mode's neutral colour changes no channel beyond
      rounding it. */
  lemma ApplyBlendNeutral(n: Numerics, rgb: Rgb, m: BlendMode, strength: real, intensity: real)
    requires InByteRange(rgb) && m != Hue && InUnit(strength) && InUnit(intensity)
    ensures var e := Neutral(m);
      ApplyBlend(n, rgb, ModeName(m), strength, e, e, e, intensity).Ok?
    ensures var e := Neutral(m);
      var r := ApplyBlend(n, rgb, ModeName(m), strength, e, e, e, intensity).value;
      r == rgb || r == Rgb(ToByte(rgb.r) as real, ToByte(rgb.g) as real, ToByte(rgb.b) as real)
  {
    var e := Neutral(m);
    ModeNames(m);
    assert ParseBlendMode(ModeName(m)).Some?;
    if !(e == 0.0 || intensity == 0.0 || strength == 0.0) {
      var w := intensity * strength;
      ChannelPathOf(n, rgb, m, strength, e, e, e, intensity);
      NeutralChannelMix(n, m, rgb, w);
    }
  }

  /** Past the checks and the early return, a mode other than `hue` takes
      the channel path. */
  lemma ChannelPathOf(n: Numerics, rgb: Rgb, m: BlendMode, strength: real, br: real, bg: real, bb: real, intensity: real)
    requires InByteRange(rgb) && m != Hue
    requires BlendInputError(ModeName(m), strength, br, bg, bb, intensity).None?
    requires ParseBlendMode(ModeName(m)) == Some(m)
    requires !((br == 0.0 && bg == 0.0 && bb == 0.0) || intensity == 0.0 || strength == 0.0)
    ensures ApplyBlend(n, rgb, ModeName(m), strength, br, bg, bb, intensity) == Ok(ChannelMix(n, m, rgb, br, bg, bb, intensity * strength))
  {
  }

  /** The channel path with the neutral colour rounds each base channel. */
  lemma NeutralChannelMix(n: Numerics, m: BlendMode, rgb: Rgb, w: real)
    requires InByteRange(rgb) && m != Hue
    ensures var e := Neutral(m);
      ChannelMix(n, m, rgb, e, e, e, w) == Rgb(ToByte(rgb.r) as real, ToByte(rgb.g) as real, ToByte(rgb.b) as real)
  {
    NeutralBlend(n, m, rgb.r / 255.0);
    NeutralBlend(n, m, rgb.g / 255.0);
    NeutralBlend(n, m, rgb.b / 255.0);
    NeutralMix(rgb.r, w);
    NeutralMix(rgb.g, w);
    NeutralMix(rgb.b, w);
  }

  lemma NeutralMix(c: real, w: real)
    ensures MixChannel(c, c / 255.0, w) == ToByte(c) as real
  {
    assert ((c / 255.0) * (1.0 - w) + (c / 255.0) * w) * 255.0 == c;
  }

  /** The overlay case `src/tests/utils/tonal.spec.ts` expects. */
  lemma ApplyBlendOverlayExample(n: Numerics)
    ensures ApplyBlend(n, Rgb(120.0, 160.0, 200.0), "overlay", 0.5, 0.2, 0.4, 0.6, 0.8)
      == Ok(Rgb(91.0, 152.0, 204.0))
  {
    assert ParseBlendMode("overlay") == Some(Overlay);
    var w := 0.8 * 0.5;
    assert BlendOverlay(120.0 / 255.0, 0.2) == 2.0 * (120.0 / 255.0) * 0.2;
    assert BlendOverlay(160.0 / 255.0, 0.4) == 1.0 - 2.0 * (1.0 - 160.0 / 255.0) * (1.0 - 0.4);
    assert BlendOverlay(200.0 / 255.0, 0.6) == 1.0 - 2.0 * (1.0 - 200.0 / 255.0) * (1.0 - 0.6);
    RoundOfInteger(91);
    assert MixChannel(120.0, BlendOverlay(120.0 / 255.0, 0.2), w) == 91.0;
    assert MixChannel(160.0, BlendOverlay(160.0 / 255.0, 0.4), w) == 152.0;
    assert MixChannel(200.0, BlendOverlay(200.0 / 255.0, 0.6), w) == 204.0;
  }

  /** With vivid light as written, a white base under a pure red blend turns
      the green and blue channels into `0 / 0`. */
  lemma VividLightNaNExample()
    ensures VividLightAsWritten(255.0 / 255.0, 0.0).None?
    ensures BlendVividLight(255.0 / 255.0, 0.0) == 0.0
  {
  }

  // ---------------------------------------------------------------------
  // applySaturation

  /** `applySaturation`: move the HSV saturation toward 1 by the fraction
      `saturation * intensity`. */
  function ApplySaturation(rgb: Rgb, saturation: real, intensity: real): (r: Result<Rgb, RangeError>)
    ensures r.Ok? <==> InUnit(saturation) && InUnit(intensity)
    ensures !InUnit(saturation) ==> r == Err(ChannelOutOfRange("Saturation"))
    ensures InUnit(saturation) && !InUnit(intensity) ==> r == Err(ChannelOutOfRange("Intensity"))
    ensures r.Ok? ==> IsByteRgb(r.value)
  {
    if !InUnit(saturation) then Err(ChannelOutOfRange("Saturation"))
    else if !InUnit(intensity) then Err(ChannelOutOfRange("Intensity"))
    else Ok(UnitHsvToRgb(Saturated(RgbToUnitHsv(rgb), saturation * intensity)))
  }

  /** The HSV colour with its saturation raised by the fraction `k` of the
      remaining distance to 1. */
  function Saturated(hsv: UnitHsv, k: real): (r: UnitHsv)
    ensures r.h == hsv.h && r.v == hsv.v
  {
    UnitHsv(hsv.h, hsv.s + (1.0 - hsv.s) * k, hsv.v)
  }

  /** Saturation never decreases and never exceeds 1. */
  lemma SaturatedBounds(hsv: UnitHsv, k: real)
    requires InUnit(hsv.s) && InUnit(k)
    ensures hsv.s <= Saturated(hsv, k).s <= 1.0
  {
    MulUnit(1.0 - hsv.s, k);
    assert (1.0 - hsv.s) * k <= 1.0 - hsv.s;
    assert Saturated(hsv, k).s == hsv.s + (1.0 - hsv.s) * k;
  }

  /** With a zero weight the colour survives the HSV round trip, up to
      rounding. */
  lemma ApplySaturationZeroWeight(rgb: Rgb, saturation: real, intensity: real)
    requires InByteRange(rgb) && InUnit(saturation) && InUnit(intensity)
    requires saturation * intensity == 0.0
    ensures ApplySaturation(rgb, saturation, intensity)
      == Ok(Rgb(ClampRgb(rgb.r), ClampRgb(rgb.g), ClampRgb(rgb.b)))
    ensures IsByteRgb(rgb) ==> ApplySaturation(rgb, saturation, intensity) == Ok(rgb)
  {
    var hsv := RgbToUnitHsv(rgb);
    assert Saturated(hsv, saturation * intensity) == hsv;
    UnitHsvRoundTrip(rgb);
  }

  /** A grey has hue 0, so saturating it tints it toward red: green and blue
      drop together while red stays. */
  lemma SaturatedGreyTurnsRed(c: real, saturation: real, intensity: real)
    requires 0.0 <= c <= 255.0 && InUnit(saturation) && InUnit(intensity)
    ensures var r := ApplySaturation(Rgb(c, c, c), saturation, intensity).value;
      r.r == ClampRgb(c) && r.g == r.b
  {
    var v := c / 255.0;
    var hsv := RgbToUnitHsv(Rgb(c, c, c));
    assert hsv == UnitHsv(0.0, 0.0, v);
    var k := saturation * intensity;
    var sat := Saturated(hsv, k);
    assert sat == UnitHsv(0.0, k, v);
    UnitChannelsAtRed(sat);
    assert UnitChannels(sat) == Rgb(v, v * (1.0 - k), v * (1.0 - k));
    assert v * 255.0 == c;
  }
}

=== FILE: color.dfy ===
/** The hex codec and the degree/percent HSV model of `src/utils/color.ts`:
    a colour is three real channels (nominally 0..255), a hex string is
    `#` plus six hex digits, and HSV carries hue in degrees and saturation and
    value in percent. */
module Color {
  import opened Wrappers
  import opened JsMath
  import opened JsText

  datatype Rgb = Rgb(r: real, g: real, b: real)

  datatype Hsv = Hsv(h: real, s: real, v: real)

  /** Every channel is an integer in 0..255. */
  predicate IsByteRgb(c: Rgb) {
    && IsInteger(c.r) && 0.0 <= c.r <= 255.0
    && IsInteger(c.g) && 0.0 <= c.g <= 255.0
    && IsInteger(c.b) && 0.0 <= c.b <= 255.0
  }

  /** Every channel lies in 0..255 (not necessarily an integer). */
  predicate InByteRange(c: Rgb) {
    0.0 <= c.r <= 255.0 && 0.0 <= c.g <= 255.0 && 0.0 <= c.b <= 255.0
  }

  /** The canonical form every formatter emits: `#` and six lower-case hex
      digits. */
  predicate IsCanonicalHex(s: string) {
    |s| == 7 && s[0] == '#' && forall k :: 1 <= k < 7 ==> IsLowerHexDigit(s[k])
  }

  /** `/^#?[0-9a-fA-F]{6}$/` matched against the trimmed input. */
  predicate IsValidHex(hex: string) {
    IsHexBody(Trim(hex))
  }

  /** The pattern itself, on text already trimmed. */
  predicate IsHexBody(t: string) {
    || (|t| == 7 && t[0] == '#' && AllHex(t[1..]))
    || (|t| == 6 && AllHex(t))
  }

  /** The six digits of a valid hex string. */
  function HexBody(hex: string): (d: string)
    requires IsValidHex(hex)
    ensures |d| == 6 && AllHex(d)
  {
    var t := Trim(hex);
    if |t| == 7 && t[0] == '#' && AllHex(t[1..]) then t[1..] else t
  }

  /** `hex.trim().replace('#', '')`: the body before expansion. */
  function Cleaned(hex: string): (d: string)
    ensures |d| <= |hex|
  {
    ReplaceFirst(Trim(hex), '#', "")
  }

  /** `normalizeHex`: trim, drop the first `#`, double the characters of a
      three-character body, otherwise keep at most six characters; then
      prefix `#` and lower-case. No validation takes place. */
  function NormalizeHex(hex: string): (r: string)
    ensures |r| >= 1 && r[0] == '#'
    ensures |r| <= 7 && |r| != 4
    ensures IsLower(r)
  {
    var cleaned := Cleaned(hex);
    var raw :=
      if |cleaned| == 3 then ['#', cleaned[0], cleaned[0], cleaned[1], cleaned[1], cleaned[2], cleaned[2]]
      else "#" + Slice(cleaned, 0, 6);
    ToLowerIsLower(raw);
    ToLower(raw)
  }

  /** Text with no white space at either end is cleaned without trimming. */
  lemma CleanedNoSpace(hex: string)
    requires |hex| > 0 && !IsSpace(hex[0]) && !IsSpace(hex[|hex| - 1])
    ensures Cleaned(hex) == ReplaceFirst(hex, '#', "")
  {
    TrimNoSpace(hex);
  }

  /** Any body but a three-character one keeps its first six characters. */
  lemma NormalizeLong(hex: string, cleaned: string)
    requires Cleaned(hex) == cleaned && |cleaned| != 3
    ensures NormalizeHex(hex) == ToLower("#" + Slice(cleaned, 0, 6))
  {
  }

  /** `parseInt(normalized.slice(i, i + 2), 16)` for the three channels;
      `None` stands for a channel that parses to `NaN`. */
  function HexToRgb(hex: string): (c: Option<Rgb>)
    ensures c.Some? ==> IsInteger(c.value.r) && IsInteger(c.value.g) && IsInteger(c.value.b)
  {
    DecodeDigits(ReplaceFirst(NormalizeHex(hex), '#', ""))
  }

  function DecodeDigits(digits: string): (c: Option<Rgb>)
    ensures c.Some? ==> IsInteger(c.value.r) && IsInteger(c.value.g) && IsInteger(c.value.b)
  {
    var r :- ParseChannel(digits, 0);
    var g :- ParseChannel(digits, 2);
    var b :- ParseChannel(digits, 4);
    Some(Rgb(r as real, g as real, b as real))
  }

  /** The channels `DecodeDigits` decodes are the pairs read one by one. */
  lemma DecodedChannels(digits: string)
    requires DecodeDigits(digits).Some?
    ensures ParseChannel(digits, 0).Some? && ParseChannel(digits, 2).Some? && ParseChannel(digits, 4).Some?
    ensures DecodeDigits(digits).value == Rgb(ParseChannel(digits, 0).value as real,
      ParseChannel(digits, 2).value as real, ParseChannel(digits, 4).value as real)
  {
  }

  /** `parseInt(digits.slice(i, i + 2), 16)`. */
  function ParseChannel(digits: string, i: nat): Option<int> {
    ParseHexInt(Slice(digits, i, i + 2))
  }

  /** Every channel `parseInt` reads from two characters lies in [-15, 255],
      whatever the input string. */
  lemma HexToRgbRange(hex: string)
    requires HexToRgb(hex).Some?
    ensures var c := HexToRgb(hex).value;
      -15.0 <= c.r <= 255.0 && -15.0 <= c.g <= 255.0 && -15.0 <= c.b <= 255.0
  {
    var d := ReplaceFirst(NormalizeHex(hex), '#', "");
    ParseHexIntShort(Slice(d, 0, 2));
    ParseHexIntShort(Slice(d, 2, 4));
    ParseHexIntShort(Slice(d, 4, 6));
  }

  /** `clamp(Math.round(value), 0, 255)`. */
  function ToByte(x: real): (n: nat)
    ensures n <= 255
    ensures 0.0 <= x <= 255.0 ==> n == Round(x)
  {
    var k := ClampInt(Round(x), 0, 255);
    ClampIntBounds(Round(x), 0, 255);
    if 0.0 <= x <= 255.0 then RoundBetween(x, 0, 255); k else k
  }

  /** `rgbToHex`: rounds, clamps, and prints two lower-case digits per
      channel. */
  function RgbToHex(c: Rgb): (s: string)
    ensures IsCanonicalHex(s)
  {
    var r := ToByte(c.r);
    var g := ToByte(c.g);
    var b := ToByte(c.b);
    Hex2Digits(r);
    Hex2Digits(g);
    Hex2Digits(b);
    "#" + Hex2(r) + Hex2(g) + Hex2(b)
  }

  /** `rgbToHsv`: hue in whole degrees, saturation and value in whole
      percent. */
  function RgbToHsv(c: Rgb): (hsv: Hsv)
    ensures IsInteger(hsv.h) && IsInteger(hsv.s) && IsInteger(hsv.v)
    ensures 0.0 <= hsv.h < 360.0
  {
    var rn := c.r / 255.0;
    var gn := c.g / 255.0;
    var bn := c.b / 255.0;
    var mx := Max(Max(rn, gn), bn);
    var mn := Min(Min(rn, gn), bn);
    var delta := mx - mn;
    Hsv(HueDegrees(rn, gn, bn, mx, delta) as real, Round(Saturation(mx, delta)) as real, Round(mx * 100.0) as real)
  }

  /** The saturation in percent before rounding: zero for black. */
  function Saturation(mx: real, delta: real): real {
    if mx == 0.0 then 0.0 else (delta / mx) * 100.0
  }

  /** The hue in whole degrees: the sector scaled by 60 and rounded, a
      negative result wrapped once by 360. */
  function HueDegrees(rn: real, gn: real, bn: real, mx: real, delta: real): (h: int)
    requires mx == Max(Max(rn, gn), bn) && delta == mx - Min(Min(rn, gn), bn)
    ensures 0 <= h < 360
  {
    var hue := HueSector(rn, gn, bn, mx, delta);
    var h0 := Round(hue * 60.0);
    RoundBetween(hue * 60.0, -60, 300);
    if h0 < 0 then h0 + 360 else h0
  }

  /** A whole sector `k` in -1..5 is `60 k` degrees, wrapped into 0..359. */
  lemma HueOfSector(rn: real, gn: real, bn: real, mx: real, delta: real, k: int)
    requires mx == Max(Max(rn, gn), bn) && delta == mx - Min(Min(rn, gn), bn)
    requires HueSector(rn, gn, bn, mx, delta) == k as real
    ensures HueDegrees(rn, gn, bn, mx, delta) == if k < 0 then 60 * k + 360 else 60 * k
  {
    RoundOfInteger(60 * k);
  }

  /** The hue in sixths of a turn before scaling to degrees: the red sector
      goes through `%` 6 and may be negative. */
  function HueSector(rn: real, gn: real, bn: real, mx: real, delta: real): (hue: real)
    requires mx == Max(Max(rn, gn), bn) && delta == mx - Min(Min(rn, gn), bn)
    ensures -1.0 <= hue <= 5.0
    ensures delta == 0.0 ==> hue == 0.0
  {
    if delta == 0.0 then 0.0
    else if mx == rn then
      UnitRatio(gn - bn, delta);
      RemSmall((gn - bn) / delta, 6.0);
      Rem((gn - bn) / delta, 6.0)
    else if mx == gn then
      UnitRatio(bn - rn, delta);
      (bn - rn) / delta + 2.0
    else
      UnitRatio(rn - gn, delta);
      (rn - gn) / delta + 4.0
  }

  lemma UnitRatio(x: real, d: real)
    requires d > 0.0 && -d <= x <= d
    ensures -1.0 <= x / d <= 1.0
    ensures 0.0 <= x ==> 0.0 <= x / d
  {
  }

  /** A grey has hue and saturation zero. */
  lemma RgbToHsvGrey(c: Rgb)
    requires c.r == c.g == c.b
    ensures RgbToHsv(c).h == 0.0 && RgbToHsv(c).s == 0.0
  {
  }

  /** For channels in 0..255, saturation and value are percentages and the
      value is the largest channel in percent, rounded. */
  lemma RgbToHsvBounds(c: Rgb)
    requires InByteRange(c)
    ensures 0.0 <= RgbToHsv(c).s <= 100.0
    ensures 0.0 <= RgbToHsv(c).v <= 100.0
    ensures RgbToHsv(c).v == Round(Max(Max(c.r, c.g), c.b) / 2.55) as real
  {
    var rn := c.r / 255.0;
    var gn := c.g / 255.0;
    var bn := c.b / 255.0;
    var mx := Max(Max(rn, gn), bn);
    var mn := Min(Min(rn, gn), bn);
    assert 0.0 <= rn <= 1.0 && 0.0 <= gn <= 1.0 && 0.0 <= bn <= 1.0;
    assert 0.0 <= mn <= mx <= 1.0;
    var s := if mx == 0.0 then 0.0 else ((mx - mn) / mx) * 100.0;
    if mx != 0.0 {
      assert 0.0 <= (mx - mn) / mx <= 1.0 by {
        UnitRatio(mx - mn, mx);
      }
    }
    RoundBetween(s, 0, 100);
    RoundBetween(mx * 100.0, 0, 100);
    assert mx * 100.0 == Max(Max(c.r, c.g), c.b) / 2.55;
  }

  /** Full saturation and value in percent: the largest channel is 255 and
      the smallest 0. */
  lemma RgbToHsvSaturated(c: Rgb)
    requires InByteRange(c)
    requires Max(Max(c.r, c.g), c.b) == 255.0 && Min(Min(c.r, c.g), c.b) == 0.0
    ensures RgbToHsv(c).s == 100.0 && RgbToHsv(c).v == 100.0
  {
    var rn := c.r / 255.0;
    var gn := c.g / 255.0;
    var bn := c.b / 255.0;
    assert Max(Max(rn, gn), bn) == 1.0;
    assert Min(Min(rn, gn), bn) == 0.0;
    assert Saturation(1.0, 1.0) == 100.0;
    RoundOfInteger(100);
  }

  /** The primaries and secondaries land on the multiples of 60 degrees. */
  lemma RgbToHsvPrimaries()
    ensures RgbToHsv(Rgb(255.0, 0.0, 0.0)) == Hsv(0.0, 100.0, 100.0)
    ensures RgbToHsv(Rgb(0.0, 255.0, 0.0)) == Hsv(120.0, 100.0, 100.0)
    ensures RgbToHsv(Rgb(0.0, 0.0, 255.0)) == Hsv(240.0, 100.0, 100.0)
  {
    SaturatedHue(Rgb(255.0, 0.0, 0.0), 0);
    SaturatedHue(Rgb(0.0, 255.0, 0.0), 2);
    SaturatedHue(Rgb(0.0, 0.0, 255.0), 4);
  }

  lemma RgbToHsvSecondaries()
    ensures RgbToHsv(Rgb(255.0, 255.0, 0.0)) == Hsv(60.0, 100.0, 100.0)
    ensures RgbToHsv(Rgb(0.0, 255.0, 255.0)) == Hsv(180.0, 100.0, 100.0)
    ensures RgbToHsv(Rgb(255.0, 0.0, 255.0)) == Hsv(300.0, 100.0, 100.0)
  {
    SaturatedHue(Rgb(255.0, 255.0, 0.0), 1);
    SaturatedHue(Rgb(0.0, 255.0, 255.0), 3);
    SaturatedHue(Rgb(255.0, 0.0, 255.0), -1);
  }

  /** A saturated colour whose channels are 0 or 255 lies on sector `k`. */
  lemma SaturatedHue(c: Rgb, k: int)
    requires c.r in {0.0, 255.0} && c.g in {0.0, 255.0} && c.b in {0.0, 255.0}
    requires Max(Max(c.r, c.g), c.b) == 255.0 && Min(Min(c.r, c.g), c.b) == 0.0
    requires HueSector(c.r / 255.0, c.g / 255.0, c.b / 255.0, 1.0, 1.0) == k as real
    ensures RgbToHsv(c) == Hsv((if k < 0 then 60 * k + 360 else 60 * k) as real, 100.0, 100.0)
  {
    var rn := c.r / 255.0;
    var gn := c.g / 255.0;
    var bn := c.b / 255.0;
    RgbToHsvSaturated(c);
    assert Max(Max(rn, gn), bn) == 1.0;
    assert Min(Min(rn, gn), bn) == 0.0;
    HueOfSector(rn, gn, bn, 1.0, 1.0, k);
  }

  /** `hsvToRgb`: chroma `c`, the secondary component `x`, and the sector
      table selected by the raw hue (a negative hue falls into the second
      sector, because only the first test checks `h >= 0`). Channels are
      rounded but not clamped. */
  function HsvToRgb(hsv: Hsv): (c: Rgb)
    ensures IsInteger(c.r) && IsInteger(c.g) && IsInteger(c.b)
  {
    var chroma := Chroma(hsv);
    var m := hsv.v / 100.0 - chroma;
    var (r1, g1, b1) := Sector(hsv.h, chroma, Secondary(hsv));
    Rgb(ScaleChannel(r1 + m), ScaleChannel(g1 + m), ScaleChannel(b1 + m))
  }

  /** `c = v * s` on the unit scale. */
  function Chroma(hsv: Hsv): real {
    (hsv.v / 100.0) * (hsv.s / 100.0)
  }

  /** `x = c * (1 - |(h / 60) % 2 - 1|)`. */
  function Secondary(hsv: Hsv): real {
    Chroma(hsv) * HueFactor(hsv.h)
  }

  /** `1 - |(h / 60) % 2 - 1|`: the fraction of the chroma the secondary
      component receives. */
  function HueFactor(h: real): (f: real)
    ensures 0.0 <= h ==> 0.0 <= f <= 1.0
  {
    if 0.0 <= h then RemNonNegative(h / 60.0, 2.0); 1.0 - Abs(Rem(h / 60.0, 2.0) - 1.0)
    else 1.0 - Abs(Rem(h / 60.0, 2.0) - 1.0)
  }

  /** The sector table: which channel takes the chroma, which the secondary
      component and which zero. */
  function Sector(h: real, chroma: real, x: real): (t: (real, real, real))
    ensures t.0 in {chroma, x, 0.0} && t.1 in {chroma, x, 0.0} && t.2 in {chroma, x, 0.0}
  {
    if h >= 0.0 && h < 60.0 then (chroma, x, 0.0)
    else if h < 120.0 then (x, chroma, 0.0)
    else if h < 180.0 then (0.0, chroma, x)
    else if h < 240.0 then (0.0, x, chroma)
    else if h < 300.0 then (x, 0.0, chroma)
    else (chroma, 0.0, x)
  }

  /** `Math.round(v * 255)`. */
  function ScaleChannel(v: real): (n: real)
    ensures IsInteger(n)
    ensures 0.0 <= v <= 1.0 ==> 0.0 <= n <= 255.0
  {
    if 0.0 <= v <= 1.0 then RoundBetween(v * 255.0, 0, 255); Round(v * 255.0) as real
    else Round(v * 255.0) as real
  }

  /** Without saturation every channel is the grey `round(v * 2.55)`. */
  lemma HsvToRgbGrey(hsv: Hsv)
    requires hsv.s == 0.0
    ensures var c := HsvToRgb(hsv);
      c.r == c.g == c.b == Round(hsv.v * 2.55) as real
  {
    var vn := hsv.v / 100.0;
    assert Chroma(hsv) == 0.0;
    assert Secondary(hsv) == 0.0;
    assert (0.0 + (vn - 0.0)) * 255.0 == hsv.v * 2.55;
    assert ScaleChannel(0.0 + (vn - 0.0)) == Round(hsv.v * 2.55) as real;
  }

  lemma ChromaBounds(sn: real, vn: real)
    requires 0.0 <= sn <= 1.0 && 0.0 <= vn <= 1.0
    ensures 0.0 <= vn * sn <= vn
  {
  }

  /** With hue in [0, 360) and saturation and value in percent, every channel
      is a byte. */
  lemma HsvToRgbBounds(hsv: Hsv)
    requires 0.0 <= hsv.h < 360.0 && 0.0 <= hsv.s <= 100.0 && 0.0 <= hsv.v <= 100.0
    ensures IsByteRgb(HsvToRgb(hsv))
  {
    ChromaBounds(hsv.s / 100.0, hsv.v / 100.0);
    assert 0.0 <= Chroma(hsv) <= hsv.v / 100.0;
    var c := Chroma(hsv);
    var f := HueFactor(hsv.h);
    MulUnit(c, f);
    assert c * f <= c;
    assert Secondary(hsv) == c * f;
    SectorBounds(hsv.h, Chroma(hsv), Secondary(hsv), hsv.v / 100.0 - Chroma(hsv));
  }

  lemma SectorBounds(h: real, chroma: real, x: real, m: real)
    requires 0.0 <= x <= chroma && 0.0 <= m && chroma + m <= 1.0
    ensures var t := Sector(h, chroma, x);
      0.0 <= t.0 + m <= 1.0 && 0.0 <= t.1 + m <= 1.0 && 0.0 <= t.2 + m <= 1.0
  {
  }

  /** The sector points at full saturation and value that
      `src/tests/utils/color.spec.ts` expects. */
  lemma HsvToRgbSectors()
    ensures HsvToRgb(Hsv(30.0, 100.0, 100.0)) == Rgb(255.0, 128.0, 0.0)
    ensures HsvToRgb(Hsv(90.0, 100.0, 100.0)) == Rgb(128.0, 255.0, 0.0)
    ensures HsvToRgb(Hsv(150.0, 100.0, 100.0)) == Rgb(0.0, 255.0, 128.0)
    ensures HsvToRgb(Hsv(210.0, 100.0, 100.0)) == Rgb(0.0, 128.0, 255.0)
    ensures HsvToRgb(Hsv(270.0, 100.0, 100.0)) == Rgb(128.0, 0.0, 255.0)
    ensures HsvToRgb(Hsv(330.0, 100.0, 100.0)) == Rgb(255.0, 0.0, 128.0)
  {
    RedGreenSectors();
    GreenBlueSectors();
    BlueRedSectors();
  }

  lemma RedGreenSectors()
    ensures HsvToRgb(Hsv(30.0, 100.0, 100.0)) == Rgb(255.0, 128.0, 0.0)
    ensures HsvToRgb(Hsv(90.0, 100.0, 100.0)) == Rgb(128.0, 255.0, 0.0)
  {
    assert Rem(0.5, 2.0) == 0.5;
    assert Rem(1.5, 2.0) == 1.5;
  }

  lemma GreenBlueSectors()
    ensures HsvToRgb(Hsv(150.0, 100.0, 100.0)) == Rgb(0.0, 255.0, 128.0)
    ensures HsvToRgb(Hsv(210.0, 100.0, 100.0)) == Rgb(0.0, 128.0, 255.0)
  {
    assert Trunc(2.5 / 2.0) == 1 && Rem(2.5, 2.0) == 0.5;
    assert Trunc(3.5 / 2.0) == 1 && Rem(3.5, 2.0) == 1.5;
  }

  lemma BlueRedSectors()
    ensures HsvToRgb(Hsv(270.0, 100.0, 100.0)) == Rgb(128.0, 0.0, 255.0)
    ensures HsvToRgb(Hsv(330.0, 100.0, 100.0)) == Rgb(255.0, 0.0, 128.0)
  {
    assert Trunc(4.5 / 2.0) == 2 && Rem(4.5, 2.0) == 0.5;
    assert Trunc(5.5 / 2.0) == 2 && Rem(5.5, 2.0) == 1.5;
  }

  /** `hexToHsv`. */
  function HexToHsv(hex: string): (hsv: Option<Hsv>)
    ensures hsv.Some? <==> HexToRgb(hex).Some?
    ensures hsv.Some? ==> 0.0 <= hsv.value.h < 360.0
  {
    match HexToRgb(hex)
    case None => None
    case Some(c) => Some(RgbToHsv(c))
  }

  // ---------------------------------------------------------------------
  // Properties of the hex codec

  lemma ToLowerPrefix(c: char, s: string)
    ensures ToLower([c] + s) == [LowerChar(c)] + ToLower(s)
  {
    assert ([c] + s)[1..] == s;
  }

  /** A valid string normalises to `#` plus its six digits, lower-cased. */
  lemma NormalizeValid(hex: string)
    requires IsValidHex(hex)
    ensures NormalizeHex(hex) == "#" + ToLower(HexBody(hex))
    ensures IsCanonicalHex(NormalizeHex(hex))
  {
    var body := HexBody(hex);
    CleanedValid(hex);
    NormalizeLong(hex, body);
    assert Slice(body, 0, 6) == body;
    LowerBody(body);
  }

  /** Six digits without `#` are valid, and are their own body. */
  lemma BareValid(d: string)
    requires |d| == 6 && AllHex(d)
    ensures IsValidHex(d) && HexBody(d) == d
  {
    HexDigitNotSpace(d[0]);
    HexDigitNotSpace(d[5]);
    TrimNoSpace(d);
  }

  /** The digits of a canonical string are hex digits that lower-case to
      themselves. */
  lemma CanonicalDigitsLower(hex: string)
    requires IsCanonicalHex(hex)
    ensures |hex[1..]| == 6 && AllHex(hex[1..]) && ToLower(hex[1..]) == hex[1..]
    ensures "#" + hex[1..] == hex
  {
    var d := hex[1..];
    assert [hex[0]] + d == hex;
    assert forall k :: 0 <= k < 6 ==> d[k] == hex[k + 1];
    assert IsLower(d);
    ToLowerOfLower(d);
  }

  /** Cleaning a valid string leaves exactly its six digits. */
  lemma CleanedValid(hex: string)
    requires IsValidHex(hex)
    ensures Cleaned(hex) == HexBody(hex)
  {
    var t := Trim(hex);
    if |t| == 7 && t[0] == '#' && AllHex(t[1..]) {
      ReplaceFirstHead(t, '#', "");
    } else {
      assert forall k :: 0 <= k < |t| ==> t[k] != '#';
      assert '#' !in t;
    }
  }

  /** `#` before six lower-cased digits is canonical. */
  lemma LowerBody(body: string)
    requires |body| == 6 && AllHex(body)
    ensures ToLower("#" + body) == "#" + ToLower(body)
    ensures IsCanonicalHex("#" + ToLower(body))
  {
    ToLowerPrefix('#', body);
    var n := "#" + ToLower(body);
    forall k | 1 <= k < 7
      ensures IsLowerHexDigit(n[k])
    {
      assert n[k] == LowerChar(body[k - 1]);
    }
  }

  /** Only a trimmed length of six or seven can be valid. */
  lemma InvalidLength(hex: string)
    requires |Trim(hex)| != 6 && |Trim(hex)| != 7
    ensures !IsValidHex(hex)
  {
  }

  /** The three-digit shorthand, with or without `#`, doubles each digit and
      lower-cases (`#F0a` becomes `#ff00aa`), although it is not valid. */
  lemma NormalizeShorthand(d: string)
    requires |d| == 3 && AllHex(d)
    ensures NormalizeHex("#" + d) == ToLower(['#', d[0], d[0], d[1], d[1], d[2], d[2]])
    ensures NormalizeHex(d) == ToLower(['#', d[0], d[0], d[1], d[1], d[2], d[2]])
    ensures !IsValidHex("#" + d) && !IsValidHex(d)
  {
    var s := "#" + d;
    HexDigitNotSpace(d[0]);
    HexDigitNotSpace(d[2]);
    TrimNoSpace(s);
    TrimNoSpace(d);
    ReplaceFirstHead(s, '#', "");
    assert s[1..] == d;
    assert '#' !in d by {
      assert forall k :: 0 <= k < |d| ==> d[k] != '#';
    }
    InvalidLength(s);
    InvalidLength(d);
  }

  /** A string shaped like an output of `normalizeHex` that does not end in
      white space normalises to itself. */
  lemma NormalizeFixed(n: string)
    requires 1 <= |n| <= 7 && |n| != 4 && n[0] == '#' && IsLower(n)
    requires !IsSpace(n[|n| - 1])
    ensures NormalizeHex(n) == n
  {
    TrimNoSpace(n);
    ReplaceFirstHead(n, '#', "");
    assert Cleaned(n) == n[1..];
    assert Slice(n[1..], 0, 6) == n[1..];
    assert "#" + n[1..] == n;
    ToLowerOfLower(n);
  }

  /** `normalizeHex` is idempotent on its own output unless that output ends
      in white space (possible when white space sits before a trailing `#` or
      inside the first six characters of the input). */
  lemma NormalizeIdempotent(hex: string)
    requires !IsSpace(NormalizeHex(hex)[|NormalizeHex(hex)| - 1])
    ensures NormalizeHex(NormalizeHex(hex)) == NormalizeHex(hex)
  {
    NormalizeFixed(NormalizeHex(hex));
  }

  lemma CanonicalParts(n: string)
    requires IsCanonicalHex(n)
    ensures ReplaceFirst(n, '#', "") == n[1..]
    ensures Slice(n[1..], 0, 2) == [n[1], n[2]]
    ensures Slice(n[1..], 2, 4) == [n[3], n[4]]
    ensures Slice(n[1..], 4, 6) == [n[5], n[6]]
  {
    assert IndexOf(n, '#') == 0;
  }

  lemma LowerDigitPair(a: char, b: char)
    requires IsLowerHexDigit(a) && IsLowerHexDigit(b)
    ensures ParseHexInt([a, b]) == Some(16 * HexValue(a) + HexValue(b))
    ensures Hex2(16 * HexValue(a) + HexValue(b)) == [a, b]
  {
    ParseTwoHexDigits(a, b);
    PrintDigitPair(a, b);
  }

  lemma PrintDigitPair(a: char, b: char)
    requires IsLowerHexDigit(a) && IsLowerHexDigit(b)
    ensures Hex2(16 * HexValue(a) + HexValue(b)) == [a, b]
  {
    var h := HexValue(a);
    var l := HexValue(b);
    DivPair(h, l);
    Hex2Digits(16 * h + l);
    LowerDigitChar(a);
    LowerDigitChar(b);
  }

  lemma DivPair(h: nat, l: nat)
    requires l < 16
    ensures (16 * h + l) / 16 == h && (16 * h + l) % 16 == l
  {
  }

  /** A lower-case hex digit is the digit its value prints as. */
  lemma LowerDigitChar(c: char)
    requires IsLowerHexDigit(c)
    ensures HexChar(HexValue(c)) == c
  {
    LowerHexDigit(c);
    assert LowerChar(c) == c;
  }

  /** The byte two lower-case hex digits spell. */
  function PairValue(a: char, b: char): (n: nat)
    requires IsLowerHexDigit(a) && IsLowerHexDigit(b)
    ensures n < 256
  {
    16 * HexValue(a) + HexValue(b)
  }

  lemma CanonicalIsFixed(n: string)
    requires IsCanonicalHex(n)
    ensures NormalizeHex(n) == n
  {
    assert IsLower(n);
    HexDigitNotSpace(n[6]);
    NormalizeFixed(n);
  }

  lemma CanonicalDecode(n: string)
    requires IsCanonicalHex(n)
    ensures HexToRgb(n) == Some(Rgb(PairValue(n[1], n[2]) as real, PairValue(n[3], n[4]) as real, PairValue(n[5], n[6]) as real))
  {
    CanonicalDigits(n);
    DecodeBody(n[1..], n);
  }

  lemma DecodeBody(d: string, n: string)
    requires IsCanonicalHex(n) && d == n[1..]
    ensures DecodeDigits(d) == Some(Rgb(PairValue(n[1], n[2]) as real, PairValue(n[3], n[4]) as real, PairValue(n[5], n[6]) as real))
  {
    CanonicalBody(n);
    DecodePairs(d);
    assert d[0] == n[1] && d[1] == n[2] && d[2] == n[3] && d[3] == n[4] && d[4] == n[5] && d[5] == n[6];
  }

  lemma CanonicalBody(n: string)
    requires IsCanonicalHex(n)
    ensures |n[1..]| == 6 && forall k :: 0 <= k < 6 ==> IsLowerHexDigit(n[1..][k])
  {
    assert forall k :: 0 <= k < 6 ==> n[1..][k] == n[k + 1];
  }

  /** A canonical hex decodes from the six characters after its `#`. */
  lemma CanonicalDigits(n: string)
    requires IsCanonicalHex(n)
    ensures HexToRgb(n) == DecodeDigits(n[1..])
  {
    CanonicalIsFixed(n);
    CanonicalParts(n);
  }

  lemma ChannelPair(d: string, i: nat)
    requires i + 2 <= |d| && IsLowerHexDigit(d[i]) && IsLowerHexDigit(d[i + 1])
    ensures ParseChannel(d, i) == Some(PairValue(d[i], d[i + 1]))
  {
    var a, b := d[i], d[i + 1];
    assert PairValue(a, b) == 16 * HexValue(a) + HexValue(b);
    SliceTwo(d, i);
    assert ParseChannel(d, i) == ParseHexInt([a, b]);
    ParseTwoHexDigits(a, b);
  }

  lemma SliceTwo(d: string, i: nat)
    requires i + 2 <= |d|
    ensures Slice(d, i, i + 2) == [d[i], d[i + 1]]
  {
    assert d[i..i + 2] == [d[i], d[i + 1]];
  }

  lemma DecodeOfChannels(d: string, r: int, g: int, b: int)
    requires ParseChannel(d, 0) == Some(r) && ParseChannel(d, 2) == Some(g) && ParseChannel(d, 4) == Some(b)
    ensures DecodeDigits(d) == Some(Rgb(r as real, g as real, b as real))
  {
  }

  lemma DecodePairs(d: string)
    requires |d| == 6 && forall k :: 0 <= k < 6 ==> IsLowerHexDigit(d[k])
    ensures DecodeDigits(d) == Some(Rgb(PairValue(d[0], d[1]) as real, PairValue(d[2], d[3]) as real, PairValue(d[4], d[5]) as real))
  {
    ChannelPairs(d);
    DecodeOfChannels(d, PairValue(d[0], d[1]), PairValue(d[2], d[3]), PairValue(d[4], d[5]));
  }

  lemma ChannelPairs(d: string)
    requires |d| == 6
    requires IsLowerHexDigit(d[0]) && IsLowerHexDigit(d[1]) && IsLowerHexDigit(d[2])
    requires IsLowerHexDigit(d[3]) && IsLowerHexDigit(d[4]) && IsLowerHexDigit(d[5])
    ensures ParseChannel(d, 0) == Some(PairValue(d[0], d[1]))
    ensures ParseChannel(d, 2) == Some(PairValue(d[2], d[3]))
    ensures ParseChannel(d, 4) == Some(PairValue(d[4], d[5]))
  {
    ChannelPair(d, 0);
    ChannelPair(d, 2);
    ChannelPair(d, 4);
  }

  lemma PrintPair(a: char, b: char)
    requires IsLowerHexDigit(a) && IsLowerHexDigit(b)
    ensures Hex2(ToByte(PairValue(a, b) as real)) == [a, b]
  {
    RoundOfInteger(PairValue(a, b));
    LowerDigitPair(a, b);
  }

  lemma CanonicalEncode(n: string)
    requires IsCanonicalHex(n)
    ensures RgbToHex(Rgb(PairValue(n[1], n[2]) as real, PairValue(n[3], n[4]) as real, PairValue(n[5], n[6]) as real)) == n
  {
    var r := PairValue(n[1], n[2]);
    var g := PairValue(n[3], n[4]);
    var b := PairValue(n[5], n[6]);
    assert Hex2(ToByte(r as real)) == [n[1], n[2]] by { PrintPair(n[1], n[2]); }
    assert Hex2(ToByte(g as real)) == [n[3], n[4]] by { PrintPair(n[3], n[4]); }
    assert Hex2(ToByte(b as real)) == [n[5], n[6]] by { PrintPair(n[5], n[6]); }
    assert n == "#" + [n[1], n[2]] + [n[3], n[4]] + [n[5], n[6]];
  }

  /** Decoding a canonical string and printing it back gives the same
      string. */
  lemma CanonicalRoundTrip(n: string)
    requires IsCanonicalHex(n)
    ensures NormalizeHex(n) == n
    ensures HexToRgb(n).Some? && IsByteRgb(HexToRgb(n).value)
    ensures RgbToHex(HexToRgb(n).value) == n
  {
    CanonicalIsFixed(n);
    CanonicalDecode(n);
    CanonicalEncode(n);
  }

  /** Round trip through the colour: a valid hex string parses to three bytes
      and prints back as its normal form. */
  lemma HexRoundTrip(hex: string)
    requires IsValidHex(hex)
    ensures HexToRgb(hex).Some? && IsByteRgb(HexToRgb(hex).value)
    ensures RgbToHex(HexToRgb(hex).value) == NormalizeHex(hex)
  {
    NormalizeValid(hex);
    var n := NormalizeHex(hex);
    CanonicalParts(n);
    LowerDigitPair(n[1], n[2]);
    LowerDigitPair(n[3], n[4]);
    LowerDigitPair(n[5], n[6]);
    CanonicalRoundTrip(n);
    assert HexToRgb(hex) == HexToRgb(n);
  }

  /** Round trip through the string: a colour of three bytes prints and
      parses back to itself. */
  lemma RgbRoundTrip(c: Rgb)
    requires IsByteRgb(c)
    ensures HexToRgb(RgbToHex(c)) == Some(c)
  {
    var n := RgbToHex(c);
    assert [n[1], n[2]] == Hex2(ToByte(c.r)) && [n[3], n[4]] == Hex2(ToByte(c.g)) && [n[5], n[6]] == Hex2(ToByte(c.b)) by {
      PrintedDigits(c);
    }
    assert PairValue(n[1], n[2]) as real == c.r by { ByteChannel(c.r, n[1], n[2]); }
    assert PairValue(n[3], n[4]) as real == c.g by { ByteChannel(c.g, n[3], n[4]); }
    assert PairValue(n[5], n[6]) as real == c.b by { ByteChannel(c.b, n[5], n[6]); }
    CanonicalDecode(n);
  }

  lemma PrintedDigits(c: Rgb)
    ensures var n := RgbToHex(c);
      [n[1], n[2]] == Hex2(ToByte(c.r)) && [n[3], n[4]] == Hex2(ToByte(c.g)) && [n[5], n[6]] == Hex2(ToByte(c.b))
  {
    Hex2Digits(ToByte(c.r));
    Hex2Digits(ToByte(c.g));
    Hex2Digits(ToByte(c.b));
  }

  /** The two digits printed for a byte-valued channel spell that channel. */
  lemma ByteChannel(x: real, a: char, b: char)
    requires IsInteger(x) && 0.0 <= x <= 255.0
    requires [a, b] == Hex2(ToByte(x))
    ensures IsLowerHexDigit(a) && IsLowerHexDigit(b)
    ensures PairValue(a, b) as real == x
  {
    var k := ToByte(x);
    RoundOfInteger(x.Floor);
    assert k as real == x;
    Hex2Digits(k);
    assert k == 16 * (k / 16) + k % 16;
  }

  /** The formatting cases `src/tests/utils/color.spec.ts` expects:
      clamping and half-up rounding. */
  lemma RgbToHexExamples()
    ensures RgbToHex(Rgb(300.0, -50.0, 128.0)) == "#ff0080"
    ensures RgbToHex(Rgb(100.5, 100.2, 99.9)) == "#656464"
  {
    Hex2Digits(255);
    Hex2Digits(0);
    Hex2Digits(128);
    Hex2Digits(101);
    Hex2Digits(100);
  }

  /** Black and white print as `#000000` and `#ffffff`. */
  lemma BlackWhiteHex()
    ensures RgbToHex(Rgb(0.0, 0.0, 0.0)) == "#000000"
    ensures RgbToHex(Rgb(255.0, 255.0, 255.0)) == "#ffffff"
  {
    Hex2Digits(255);
    Hex2Digits(0);
  }
}

=== FILE: color_math.dfy ===
/** The colour spaces of `src/utils/tonal/color-math.ts`: CIE XYZ and L*a*b*
    against the D65 white, HSL and HSV on the unit scale, the WCAG relative
    luminance of a hex colour, and the names of the blend modes. */
module ColorMath {
  import opened Wrappers
  import opened JsMath
  import opened Powers
  import Color

  datatype Xyz = Xyz(x: real, y: real, z: real)

  datatype Lab = Lab(l: real, a: real, b: real)

  /** Hue, saturation and lightness, all in [0, 1]. */
  datatype Hsl = Hsl(h: real, s: real, l: real)

  /** Hue, saturation and value, all in [0, 1]. */
  datatype UnitHsv = UnitHsv(h: real, s: real, v: real)

  /** The D65 reference white. */
  const RefWhite: Xyz := Xyz(0.95047, 1.0, 1.08883)

  // ---------------------------------------------------------------------
  // Blend mode names

  datatype BlendMode =
    | ColorDodge | Overlay | SoftLight | Darken | Multiply | ColorBurn
    | Lighten | Screen | HardLight | VividLight | Hue

  /** The modes in the order the source lists them. */
  const BlendModes: seq<BlendMode> :=
    [ColorDodge, Overlay, SoftLight, Darken, Multiply, ColorBurn, Lighten, Screen, HardLight, VividLight, Hue]

  function ModeName(m: BlendMode): string {
    match m
    case ColorDodge => "colordodge"
    case Overlay => "overlay"
    case SoftLight => "softlight"
    case Darken => "darken"
    case Multiply => "multiply"
    case ColorBurn => "colorburn"
    case Lighten => "lighten"
    case Screen => "screen"
    case HardLight => "hardlight"
    case VividLight => "vividlight"
    case Hue => "hue"
  }

  /** `BLEND_MODES.has(s)`, returning the mode so named. */
  function ParseBlendMode(s: string): (m: Option<BlendMode>)
    ensures m.Some? ==> ModeName(m.value) == s
  {
    if s == "colordodge" then Some(ColorDodge)
    else if s == "overlay" then Some(Overlay)
    else if s == "softlight" then Some(SoftLight)
    else if s == "darken" then Some(Darken)
    else if s == "multiply" then Some(Multiply)
    else if s == "colorburn" then Some(ColorBurn)
    else if s == "lighten" then Some(Lighten)
    else if s == "screen" then Some(Screen)
    else if s == "hardlight" then Some(HardLight)
    else if s == "vividlight" then Some(VividLight)
    else if s == "hue" then Some(Hue)
    else None
  }

  /** Every mode's name is recognised as that mode, and the list holds each
      mode exactly once. */
  lemma ModeNames(m: BlendMode)
    ensures ParseBlendMode(ModeName(m)) == Some(m)
    ensures m in BlendModes
    ensures |BlendModes| == 11
    ensures forall i, j :: 0 <= i < j < |BlendModes| ==> BlendModes[i] != BlendModes[j]
  {
    match m
    case ColorDodge =>
    case Overlay =>
    case SoftLight =>
    case Darken =>
    case Multiply =>
    case ColorBurn =>
    case Lighten =>
    case Screen =>
    case HardLight =>
    case VividLight =>
    case Hue =>
  }

  // ---------------------------------------------------------------------
  // Companding and the L*a*b* pivots

  /** `clampRgb`: round, then clamp to 0..255. */
  function ClampRgb(x: real): (n: real)
    ensures IsInteger(n) && 0.0 <= n <= 255.0
    ensures 0.0 <= x <= 255.0 ==> n == Round(x) as real
  {
    Color.ToByte(x) as real
  }

  /** `pivotRgb`: an sRGB component on the unit scale to linear light. */
  function PivotRgb(n: Numerics, v: real): real {
    if v <= 0.04045 then v / 12.92 else n.pow24((v + 0.055) / 1.055)
  }

  /** `pivotXyz`: the cube-root response of L*a*b*, linear near black. */
  function PivotXyz(n: Numerics, v: real): real {
    if v > 216.0 / 24389.0 then n.cbrt(v) else (v * (24389.0 / 27.0) + 16.0) / 116.0
  }

  /** `pivotLab`: the inverse response. */
  function PivotLab(v: real): real {
    var cubed := v * v * v;
    if cubed > 216.0 / 24389.0 then cubed else (116.0 * v - 16.0) / (24389.0 / 27.0)
  }

  /** The companding `transform` inside `xyzToRgb`: linear light back to an
      sRGB component on the unit scale. */
  function Transform(n: Numerics, v: real): real {
    if v <= 0.0031308 then 12.92 * v else 1.055 * n.pow5over12(v) - 0.055
  }

  lemma PivotRgbUnit(n: Numerics, v: real)
    requires Valid(n) && 0.0 <= v <= 1.0
    ensures 0.0 <= PivotRgb(n, v) <= 1.0
    ensures v == 0.0 ==> PivotRgb(n, v) == 0.0
    ensures v == 1.0 ==> PivotRgb(n, v) == 1.0
  {
    if v > 0.04045 {
      Pow24Unit(n, (v + 0.055) / 1.055);
    }
  }

  /** `pivotLab` undoes `pivotXyz`. */
  lemma {:induction false} PivotLabOfPivotXyz(n: Numerics, v: real)
    requires Valid(n) && 0.0 <= v
    ensures PivotLab(PivotXyz(n, v)) == v
  {
    var y := PivotXyz(n, v);
    if v > 216.0 / 24389.0 {
      assert 0.0 <= y && Pow(y, 3) == v;
      PowCube(y);
      assert y * y * y == v;
    } else {
      assert 16.0 / 116.0 <= y <= 6.0 / 29.0;
      CubeAtMost(y, 6.0 / 29.0);
      assert (6.0 / 29.0) * ((6.0 / 29.0) * (6.0 / 29.0)) == 216.0 / 24389.0;
      PivotLabLinear(y);
      assert 116.0 * y - 16.0 == v * (24389.0 / 27.0);
    }
  }

  /** Below the threshold `pivotLab` is the straight line. */
  lemma PivotLabLinear(t: real)
    requires t * t * t <= 216.0 / 24389.0
    ensures PivotLab(t) * (24389.0 / 27.0) == 116.0 * t - 16.0
  {
  }

  /** ... and `pivotXyz` undoes `pivotLab`. */
  lemma {:induction false} PivotXyzOfPivotLab(n: Numerics, t: real)
    requires Valid(n)
    ensures PivotXyz(n, PivotLab(t)) == t
  {
    var cubed := t * t * t;
    if cubed > 216.0 / 24389.0 {
      NonPositiveCube(t);
      assert 0.0 < t;
      PowCube(t);
      assert t * t * t == t * (t * t);
      assert PivotLab(t) == cubed;
      assert PivotXyz(n, cubed) == n.cbrt(cubed);
      assert Pow(n.cbrt(cubed), 3) == cubed && 0.0 <= n.cbrt(cubed);
      RootUnique(n.cbrt(cubed), t, 3);
    } else {
      CubeOrder(t, 6.0 / 29.0);
    }
  }

  lemma CubeAtMost(y: real, b: real)
    requires 0.0 <= y <= b
    ensures y * y * y <= b * (b * b)
  {
    PowMonotone(y, b, 3);
    PowCube(y);
    PowCube(b);
  }

  lemma CubeAbove(b: real, y: real)
    requires 0.0 <= b < y
    ensures b * (b * b) < y * y * y
  {
    PowStrict(b, y, 3);
    PowCube(y);
    PowCube(b);
  }

  /** A cube no larger than `b^3` has a base no larger than `b`. */
  lemma CubeOrder(t: real, b: real)
    requires 0.0 <= b
    ensures t * t * t <= b * b * b ==> t <= b
  {
    if b < t {
      CubeAbove(b, t);
      assert b * (b * b) == b * b * b;
    }
  }

  lemma NonPositiveCube(t: real)
    ensures t <= 0.0 ==> t * t * t <= 0.0
  {
    if t < 0.0 {
      assert 0.0 <= t * t;
      MulLe(0.0, t * t, -t);
    }
  }

  /** On [0, 1] the `pivotXyz` response stays between 16/116 and 1. */
  lemma PivotXyzBounds(n: Numerics, v: real)
    requires Valid(n) && 0.0 <= v
    ensures 16.0 / 116.0 <= PivotXyz(n, v)
    ensures v <= 1.0 ==> PivotXyz(n, v) <= 1.0
    ensures 1.0 <= v ==> PivotXyz(n, v) <= v
  {
    if v > 216.0 / 24389.0 {
      CbrtMonotone(n, 216.0 / 24389.0, v);
      CbrtThreshold(n);
      if v <= 1.0 {
        PowOfOne(3);
        assert Pow(1.0, 3) == 1.0;
        CbrtMonotone(n, v, 1.0);
        RootUnique(n.cbrt(1.0), 1.0, 3);
      } else {
        CbrtBelowArgument(n, v);
      }
    }
  }

  // ---------------------------------------------------------------------
  // XYZ and L*a*b*

  /** `rgbToXyz`: linearise each channel and apply the sRGB matrix. */
  function RgbToXyz(n: Numerics, c: Color.Rgb): Xyz {
    var rl := PivotRgb(n, c.r / 255.0);
    var gl := PivotRgb(n, c.g / 255.0);
    var bl := PivotRgb(n, c.b / 255.0);
    Xyz(
      rl * 0.4124564 + gl * 0.3575761 + bl * 0.1804375,
      rl * 0.2126729 + gl * 0.7151522 + bl * 0.072175,
      rl * 0.0193339 + gl * 0.119192 + bl * 0.9503041)
  }

  /** `xyzToRgb`: the inverse matrix, companding, and `clampRgb`. */
  function XyzToRgb(n: Numerics, xyz: Xyz): (c: Color.Rgb)
    ensures Color.IsByteRgb(c)
  {
    var rl := xyz.x * 3.2404542 + xyz.y * -1.5371385 + xyz.z * -0.4985314;
    var gl := xyz.x * -0.969266 + xyz.y * 1.8760108 + xyz.z * 0.041556;
    var bl := xyz.x * 0.0556434 + xyz.y * -0.2040259 + xyz.z * 1.0572252;
    Color.Rgb(
      ClampRgb(Transform(n, rl) * 255.0),
      ClampRgb(Transform(n, gl) * 255.0),
      ClampRgb(Transform(n, bl) * 255.0))
  }

  function RgbToLab(n: Numerics, c: Color.Rgb): Lab {
    var xyz := RgbToXyz(n, c);
    var x := PivotXyz(n, xyz.x / RefWhite.x);
    var y := PivotXyz(n, xyz.y / RefWhite.y);
    var z := PivotXyz(n, xyz.z / RefWhite.z);
    Lab(116.0 * y - 16.0, 500.0 * (x - y), 200.0 * (y - z))
  }

  function LabToRgb(n: Numerics, lab: Lab): (c: Color.Rgb)
    ensures Color.IsByteRgb(c)
  {
    var y := (lab.l + 16.0) / 116.0;
    var x := lab.a / 500.0 + y;
    var z := y - lab.b / 200.0;
    XyzToRgb(n, Xyz(RefWhite.x * PivotLab(x), RefWhite.y * PivotLab(y), RefWhite.z * PivotLab(z)))
  }

  /** The Y of a colour with channels in 0..255 lies in [0, 1.0000001]: the
      luminance row of the matrix sums to 1.0000001. */
  lemma XyzLuminanceBounds(n: Numerics, c: Color.Rgb)
    requires Valid(n) && Color.InByteRange(c)
    ensures 0.0 <= RgbToXyz(n, c).y <= 1.0000001
  {
    PivotRgbUnit(n, c.r / 255.0);
    PivotRgbUnit(n, c.g / 255.0);
    PivotRgbUnit(n, c.b / 255.0);
    LuminanceRow(PivotRgb(n, c.r / 255.0), PivotRgb(n, c.g / 255.0), PivotRgb(n, c.b / 255.0));
  }

  /** The luminance row of the matrix on unit inputs. */
  lemma LuminanceRow(rl: real, gl: real, bl: real)
    requires 0.0 <= rl <= 1.0 && 0.0 <= gl <= 1.0 && 0.0 <= bl <= 1.0
    ensures 0.0 <= rl * 0.2126729 + gl * 0.7151522 + bl * 0.072175 <= 1.0000001
  {
  }

  /** The lightness of a colour with channels in 0..255 rounds to a whole
      number in 0..100, the range the tonal scale indexes. */
  lemma LightnessRange(n: Numerics, c: Color.Rgb)
    requires Valid(n) && Color.InByteRange(c)
    ensures 0.0 <= RgbToLab(n, c).l < 100.5
    ensures 0 <= Round(RgbToLab(n, c).l) <= 100
  {
    var yv := RgbToXyz(n, c).y / RefWhite.y;
    XyzLuminanceBounds(n, c);
    assert 0.0 <= yv <= 1.0000001;
    PivotXyzBounds(n, yv);
    assert 16.0 / 116.0 <= PivotXyz(n, yv) <= 1.0000001;
  }

  /** Black is the origin of L*a*b* and maps back to black. */
  lemma LabBlack(n: Numerics)
    ensures RgbToLab(n, Color.Rgb(0.0, 0.0, 0.0)) == Lab(0.0, 0.0, 0.0)
    ensures LabToRgb(n, Lab(0.0, 0.0, 0.0)) == Color.Rgb(0.0, 0.0, 0.0)
  {
    assert PivotRgb(n, 0.0) == 0.0;
    assert PivotXyz(n, 0.0) == 16.0 / 116.0;
    assert PivotLab(16.0 / 116.0) == 0.0;
    assert Transform(n, 0.0) == 0.0;
    RoundOfInteger(0);
  }

  /** White has lightness 100 once rounded. */
  lemma LabWhite(n: Numerics)
    requires Valid(n)
    ensures Round(RgbToLab(n, Color.Rgb(255.0, 255.0, 255.0)).l) == 100
  {
    var w := Color.Rgb(255.0, 255.0, 255.0);
    PivotRgbUnit(n, 1.0);
    assert RgbToXyz(n, w).y == 1.0000001;
    PivotXyzBounds(n, 1.0000001);
    PowOfOne(3);
    CbrtMonotone(n, 1.0, 1.0000001);
    RootUnique(n.cbrt(1.0), 1.0, 3);
    assert 1.0 <= PivotXyz(n, 1.0000001) <= 1.0000001;
  }

  /** The white of L*a*b*, lightness 100 with no chroma, converts back to
      RGB white: the reference white is fed through the inverse matrix, whose
      rows give linear channels within 1e-7 of 1, and companding and
      rounding take each of them to 255. */
  lemma LabWhiteRgb(n: Numerics)
    requires Valid(n)
    ensures LabToRgb(n, Lab(100.0, 0.0, 0.0)) == Color.Rgb(255.0, 255.0, 255.0)
  {
    assert PivotLab(1.0) == 1.0;
    var xyz := Xyz(RefWhite.x * PivotLab(1.0), RefWhite.y * PivotLab(1.0), RefWhite.z * PivotLab(1.0));
    assert LabToRgb(n, Lab(100.0, 0.0, 0.0)) == XyzToRgb(n, xyz);
    var rl := xyz.x * 3.2404542 + xyz.y * -1.5371385 + xyz.z * -0.4985314;
    var gl := xyz.x * -0.969266 + xyz.y * 1.8760108 + xyz.z * 0.041556;
    var bl := xyz.x * 0.0556434 + xyz.y * -0.2040259 + xyz.z * 1.0572252;
    assert 0.9999999 <= rl && 0.9999999 <= gl && 0.9999999 <= bl;
    CompandsToTop(n, rl);
    CompandsToTop(n, gl);
    CompandsToTop(n, bl);
  }

  /** A linear channel within 1e-7 of 1, or above it, companding to a value
      that `clampRgb` takes to 255. */
  lemma CompandsToTop(n: Numerics, v: real)
    requires Valid(n) && 0.9999999 <= v
    ensures ClampRgb(Transform(n, v) * 255.0) == 255.0
  {
    Pow5Over12AtLeast(n, v);
    var t := Transform(n, v) * 255.0;
    assert 254.5 <= t;
    ClampRgbTop(t);
  }

  /** `clampRgb` takes anything from 254.5 up to 255. */
  lemma ClampRgbTop(x: real)
    requires 254.5 <= x
    ensures ClampRgb(x) == 255.0
  {
    RoundBounds(x);
  }

  // ---------------------------------------------------------------------
  // HSL

  /** `rgbToHsl` on channels in 0..255 (outside that range the source may
      divide by zero). */
  function RgbToHsl(c: Color.Rgb): (hsl: Hsl)
    requires Color.InByteRange(c)
    ensures 0.0 <= hsl.h < 1.0 && 0.0 <= hsl.s <= 1.0 && 0.0 <= hsl.l <= 1.0
  {
    var rn := c.r / 255.0;
    var gn := c.g / 255.0;
    var bn := c.b / 255.0;
    var mx := Max(Max(rn, gn), bn);
    var mn := Min(Min(rn, gn), bn);
    var delta := mx - mn;
    var l := (mx + mn) / 2.0;
    if delta == 0.0 then Hsl(0.0, 0.0, l)
    else
      var s := if l > 0.5 then delta / (2.0 - mx - mn) else delta / (mx + mn);
      var h :=
        if mx == rn then (gn - bn) / delta + (if gn < bn then 6.0 else 0.0)
        else if mx == gn then (bn - rn) / delta + 2.0
        else (rn - gn) / delta + 4.0;
      HslHueBounds(rn, gn, bn, mx, delta);
      HslSaturationBounds(mx, mn);
      Hsl(h / 6.0, s, l)
  }

  lemma HslSaturationBounds(mx: real, mn: real)
    requires 0.0 <= mn < mx <= 1.0
    ensures var s := if (mx + mn) / 2.0 > 0.5 then (mx - mn) / (2.0 - mx - mn) else (mx - mn) / (mx + mn);
      0.0 < s <= 1.0
  {
    if (mx + mn) / 2.0 > 0.5 {
      Ratio(mx - mn, 2.0 - mx - mn);
      assert (mx - mn) / (2.0 - mx - mn) != 0.0;
    } else {
      Ratio(mx - mn, mx + mn);
      assert (mx - mn) / (mx + mn) != 0.0;
    }
  }

  lemma HslHueBounds(rn: real, gn: real, bn: real, mx: real, delta: real)
    requires mx == Max(Max(rn, gn), bn) && delta == mx - Min(Min(rn, gn), bn) && delta > 0.0
    ensures var h :=
        if mx == rn then (gn - bn) / delta + (if gn < bn then 6.0 else 0.0)
        else if mx == gn then (bn - rn) / delta + 2.0
        else (rn - gn) / delta + 4.0;
      0.0 <= h < 6.0
  {
    if mx == rn {
      Color.UnitRatio(gn - bn, delta);
      Ratio(gn - bn, delta);
    } else if mx == gn {
      Color.UnitRatio(bn - rn, delta);
    } else {
      Color.UnitRatio(rn - gn, delta);
      Ratio(rn - gn, delta);
    }
  }

  /** The lightness is the mean of the largest and smallest unit channel;
      a grey has hue and saturation 0, and any other colour a saturation in
      (0, 1]. */
  lemma RgbToHslShape(c: Color.Rgb)
    requires Color.InByteRange(c)
    ensures var hsl := RgbToHsl(c);
      var rn, gn, bn := c.r / 255.0, c.g / 255.0, c.b / 255.0;
      hsl.l == (Max(Max(rn, gn), bn) + Min(Min(rn, gn), bn)) / 2.0
    ensures c.r == c.g == c.b ==> RgbToHsl(c).h == 0.0 && RgbToHsl(c).s == 0.0
    ensures !(c.r == c.g == c.b) ==> 0.0 < RgbToHsl(c).s <= 1.0
  {
    if c.r == c.g == c.b {
      HslOfGrey(c);
    } else {
      HslOfColour(c);
    }
  }

  lemma HslOfGrey(c: Color.Rgb)
    requires Color.InByteRange(c) && c.r == c.g == c.b
    ensures RgbToHsl(c) == Hsl(0.0, 0.0, c.r / 255.0)
  {
  }

  lemma HslOfColour(c: Color.Rgb)
    requires Color.InByteRange(c) && !(c.r == c.g == c.b)
    ensures var rn, gn, bn := c.r / 255.0, c.g / 255.0, c.b / 255.0;
      RgbToHsl(c).l == (Max(Max(rn, gn), bn) + Min(Min(rn, gn), bn)) / 2.0
    ensures 0.0 < RgbToHsl(c).s <= 1.0
  {
    var rn, gn, bn := c.r / 255.0, c.g / 255.0, c.b / 255.0;
    var mx := Max(Max(rn, gn), bn);
    var mn := Min(Min(rn, gn), bn);
    assert mn < mx;
    HslSaturationBounds(mx, mn);
  }

  /** `hueToRgb`: one channel from the two HSL intermediates and a hue
      offset, wrapped once into [0, 1]. */
  function HueToRgb(p: real, q: real, t: real): real
  {
    var t1 := if t < 0.0 then t + 1.0 else t;
    var t2 := if t1 > 1.0 then t1 - 1.0 else t1;
    if t2 < 1.0 / 6.0 then p + (q - p) * 6.0 * t2
    else if t2 < 1.0 / 2.0 then q
    else if t2 < 2.0 / 3.0 then p + (q - p) * (2.0 / 3.0 - t2) * 6.0
    else p
  }

  /** `hslToRgb`: a saturation of zero is the grey `l`; otherwise each
      channel is read off the hue at a third of a turn apart. */
  function HslToRgb(hsl: Hsl): (c: Color.Rgb)
    ensures Color.IsByteRgb(c)
    ensures hsl.s == 0.0 ==> c.r == c.g == c.b == ClampRgb(hsl.l * 255.0)
  {
    if hsl.s == 0.0 then
      var channel := ClampRgb(hsl.l * 255.0);
      Color.Rgb(channel, channel, channel)
    else
      Color.Rgb(
        ClampRgb(HueToRgb(HslP(hsl), HslQ(hsl), hsl.h + 1.0 / 3.0) * 255.0),
        ClampRgb(HueToRgb(HslP(hsl), HslQ(hsl), hsl.h) * 255.0),
        ClampRgb(HueToRgb(HslP(hsl), HslQ(hsl), hsl.h - 1.0 / 3.0) * 255.0))
  }

  /** The upper intermediate `q` of `hslToRgb`. */
  function HslQ(hsl: Hsl): real {
    if hsl.l < 0.5 then hsl.l * (1.0 + hsl.s) else hsl.l + hsl.s - hsl.l * hsl.s
  }

  /** The lower intermediate `p = 2l - q` of `hslToRgb`. */
  function HslP(hsl: Hsl): real {
    2.0 * hsl.l - HslQ(hsl)
  }

  // ---------------------------------------------------------------------
  // HSV on the unit scale

  /** `rgbToHsv` of `color-math.ts`: hue, saturation and value in [0, 1]. */
  function RgbToUnitHsv(c: Color.Rgb): (hsv: UnitHsv)
    ensures 0.0 <= hsv.h < 1.0
    ensures hsv.v == Max(Max(c.r, c.g), c.b) / 255.0
    ensures Color.InByteRange(c) ==> 0.0 <= hsv.s <= 1.0
  {
    UnitHsvOf(c.r / 255.0, c.g / 255.0, c.b / 255.0)
  }

  /** The same on channels already divided by 255. */
  function UnitHsvOf(rn: real, gn: real, bn: real): (hsv: UnitHsv)
    ensures 0.0 <= hsv.h < 1.0
    ensures hsv.v == Max(Max(rn, gn), bn)
    ensures 0.0 <= rn && 0.0 <= gn && 0.0 <= bn ==> 0.0 <= hsv.s <= 1.0
  {
    var mx := Max(Max(rn, gn), bn);
    var mn := Min(Min(rn, gn), bn);
    var delta := mx - mn;
    var s := if mx == 0.0 then 0.0 else delta / mx;
    var hsv := UnitHsv(UnitHue(rn, gn, bn, mx, delta), s, mx);
    if 0.0 <= mn && mx != 0.0 then Color.UnitRatio(delta, mx); hsv else hsv
  }

  /** The `switch (max)` of `rgbToHsv`: grey first, then red, green, blue. */
  function UnitHue(rn: real, gn: real, bn: real, mx: real, delta: real): (h: real)
    requires mx == Max(Max(rn, gn), bn) && delta == mx - Min(Min(rn, gn), bn)
    ensures 0.0 <= h < 1.0
  {
    if mx == mx - delta then 0.0
    else if mx == rn then HueSixth(gn - bn, if gn < bn then 6.0 else 0.0, delta)
    else if mx == gn then HueSixth(bn - rn, 2.0, delta)
    else HueSixth(rn - gn, 4.0, delta)
  }

  /** `(x + k * delta) / (6 * delta)`, the hue as a fraction of a turn. */
  function HueSixth(x: real, k: real, delta: real): (h: real)
    requires delta > 0.0 && 0.0 <= x + k * delta < 6.0 * delta
    ensures 0.0 <= h < 1.0 && h * 6.0 == x / delta + k
  {
    DivShift(x, k, delta);
    (x + k * delta) / (6.0 * delta)
  }

  /** Quotient facts the sector proofs use. */
  lemma Ratio(x: real, d: real)
    requires d > 0.0
    ensures (x / d) * d == x
    ensures x < 0.0 ==> x / d < 0.0
    ensures 0.0 <= x ==> 0.0 <= x / d
    ensures x < d ==> x / d < 1.0
    ensures x == d ==> x / d == 1.0
    ensures -d <= x ==> -1.0 <= x / d
    ensures x <= d ==> x / d <= 1.0
  {
    var q := x / d;
    assert q * d == x;
    if x < 0.0 && 0.0 <= q {
      MulLe(0.0, q, d);
    }
    if 0.0 <= x && q < 0.0 {
      MulLt(q, 0.0, d);
    }
    if x < d && 1.0 <= q {
      MulLe(1.0, q, d);
    }
    if -d <= x && q < -1.0 {
      MulLt(q, -1.0, d);
    }
    if x <= d && 1.0 < q {
      MulLt(1.0, q, d);
    }
  }

  lemma DivShift(x: real, k: real, d: real)
    requires d > 0.0
    ensures (x + k * d) / (6.0 * d) * 6.0 == x / d + k
  {
    var q := x / d;
    assert q * d == x;
    assert (q + k) * (6.0 * d) == 6.0 * (x + k * d);
  }

  /** `hsvToRgb` of `color-math.ts`: the sector `floor(6h) % 6` picks where
      `v`, `p`, `q` and `t` go; negative sectors fall to the last case. */
  function UnitHsvToRgb(hsv: UnitHsv): (c: Color.Rgb)
    ensures Color.IsByteRgb(c)
  {
    var u := UnitChannels(hsv);
    Color.Rgb(ClampRgb(u.r * 255.0), ClampRgb(u.g * 255.0), ClampRgb(u.b * 255.0))
  }

  /** The channels on the unit scale, before `clampRgb`. */
  function UnitChannels(hsv: UnitHsv): Color.Rgb {
    var i := (hsv.h * 6.0).Floor;
    var f := hsv.h * 6.0 - i as real;
    var p := hsv.v * (1.0 - hsv.s);
    var q := hsv.v * (1.0 - f * hsv.s);
    var t := hsv.v * (1.0 - (1.0 - f) * hsv.s);
    SectorChannels(IntRem(i, 6), hsv.v, p, q, t)
  }

  function SectorChannels(k: int, v: real, p: real, q: real, t: real): Color.Rgb {
    if k == 0 then Color.Rgb(v, t, p)
    else if k == 1 then Color.Rgb(q, v, p)
    else if k == 2 then Color.Rgb(p, v, t)
    else if k == 3 then Color.Rgb(p, q, v)
    else if k == 4 then Color.Rgb(t, p, v)
    else Color.Rgb(v, p, q)
  }

  /** With the chroma `delta = v * s`, the intermediates are `p = v - delta`,
      `q = v - f * delta` and `t = v - (1 - f) * delta`. */
  lemma ChannelsAt(hsv: UnitHsv, delta: real, i: int, f: real)
    requires hsv.v > 0.0 && hsv.s == delta / hsv.v
    requires 0 <= i < 6 && (hsv.h * 6.0).Floor == i && f == hsv.h * 6.0 - i as real
    ensures UnitChannels(hsv)
      == SectorChannels(i, hsv.v, hsv.v - delta, hsv.v - f * delta, hsv.v - (1.0 - f) * delta)
  {
    var v := hsv.v;
    assert v * hsv.s == delta;
    assert v * (1.0 - hsv.s) == v - delta;
    assert v * (1.0 - f * hsv.s) == v - f * delta;
    assert v * (1.0 - (1.0 - f) * hsv.s) == v - (1.0 - f) * delta;
    IntRemSmall(i, 6);
  }

  /** At hue 0 the value goes to red and green and blue share `v * (1 - s)`. */
  lemma UnitChannelsAtRed(hsv: UnitHsv)
    requires hsv.h == 0.0
    ensures UnitChannels(hsv) == Color.Rgb(hsv.v, hsv.v * (1.0 - hsv.s), hsv.v * (1.0 - hsv.s))
  {
    assert (hsv.h * 6.0).Floor == 0;
    IntRemSmall(0, 6);
  }

  lemma SectorOf(x: real, lo: int)
    requires lo as real <= x < lo as real + 1.0
    ensures x.Floor == lo
  {
  }

  /** Converting to unit HSV and back reproduces every channel triple with
      non-negative channels. */
  lemma UnitHsvChannelsRoundTrip(rn: real, gn: real, bn: real)
    requires 0.0 <= rn && 0.0 <= gn && 0.0 <= bn
    ensures UnitChannels(UnitHsvOf(rn, gn, bn)) == Color.Rgb(rn, gn, bn)
  {
    var mx := Max(Max(rn, gn), bn);
    var delta := mx - Min(Min(rn, gn), bn);
    if delta == 0.0 {
      var hsv := UnitHsvOf(rn, gn, bn);
      assert hsv.h == 0.0;
      assert (0.0 * 6.0).Floor == 0;
      IntRemSmall(0, 6);
    } else if mx == rn && gn < bn {
      RedMagentaSector(rn, gn, bn, mx, delta);
    } else if mx == rn {
      RedYellowSector(rn, gn, bn, mx, delta);
    } else if mx == gn {
      GreenSector(rn, gn, bn, mx, delta);
    } else {
      BlueSector(rn, gn, bn, mx, delta);
    }
  }

  lemma RedYellowSector(rn: real, gn: real, bn: real, mx: real, delta: real)
    requires 0.0 <= rn && 0.0 <= gn && 0.0 <= bn
    requires mx == Max(Max(rn, gn), bn) && delta == mx - Min(Min(rn, gn), bn) && delta > 0.0
    requires mx == rn && bn <= gn
    ensures UnitChannels(UnitHsvOf(rn, gn, bn)) == Color.Rgb(rn, gn, bn)
  {
    var hsv := UnitHsvOf(rn, gn, bn);
    assert hsv == UnitHsv(HueSixth(gn - bn, 0.0, delta), delta / mx, mx);
    var h6 := hsv.h * 6.0;
    Ratio(gn - bn, delta);
    if gn - bn < delta {
      SectorOf(h6, 0);
      ChannelsAt(hsv, delta, 0, h6);
      assert h6 * delta == gn - bn;
    } else {
      SectorOf(h6, 1);
      ChannelsAt(hsv, delta, 1, 0.0);
    }
  }

  lemma RedMagentaSector(rn: real, gn: real, bn: real, mx: real, delta: real)
    requires 0.0 <= rn && 0.0 <= gn && 0.0 <= bn
    requires mx == Max(Max(rn, gn), bn) && delta == mx - Min(Min(rn, gn), bn) && delta > 0.0
    requires mx == rn && gn < bn
    ensures UnitChannels(UnitHsvOf(rn, gn, bn)) == Color.Rgb(rn, gn, bn)
  {
    var hsv := UnitHsvOf(rn, gn, bn);
    assert hsv == UnitHsv(HueSixth(gn - bn, 6.0, delta), delta / mx, mx);
    var h6 := hsv.h * 6.0;
    Ratio(gn - bn, delta);
    SectorOf(h6, 5);
    var f := h6 - 5.0;
    ChannelsAt(hsv, delta, 5, f);
    assert f * delta == gn - bn + delta;
  }

  lemma GreenSector(rn: real, gn: real, bn: real, mx: real, delta: real)
    requires 0.0 <= rn && 0.0 <= gn && 0.0 <= bn
    requires mx == Max(Max(rn, gn), bn) && delta == mx - Min(Min(rn, gn), bn) && delta > 0.0
    requires mx != rn && mx == gn
    ensures UnitChannels(UnitHsvOf(rn, gn, bn)) == Color.Rgb(rn, gn, bn)
  {
    var hsv := UnitHsvOf(rn, gn, bn);
    assert hsv == UnitHsv(HueSixth(bn - rn, 2.0, delta), delta / mx, mx);
    var h6 := hsv.h * 6.0;
    Ratio(bn - rn, delta);
    if bn < rn {
      SectorOf(h6, 1);
      var f := h6 - 1.0;
      ChannelsAt(hsv, delta, 1, f);
      assert f * delta == bn - rn + delta;
    } else if bn - rn < delta {
      SectorOf(h6, 2);
      var f := h6 - 2.0;
      ChannelsAt(hsv, delta, 2, f);
      assert f * delta == bn - rn;
    } else {
      SectorOf(h6, 3);
      ChannelsAt(hsv, delta, 3, 0.0);
    }
  }

  lemma BlueSector(rn: real, gn: real, bn: real, mx: real, delta: real)
    requires 0.0 <= rn && 0.0 <= gn && 0.0 <= bn
    requires mx == Max(Max(rn, gn), bn) && delta == mx - Min(Min(rn, gn), bn) && delta > 0.0
    requires mx != rn && mx != gn
    ensures UnitChannels(UnitHsvOf(rn, gn, bn)) == Color.Rgb(rn, gn, bn)
  {
    var hsv := UnitHsvOf(rn, gn, bn);
    assert hsv == UnitHsv(HueSixth(rn - gn, 4.0, delta), delta / mx, mx);
    var h6 := hsv.h * 6.0;
    Ratio(rn - gn, delta);
    if rn < gn {
      SectorOf(h6, 3);
      var f := h6 - 3.0;
      ChannelsAt(hsv, delta, 3, f);
      assert f * delta == rn - gn + delta;
    } else {
      SectorOf(h6, 4);
      var f := h6 - 4.0;
      ChannelsAt(hsv, delta, 4, f);
      assert f * delta == rn - gn;
    }
  }

  /** The HSV round trip of `color-math.ts` only rounds and clamps: a colour
      with channels in 0..255 comes back as its rounded channels, and a byte
      colour comes back unchanged. */
  lemma UnitHsvRoundTrip(c: Color.Rgb)
    requires Color.InByteRange(c)
    ensures UnitHsvToRgb(RgbToUnitHsv(c)) == Color.Rgb(ClampRgb(c.r), ClampRgb(c.g), ClampRgb(c.b))
    ensures Color.IsByteRgb(c) ==> UnitHsvToRgb(RgbToUnitHsv(c)) == c
  {
    var hsv := RgbToUnitHsv(c);
    assert hsv == UnitHsvOf(c.r / 255.0, c.g / 255.0, c.b / 255.0);
    UnitHsvChannelsRoundTrip(c.r / 255.0, c.g / 255.0, c.b / 255.0);
    ScaledBack(c, UnitChannels(hsv));
    if Color.IsByteRgb(c) {
      RoundOfInteger(c.r.Floor);
      RoundOfInteger(c.g.Floor);
      RoundOfInteger(c.b.Floor);
    }
  }

  /** Channels divided by 255 and multiplied back are the channels. */
  lemma ScaledBack(c: Color.Rgb, u: Color.Rgb)
    requires u == Color.Rgb(c.r / 255.0, c.g / 255.0, c.b / 255.0)
    ensures Color.Rgb(ClampRgb(u.r * 255.0), ClampRgb(u.g * 255.0), ClampRgb(u.b * 255.0))
      == Color.Rgb(ClampRgb(c.r), ClampRgb(c.g), ClampRgb(c.b))
    ensures forall hsv :: UnitChannels(hsv) == u ==>
      UnitHsvToRgb(hsv) == Color.Rgb(ClampRgb(c.r), ClampRgb(c.g), ClampRgb(c.b))
  {
    assert u.r * 255.0 == c.r && u.g * 255.0 == c.g && u.b * 255.0 == c.b;
  }

  /** Black has saturation 0, and a grey has hue and saturation 0. */
  lemma UnitHsvGrey(c: Color.Rgb)
    ensures Max(Max(c.r, c.g), c.b) == 0.0 ==> RgbToUnitHsv(c).s == 0.0
    ensures c.r == c.g == c.b ==> RgbToUnitHsv(c).h == 0.0 && RgbToUnitHsv(c).s == 0.0
  {
  }

  /** With saturation 0 the intermediates `p`, `q` and `t` all equal `v`,
      so every channel is the grey `clampRgb(v * 255)`. */
  lemma UnitHsvToRgbGrey(hsv: UnitHsv)
    requires hsv.s == 0.0
    ensures var g := ClampRgb(hsv.v * 255.0);
      UnitHsvToRgb(hsv) == Color.Rgb(g, g, g)
  {
  }

  // ---------------------------------------------------------------------
  // Relative luminance

  /** The WCAG linearisation inside `getLuminance` (threshold 0.03928, not
      the 0.04045 of `pivotRgb`). */
  function LinearChannel(n: Numerics, channel: real): real {
    var srgb := channel / 255.0;
    if srgb <= 0.03928 then srgb / 12.92 else n.pow24((srgb + 0.055) / 1.055)
  }

  function RelativeLuminance(n: Numerics, c: Color.Rgb): real {
    0.2126 * LinearChannel(n, c.r) + 0.7152 * LinearChannel(n, c.g) + 0.0722 * LinearChannel(n, c.b)
  }

  /** `getLuminance`: `None` is the `NaN` of a hex string whose channels do
      not parse. */
  function GetLuminance(n: Numerics, hex: string): (lum: Option<real>)
    ensures lum.Some? <==> Color.HexToRgb(hex).Some?
    ensures lum.Some? ==> lum.value == RelativeLuminance(n, Color.HexToRgb(hex).value)
  {
    var c :- Color.HexToRgb(hex);
    Some(RelativeLuminance(n, c))
  }

  lemma LinearChannelUnit(n: Numerics, channel: real)
    requires Valid(n) && 0.0 <= channel <= 255.0
    ensures 0.0 <= LinearChannel(n, channel) <= 1.0
    ensures channel == 0.0 ==> LinearChannel(n, channel) == 0.0
    ensures channel == 255.0 ==> LinearChannel(n, channel) == 1.0
  {
    var srgb := channel / 255.0;
    if srgb > 0.03928 {
      Pow24Unit(n, (srgb + 0.055) / 1.055);
    }
  }

  /** A channel of at least -15 (the least `parseInt` reads from two hex
      characters) linearises to more than -0.05. */
  lemma LinearChannelAboveOffset(n: Numerics, channel: real)
    requires Valid(n) && -15.0 <= channel
    ensures -0.05 < LinearChannel(n, channel)
  {
    var srgb := channel / 255.0;
    if srgb > 0.03928 {
      assert 0.0 <= (srgb + 0.055) / 1.055;
    }
  }

  /** Relative luminance lies in [0, 1], with black at 0 and white at 1. */
  lemma LuminanceUnit(n: Numerics, c: Color.Rgb)
    requires Valid(n) && Color.InByteRange(c)
    ensures 0.0 <= RelativeLuminance(n, c) <= 1.0
    ensures c == Color.Rgb(0.0, 0.0, 0.0) ==> RelativeLuminance(n, c) == 0.0
    ensures c == Color.Rgb(255.0, 255.0, 255.0) ==> RelativeLuminance(n, c) == 1.0
  {
    LinearChannelUnit(n, c.r);
    LinearChannelUnit(n, c.g);
    LinearChannelUnit(n, c.b);
  }

  /** Every colour `parseInt` can produce has luminance above -0.05, so the
      contrast formula never divides by zero. */
  lemma LuminanceAboveOffset(n: Numerics, c: Color.Rgb)
    requires Valid(n) && -15.0 <= c.r && -15.0 <= c.g && -15.0 <= c.b
    ensures -0.05 < RelativeLuminance(n, c)
  {
    LinearChannelAboveOffset(n, c.r);
    LinearChannelAboveOffset(n, c.g);
    LinearChannelAboveOffset(n, c.b);
  }

  /** `normalizeHexRgb` and `toHex` are the hex codec of `color.ts`. */
  function NormalizeHexRgb(hex: string): Option<Color.Rgb> {
    Color.HexToRgb(hex)
  }

  function ToHex(c: Color.Rgb): (s: string)
    ensures Color.IsCanonicalHex(s)
  {
    Color.RgbToHex(c)
  }
}

=== FILE: contrast.dfy ===
/** The contrast ratio of `src/utils/tonal/contrast.ts`: the WCAG 2.1 ratio
    `(L1 + 0.05) / (L2 + 0.05)` of the lighter to the darker relative
    luminance, rounded to one decimal, and its `N:1` display form. */
module Contrast {
  import opened Wrappers
  import opened JsMath
  import opened JsText
  import opened Powers
  import Color
  import ColorMath

  /** `roundToOneDecimal`: the nearest multiple of 0.1, ties upward. */
  function RoundToOneDecimal(x: real): (r: real)
    ensures IsInteger(r * 10.0)
    ensures x - 0.05 < r <= x + 0.05
  {
    RoundBounds(x * 10.0);
    Round(x * 10.0) as real / 10.0
  }

  /** Rounding to one decimal keeps a value of at least 1 at least 1. */
  lemma RoundToOneDecimalAtLeastOne(x: real)
    requires 1.0 <= x
    ensures 1.0 <= RoundToOneDecimal(x)
  {
    RoundMonotone(10.0, x * 10.0);
    RoundOfInteger(10);
  }

  /** The ratio of two luminances; `None` is the `Infinity` or `NaN` of a
      darker luminance of exactly -0.05. */
  function ContrastOfLuminances(l1: real, l2: real): (r: Option<real>)
    ensures r.Some? <==> Min(l1, l2) + 0.05 != 0.0
    ensures r.Some? && Min(l1, l2) + 0.05 > 0.0 ==> 1.0 <= r.value
    ensures r.Some? ==> IsInteger(r.value * 10.0)
  {
    var darker := Min(l1, l2) + 0.05;
    if darker == 0.0 then None
    else
      var ratio := (Max(l1, l2) + 0.05) / darker;
      if darker > 0.0 then
        assert 1.0 <= ratio;
        RoundToOneDecimalAtLeastOne(ratio);
        Some(RoundToOneDecimal(ratio))
      else Some(RoundToOneDecimal(ratio))
  }

  /** `getContrastRatio(first, second)`. */
  function GetContrastRatio(n: Numerics, first: string, second: string): (r: Option<real>)
    ensures r.Some? ==> Color.HexToRgb(first).Some? && Color.HexToRgb(second).Some?
  {
    var l1 :- ColorMath.GetLuminance(n, first);
    var l2 :- ColorMath.GetLuminance(n, second);
    ContrastOfLuminances(l1, l2)
  }

  /** With both luminances known the ratio is that of the luminances. */
  lemma ContrastOfKnown(n: Numerics, first: string, second: string, l1: real, l2: real)
    requires ColorMath.GetLuminance(n, first) == Some(l1)
    requires ColorMath.GetLuminance(n, second) == Some(l2)
    ensures GetContrastRatio(n, first, second) == ContrastOfLuminances(l1, l2)
  {
  }

  lemma LuminanceSymmetric(l1: real, l2: real)
    ensures ContrastOfLuminances(l1, l2) == ContrastOfLuminances(l2, l1)
  {
    assert Min(l1, l2) == Min(l2, l1) && Max(l1, l2) == Max(l2, l1);
  }

  /** The ratio does not depend on the order of its arguments. */
  lemma ContrastSymmetric(n: Numerics, first: string, second: string)
    ensures GetContrastRatio(n, first, second) == GetContrastRatio(n, second, first)
  {
    var a := ColorMath.GetLuminance(n, first);
    var b := ColorMath.GetLuminance(n, second);
    if a.Some? && b.Some? {
      ContrastOfKnown(n, first, second, a.value, b.value);
      ContrastOfKnown(n, second, first, b.value, a.value);
      LuminanceSymmetric(a.value, b.value);
    }
  }

  /** The luminance of a colour whose channels parse is above -0.05. */
  lemma KnownLuminance(n: Numerics, hex: string)
    requires Valid(n) && Color.HexToRgb(hex).Some?
    ensures ColorMath.GetLuminance(n, hex).Some?
    ensures -0.05 < ColorMath.GetLuminance(n, hex).value
  {
    Color.HexToRgbRange(hex);
    ColorMath.LuminanceAboveOffset(n, Color.HexToRgb(hex).value);
  }

  /** Two colours whose channels parse always have a ratio, and it is at least
      1 (luminance never reaches -0.05, so the divisor is positive). */
  lemma ContrastAtLeastOne(n: Numerics, first: string, second: string)
    requires Valid(n) && Color.HexToRgb(first).Some? && Color.HexToRgb(second).Some?
    ensures GetContrastRatio(n, first, second).Some?
    ensures 1.0 <= GetContrastRatio(n, first, second).value
  {
    KnownLuminance(n, first);
    KnownLuminance(n, second);
    var l1 := ColorMath.GetLuminance(n, first).value;
    var l2 := ColorMath.GetLuminance(n, second).value;
    ContrastOfKnown(n, first, second, l1, l2);
    RatioAtLeastOne(l1, l2);
  }

  /** Two luminances above -0.05 have a ratio of at least 1. */
  lemma RatioAtLeastOne(l1: real, l2: real)
    requires -0.05 < l1 && -0.05 < l2
    ensures ContrastOfLuminances(l1, l2).Some?
    ensures 1.0 <= ContrastOfLuminances(l1, l2).value
  {
    assert Min(l1, l2) + 0.05 > 0.0;
  }

  /** A colour against itself has ratio exactly 1. */
  lemma ContrastWithSelf(n: Numerics, hex: string)
    requires Valid(n) && Color.HexToRgb(hex).Some?
    ensures GetContrastRatio(n, hex, hex) == Some(1.0)
  {
    KnownLuminance(n, hex);
    var l := ColorMath.GetLuminance(n, hex).value;
    ContrastOfKnown(n, hex, hex, l, l);
    SelfRatio(l);
  }

  lemma SelfRatio(l: real)
    requires -0.05 < l
    ensures ContrastOfLuminances(l, l) == Some(1.0)
  {
    assert Max(l, l) == l && Min(l, l) == l;
    var d := l + 0.05;
    assert d > 0.0;
    assert d / d == 1.0;
    RoundOfInteger(10);
  }

  /** Black against white is 21:1, the largest ratio the formula allows. */
  lemma ContrastBlackWhite(n: Numerics)
    requires Valid(n)
    ensures GetContrastRatio(n, "#000000", "#ffffff") == Some(21.0)
  {
    BlackLuminance(n);
    WhiteLuminance(n);
    ContrastOfKnown(n, "#000000", "#ffffff", 0.0, 1.0);
    BlackWhiteRatio();
  }

  lemma BlackLuminance(n: Numerics)
    requires Valid(n)
    ensures ColorMath.GetLuminance(n, "#000000") == Some(0.0)
  {
    var c := Color.Rgb(0.0, 0.0, 0.0);
    Color.BlackWhiteHex();
    Color.RgbRoundTrip(c);
    ColorMath.LuminanceUnit(n, c);
  }

  lemma WhiteLuminance(n: Numerics)
    requires Valid(n)
    ensures ColorMath.GetLuminance(n, "#ffffff") == Some(1.0)
  {
    var c := Color.Rgb(255.0, 255.0, 255.0);
    Color.BlackWhiteHex();
    Color.RgbRoundTrip(c);
    ColorMath.LuminanceUnit(n, c);
  }

  lemma BlackWhiteRatio()
    ensures ContrastOfLuminances(0.0, 1.0) == Some(21.0)
  {
    assert (1.0 + 0.05) / (0.0 + 0.05) == 21.0;
    RoundOfInteger(210);
  }

  /** `formatContrastRatio`: the ratio rounded to one decimal, printed as an
      integer when it is one and with exactly one decimal otherwise, then
      `:1`. */
  function FormatContrastRatio(ratio: real): (s: string)
    ensures |s| >= 3 && s[|s| - 2..] == ":1"
    ensures Round(ratio * 10.0) % 10 == 0 <==> '.' !in s
  {
    FormatTenths(Round(ratio * 10.0))
  }

  /** The display of a number given in tenths. */
  function FormatTenths(tenths: int): (s: string)
    ensures |s| >= 3 && s[|s| - 2..] == ":1"
    ensures tenths % 10 == 0 <==> '.' !in s
  {
    if tenths % 10 == 0 then
      var s := IntToDecimal(tenths / 10) + ":1";
      DecimalHasNoPoint(tenths / 10);
      assert s[|s| - 2..] == ":1";
      s
    else
      var magnitude: nat := if tenths < 0 then -tenths else tenths;
      var s := FractionText(tenths < 0, magnitude / 10, magnitude % 10) + ":1";
      assert s[|s| - 2..] == ":1";
      assert s[|s| - 4] == '.';
      s
  }

  /** An optional `-`, the whole part, `.` and the one decimal. */
  function FractionText(negative: bool, whole: nat, digit: nat): (t: string)
    requires digit < 10
    ensures |t| >= 3 && t[|t| - 2] == '.'
  {
    (if negative then "-" else "") + (NatToDecimal(whole) + "." + [DigitChar(digit)])
  }

  lemma DecimalHasNoPoint(n: int)
    ensures '.' !in IntToDecimal(n) + ":1"
  {
    var s := IntToDecimal(n) + ":1";
    forall k | 0 <= k < |s|
      ensures s[k] != '.'
    {
      if k < |IntToDecimal(n)| && n < 0 && k > 0 {
        assert s[k] == NatToDecimal(-n)[k - 1];
      }
    }
  }

  /** Reads a displayed ratio back into tenths: an optional `-`, decimal
      digits, optionally `.` and one digit, then `:1`. */
  function ReadRatio(s: string): Option<int> {
    if |s| < 2 || s[|s| - 2..] != ":1" then None else ReadTenths(s[..|s| - 2])
  }

  function ReadTenths(body: string): Option<int> {
    var negative := |body| > 0 && body[0] == '-';
    var tenths :- ReadUnsigned(if negative then body[1..] else body);
    Some(if negative then -tenths else tenths)
  }

  /** Digits, optionally followed by `.` and one digit, read as tenths. */
  function ReadUnsigned(m: string): Option<int> {
    if |m| >= 3 && m[|m| - 2] == '.' then ReadPointed(m[..|m| - 2], m[|m| - 1])
    else if |m| > 0 && AllDigits(m) then Some(DecimalNumber(m) * 10)
    else None
  }

  /** Digits before a point and the one digit after it, read as tenths. */
  function ReadPointed(whole: string, last: char): Option<int> {
    if '0' <= last <= '9' && AllDigits(whole) then
      Some(DecimalNumber(whole) * 10 + (last as int - '0' as int))
    else None
  }

  /** A run of digits reads as that many tens of tenths. */
  lemma ReadUnsignedDigits(d: string)
    requires |d| > 0 && AllDigits(d)
    ensures ReadUnsigned(d) == Some(DecimalNumber(d) * 10)
  {
    assert |d| < 3 || d[|d| - 2] != '.';
  }

  /** Digits and one more digit read as tenths. */
  lemma PointedValue(d: string, c: char)
    requires AllDigits(d) && '0' <= c <= '9'
    ensures ReadPointed(d, c) == Some(DecimalNumber(d) * 10 + (c as int - '0' as int))
  {
  }

  /** A point before the last character splits the reading there. */
  lemma PointedSplit(d: string, c: char)
    requires |d| > 0
    ensures ReadUnsigned(d + "." + [c]) == ReadPointed(d, c)
  {
    var m := d + "." + [c];
    assert m[..|m| - 2] == d;
  }

  /** An optional leading `-` negates what follows. */
  lemma ReadTenthsSigned(negative: bool, m: string)
    requires |m| > 0 && m[0] != '-'
    ensures var r := ReadUnsigned(m);
      ReadTenths((if negative then "-" else "") + m)
        == if r.None? then None else Some(if negative then -r.value else r.value)
  {
    if negative {
      assert ("-" + m)[1..] == m;
    } else {
      assert "" + m == m;
    }
  }

  lemma ReadUnsignedWhole(n: nat)
    ensures ReadUnsigned(NatToDecimal(n)) == Some(10 * n)
  {
    var digits := NatToDecimal(n);
    assert AllDigits(digits);
    ReadUnsignedDigits(digits);
    DecimalNumberOfNat(n);
  }

  lemma ReadRatioOfBody(body: string)
    ensures ReadRatio(body + ":1") == ReadTenths(body)
  {
    var s := body + ":1";
    assert s[|s| - 2..] == ":1";
    assert s[..|s| - 2] == body;
  }

  lemma ReadWhole(q: int)
    ensures ReadTenths(IntToDecimal(q)) == Some(10 * q)
  {
    var magnitude: nat := if q < 0 then -q else q;
    var digits := NatToDecimal(magnitude);
    assert IntToDecimal(q) == (if q < 0 then "-" else "") + digits;
    ReadTenthsSigned(q < 0, digits);
    ReadUnsignedWhole(magnitude);
  }

  lemma ReadFraction(negative: bool, whole: nat, digit: nat)
    requires digit < 10
    ensures ReadTenths(FractionText(negative, whole, digit))
      == Some(if negative then -(10 * whole + digit) else 10 * whole + digit)
  {
    var digits := NatToDecimal(whole);
    var c := DigitChar(digit);
    PointedSplit(digits, c);
    PointedValue(digits, c);
    ReadTenthsSigned(negative, digits + "." + [c]);
    DecimalNumberOfNat(whole);
  }

  /** The display keeps the rounded value: reading it back gives the tenths
      of the ratio. */
  lemma FormatReadRoundTrip(ratio: real)
    ensures ReadRatio(FormatContrastRatio(ratio)) == Some(Round(ratio * 10.0))
  {
    TenthsRoundTrip(Round(ratio * 10.0));
  }

  lemma TenthsRoundTrip(tenths: int)
    ensures ReadRatio(FormatTenths(tenths)) == Some(tenths)
  {
    if tenths % 10 == 0 {
      WholeRoundTrip(tenths);
    } else {
      FractionRoundTrip(tenths);
    }
  }

  lemma WholeRoundTrip(tenths: int)
    requires tenths % 10 == 0
    ensures ReadRatio(FormatTenths(tenths)) == Some(tenths)
  {
    ReadRatioOfBody(IntToDecimal(tenths / 10));
    ReadWhole(tenths / 10);
  }

  lemma FractionRoundTrip(tenths: int)
    requires tenths % 10 != 0
    ensures ReadRatio(FormatTenths(tenths)) == Some(tenths)
  {
    var magnitude: nat := if tenths < 0 then -tenths else tenths;
    var whole := magnitude / 10;
    var digit := magnitude % 10;
    FormatFraction(tenths);
    ReadRatioOfBody(FractionText(tenths < 0, whole, digit));
    ReadFraction(tenths < 0, whole, digit);
    Tenths(tenths, magnitude, whole, digit);
  }

  lemma FormatFraction(tenths: int)
    requires tenths % 10 != 0
    ensures var magnitude: nat := if tenths < 0 then -tenths else tenths;
      FormatTenths(tenths) == FractionText(tenths < 0, magnitude / 10, magnitude % 10) + ":1"
  {
  }

  lemma Tenths(tenths: int, magnitude: nat, whole: nat, digit: nat)
    requires magnitude == (if tenths < 0 then -tenths else tenths)
    requires whole == magnitude / 10 && digit == magnitude % 10
    ensures (if tenths < 0 then -(10 * whole + digit) else 10 * whole + digit) == tenths
  {
  }

  /** Whole ratios print without a decimal point. */
  lemma FormatExamples()
    ensures FormatContrastRatio(21.0) == "21:1"
    ensures FormatContrastRatio(4.5) == "4.5:1"
  {
    FormatTwentyOne();
    FormatFourPointFive();
  }

  lemma FormatTwentyOne()
    ensures FormatContrastRatio(21.0) == "21:1"
  {
    RoundOfInteger(210);
    assert NatToDecimal(2) == "2";
    assert NatToDecimal(21) == "21";
    assert IntToDecimal(21) == "21";
  }

  lemma FormatFourPointFive()
    ensures FormatContrastRatio(4.5) == "4.5:1"
  {
    RoundOfInteger(45);
    assert NatToDecimal(4) == "4";
    assert DigitChar(5) == '5';
  }
}

=== FILE: controls.dfy ===
/** `useTonalBuilderControls`: the five slider definitions, and a small state
    machine over the blend mode, the slider values and one error slot per
    slider. `updateControl` validates its input against the definition's
    number range before storing it rounded. */
module BuilderControls {
  import opened Wrappers
  import opened JsMath
  import opened JsText
  import ColorMath
  import Store

  type ControlId = Store.ControlId

  /** A slider definition: its id as the composable spells it, the range of
      the number field and the default. The range slider repeats the same
      bounds and step. */
  datatype Definition = Definition(id: ControlId, name: string, min: int, max: int, step: int, defaultValue: int)

  /** `BLEND_CONTROL_DEFINITIONS`, in order. */
  const Definitions: seq<Definition> := [
    Definition(Store.Strength, "strength", 0, 100, 1, 85),
    Definition(Store.Middle, "middle", -50, 50, 1, -35),
    Definition(Store.Spread, "spread", 0, 100, 1, 100),
    Definition(Store.SatDarker, "satDarker", 0, 100, 1, 30),
    Definition(Store.SatLighter, "satLighter", 0, 100, 1, 50)]

  /** The error a slider can show. */
  datatype ControlError = InvalidNumber | OutOfRange(min: int, max: int)

  /** The value handed to `updateControl`: a number (`None` for `NaN` or an
      infinity) or a string. */
  datatype ControlValue = Num(x: Option<real>) | Text(s: string)

  datatype ControlsState = ControlsState(
    blendMode: ColorMath.BlendMode,
    values: Store.Controls,
    errors: map<ControlId, Option<ControlError>>)

  /** Every slider has an error slot. */
  predicate WellFormed(s: ControlsState) {
    forall id: ControlId :: id in s.errors
  }

  /** `hasErrors`: some slot holds an error. */
  predicate HasErrors(s: ControlsState)
    requires WellFormed(s)
  {
    exists id: ControlId :: s.errors[id].Some?
  }

  /** `BLEND_CONTROL_DEFINITIONS.find(control => control.id === name)`. */
  function Find(name: string): (d: Option<Definition>)
    ensures d.Some? ==> d.value in Definitions && d.value.name == name
    ensures d.None? ==> forall k :: 0 <= k < |Definitions| ==> Definitions[k].name != name
  {
    FindIn(Definitions, name)
  }

  function FindIn(defs: seq<Definition>, name: string): (d: Option<Definition>)
    ensures d.Some? ==> d.value in defs && d.value.name == name
    ensures d.None? ==> forall k :: 0 <= k < |defs| ==> defs[k].name != name
  {
    if defs == [] then None
    else if defs[0].name == name then Some(defs[0])
    else FindIn(defs[1..], name)
  }

  /** The definition of a slider. */
  function DefinitionOf(id: ControlId): (d: Definition)
    ensures d in Definitions && d.id == id
  {
    match id
    case Strength => Definitions[0]
    case Middle => Definitions[1]
    case Spread => Definitions[2]
    case SatDarker => Definitions[3]
    case SatLighter => Definitions[4]
  }

  /** `buildDefaultValues`. */
  const Defaults: Store.Controls := Store.Controls(85.0, -35.0, 100.0, 30.0, 50.0)

  /** `buildDefaultErrors`: every slot empty. */
  const NoErrors: map<ControlId, Option<ControlError>> :=
    map[Store.Strength := None, Store.Middle := None, Store.Spread := None, Store.SatDarker := None, Store.SatLighter := None]

  /** The empty slots cover every slider. */
  lemma NoErrorsComplete()
    ensures forall id: ControlId :: id in NoErrors && NoErrors[id].None?
  {
    forall id: ControlId
      ensures id in NoErrors && NoErrors[id].None?
    {
      match id
      case Strength =>
      case Middle =>
      case Spread =>
      case SatDarker =>
      case SatLighter =>
    }
  }

  /** The composable as created, in the given mode. */
  function Initial(mode: ColorMath.BlendMode): (s: ControlsState)
    ensures WellFormed(s) && !HasErrors(s)
    ensures forall id: ControlId :: Store.Get(s.values, id) == DefinitionOf(id).defaultValue as real
  {
    NoErrorsComplete();
    ControlsState(mode, Defaults, NoErrors)
  }

  /** `setBlendMode`: any mode is taken; nothing else changes. */
  function SetBlendMode(s: ControlsState, mode: ColorMath.BlendMode): (r: ControlsState)
    ensures r.blendMode == mode && r.values == s.values && r.errors == s.errors
  {
    s.(blendMode := mode)
  }

  /** `Number(value)`, `None` when the result is not finite. */
  function NumberOfValue(v: ControlValue, fraction: string -> Option<real>): Option<real> {
    match v
    case Num(x) => x
    case Text(t) => NumberOf(t, fraction)
  }

  datatype Update = Update(accepted: bool, state: ControlsState)

  /** `updateControl(name, value)`. An unknown slider is refused and nothing
      changes; a value that is not a finite number records `invalid_number`;
      one outside the number range records `out_of_range` with the bounds;
      otherwise the slider takes the rounded value and its error is cleared.
      No other slider's value or error changes. */
  function UpdateControl(s: ControlsState, name: string, v: ControlValue, fraction: string -> Option<real>): (r: Update)
    requires WellFormed(s)
    ensures WellFormed(r.state) && r.state.blendMode == s.blendMode
    ensures Find(name).None? ==> !r.accepted && r.state == s
    ensures Find(name).Some? ==>
      var d := Find(name).value;
      var x := NumberOfValue(v, fraction);
      && (forall other: ControlId :: other != d.id ==>
            Store.Get(r.state.values, other) == Store.Get(s.values, other) && r.state.errors[other] == s.errors[other])
      && (r.accepted <==> x.Some? && d.min as real <= x.value <= d.max as real)
      && (x.None? ==> r.state.errors[d.id] == Some(InvalidNumber) && r.state.values == s.values)
      && (x.Some? && !(d.min as real <= x.value <= d.max as real) ==>
            r.state.errors[d.id] == Some(OutOfRange(d.min, d.max)) && r.state.values == s.values)
      && (r.accepted ==> r.state.errors[d.id] == None && Store.Get(r.state.values, d.id) == Round(x.value) as real)
  {
    match Find(name)
    case None => Update(false, s)
    case Some(d) =>
      match NumberOfValue(v, fraction)
      case None => Update(false, s.(errors := s.errors[d.id := Some(InvalidNumber)]))
      case Some(x) =>
        if x < d.min as real || x > d.max as real then
          Update(false, s.(errors := s.errors[d.id := Some(OutOfRange(d.min, d.max))]))
        else
          Update(true, s.(errors := s.errors[d.id := None], values := Store.Set(s.values, d.id, Round(x) as real)))
  }

  /** `resetControls`: every slider back to its default, every error
      cleared, the mode kept. */
  function ResetControls(s: ControlsState): (r: ControlsState)
    ensures WellFormed(r) && !HasErrors(r)
    ensures r.blendMode == s.blendMode
    ensures forall id: ControlId :: Store.Get(r.values, id) == DefinitionOf(id).defaultValue as real
  {
    NoErrorsComplete();
    ControlsState(s.blendMode, Defaults, NoErrors)
  }

  // ---------------------------------------------------------------------
  // Properties

  /** Every slider is defined once, under its own name, with the bounds the
      store clamps to, a step of one and a default inside the range. */
  lemma DefinitionsAgree()
    ensures forall k :: 0 <= k < |Definitions| ==> DefinitionOf(Definitions[k].id) == Definitions[k]
    ensures forall id: ControlId :: Find(DefinitionOf(id).name) == Some(DefinitionOf(id))
    ensures forall id: ControlId :: DefinitionOf(id).min as real == Store.Lo(id) && DefinitionOf(id).max as real == Store.Hi(id)
    ensures forall id: ControlId :: DefinitionOf(id).min <= DefinitionOf(id).defaultValue <= DefinitionOf(id).max
    ensures forall id: ControlId :: DefinitionOf(id).step == 1
    ensures Store.ControlsInRange(Defaults)
  {
    DefinitionsIndexed();
    AllFindOwnName();
    AllBounds();
    DefaultsInRange();
  }

  lemma AllFindOwnName()
    ensures forall id: ControlId :: Find(DefinitionOf(id).name) == Some(DefinitionOf(id))
  {
    forall id: ControlId
      ensures Find(DefinitionOf(id).name) == Some(DefinitionOf(id))
    {
      FindsOwnName(id);
    }
  }

  lemma AllBounds()
    ensures forall id: ControlId :: DefinitionOf(id).min as real == Store.Lo(id) && DefinitionOf(id).max as real == Store.Hi(id)
  {
    forall id: ControlId
      ensures DefinitionOf(id).min as real == Store.Lo(id) && DefinitionOf(id).max as real == Store.Hi(id)
    {
      DefinitionBounds(id);
    }
  }

  /** Every default lies in its slider's range, every step is one, and the
      defaults are controls the store accepts. */
  lemma DefaultsInRange()
    ensures forall id: ControlId :: DefinitionOf(id).min <= DefinitionOf(id).defaultValue <= DefinitionOf(id).max
    ensures forall id: ControlId :: DefinitionOf(id).step == 1
    ensures Store.ControlsInRange(Defaults)
  {
  }

  /** Each definition is the one its slider's id selects. */
  lemma DefinitionsIndexed()
    ensures forall k :: 0 <= k < |Definitions| ==> DefinitionOf(Definitions[k].id) == Definitions[k]
  {
  }

  /** Looking a slider up by its own name finds its definition. */
  lemma FindsOwnName(id: ControlId)
    ensures Find(DefinitionOf(id).name) == Some(DefinitionOf(id))
  {
    match id
    case Strength =>
    case Middle =>
    case Spread =>
    case SatDarker => assert "satDarker" != "spread" by { assert "satDarker"[1] == 'a'; }
    case SatLighter =>
      assert "satLighter" != "spread" by { assert "satLighter"[1] == 'a'; }
      assert "satLighter" != "satDarker" by { assert "satLighter"[3] == 'L'; }
  }

  /** A slider's number range is the range the store clamps it to. */
  lemma DefinitionBounds(id: ControlId)
    ensures DefinitionOf(id).min as real == Store.Lo(id) && DefinitionOf(id).max as real == Store.Hi(id)
  {
  }

  /** A definition found by name is the definition of its own slider. */
  lemma FoundDefinition(name: string)
    requires Find(name).Some?
    ensures DefinitionOf(Find(name).value.id) == Find(name).value
  {
    DefinitionsIndexed();
  }

  /** Whole values inside every slider's range. */
  predicate Valid(c: Store.Controls) {
    Store.ControlsInRange(c)
    && IsInteger(c.strength) && IsInteger(c.middle) && IsInteger(c.spread) && IsInteger(c.satDarker) && IsInteger(c.satLighter)
  }

  /** Every update keeps the sliders whole and in range, so an accepted value
      passes the store's clamp unchanged. */
  lemma UpdateKeepsValid(s: ControlsState, name: string, v: ControlValue, fraction: string -> Option<real>)
    requires WellFormed(s) && Valid(s.values)
    ensures Valid(UpdateControl(s, name, v, fraction).state.values)
    ensures var r := UpdateControl(s, name, v, fraction);
      r.accepted ==> var id := Find(name).value.id;
        Store.ClampControl(id, Store.Get(r.state.values, id)) == Store.Get(r.state.values, id)
  {
    var r := UpdateControl(s, name, v, fraction);
    if r.accepted {
      var d := Find(name).value;
      var x := NumberOfValue(v, fraction).value;
      FoundDefinition(name);
      DefinitionBounds(d.id);
      RoundBetween(x, d.min, d.max);
      SetKeepsValid(s.values, d.id, Round(x));
    }
  }

  /** Storing a whole value inside a slider's range keeps the sliders valid. */
  lemma SetKeepsValid(c: Store.Controls, id: ControlId, n: int)
    requires Valid(c) && Store.Lo(id) <= n as real <= Store.Hi(id)
    ensures Valid(Store.Set(c, id, n as real))
  {
  }

  /** An accepted update clears the only error there was; a refused one for a
      known slider always leaves an error behind. */
  lemma UpdateErrors(s: ControlsState, name: string, v: ControlValue, fraction: string -> Option<real>)
    requires WellFormed(s) && Find(name).Some?
    requires forall other: ControlId :: other != Find(name).value.id ==> s.errors[other].None?
    ensures UpdateControl(s, name, v, fraction).accepted <==> !HasErrors(UpdateControl(s, name, v, fraction).state)
  {
    var r := UpdateControl(s, name, v, fraction);
    var id := Find(name).value.id;
    if r.accepted {
      assert forall other: ControlId :: r.state.errors[other].None? by {
        forall other: ControlId
          ensures r.state.errors[other].None?
        {
          if other != id {
            assert r.state.errors[other] == s.errors[other];
          }
        }
      }
    } else {
      assert r.state.errors[id].Some?;
    }
  }

  /** Repeating an update is the same as doing it once. */
  lemma UpdateIdempotent(s: ControlsState, name: string, v: ControlValue, fraction: string -> Option<real>)
    requires WellFormed(s)
    ensures var once := UpdateControl(s, name, v, fraction);
      UpdateControl(once.state, name, v, fraction) == once
  {
    match Find(name)
    case None =>
    case Some(d) =>
      match NumberOfValue(v, fraction)
      case None => InvalidIdempotent(s, name, v, fraction);
      case Some(x) =>
        if x < d.min as real || x > d.max as real {
          OutOfRangeIdempotent(s, name, v, fraction);
        } else {
          AcceptedIdempotent(s, name, v, fraction);
        }
  }

  /** A value that is not a number only sets the slider's error, and
      setting it again changes nothing. */
  lemma InvalidIdempotent(s: ControlsState, name: string, v: ControlValue, fraction: string -> Option<real>)
    requires WellFormed(s) && Find(name).Some? && NumberOfValue(v, fraction).None?
    ensures var once := UpdateControl(s, name, v, fraction);
      UpdateControl(once.state, name, v, fraction) == once
  {
    var d := Find(name).value;
    var t := s.(errors := s.errors[d.id := Some(InvalidNumber)]);
    assert UpdateControl(s, name, v, fraction) == Update(false, t);
    assert t.errors[d.id := Some(InvalidNumber)] == t.errors;
  }

  /** A value out of range only sets the slider's error, and setting it
      again changes nothing. */
  lemma OutOfRangeIdempotent(s: ControlsState, name: string, v: ControlValue, fraction: string -> Option<real>)
    requires WellFormed(s) && Find(name).Some? && NumberOfValue(v, fraction).Some?
    requires var d, x := Find(name).value, NumberOfValue(v, fraction).value;
      x < d.min as real || x > d.max as real
    ensures var once := UpdateControl(s, name, v, fraction);
      UpdateControl(once.state, name, v, fraction) == once
  {
    var d := Find(name).value;
    var t := s.(errors := s.errors[d.id := Some(OutOfRange(d.min, d.max))]);
    assert UpdateControl(s, name, v, fraction) == Update(false, t);
    assert t.errors[d.id := Some(OutOfRange(d.min, d.max))] == t.errors;
  }

  /** An accepted update stores the rounded value, and storing it again
      changes nothing. */
  lemma AcceptedIdempotent(s: ControlsState, name: string, v: ControlValue, fraction: string -> Option<real>)
    requires WellFormed(s) && Find(name).Some?
    requires UpdateControl(s, name, v, fraction).accepted
    ensures var once := UpdateControl(s, name, v, fraction);
      UpdateControl(once.state, name, v, fraction) == once
  {
    var d := Find(name).value;
    var t := UpdateControl(s, name, v, fraction).state;
    var n := Round(NumberOfValue(v, fraction).value) as real;
    assert t.errors[d.id := None] == t.errors;
    SetStored(t.values, d.id, n);
  }

  /** Storing the value a slider already holds changes nothing. */
  lemma SetStored(c: Store.Controls, id: ControlId, v: real)
    requires Store.Get(c, id) == v
    ensures Store.Set(c, id, v) == c
  {
    match id
    case Strength =>
    case Middle =>
    case Spread =>
    case SatDarker =>
    case SatLighter =>
  }

  /** Resetting forgets everything but the mode: two states with the same
      mode reset to the same state, the composable's initial one. */
  lemma ResetIsInitial(s: ControlsState)
    ensures ResetControls(s) == Initial(s.blendMode)
  {
  }
}

=== FILE: easing.dfy ===
/** The intensity envelopes of `src/utils/tonal/easing.ts`: a quadratic bump,
    a cubic Bézier with fixed end points, the curve the blend controls shape,
    and the fold that turns the curve into a blend intensity. */
module Easing {
  import opened JsMath

  /** `easeInOutQuad`: `4x(1 - x)` with `x = position / range`, and 0 for an
      empty range. */
  function EaseInOutQuad(range: real, position: real): (e: real)
    ensures range == 0.0 ==> e == 0.0
    ensures 0.0 < range && 0.0 <= position <= range ==> 0.0 <= e <= 1.0
  {
    if range == 0.0 then 0.0
    else
      var x := position / range;
      if 0.0 < range && 0.0 <= position <= range then
        QuadUnit(x);
        4.0 * x * (1.0 - x)
      else 4.0 * x * (1.0 - x)
  }

  lemma QuadUnit(x: real)
    ensures 4.0 * x * (1.0 - x) <= 1.0
    ensures 0.0 <= x <= 1.0 ==> 0.0 <= 4.0 * x * (1.0 - x)
  {
    var d := 2.0 * x - 1.0;
    assert 1.0 - 4.0 * x * (1.0 - x) == d * d;
    if d >= 0.0 {
      MulNonNegative(d, d);
    } else {
      MulNonNegative(-d, -d);
      assert (-d) * (-d) == d * d;
    }
    if 0.0 <= x <= 1.0 {
      MulUnit(x, 1.0 - x);
      assert 4.0 * x * (1.0 - x) == 4.0 * (x * (1.0 - x));
    }
  }

  /** The envelope is symmetric about the middle of its range ... */
  lemma EaseSymmetric(range: real, position: real)
    ensures EaseInOutQuad(range, position) == EaseInOutQuad(range, range - position)
  {
    if range != 0.0 {
      DivComplement(position, range);
    }
  }

  /** ... and reaches 1 exactly there. */
  lemma EasePeak(range: real)
    requires range != 0.0
    ensures EaseInOutQuad(range, range / 2.0) == 1.0
  {
    assert (range / 2.0) / range == 0.5;
  }

  datatype Point = Point(x: real, y: real)

  /** The control points of `cubicBezier(p1x, p1y, p2x, p2y)`; the end points
      are fixed at (0, 0) and (1, 1). */
  datatype Bezier = Bezier(p1x: real, p1y: real, p2x: real, p2y: real)

  /** One coordinate of the curve, in the Bernstein form the source writes
      out, with first and last control values 0 and 1. */
  function Bernstein(c1: real, c2: real, t: real): real {
    var t1 := 1.0 - t;
    var t1Squared := t1 * t1;
    var t1Cubed := t1Squared * t1;
    var t2 := t * t;
    var t3 := t2 * t;
    t1Cubed * 0.0 + 3.0 * t1Squared * t * c1 + 3.0 * t1 * t2 * c2 + t3 * 1.0
  }

  /** The point of the curve at parameter `t`. */
  function Eval(c: Bezier, t: real): (p: Point)
    ensures t == 0.0 ==> p == Point(0.0, 0.0)
    ensures t == 1.0 ==> p == Point(1.0, 1.0)
  {
    Point(Bernstein(c.p1x, c.p2x, t), Bernstein(c.p1y, c.p2y, t))
  }

  /** Control values in [0, 1] keep the coordinate in [0, 1] on [0, 1]. */
  lemma BernsteinUnit(c1: real, c2: real, t: real)
    requires 0.0 <= c1 <= 1.0 && 0.0 <= c2 <= 1.0 && 0.0 <= t <= 1.0
    ensures 0.0 <= Bernstein(c1, c2, t) <= 1.0
  {
    var t1 := 1.0 - t;
    var t1Squared := t1 * t1;
    var t2 := t * t;
    MulNonNegative(t1, t1);
    MulNonNegative(t, t);
    MulNonNegative(3.0 * t1Squared, t);
    MulNonNegative(3.0 * t1, t2);
    MulNonNegative(t2, t);
    MulNonNegative(t1Squared, t1);
    WeightedUnit(c1, c2, 3.0 * t1Squared * t, 3.0 * t1 * t2, t2 * t, t1Squared * t1);
  }

  /** A combination of two values in [0, 1] with non-negative weights that
      leave room for a fourth non-negative weight stays in [0, 1]. */
  lemma WeightedUnit(c1: real, c2: real, a: real, b: real, t3: real, rest: real)
    requires 0.0 <= c1 <= 1.0 && 0.0 <= c2 <= 1.0
    requires 0.0 <= a && 0.0 <= b && 0.0 <= t3 && 0.0 <= rest
    requires a + b + t3 + rest == 1.0
    ensures 0.0 <= rest * 0.0 + a * c1 + b * c2 + t3 * 1.0 <= 1.0
  {
    MulUnit(a, c1);
    MulUnit(b, c2);
    var u := a * c1;
    var v := b * c2;
    assert 0.0 <= u <= a && 0.0 <= v <= b;
    assert rest * 0.0 + u + v + t3 * 1.0 == u + v + t3;
  }

  /** When the two control values add up to 1 the coordinate is point
      symmetric about (1/2, 1/2). */
  lemma BernsteinMirror(c1: real, c2: real, t: real)
    requires c1 + c2 == 1.0
    ensures Bernstein(c1, c2, 1.0 - t) == 1.0 - Bernstein(c1, c2, t)
  {
    var t1 := 1.0 - t;
    assert Bernstein(c1, c2, t) == 3.0 * (t1 * t1) * t * c1 + 3.0 * t1 * (t * t) * c2 + t * t * t;
    assert Bernstein(c1, c2, 1.0 - t) == 3.0 * (t * t) * t1 * c1 + 3.0 * t * (t1 * t1) * c2 + t1 * t1 * t1;
    assert 1.0 == t1 * t1 * t1 + 3.0 * (t1 * t1) * t + 3.0 * t1 * (t * t) + t * t * t;
  }

  /** At `t = 1/2` a coordinate with control values 0 and 1 is 1/2, and so is
      one whose control values add up to 1. */
  lemma BezierMidpoint(c: Bezier)
    ensures c.p1y == 0.0 && c.p2y == 1.0 ==> Eval(c, 0.5).y == 0.5
    ensures c.p1x + c.p2x == 1.0 ==> Eval(c, 0.5).x == 0.5
  {
    if c.p1x + c.p2x == 1.0 {
      BernsteinMirror(c.p1x, c.p2x, 0.5);
    }
  }

  /** `getIntensityCurve(middle, spread)`: the x-controls start at the
      ease-in-out pair (0.42, 0.58), are pulled toward the side `middle`
      leans to, then moved apart by `spread`. The closed forms say where they
      end up. */
  function IntensityCurve(middle: real, spread: real): (c: Bezier)
    ensures c.p1y == 0.0 && c.p2y == 1.0
    ensures Eval(c, 0.5).y == 0.5
    ensures middle <= 0.5 ==>
      c.p1x == 1.0 - 1.16 * middle * (1.0 - spread) && c.p2x == 0.58 - 1.16 * middle * spread
    ensures middle > 0.5 ==>
      c.p1x == 0.42 + 1.16 * (1.0 - middle) * spread && c.p2x == 1.16 * (1.0 - middle) * (1.0 - spread)
  {
    var factor := Abs(middle / 0.5 - 1.0);
    var c := if middle <= 0.5 then
      var p1x := 0.42 + (1.0 - 0.42) * factor;
      var effectiveSpread := (1.0 - p1x) * spread;
      Bezier(p1x + effectiveSpread, 0.0, 0.58 - effectiveSpread, 1.0)
    else
      var p2x := 0.58 - 0.58 * factor;
      var effectiveSpread := p2x * spread;
      Bezier(0.42 + effectiveSpread, 0.0, p2x - effectiveSpread, 1.0);
    BezierMidpoint(c);
    c
  }

  /** For `middle` and `spread` in [0, 1] both x-controls stay in [0, 1]. */
  lemma IntensityCurveUnit(middle: real, spread: real)
    requires 0.0 <= middle <= 1.0 && 0.0 <= spread <= 1.0
    ensures var c := IntensityCurve(middle, spread);
      0.0 <= c.p1x <= 1.0 && 0.0 <= c.p2x <= 1.0
  {
    if middle <= 0.5 {
      MulUnit(1.16 * middle, 1.0 - spread);
      MulUnit(1.16 * middle, spread);
    } else {
      MulUnit(1.16 * (1.0 - middle), spread);
      MulUnit(1.16 * (1.0 - middle), 1.0 - spread);
    }
  }

  /** A centred `middle` gives x-controls that add up to 1. */
  lemma IntensityCurveCentred(spread: real)
    ensures IntensityCurve(0.5, spread).p1x + IntensityCurve(0.5, spread).p2x == 1.0
  {
  }

  /** The fold of `getIntensity` for a curve whose midpoint height is 1/2:
      the progress doubled below 1/2, mirrored at and above it. */
  function Fold(u: real): real {
    if u < 0.5 then 2.0 * u else 2.0 - 2.0 * u
  }

  lemma FoldUnit(u: real)
    requires 0.0 <= u <= 1.0
    ensures 0.0 <= Fold(u) <= 1.0
    ensures Fold(1.0 - u) == Fold(u)
  {
  }

  /** `getIntensity(curve, i, luminance)`: 0 at both ends, otherwise the
      curve's x at `i / luminance` divided by the height of the curve's
      midpoint and folded back above 1. */
  function GetIntensity(c: Bezier, i: real, luminance: real): (v: real)
    requires i == 0.0 || i == luminance || (luminance != 0.0 && Eval(c, 0.5).y != 0.0)
    ensures i == 0.0 || i == luminance ==> v == 0.0
  {
    if i == 0.0 || i == luminance then 0.0
    else
      var progress := Eval(c, i / luminance).x;
      var half := Eval(c, 0.5).y;
      var progressN := progress / half;
      if progress < half then progressN else 1.0 - (progressN - 1.0)
  }

  /** On a curve built by `IntensityCurve` the intensity is the fold of the
      curve's x. */
  lemma IntensityIsFold(middle: real, spread: real, i: real, luminance: real)
    requires luminance != 0.0 && i != 0.0 && i != luminance
    ensures var c := IntensityCurve(middle, spread);
      GetIntensity(c, i, luminance) == Fold(Eval(c, i / luminance).x)
  {
  }

  /** Between the ends the intensity lies in [0, 1], so it is always a valid
      blend intensity. */
  lemma IntensityUnit(middle: real, spread: real, i: real, luminance: real)
    requires 0.0 <= middle <= 1.0 && 0.0 <= spread <= 1.0
    requires 0.0 <= i <= luminance
    ensures 0.0 <= GetIntensity(IntensityCurve(middle, spread), i, luminance) <= 1.0
  {
    var c := IntensityCurve(middle, spread);
    if i != 0.0 && i != luminance {
      IntensityCurveUnit(middle, spread);
      var t := i / luminance;
      assert 0.0 <= t <= 1.0;
      BernsteinUnit(c.p1x, c.p2x, t);
      IntensityIsFold(middle, spread, i, luminance);
      FoldUnit(Eval(c, t).x);
    }
  }

  /** With `middle` centred the intensity is symmetric: step `i` and step
      `luminance - i` get the same value. */
  lemma IntensitySymmetric(spread: real, i: real, luminance: real)
    requires luminance != 0.0
    ensures var c := IntensityCurve(0.5, spread);
      GetIntensity(c, i, luminance) == GetIntensity(c, luminance - i, luminance)
  {
    var c := IntensityCurve(0.5, spread);
    if i != 0.0 && i != luminance {
      var t := i / luminance;
      DivComplement(i, luminance);
      IntensityCurveCentred(spread);
      BernsteinMirror(c.p1x, c.p2x, t);
      IntensityIsFold(0.5, spread, i, luminance);
      IntensityIsFold(0.5, spread, luminance - i, luminance);
      var u := Eval(c, t).x;
      assert Eval(c, 1.0 - t).x == 1.0 - u;
      assert Fold(1.0 - u) == Fold(u);
    }
  }
}

=== FILE: indices.dfy ===
/** The index lists both the store and the strip builder derive:
    `Array.from(new Set([...indices, baseIndex])).sort((a, b) => a - b)`,
    the given indices plus the base index, each once, ascending. */
module Indices {
  predicate StrictlyIncreasing(s: seq<int>) {
    forall i, j :: 0 <= i < j < |s| ==> s[i] < s[j]
  }

  /** The tone indices of the extended strip and of the key strip; the store
      and the strip builder declare the same two lists. */
  const ExtendedScaleIndices: seq<int> := [0, 5, 10, 15, 20, 25, 30, 35, 40, 50, 60, 70, 80, 90, 95, 98, 99, 100]
  const KeyScaleIndices: seq<int> := [0, 10, 20, 25, 30, 35, 40, 50, 60, 70, 80, 90, 95, 98, 99, 100]

  /** The integers `lo, lo + 1, ..., hi - 1`. */
  function Range(lo: int, hi: int): (r: seq<int>)
    ensures |r| == if lo <= hi then hi - lo else 0
    ensures forall k :: 0 <= k < |r| ==> r[k] == lo + k
    decreases hi - lo
  {
    if hi <= lo then [] else [lo] + Range(lo + 1, hi)
  }

  /** All 101 tone indices, `0..100`. */
  const FullIndices: seq<int> := Range(0, 101)

  /** `x` put into its place in an ascending list, unless it is already
      there. */
  function Insert(x: int, s: seq<int>): (r: seq<int>)
    requires StrictlyIncreasing(s)
    ensures StrictlyIncreasing(r)
    ensures forall v :: v in r <==> v == x || v in s
    ensures |r| == if x in s then |s| else |s| + 1
  {
    if s == [] then [x]
    else if x < s[0] then [x] + s
    else if x == s[0] then s
    else
      var rest := Insert(x, s[1..]);
      assert forall v :: v in s <==> v == s[0] || v in s[1..];
      assert forall j :: 0 <= j < |rest| ==> s[0] < rest[j] by {
        forall j | 0 <= j < |rest|
          ensures s[0] < rest[j]
        {
          assert rest[j] in rest;
        }
      }
      [s[0]] + rest
  }

  /** The distinct values of `xs`, ascending. */
  function SortUnique(xs: seq<int>): (r: seq<int>)
    ensures StrictlyIncreasing(r)
    ensures forall v :: v in r <==> v in xs
    ensures |r| <= |xs|
  {
    if xs == [] then []
    else
      var r := Insert(xs[|xs| - 1], SortUnique(xs[..|xs| - 1]));
      assert forall v :: v in xs <==> v == xs[|xs| - 1] || v in xs[..|xs| - 1];
      r
  }

  /** The indices plus the base index, deduplicated and ascending. */
  function WithBase(indices: seq<int>, base: int): (r: seq<int>)
    ensures StrictlyIncreasing(r)
    ensures base in r
    ensures forall v :: v in r <==> v == base || v in indices
  {
    SortUnique(indices + [base])
  }

  /** A strictly increasing list is its own sorted set, so two with the same
      members are equal. */
  lemma {:induction false} IncreasingUnique(a: seq<int>, b: seq<int>)
    requires StrictlyIncreasing(a) && StrictlyIncreasing(b)
    requires forall v :: v in a <==> v in b
    ensures a == b
  {
    SameMembersEmpty(a, b);
    if a != [] {
      assert a[0] == b[0] by {
        assert a[0] in b && b[0] in a;
      }
      assert forall v :: v in a[1..] <==> v in b[1..] by {
        forall v
          ensures v in a[1..] <==> v in b[1..]
        {
          assert v in a <==> v == a[0] || v in a[1..];
          assert v in b <==> v == b[0] || v in b[1..];
          assert a[0] !in a[1..] && b[0] !in b[1..];
        }
      }
      IncreasingUnique(a[1..], b[1..]);
      assert a == [a[0]] + a[1..];
      assert b == [b[0]] + b[1..];
    }
  }

  lemma SameMembersEmpty(a: seq<int>, b: seq<int>)
    requires forall v :: v in a <==> v in b
    ensures a == [] <==> b == []
  {
    if a != [] {
      var x := a[0];
      assert x in a;
      assert x in b;
    }
    if b != [] {
      var x := b[0];
      assert x in b;
      assert x in a;
    }
  }

  /** Sorting a list that is already ascending and distinct changes nothing,
      and adding a base index already present changes nothing either. */
  lemma WithBaseOfIncreasing(indices: seq<int>, base: int)
    requires StrictlyIncreasing(indices) && base in indices
    ensures WithBase(indices, base) == indices
  {
    IncreasingUnique(WithBase(indices, base), indices);
  }

  /** Both index lists are ascending and free of duplicates. */
  lemma IndexListsIncreasing()
    ensures StrictlyIncreasing(ExtendedScaleIndices) && |ExtendedScaleIndices| == 18
    ensures StrictlyIncreasing(KeyScaleIndices) && |KeyScaleIndices| == 16
    ensures StrictlyIncreasing(FullIndices) && |FullIndices| == 101
  {
    assert forall i :: 0 <= i < 17 ==> ExtendedScaleIndices[i] < ExtendedScaleIndices[i + 1];
    assert forall i :: 0 <= i < 15 ==> KeyScaleIndices[i] < KeyScaleIndices[i + 1];
    AdjacentIncreasing(ExtendedScaleIndices);
    AdjacentIncreasing(KeyScaleIndices);
  }

  /** Ascending neighbours make an ascending list. */
  lemma {:induction false} AdjacentIncreasing(s: seq<int>)
    requires forall i :: 0 <= i < |s| - 1 ==> s[i] < s[i + 1]
    ensures StrictlyIncreasing(s)
  {
    if |s| > 1 {
      AdjacentIncreasing(s[1..]);
      assert forall j :: 0 < j < |s| ==> s[0] < s[j] by {
        forall j | 0 < j < |s|
          ensures s[0] < s[j]
        {
          if j > 1 {
            assert s[1..][0] < s[1..][j - 1];
          }
        }
      }
    }
  }

  /** A list without duplicates has as many distinct members as elements. */
  lemma {:induction false} DistinctCount(s: seq<int>)
    requires StrictlyIncreasing(s)
    ensures |set v | v in s| == |s|
  {
    if s != [] {
      var t := s[1..];
      DistinctCount(t);
      assert (set v | v in s) == {s[0]} + (set v | v in t) by {
        assert forall v :: v in s <==> v == s[0] || v in t;
      }
      assert s[0] !in (set v | v in t);
    }
  }

  /** An ascending list holding every member of another ascending list is at
      least as long. */
  lemma CoverLength(a: seq<int>, b: seq<int>)
    requires StrictlyIncreasing(a) && StrictlyIncreasing(b)
    requires forall v :: v in a ==> v in b
    ensures |a| <= |b|
  {
    DistinctCount(a);
    DistinctCount(b);
    var sa, sb := set v | v in a, set v | v in b;
    assert sb == sa + (sb - sa);
    assert sa * (sb - sa) == {};
  }

  /** Adding a base index never shortens a list: the result is at least as
      long as the ascending list it extends. */
  lemma WithBaseLength(indices: seq<int>, base: int)
    requires StrictlyIncreasing(indices)
    ensures |indices| <= |WithBase(indices, base)|
  {
    CoverLength(indices, WithBase(indices, base));
  }
}

=== FILE: js_math.dfy ===
/** The JavaScript number operations the colour engine relies on, stated on
    unbounded reals and integers. */
module JsMath {

  /** `Math.round`: the nearest integer, halves rounding toward +infinity. */
  function Round(x: real): int {
    (x + 0.5).Floor
  }

  /** `clamp(v, lo, hi) = min(max(v, lo), hi)` on numbers. */
  function Clamp(v: real, lo: real, hi: real): real {
    if v < lo then (if lo < hi then lo else hi) else if v < hi then v else hi
  }

  /** The same clamp on integers. */
  function ClampInt(v: int, lo: int, hi: int): int {
    if v < lo then (if lo < hi then lo else hi) else if v < hi then v else hi
  }

  function Max(a: real, b: real): real {
    if a < b then b else a
  }

  function Min(a: real, b: real): real {
    if a < b then a else b
  }

  function Abs(x: real): real {
    if x < 0.0 then -x else x
  }

  /** `Math.trunc`: the integer part, rounding toward zero. */
  function Trunc(x: real): int {
    if x >= 0.0 then x.Floor else -((-x).Floor)
  }

  /** The `%` operator on numbers: the remainder takes the sign of `x`. */
  function Rem(x: real, m: real): real
    requires m != 0.0
  {
    x - m * Trunc(x / m) as real
  }

  /** The `%` operator on integer-valued numbers with a positive divisor:
      a negative dividend gives a negative (or zero) remainder. */
  function IntRem(i: int, m: int): int
    requires m > 0
  {
    if i >= 0 then i % m else -((-i) % m)
  }

  predicate IsInteger(x: real) {
    x.Floor as real == x
  }

  /** Round is the nearest integer, with ties going up. */
  lemma RoundBounds(x: real)
    ensures x - 0.5 < Round(x) as real <= x + 0.5
  {
  }

  lemma RoundOfInteger(n: int)
    ensures Round(n as real) == n
  {
  }

  lemma RoundMonotone(x: real, y: real)
    requires x <= y
    ensures Round(x) <= Round(y)
  {
  }

  /** A value between two integers rounds to a value between them. */
  lemma RoundBetween(x: real, lo: int, hi: int)
    requires lo as real <= x <= hi as real
    ensures lo <= Round(x) <= hi
  {
    RoundOfInteger(lo);
    RoundOfInteger(hi);
    RoundMonotone(lo as real, x);
    RoundMonotone(x, hi as real);
  }

  lemma ClampBounds(v: real, lo: real, hi: real)
    requires lo <= hi
    ensures lo <= Clamp(v, lo, hi) <= hi
    ensures lo <= v <= hi ==> Clamp(v, lo, hi) == v
  {
  }

  lemma ClampIntBounds(v: int, lo: int, hi: int)
    requires lo <= hi
    ensures lo <= ClampInt(v, lo, hi) <= hi
    ensures lo <= v <= hi ==> ClampInt(v, lo, hi) == v
  {
  }

  /** The remainder of a value strictly inside (-m, m) is the value itself. */
  lemma RemSmall(x: real, m: real)
    requires m > 0.0 && -m < x < m
    ensures Rem(x, m) == x
  {
    assert -1.0 < x / m < 1.0 by {
      DivBounds(x, m);
    }
  }

  lemma DivBounds(x: real, m: real)
    requires m > 0.0 && -m < x < m
    ensures -1.0 < x / m < 1.0
  {
  }

  /** The remainder of a non-negative value lies in [0, m). */
  lemma RemNonNegative(x: real, m: real)
    requires x >= 0.0 && m > 0.0
    ensures 0.0 <= Rem(x, m) < m
  {
    var q := x / m;
    assert q >= 0.0;
    var t := q.Floor as real;
    assert Trunc(q) as real == t;
    assert t <= q < t + 1.0;
    assert m * q == x;
    MulLe(t, q, m);
    MulLt(q, t + 1.0, m);
    assert m * (t + 1.0) == m * t + m;
    assert x < m * t + m;
    assert Rem(x, m) == x - m * t;
  }

  lemma MulLe(a: real, b: real, m: real)
    requires a <= b && m > 0.0
    ensures m * a <= m * b
  {
  }

  lemma MulLt(a: real, b: real, m: real)
    requires a < b && m > 0.0
    ensures m * a < m * b
  {
  }

  /** Scaling by a factor in [0, 1] moves a non-negative value toward 0. */
  lemma MulUnit(a: real, f: real)
    requires a >= 0.0 && 0.0 <= f <= 1.0
    ensures 0.0 <= a * f <= a
  {
    MulLe(f, 1.0, a + 1.0);
    if a > 0.0 {
      MulLe(f, 1.0, a);
      MulLe(0.0, f, a);
    }
  }

  lemma IntRemSmall(i: int, m: int)
    requires m > 0 && 0 <= i < m
    ensures IntRem(i, m) == i
  {
  }

  lemma MulNonNegative(x: real, y: real)
    requires 0.0 <= x && 0.0 <= y
    ensures 0.0 <= x * y
  {
    if x > 0.0 {
      MulLe(0.0, y, x);
    }
  }

  /** Dividing a difference by its first term. */
  lemma DivComplement(p: real, r: real)
    requires r != 0.0
    ensures (r - p) / r == 1.0 - p / r
  {
    assert r / r == 1.0;
    assert (r - p) / r == r / r - p / r;
  }
}

=== FILE: js_text.dfy ===
/** The JavaScript string operations the model relies on: trimming, ASCII
    case mapping, first-occurrence replacement, slicing, and the radix-16 and
    decimal conversions between numbers and strings. */
module JsText {
  import opened Wrappers

  /** The characters `String.prototype.trim` and the regular-expression class
      `\s` treat as white space (ECMAScript WhiteSpace and LineTerminator). */
  predicate IsSpace(c: char) {
    || c == '\t' || c == '\n' || c == '\U{000B}' || c == '\U{000C}' || c == '\r'
    || c == ' ' || c == '\U{00A0}' || c == '\U{1680}'
    || ('\U{2000}' <= c <= '\U{200A}')
    || c == '\U{2028}' || c == '\U{2029}' || c == '\U{202F}' || c == '\U{205F}'
    || c == '\U{3000}' || c == '\U{FEFF}'
  }

  function TrimStart(s: string): (r: string)
    ensures |r| <= |s| && r == s[|s| - |r|..]
    ensures |r| > 0 ==> !IsSpace(r[0])
  {
    if |s| > 0 && IsSpace(s[0]) then TrimStart(s[1..]) else s
  }

  function TrimEnd(s: string): (r: string)
    ensures |r| <= |s| && r == s[..|r|]
    ensures |r| > 0 ==> !IsSpace(r[|r| - 1])
  {
    if |s| > 0 && IsSpace(s[|s| - 1]) then TrimEnd(s[..|s| - 1]) else s
  }

  /** Everything `TrimStart` drops is white space. */
  lemma {:induction false} TrimStartDropsSpace(s: string)
    ensures forall k :: 0 <= k < |s| - |TrimStart(s)| ==> IsSpace(s[k])
    decreases |s|
  {
    if |s| > 0 && IsSpace(s[0]) {
      TrimStartDropsSpace(s[1..]);
      assert forall k :: 1 <= k < |s| ==> s[k] == s[1..][k - 1];
    }
  }

  /** Everything `TrimEnd` drops is white space. */
  lemma {:induction false} TrimEndDropsSpace(s: string)
    ensures forall k :: |TrimEnd(s)| <= k < |s| ==> IsSpace(s[k])
    decreases |s|
  {
    if |s| > 0 && IsSpace(s[|s| - 1]) {
      TrimEndDropsSpace(s[..|s| - 1]);
    }
  }

  /** `String.prototype.trim`: removes the white space at both ends. */
  function Trim(s: string): (r: string)
    ensures |r| <= |s|
    ensures |r| > 0 ==> !IsSpace(r[0]) && !IsSpace(r[|r| - 1])
  {
    TrimEnd(TrimStart(s))
  }

  /** A string with no white space at either end is its own trim. */
  lemma TrimNoSpace(s: string)
    requires |s| > 0 ==> !IsSpace(s[0]) && !IsSpace(s[|s| - 1])
    ensures Trim(s) == s
  {
  }

  lemma TrimKeepsLength(s: string)
    requires |s| > 0 && !IsSpace(s[0]) && !IsSpace(s[|s| - 1])
    ensures |Trim(s)| == |s|
  {
    TrimNoSpace(s);
  }

  /** White space around a core that neither starts nor ends with white
      space trims away to exactly the core. */
  lemma TrimAround(pre: string, core: string, post: string)
    requires forall k :: 0 <= k < |pre| ==> IsSpace(pre[k])
    requires forall k :: 0 <= k < |post| ==> IsSpace(post[k])
    requires |core| > 0 && !IsSpace(core[0]) && !IsSpace(core[|core| - 1])
    ensures Trim(pre + core + post) == core
  {
    assert pre + core + post == pre + (core + post);
    TrimStartSpaces(pre, core + post);
    TrimEndSpaces(core, post);
  }

  lemma {:induction false} TrimStartSpaces(pre: string, rest: string)
    requires forall k :: 0 <= k < |pre| ==> IsSpace(pre[k])
    requires |rest| > 0 && !IsSpace(rest[0])
    ensures TrimStart(pre + rest) == rest
  {
    if pre == [] {
      assert pre + rest == rest;
    } else {
      assert (pre + rest)[1..] == pre[1..] + rest;
      TrimStartSpaces(pre[1..], rest);
    }
  }

  lemma {:induction false} TrimEndSpaces(core: string, post: string)
    requires forall k :: 0 <= k < |post| ==> IsSpace(post[k])
    requires |core| > 0 && !IsSpace(core[|core| - 1])
    ensures TrimEnd(core + post) == core
  {
    if post == [] {
      assert core + post == core;
    } else {
      var n := |core + post|;
      assert (core + post)[..n - 1] == core + post[..|post| - 1];
      TrimEndSpaces(core, post[..|post| - 1]);
    }
  }

  /** The position of the first `c` in `s`, or `|s|` when there is none. */
  function IndexOf(s: string, c: char): (i: nat)
    ensures i <= |s| && c !in s[..i]
    ensures i < |s| ==> s[i] == c
    ensures i == |s| ==> c !in s
  {
    if |s| == 0 then 0
    else if s[0] == c then 0
    else
      var i := 1 + IndexOf(s[1..], c);
      assert s[..i] == [s[0]] + s[1..][..i - 1];
      assert s == [s[0]] + s[1..];
      i
  }

  /** `String.prototype.replace(c, rep)` with a one-character string pattern:
      only the FIRST occurrence is replaced. */
  function ReplaceFirst(s: string, c: char, rep: string): (r: string)
    ensures c !in s ==> r == s
    ensures c in s ==> r == s[..IndexOf(s, c)] + rep + s[IndexOf(s, c) + 1..]
    ensures |r| == |s| || |r| == |s| - 1 + |rep|
  {
    var i := IndexOf(s, c);
    if i < |s| then s[..i] + rep + s[i + 1..] else s
  }

  lemma ReplaceFirstHead(s: string, c: char, rep: string)
    requires |s| > 0 && s[0] == c
    ensures ReplaceFirst(s, c, rep) == rep + s[1..]
  {
    assert IndexOf(s, c) == 0;
  }

  /** `String.prototype.slice(a, b)` for non-negative bounds. */
  function Slice(s: string, a: nat, b: nat): (r: string)
    ensures |r| <= |s|
    ensures a <= b <= |s| ==> r == s[a..b]
    ensures a <= b ==> |r| <= b - a
  {
    var lo := if a <= |s| then a else |s|;
    var hi := if b <= |s| then b else |s|;
    if lo <= hi then s[lo..hi] else ""
  }

  /** `String.prototype.toLowerCase` on the ASCII letters; every other
      character is left as it is. */
  function LowerChar(c: char): char {
    if 'A' <= c <= 'Z' then (c as int + 32) as char else c
  }

  function UpperChar(c: char): char {
    if 'a' <= c <= 'z' then (c as int - 32) as char else c
  }

  function ToLower(s: string): string {
    seq(|s|, k requires 0 <= k < |s| => LowerChar(s[k]))
  }

  /** No ASCII upper-case letter occurs. */
  predicate IsLower(s: string) {
    forall k :: 0 <= k < |s| ==> LowerChar(s[k]) == s[k]
  }

  /** No ASCII upper-case letter, checked one character at a time. */
  predicate NoUpper(s: string) {
    s == [] || (!('A' <= s[0] <= 'Z') && NoUpper(s[1..]))
  }

  /** Lower-casing changes nothing in a string without upper-case letters. */
  lemma {:induction false} ToLowerNoUpper(s: string)
    requires NoUpper(s)
    ensures ToLower(s) == s
  {
    if s != [] {
      ToLowerNoUpper(s[1..]);
      assert s == [s[0]] + s[1..];
      ToLowerAppend([s[0]], s[1..]);
    }
  }

  lemma ToLowerAppend(a: string, b: string)
    ensures ToLower(a + b) == ToLower(a) + ToLower(b)
  {
  }

  lemma ToLowerIsLower(s: string)
    ensures IsLower(ToLower(s))
  {
  }

  lemma ToLowerOfLower(s: string)
    requires IsLower(s)
    ensures ToLower(s) == s
  {
  }

  predicate IsHexDigit(c: char) {
    ('0' <= c <= '9') || ('a' <= c <= 'f') || ('A' <= c <= 'F')
  }

  predicate IsLowerHexDigit(c: char) {
    ('0' <= c <= '9') || ('a' <= c <= 'f')
  }

  predicate AllHex(s: string) {
    forall k :: 0 <= k < |s| ==> IsHexDigit(s[k])
  }

  function HexValue(c: char): (v: nat)
    requires IsHexDigit(c)
    ensures v < 16
  {
    if '0' <= c <= '9' then c as int - '0' as int
    else if 'a' <= c <= 'f' then c as int - 'a' as int + 10
    else c as int - 'A' as int + 10
  }

  /** The lower-case digit `Number.prototype.toString(16)` prints. */
  function HexChar(d: nat): (c: char)
    requires d < 16
    ensures IsLowerHexDigit(c) && IsHexDigit(c) && HexValue(c) == d
  {
    if d < 10 then ('0' as int + d) as char else ('a' as int + d - 10) as char
  }

  /** Lower-casing a hex digit keeps its value and makes it the printed digit. */
  lemma LowerHexDigit(c: char)
    requires IsHexDigit(c)
    ensures IsHexDigit(LowerChar(c)) && HexValue(LowerChar(c)) == HexValue(c)
    ensures HexChar(HexValue(c)) == LowerChar(c)
  {
  }

  /** `n.toString(16)` for a non-negative integer. */
  function ToHexString(n: nat): (r: string)
    ensures |r| >= 1
    ensures forall k :: 0 <= k < |r| ==> IsLowerHexDigit(r[k])
    decreases n
  {
    if n < 16 then [HexChar(n)] else ToHexString(n / 16) + [HexChar(n % 16)]
  }

  /** `s.padStart(n, c)`. */
  function PadStart(s: string, n: nat, c: char): (r: string)
    ensures |r| == if |s| >= n then |s| else n
  {
    if |s| >= n then s else seq(n - |s|, _ => c) + s
  }

  /** `n.toString(16).padStart(2, '0')`: the two-digit form of a byte. */
  function Hex2(n: nat): string {
    PadStart(ToHexString(n), 2, '0')
  }

  lemma Hex2Digits(n: nat)
    requires n < 256
    ensures Hex2(n) == [HexChar(n / 16), HexChar(n % 16)]
  {
    if n < 16 {
      assert ToHexString(n) == [HexChar(n)];
      assert Hex2(n) == ['0'] + [HexChar(n)];
      assert HexChar(0) == '0';
    } else {
      assert ToHexString(n / 16) == [HexChar(n / 16)];
    }
  }

  /** The numeric value of a run of hex digits, most significant first. */
  function HexNumber(d: string): nat
    requires AllHex(d)
  {
    if |d| == 0 then 0 else HexNumber(d[..|d| - 1]) * 16 + HexValue(d[|d| - 1])
  }

  /** The length of the longest prefix of hex digits. */
  function HexPrefixLength(s: string): (k: nat)
    ensures k <= |s| && AllHex(s[..k])
    ensures k < |s| ==> !IsHexDigit(s[k])
  {
    if |s| == 0 || !IsHexDigit(s[0]) then 0
    else
      var k := 1 + HexPrefixLength(s[1..]);
      assert s[..k] == [s[0]] + s[1..][..k - 1];
      k
  }

  /** `parseInt(s, 16)`: leading white space, an optional sign and an
      optional `0x`/`0X` prefix are skipped, then the longest run of hex digits
      is read; `None` is the `NaN` returned when that run is empty. */
  function ParseHexInt(s: string): Option<int> {
    ParseSignedHex(TrimStart(s))
  }

  /** The part of `parseInt(s, 16)` after the leading white space. */
  function ParseSignedHex(t: string): Option<int> {
    var negative := |t| > 0 && t[0] == '-';
    var u := if |t| > 0 && (t[0] == '-' || t[0] == '+') then t[1..] else t;
    var w := if |u| >= 2 && u[0] == '0' && (u[1] == 'x' || u[1] == 'X') then u[2..] else u;
    var k := HexPrefixLength(w);
    if k == 0 then None
    else
      var n: int := HexNumber(w[..k]);
      Some(if negative then -n else n)
  }

  lemma HexNumberSmall(d: string)
    requires AllHex(d) && |d| <= 2
    ensures HexNumber(d) <= (if |d| <= 1 then 15 else 255)
  {
    if |d| > 0 {
      HexNumberSmall(d[..|d| - 1]);
    }
  }

  /** `parseInt` of at most two characters reads a value in [-15, 255]: a
      sign leaves room for one digit only. */
  lemma ParseHexIntShort(s: string)
    requires |s| <= 2 && ParseHexInt(s).Some?
    ensures -15 <= ParseHexInt(s).value <= 255
  {
    ParseSignedHexShort(TrimStart(s));
  }

  lemma ParseSignedHexShort(t: string)
    requires |t| <= 2 && ParseSignedHex(t).Some?
    ensures -15 <= ParseSignedHex(t).value <= 255
  {
    var negative := |t| > 0 && t[0] == '-';
    var u := if |t| > 0 && (t[0] == '-' || t[0] == '+') then t[1..] else t;
    var w := if |u| >= 2 && u[0] == '0' && (u[1] == 'x' || u[1] == 'X') then u[2..] else u;
    var k := HexPrefixLength(w);
    assert negative ==> |w| <= 1;
    HexNumberSmall(w[..k]);
  }

  lemma HexDigitNotSpace(c: char)
    requires IsHexDigit(c)
    ensures !IsSpace(c)
  {
  }

  lemma HexPrefixOfTwo(a: char, b: char)
    requires IsHexDigit(a) && IsHexDigit(b)
    ensures HexPrefixLength([a, b]) == 2
  {
    assert [a, b][1..] == [b];
    assert [b][1..] == [];
  }

  lemma HexNumberOfTwo(a: char, b: char)
    requires IsHexDigit(a) && IsHexDigit(b)
    ensures HexNumber([a, b]) == 16 * HexValue(a) + HexValue(b)
  {
    assert [a, b][..1] == [a];
    assert [a][..0] == [];
    assert HexNumber([a]) == HexNumber([]) * 16 + HexValue(a);
    assert HexNumber([a, b]) == HexNumber([a]) * 16 + HexValue(b);
  }

  /** Two hex digits parse to the byte they spell. */
  lemma ParseTwoHexDigits(a: char, b: char)
    requires IsHexDigit(a) && IsHexDigit(b)
    ensures ParseHexInt([a, b]) == Some(16 * HexValue(a) + HexValue(b))
  {
    TrimHexPair(a, b);
    SignedHexPair(a, b);
  }

  lemma TrimHexPair(a: char, b: char)
    requires IsHexDigit(a)
    ensures TrimStart([a, b]) == [a, b]
  {
    HexDigitNotSpace(a);
  }

  lemma SignedHexPair(a: char, b: char)
    requires IsHexDigit(a) && IsHexDigit(b)
    ensures ParseSignedHex([a, b]) == Some(16 * HexValue(a) + HexValue(b))
  {
    HexPrefixOfTwo(a, b);
    HexNumberOfTwo(a, b);
    assert [a, b][..2] == [a, b];
  }

  function DigitChar(d: nat): (c: char)
    requires d < 10
    ensures '0' <= c <= '9'
  {
    ('0' as int + d) as char
  }

  /** `String(n)` for a non-negative integer. */
  function NatToDecimal(n: nat): (r: string)
    ensures |r| >= 1 && '0' <= r[0] <= '9'
    ensures forall k :: 0 <= k < |r| ==> '0' <= r[k] <= '9'
    decreases n
  {
    if n < 10 then [DigitChar(n)] else NatToDecimal(n / 10) + [DigitChar(n % 10)]
  }

  /** `String(n)` for an integer. */
  function IntToDecimal(n: int): string {
    if n < 0 then "-" + NatToDecimal(-n) else NatToDecimal(n)
  }

  predicate AllDigits(s: string) {
    forall k :: 0 <= k < |s| ==> '0' <= s[k] <= '9'
  }

  function DecimalNumber(s: string): nat
    requires AllDigits(s)
  {
    if |s| == 0 then 0
    else DecimalNumber(s[..|s| - 1]) * 10 + (s[|s| - 1] as int - '0' as int)
  }

  /** Reads an optionally `-`-signed, non-empty run of decimal digits: the
      integer strings `Number(...)` accepts and `String(...)` prints. */
  function ParseDecimal(s: string): Option<int> {
    if |s| > 0 && s[0] == '-' then
      if |s| > 1 && AllDigits(s[1..]) then Some(-(DecimalNumber(s[1..]) as int)) else None
    else if |s| > 0 && AllDigits(s) then Some(DecimalNumber(s))
    else None
  }

  lemma {:induction false} DecimalNumberOfNat(n: nat)
    ensures DecimalNumber(NatToDecimal(n)) == n
    decreases n
  {
    if n >= 10 {
      DecimalNumberOfNat(n / 10);
      var s := NatToDecimal(n);
      assert s[..|s| - 1] == NatToDecimal(n / 10);
    }
  }

  /** Printing an integer and reading it back gives the integer. */
  lemma ParseIntToDecimal(n: int)
    ensures ParseDecimal(IntToDecimal(n)) == Some(n)
  {
    var magnitude: nat := if n < 0 then -n else n;
    var digits := NatToDecimal(magnitude);
    assert AllDigits(digits);
    DecimalNumberOfNat(magnitude);
    if n < 0 {
      ParseNegative(digits);
    } else {
      ParseDigits(digits);
    }
  }

  lemma ParseNegative(d: string)
    requires |d| > 0 && AllDigits(d)
    ensures ParseDecimal("-" + d) == Some(-(DecimalNumber(d) as int))
  {
    assert ("-" + d)[1..] == d;
  }

  lemma ParseDigits(d: string)
    requires |d| > 0 && AllDigits(d)
    ensures ParseDecimal(d) == Some(DecimalNumber(d))
  {
    assert d[0] != '-';
  }

  /** `Number(s)` for a string: the text trimmed, the empty string read as
      0, a decimal integer read exactly; every other form of the numeric
      grammar (fractions, exponents, `0x`, `Infinity`) is answered by
      `fraction`, whose `None` stands for a value that is not finite. */
  function NumberOf(s: string, fraction: string -> Option<real>): (x: Option<real>)
    ensures ParseDecimal(Trim(s)).Some? ==> x == Some(ParseDecimal(Trim(s)).value as real)
    ensures Trim(s) == "" ==> x == Some(0.0)
  {
    var t := Trim(s);
    if t == "" then Some(0.0)
    else match ParseDecimal(t)
      case Some(n) => Some(n as real)
      case None => fraction(t)
  }
}

=== FILE: legacy_blending.dfy ===
/** The blend table and the two adjustments of the prototype in `temp/src/js`:
    `blendingModes`, `applyBlend` and `applySaturation`. Where `src/utils`
    throws a `RangeError`, the prototype logs and returns its input; it never
    checks the strength, looks the mode up as an object key, and leaves the
    channels of a blend unrounded and unclamped. */
module LegacyBlending {
  import opened Wrappers
  import opened JsMath
  import opened Powers
  import Color
  import ColorMath
  import Blending
  import LegacyColor

  predicate InUnit(x: real) {
    0.0 <= x <= 1.0
  }

  // ---------------------------------------------------------------------
  // The `blendingModes` table

  /** The keys of `blendingModes`, in the order the file defines them. */
  const ModeKeys: seq<string> :=
    ["colordodge", "overlay", "softlight", "darken", "multiply", "colorburn",
     "lighten", "screen", "hardlight", "vividlight", "hue"]

  /** `blendingModes[name]` on the object's own keys: the function stored
      under `name`, or `undefined`. */
  function LookupMode(name: string): (m: Option<ColorMath.BlendMode>)
    ensures m.Some? <==> name in ModeKeys
    ensures m.Some? ==> exists k :: 0 <= k < |ModeKeys| && ModeKeys[k] == name && ColorMath.BlendModes[k] == m.value
  {
    KeyLookup(ModeKeys, ColorMath.BlendModes, name)
  }

  /** The value stored under the first key equal to `name`. */
  function KeyLookup<V>(keys: seq<string>, values: seq<V>, name: string): (v: Option<V>)
    requires |keys| == |values|
    ensures v.Some? <==> name in keys
    ensures v.Some? ==> exists k :: 0 <= k < |keys| && keys[k] == name && values[k] == v.value
  {
    if keys == [] then None
    else if keys[0] == name then Some(values[0])
    else
      var v := KeyLookup(keys[1..], values[1..], name);
      assert v.Some? ==> exists k :: 1 <= k < |keys| && keys[k] == name && values[k] == v.value by {
        if v.Some? {
          var k :| 0 <= k < |keys| - 1 && keys[1..][k] == name && values[1..][k] == v.value;
          assert keys[k + 1] == name && values[k + 1] == v.value;
        }
      }
      assert name in keys <==> name in keys[1..] by {
        assert keys == [keys[0]] + keys[1..];
      }
      v
  }

  function Dodge(a: real, b: real): real {
    if b < 1.0 then Min(a / (1.0 - b), 1.0) else 1.0
  }

  function Overlay(a: real, b: real): real {
    if a <= 0.5 then 2.0 * a * b else 1.0 - 2.0 * (1.0 - a) * (1.0 - b)
  }

  function SoftLight(n: Numerics, a: real, b: real): real {
    if b <= 0.5 then a - (1.0 - 2.0 * b) * a * (1.0 - a) else a + (2.0 * b - 1.0) * (n.sqrt(a) - a)
  }

  function Darken(a: real, b: real): real {
    Min(a, b)
  }

  function Multiply(a: real, b: real): real {
    a * b
  }

  function Burn(a: real, b: real): real {
    if b > 0.0 then 1.0 - Min((1.0 - a) / b, 1.0) else 0.0
  }

  function Lighten(a: real, b: real): real {
    Max(a, b)
  }

  function Screen(a: real, b: real): real {
    1.0 - (1.0 - a) * (1.0 - b)
  }

  function HardLight(a: real, b: real): real {
    if b <= 0.5 then 2.0 * a * b else 1.0 - 2.0 * (1.0 - a) * (1.0 - b)
  }

  /** `blendingModes.vividlight` with JavaScript's division by zero: at
      `b = 0` the quotient `(1 - a) / 0` is `Infinity`, which `Math.min`
      turns into 1, unless `a = 1` makes it `0 / 0`; at `b = 1` the same
      holds for `a / 0` with `a = 0`. `None` is `NaN`. */
  function VividLight(a: real, b: real): (v: Option<real>)
    requires InUnit(a) && InUnit(b)
  {
    if b <= 0.5 then
      if b == 0.0 then (if a == 1.0 then None else Some(0.0))
      else Some(1.0 - Min((1.0 - a) / (2.0 * b), 1.0))
    else if b == 1.0 then (if a == 0.0 then None else Some(1.0))
    else Some(Min(a / (2.0 * (1.0 - b)), 1.0))
  }

  /** `blendingModes[m](a, b)` for every mode but `hue`. */
  function Channel(n: Numerics, m: ColorMath.BlendMode, a: real, b: real): Option<real>
    requires m != ColorMath.Hue && InUnit(a) && InUnit(b)
  {
    match m
    case ColorDodge => Some(Dodge(a, b))
    case Overlay => Some(Overlay(a, b))
    case SoftLight => Some(SoftLight(n, a, b))
    case Darken => Some(Darken(a, b))
    case Multiply => Some(Multiply(a, b))
    case ColorBurn => Some(Burn(a, b))
    case Lighten => Some(Lighten(a, b))
    case Screen => Some(Screen(a, b))
    case HardLight => Some(HardLight(a, b))
    case VividLight => VividLight(a, b)
  }

  /** `blendingModes.hue(r, g, b, blendR, blendG, blendB)`: the blend's hue
      with the base's saturation and lightness, through the prototype's
      rounding `hslToRgb`. The blend channels come in on the unit scale and
      `rgbToHsl` divides them by 255 once more. */
  function HueMode(rgb: Color.Rgb, br: real, bg: real, bb: real): (c: Color.Rgb)
    requires Color.InByteRange(rgb) && InUnit(br) && InUnit(bg) && InUnit(bb)
    ensures IsInteger(c.r) && IsInteger(c.g) && IsInteger(c.b)
  {
    var baseHsl := LegacyColor.RgbToHsl(rgb.r, rgb.g, rgb.b);
    var blendHsl := LegacyColor.RgbToHsl(br, bg, bb);
    LegacyColor.HslToRgb(ColorMath.Hsl(blendHsl.h, baseHsl.s, baseHsl.l))
  }

  // ---------------------------------------------------------------------
  // applyBlend

  /** What `applyBlend` does: return its input at once, log and return its
      input, return a new colour whose channels may be `NaN` (`None`), or
      throw a `TypeError` because the mode names no function. */
  datatype Outcome =
    | Unchanged
    | Logged
    | Blended(r: Option<real>, g: Option<real>, b: Option<real>)
    | NotAFunction

  /** The early return of `applyBlend`, taken before any check. */
  predicate EarlyReturn(br: real, bg: real, bb: real, intensity: real) {
    (br == 0.0 && bb == 0.0 && bg == 0.0) || intensity == 0.0
  }

  /** `applyBlend(rgb, blendMode, blendStrength, red, green, blue,
      intensity)` on a base colour with channels in 0..255. */
  function ApplyBlend(n: Numerics, rgb: Color.Rgb, mode: string, strength: real, br: real, bg: real, bb: real, intensity: real): (o: Outcome)
    requires Color.InByteRange(rgb)
    ensures o.Unchanged? <==> EarlyReturn(br, bg, bb, intensity)
    ensures o.Logged? <==> !EarlyReturn(br, bg, bb, intensity) && !(InUnit(br) && InUnit(bg) && InUnit(bb) && InUnit(intensity))
    ensures o.NotAFunction? <==>
      !EarlyReturn(br, bg, bb, intensity) && InUnit(br) && InUnit(bg) && InUnit(bb) && InUnit(intensity)
      && mode !in ModeKeys
  {
    if EarlyReturn(br, bg, bb, intensity) then Unchanged
    else if !InUnit(br) || !InUnit(bb) || !InUnit(bg) then Logged
    else if !InUnit(intensity) then Logged
    else if mode == "hue" then HuePath(rgb, br, bg, bb, intensity * strength)
    else
      match LookupMode(mode)
      case None => NotAFunction
      case Some(m) =>
        SameModes(mode);
        if m == ColorMath.Hue then assert false; NotAFunction
        else ChannelPath(n, m, rgb, br, bg, bb, intensity * strength)
  }

  /** The hue path: the hue colour mixed in by weight `w`, neither rounded
      nor clamped. */
  function HuePath(rgb: Color.Rgb, br: real, bg: real, bb: real, w: real): (o: Outcome)
    requires Color.InByteRange(rgb) && InUnit(br) && InUnit(bg) && InUnit(bb)
    ensures Numbers(o).Some?
    ensures w == 0.0 ==> Numbers(o) == Some(rgb)
  {
    MixHue(rgb, HueMode(rgb, br, bg, bb), w)
  }

  /** `rgb + w * (hue - rgb)`, channel by channel. */
  function MixHue(rgb: Color.Rgb, hue: Color.Rgb, w: real): (o: Outcome)
    ensures Numbers(o).Some?
    ensures w == 0.0 ==> Numbers(o) == Some(rgb)
    ensures w == 1.0 ==> Numbers(o) == Some(hue)
  {
    var c := Color.Rgb(rgb.r + w * (hue.r - rgb.r), rgb.g + w * (hue.g - rgb.g), rgb.b + w * (hue.b - rgb.b));
    assert w == 0.0 ==> c == rgb;
    assert w == 1.0 ==> c == hue;
    Blended(Some(c.r), Some(c.g), Some(c.b))
  }

  /** The non-hue path: each channel blended, mixed with the base by weight
      `w`, and scaled back by 255 without rounding. */
  function ChannelPath(n: Numerics, m: ColorMath.BlendMode, rgb: Color.Rgb, br: real, bg: real, bb: real, w: real): (o: Outcome)
    requires m != ColorMath.Hue && Color.InByteRange(rgb) && InUnit(br) && InUnit(bg) && InUnit(bb)
    ensures o.Blended?
  {
    Blended(
      Mix(rgb.r, Channel(n, m, rgb.r / 255.0, br), w),
      Mix(rgb.g, Channel(n, m, rgb.g / 255.0, bg), w),
      Mix(rgb.b, Channel(n, m, rgb.b / 255.0, bb), w))
  }

  /** `((base / 255) * (1 - w) + blended * w) * 255`; `NaN` stays `NaN`. */
  function Mix(base: real, blended: Option<real>, w: real): Option<real> {
    match blended
    case None => None
    case Some(x) => Some(((base / 255.0) * (1.0 - w) + x * w) * 255.0)
  }

  /** The channels of a blended outcome when all three are numbers. */
  function Numbers(o: Outcome): Option<Color.Rgb> {
    if o.Blended? && o.r.Some? && o.g.Some? && o.b.Some? then Some(Color.Rgb(o.r.value, o.g.value, o.b.value))
    else None
  }

  // ---------------------------------------------------------------------
  // applySaturation

  datatype SaturationOutcome = SaturationLogged | Saturated(c: Color.Rgb)

  /** `applySaturation(rgb, saturation, intensity)`: log and return the
      input unless both factors lie in [0, 1]; otherwise push the HSV
      saturation `s` to `s + (1 - s) * saturation * intensity`. The hue of
      `rgbToHsv` is never negative, so `hsvToRgb` always finds a sector. */
  function ApplySaturation(rgb: Color.Rgb, saturation: real, intensity: real): (o: SaturationOutcome)
    ensures o.SaturationLogged? <==> !(InUnit(saturation) && InUnit(intensity))
    ensures o.Saturated? ==> IsInteger(o.c.r) && IsInteger(o.c.g) && IsInteger(o.c.b)
  {
    if saturation < 0.0 || saturation > 1.0 || intensity < 0.0 || intensity > 1.0 then SaturationLogged
    else
      LegacyColor.RgbToHsvAgrees(rgb.r, rgb.g, rgb.b);
      Saturated(PushSaturation(LegacyColor.RgbToHsv(rgb.r, rgb.g, rgb.b), saturation, intensity))
  }

  /** `s + (1 - s) * saturation * intensity`. */
  function Pushed(s: real, saturation: real, intensity: real): real {
    s + (1.0 - s) * saturation * intensity
  }

  /** `hsvToRgb(h, s + (1 - s) * saturation * intensity, v)`. */
  function PushSaturation(hsv: ColorMath.UnitHsv, saturation: real, intensity: real): (c: Color.Rgb)
    requires 0.0 <= hsv.h
    ensures IsInteger(c.r) && IsInteger(c.g) && IsInteger(c.b)
  {
    LegacyColor.HsvToRgb(hsv.h, Pushed(hsv.s, saturation, intensity), hsv.v).value
  }

  // ---------------------------------------------------------------------
  // Properties of the table

  /** The prototype's table holds the same names as `BLEND_MODES`, each for
      the same mode. */
  lemma SameModes(name: string)
    ensures LookupMode(name) == ColorMath.ParseBlendMode(name)
  {
    KeysAreNames();
    var m := LookupMode(name);
    if m.Some? {
      var k :| 0 <= k < |ModeKeys| && ModeKeys[k] == name && ColorMath.BlendModes[k] == m.value;
      ColorMath.ModeNames(m.value);
    }
  }

  /** Key `k` of the table is the name of the `k`-th mode of `BLEND_MODES`. */
  lemma KeysAreNames()
    ensures |ModeKeys| == |ColorMath.BlendModes|
    ensures forall k :: 0 <= k < |ModeKeys| ==> ColorMath.ModeName(ColorMath.BlendModes[k]) == ModeKeys[k]
  {
  }

  /** The prototype's per-channel functions are those of
      `src/utils/tonal/blending.ts`, formula for formula; vivid light is the
      one written without a zero guard. */
  lemma ChannelAgrees(n: Numerics, m: ColorMath.BlendMode, a: real, b: real)
    requires m != ColorMath.Hue && InUnit(a) && InUnit(b)
    ensures m != ColorMath.VividLight ==> Channel(n, m, a, b) == Some(Blending.ChannelBlend(n, m, a, b))
    ensures m == ColorMath.VividLight ==> Channel(n, m, a, b) == Blending.VividLightAsWritten(a, b)
    ensures Channel(n, m, a, b).Some? ==> Channel(n, m, a, b).value == Blending.ChannelBlend(n, m, a, b)
  {
    Blending.VividLightCorrected(a, b);
  }

  /** Colour dodge is 1 at a white blend and colour burn 0 at a black one;
      hard light is overlay with its arguments swapped; darken and lighten
      are the minimum and maximum. */
  lemma TableIdentities(a: real, b: real)
    ensures Dodge(a, 1.0) == 1.0 && Burn(a, 0.0) == 0.0
    ensures HardLight(a, b) == Overlay(b, a)
    ensures Darken(a, b) == Darken(b, a) && Darken(a, a) == a && Darken(a, b) <= a && Darken(a, b) <= b
    ensures Lighten(a, b) == Lighten(b, a) && Lighten(a, a) == a && a <= Lighten(a, b) && b <= Lighten(a, b)
  {
    assert 2.0 * b * a == 2.0 * a * b;
  }

  /** The blend colour's hue does not depend on its scale: the hue that
      `rgbToHsl` finds for the unit-scale channels is the hue of the same
      colour on the 0..255 scale. */
  lemma BlendHueOfUnitChannels(br: real, bg: real, bb: real)
    requires InUnit(br) && InUnit(bg) && InUnit(bb)
    ensures LegacyColor.RgbToHsl(br, bg, bb).h == ColorMath.RgbToHsl(Color.Rgb(br * 255.0, bg * 255.0, bb * 255.0)).h
  {
    var rn, gn, bn := br / 255.0, bg / 255.0, bb / 255.0;
    assert br == 255.0 * rn && bg == 255.0 * gn && bb == 255.0 * bn;
    HslHue(br, bg, bb, rn, gn, bn);
    HueOfScaled(rn, gn, bn, 255.0, br, bg, bb);
    var r, g, b := br * 255.0, bg * 255.0, bb * 255.0;
    assert br == r / 255.0 && bg == g / 255.0 && bb == b / 255.0;
    ModernHslHue(r, g, b, br, bg, bb);
  }

  lemma ModernHslHue(r: real, g: real, b: real, rn: real, gn: real, bn: real)
    requires 0.0 <= r <= 255.0 && 0.0 <= g <= 255.0 && 0.0 <= b <= 255.0
    requires rn == r / 255.0 && gn == g / 255.0 && bn == b / 255.0
    ensures ColorMath.RgbToHsl(Color.Rgb(r, g, b)).h == HueOf(rn, gn, bn)
  {
    HslHue(r, g, b, rn, gn, bn);
    LegacyColor.RgbToHslAgrees(r, g, b);
  }

  /** The hue `rgbToHsl` computes from channels already divided by 255. */
  function HueOf(rn: real, gn: real, bn: real): real {
    HueFrom(rn, gn, bn, Max(Max(rn, gn), bn), Min(Min(rn, gn), bn))
  }

  /** The hue from the channels and their largest and smallest value. */
  function HueFrom(rn: real, gn: real, bn: real, mx: real, mn: real): real {
    if mx == mn then 0.0 else SextantHue(rn, gn, bn, mx, mx - mn) / 6.0
  }

  function SextantHue(rn: real, gn: real, bn: real, mx: real, d: real): real
    requires d != 0.0
  {
    if mx == rn then (gn - bn) / d + (if gn < bn then 6.0 else 0.0)
    else if mx == gn then (bn - rn) / d + 2.0
    else (rn - gn) / d + 4.0
  }

  lemma HslHue(r: real, g: real, b: real, rn: real, gn: real, bn: real)
    requires 0.0 <= r <= 255.0 && 0.0 <= g <= 255.0 && 0.0 <= b <= 255.0
    requires rn == r / 255.0 && gn == g / 255.0 && bn == b / 255.0
    ensures LegacyColor.RgbToHsl(r, g, b).h == HueOf(rn, gn, bn)
  {
  }

  /** Scaling the three channels by one positive factor keeps the hue. */
  lemma HueOfScaled(rn: real, gn: real, bn: real, k: real, rk: real, gk: real, bk: real)
    requires k > 0.0 && rk == k * rn && gk == k * gn && bk == k * bn
    ensures HueOf(rk, gk, bk) == HueOf(rn, gn, bn)
  {
    ExtremesScaled(rn, gn, bn, k, rk, gk, bk);
    HueFromScaled(rn, gn, bn, Max(Max(rn, gn), bn), Min(Min(rn, gn), bn), k, rk, gk, bk, Max(Max(rk, gk), bk), Min(Min(rk, gk), bk));
  }

  lemma HueFromScaled(rn: real, gn: real, bn: real, mx: real, mn: real, k: real, rk: real, gk: real, bk: real, mk: real, nk: real)
    requires k > 0.0 && rk == k * rn && gk == k * gn && bk == k * bn && mk == k * mx && nk == k * mn
    ensures HueFrom(rk, gk, bk, mk, nk) == HueFrom(rn, gn, bn, mx, mn)
  {
    ScaleLess(mx, mn, k);
    if mx != mn {
      ScaleDiff(mx, mn, k, mk, nk);
      SextantScaled(rn, gn, bn, mx, mx - mn, k, rk, gk, bk, mk, mk - nk);
    }
  }

  lemma ExtremesScaled(rn: real, gn: real, bn: real, k: real, rk: real, gk: real, bk: real)
    requires k > 0.0 && rk == k * rn && gk == k * gn && bk == k * bn
    ensures Max(Max(rk, gk), bk) == k * Max(Max(rn, gn), bn)
    ensures Min(Min(rk, gk), bk) == k * Min(Min(rn, gn), bn)
  {
    ScaleMax(rn, gn, bn, k);
    ScaleMin(rn, gn, bn, k);
  }

  lemma ScaleDiff(x: real, y: real, k: real, xk: real, yk: real)
    requires xk == k * x && yk == k * y
    ensures xk - yk == k * (x - y)
  {
  }

  /** Each sextant formula is a ratio of channel differences, which scaling
      leaves alone. */
  lemma SextantScaled(rn: real, gn: real, bn: real, mx: real, d: real, k: real, rk: real, gk: real, bk: real, mk: real, dk: real)
    requires k > 0.0 && d != 0.0
    requires rk == k * rn && gk == k * gn && bk == k * bn && mk == k * mx && dk == k * d
    ensures dk != 0.0 && SextantHue(rk, gk, bk, mk, dk) == SextantHue(rn, gn, bn, mx, d)
  {
    ScaleLess(mx, rn, k);
    ScaleLess(mx, gn, k);
    ScaleLess(gn, bn, k);
    ScaleLess(d, 0.0, k);
    SameDifferences(rn, gn, bn, d, k, rk, gk, bk, dk);
    if mx == rn {
      RedSextant(rn, gn, bn, mx, d, rk, gk, bk, mk, dk);
    } else if mx == gn {
      GreenSextant(rn, gn, bn, mx, d, rk, gk, bk, mk, dk);
    } else {
      BlueSextant(rn, gn, bn, mx, d, rk, gk, bk, mk, dk);
    }
  }

  /** Scaling keeps the ratio of every channel difference to the spread. */
  lemma SameDifferences(rn: real, gn: real, bn: real, d: real, k: real, rk: real, gk: real, bk: real, dk: real)
    requires k > 0.0 && d != 0.0
    requires rk == k * rn && gk == k * gn && bk == k * bn && dk == k * d
    ensures dk != 0.0
    ensures (gk - bk) / dk == (gn - bn) / d
    ensures (bk - rk) / dk == (bn - rn) / d
    ensures (rk - gk) / dk == (rn - gn) / d
  {
    ScaleDiff(gn, bn, k, gk, bk);
    SameRatio(gk - bk, dk, gn - bn, d, k);
    ScaleDiff(bn, rn, k, bk, rk);
    SameRatio(bk - rk, dk, bn - rn, d, k);
    ScaleDiff(rn, gn, k, rk, gk);
    SameRatio(rk - gk, dk, rn - gn, d, k);
  }

  lemma RedSextant(rn: real, gn: real, bn: real, mx: real, d: real, rk: real, gk: real, bk: real, mk: real, dk: real)
    requires d != 0.0 && dk != 0.0 && mx == rn && mk == rk && (gk < bk <==> gn < bn)
    requires (gk - bk) / dk == (gn - bn) / d
    ensures SextantHue(rk, gk, bk, mk, dk) == SextantHue(rn, gn, bn, mx, d)
  {
  }

  lemma GreenSextant(rn: real, gn: real, bn: real, mx: real, d: real, rk: real, gk: real, bk: real, mk: real, dk: real)
    requires d != 0.0 && dk != 0.0 && mx != rn && mk != rk && mx == gn && mk == gk
    requires (bk - rk) / dk == (bn - rn) / d
    ensures SextantHue(rk, gk, bk, mk, dk) == SextantHue(rn, gn, bn, mx, d)
  {
  }

  lemma BlueSextant(rn: real, gn: real, bn: real, mx: real, d: real, rk: real, gk: real, bk: real, mk: real, dk: real)
    requires d != 0.0 && dk != 0.0 && mx != rn && mk != rk && mx != gn && mk != gk
    requires (rk - gk) / dk == (rn - gn) / d
    ensures SextantHue(rk, gk, bk, mk, dk) == SextantHue(rn, gn, bn, mx, d)
  {
  }

  lemma SameRatio(xk: real, dk: real, x: real, d: real, k: real)
    requires k > 0.0 && d != 0.0 && xk == k * x && dk == k * d
    ensures xk / dk == x / d
  {
    ScaleRatio(x, d, k);
  }

  lemma ScaleMax(x: real, y: real, z: real, k: real)
    requires k > 0.0
    ensures Max(Max(k * x, k * y), k * z) == k * Max(Max(x, y), z)
  {
    ScaleLess(x, y, k);
    ScaleLess(Max(x, y), z, k);
    ScaleLess(y, z, k);
    ScaleLess(x, z, k);
  }

  lemma ScaleMin(x: real, y: real, z: real, k: real)
    requires k > 0.0
    ensures Min(Min(k * x, k * y), k * z) == k * Min(Min(x, y), z)
  {
    ScaleLess(x, y, k);
    ScaleLess(Min(x, y), z, k);
    ScaleLess(y, z, k);
    ScaleLess(x, z, k);
  }

  lemma ScaleLess(x: real, y: real, k: real)
    requires k > 0.0
    ensures k * x < k * y <==> x < y
    ensures k * x == k * y <==> x == y
  {
    if x < y {
      MulLe(x, y, k);
    } else {
      MulLe(y, x, k);
    }
  }

  lemma ScaleRatio(x: real, d: real, k: real)
    requires k > 0.0 && d != 0.0
    ensures (k * x) / (k * d) == x / d
  {
  }

  // ---------------------------------------------------------------------
  // Properties of applyBlend

  /** A black blend or a zero intensity returns the input before any check:
      with an unknown mode, an out-of-range strength or a negative channel,
      `src/utils` throws where the prototype returns. */
  lemma EarlyReturnBeforeChecks(n: Numerics, rgb: Color.Rgb, mode: string, strength: real, br: real, bg: real, bb: real)
    requires Color.InByteRange(rgb)
    ensures ApplyBlend(n, rgb, mode, strength, 0.0, 0.0, 0.0, 2.0) == Unchanged
    ensures Blending.ApplyBlend(n, rgb, mode, strength, 0.0, 0.0, 0.0, 2.0).Err?
    ensures ApplyBlend(n, rgb, "nonsense", strength, br, bg, bb, 0.0) == Unchanged
    ensures Blending.ApplyBlend(n, rgb, "nonsense", strength, br, bg, bb, 0.0).Err?
  {
    assert ColorMath.ParseBlendMode("nonsense").None?;
  }

  /** The prototype logs exactly where `src/utils` throws for a channel or
      the intensity, unless the early return comes first. */
  lemma LoggedWhereChannelThrows(n: Numerics, rgb: Color.Rgb, mode: string, strength: real, br: real, bg: real, bb: real, intensity: real)
    requires Color.InByteRange(rgb)
    ensures var e := Blending.BlendInputError(mode, strength, br, bg, bb, intensity);
      ApplyBlend(n, rgb, mode, strength, br, bg, bb, intensity).Logged?
      <==> !EarlyReturn(br, bg, bb, intensity) && e.Some? && e.value.ChannelOutOfRange?
  {
  }

  /** The strength is never checked: where `src/utils` throws for the
      strength, which it checks before the mode, the prototype blends with
      any mode its table holds. */
  lemma StrengthUnchecked(n: Numerics, rgb: Color.Rgb, mode: string, strength: real, br: real, bg: real, bb: real, intensity: real)
    requires Color.InByteRange(rgb)
    requires !EarlyReturn(br, bg, bb, intensity)
    requires Blending.BlendInputError(mode, strength, br, bg, bb, intensity) == Some(Blending.StrengthOutOfRange)
    ensures ApplyBlend(n, rgb, mode, strength, br, bg, bb, intensity).Blended? <==> mode in ModeKeys
  {
    SameModes(mode);
  }

  /** The mode is looked up, not checked: a name outside the table throws a
      `TypeError` where `src/utils` throws a `RangeError`. */
  lemma UnknownModeThrows(n: Numerics, rgb: Color.Rgb, mode: string, strength: real, br: real, bg: real, bb: real, intensity: real)
    requires Color.InByteRange(rgb)
    requires !EarlyReturn(br, bg, bb, intensity) && InUnit(br) && InUnit(bg) && InUnit(bb) && InUnit(intensity)
    ensures ApplyBlend(n, rgb, mode, strength, br, bg, bb, intensity).NotAFunction?
      <==> ColorMath.ParseBlendMode(mode).None?
    ensures InUnit(strength) && ColorMath.ParseBlendMode(mode).None? ==>
      Blending.ApplyBlend(n, rgb, mode, strength, br, bg, bb, intensity) == Result<Color.Rgb, Blending.RangeError>.Err(Blending.UnsupportedMode(mode))
  {
    SameModes(mode);
  }

  /** With zero strength the mix weight is zero: both paths give back the
      base channels exactly, except that a `NaN` from vivid light survives
      the zero weight. */
  lemma ZeroStrength(n: Numerics, rgb: Color.Rgb, mode: string, br: real, bg: real, bb: real, intensity: real)
    requires Color.InByteRange(rgb)
    requires !EarlyReturn(br, bg, bb, intensity) && InUnit(br) && InUnit(bg) && InUnit(bb) && InUnit(intensity)
    requires mode in ModeKeys
    ensures var o := ApplyBlend(n, rgb, mode, 0.0, br, bg, bb, intensity);
      && o.Blended?
      && (o.r.Some? ==> o.r.value == rgb.r) && (o.g.Some? ==> o.g.value == rgb.g) && (o.b.Some? ==> o.b.value == rgb.b)
      && (mode != "vividlight" ==> Numbers(o) == Some(rgb))
  {
    if mode == "hue" {
      ZeroStrengthHue(n, rgb, br, bg, bb, intensity);
    } else {
      var m := LookupMode(mode).value;
      LookupModeName(mode);
      OtherThanVividLight(mode, m);
      ZeroStrengthChannel(n, rgb, mode, m, br, bg, bb, intensity);
    }
  }

  lemma ZeroStrengthHue(n: Numerics, rgb: Color.Rgb, br: real, bg: real, bb: real, intensity: real)
    requires Color.InByteRange(rgb)
    requires !EarlyReturn(br, bg, bb, intensity) && InUnit(br) && InUnit(bg) && InUnit(bb) && InUnit(intensity)
    ensures Numbers(ApplyBlend(n, rgb, "hue", 0.0, br, bg, bb, intensity)) == Some(rgb)
  {
    assert ApplyBlend(n, rgb, "hue", 0.0, br, bg, bb, intensity) == HuePath(rgb, br, bg, bb, intensity * 0.0);
  }

  /** A mode not named `vividlight` is not vivid light. */
  lemma OtherThanVividLight(mode: string, m: ColorMath.BlendMode)
    requires ColorMath.ModeName(m) == mode
    ensures mode != "vividlight" ==> m != ColorMath.VividLight
  {
  }

  /** A mode other than `hue` found in the table, at zero strength. */
  lemma ZeroStrengthChannel(n: Numerics, rgb: Color.Rgb, mode: string, m: ColorMath.BlendMode, br: real, bg: real, bb: real, intensity: real)
    requires Color.InByteRange(rgb)
    requires !EarlyReturn(br, bg, bb, intensity) && InUnit(br) && InUnit(bg) && InUnit(bb) && InUnit(intensity)
    requires mode != "hue" && LookupMode(mode) == Some(m)
    ensures var o := ApplyBlend(n, rgb, mode, 0.0, br, bg, bb, intensity);
      && o.Blended?
      && (o.r.Some? ==> o.r.value == rgb.r) && (o.g.Some? ==> o.g.value == rgb.g) && (o.b.Some? ==> o.b.value == rgb.b)
      && (m != ColorMath.VividLight ==> Numbers(o) == Some(rgb))
  {
    ChannelPathTaken(n, rgb, mode, m, 0.0, br, bg, bb, intensity);
    assert intensity * 0.0 == 0.0;
    ChannelPathAtZero(n, m, rgb, br, bg, bb);
  }

  /** A key of the table is the name of the mode stored under it. */
  lemma LookupModeName(mode: string)
    requires mode in ModeKeys
    ensures ColorMath.ModeName(LookupMode(mode).value) == mode
  {
    KeysAreNames();
    var k :| 0 <= k < |ModeKeys| && ModeKeys[k] == mode && ColorMath.BlendModes[k] == LookupMode(mode).value;
  }

  /** The channel path at weight zero gives back every base channel that is
      a number, and all three unless the mode is vivid light. */
  lemma ChannelPathAtZero(n: Numerics, m: ColorMath.BlendMode, rgb: Color.Rgb, br: real, bg: real, bb: real)
    requires m != ColorMath.Hue && Color.InByteRange(rgb) && InUnit(br) && InUnit(bg) && InUnit(bb)
    ensures var o := ChannelPath(n, m, rgb, br, bg, bb, 0.0);
      && (o.r.Some? ==> o.r.value == rgb.r) && (o.g.Some? ==> o.g.value == rgb.g) && (o.b.Some? ==> o.b.value == rgb.b)
      && (m != ColorMath.VividLight ==> Numbers(o) == Some(rgb))
  {
    UnitBase(rgb);
    ZeroMix(rgb.r, Channel(n, m, rgb.r / 255.0, br));
    ZeroMix(rgb.g, Channel(n, m, rgb.g / 255.0, bg));
    ZeroMix(rgb.b, Channel(n, m, rgb.b / 255.0, bb));
    if m != ColorMath.VividLight {
      ChannelAgrees(n, m, rgb.r / 255.0, br);
      ChannelAgrees(n, m, rgb.g / 255.0, bg);
      ChannelAgrees(n, m, rgb.b / 255.0, bb);
    }
  }

  lemma ZeroMix(base: real, blended: Option<real>)
    ensures Mix(base, blended, 0.0).Some? <==> blended.Some?
    ensures Mix(base, blended, 0.0).Some? ==> Mix(base, blended, 0.0).value == base
  {
  }

  lemma UnitBase(rgb: Color.Rgb)
    requires Color.InByteRange(rgb)
    ensures InUnit(rgb.r / 255.0) && InUnit(rgb.g / 255.0) && InUnit(rgb.b / 255.0)
  {
  }

  /** A vivid-light `NaN` is not cured by a zero strength: a white base
      channel over a zero blend channel stays `NaN` where `src/utils`
      returns the base colour. */
  lemma VividLightNaNAtZeroStrength(n: Numerics)
    ensures ApplyBlend(n, Color.Rgb(255.0, 128.0, 128.0), "vividlight", 0.0, 0.0, 0.5, 0.5, 1.0).r.None?
    ensures Blending.ApplyBlend(n, Color.Rgb(255.0, 128.0, 128.0), "vividlight", 0.0, 0.0, 0.5, 0.5, 1.0)
      == Result<Color.Rgb, Blending.RangeError>.Ok(Color.Rgb(255.0, 128.0, 128.0))
  {
    LegacyVividLightNaN(n);
    ModernVividLightAtZero(n);
  }

  lemma LegacyVividLightNaN(n: Numerics)
    ensures ApplyBlend(n, Color.Rgb(255.0, 128.0, 128.0), "vividlight", 0.0, 0.0, 0.5, 0.5, 1.0).r.None?
  {
    var rgb := Color.Rgb(255.0, 128.0, 128.0);
    SameModes("vividlight");
    ChannelPathTaken(n, rgb, "vividlight", ColorMath.VividLight, 0.0, 0.0, 0.5, 0.5, 1.0);
    WhiteOverBlack(n, rgb.r / 255.0);
    assert ChannelPath(n, ColorMath.VividLight, rgb, 0.0, 0.5, 0.5, 1.0 * 0.0).r
      == Mix(rgb.r, Channel(n, ColorMath.VividLight, rgb.r / 255.0, 0.0), 1.0 * 0.0);
  }

  /** Vivid light of a white channel over a black one divides zero by zero. */
  lemma WhiteOverBlack(n: Numerics, a: real)
    requires a == 255.0 / 255.0
    ensures Channel(n, ColorMath.VividLight, a, 0.0).None?
  {
    assert a == 1.0;
  }

  lemma ModernVividLightAtZero(n: Numerics)
    ensures Blending.ApplyBlend(n, Color.Rgb(255.0, 128.0, 128.0), "vividlight", 0.0, 0.0, 0.5, 0.5, 1.0)
      == Result<Color.Rgb, Blending.RangeError>.Ok(Color.Rgb(255.0, 128.0, 128.0))
  {
  }

  /** Past the checks, a mode other than `hue` takes the channel path. */
  lemma ChannelPathTaken(n: Numerics, rgb: Color.Rgb, mode: string, m: ColorMath.BlendMode, strength: real, br: real, bg: real, bb: real, intensity: real)
    requires Color.InByteRange(rgb) && mode != "hue" && LookupMode(mode) == Some(m)
    requires !EarlyReturn(br, bg, bb, intensity) && InUnit(br) && InUnit(bg) && InUnit(bb) && InUnit(intensity)
    ensures m != ColorMath.Hue
    ensures ApplyBlend(n, rgb, mode, strength, br, bg, bb, intensity) == ChannelPath(n, m, rgb, br, bg, bb, intensity * strength)
  {
    SameModes(mode);
  }

  /** Past its checks, `src/utils` takes the channel path for a mode other
      than `hue` unless a weight factor or the blend is zero. */
  lemma ModernChannelPath(n: Numerics, rgb: Color.Rgb, mode: string, m: ColorMath.BlendMode, strength: real, br: real, bg: real, bb: real, intensity: real)
    requires Color.InByteRange(rgb) && m != ColorMath.Hue && ColorMath.ParseBlendMode(mode) == Some(m)
    requires Blending.ApplyBlend(n, rgb, mode, strength, br, bg, bb, intensity).Ok?
    requires !EarlyReturn(br, bg, bb, intensity) && strength != 0.0
    ensures Blending.ApplyBlend(n, rgb, mode, strength, br, bg, bb, intensity).value
      == Blending.ChannelMix(n, m, rgb, br, bg, bb, intensity * strength)
  {
  }

  /** One channel: `src/utils` rounds and clamps what the prototype mixes. */
  lemma MixAgrees(base: real, x: real, w: real)
    ensures Mix(base, Some(x), w).Some?
    ensures Blending.MixChannel(base, x, w) == Color.ToByte(Mix(base, Some(x), w).value) as real
  {
    var y := ((base / 255.0) * (1.0 - w) + x * w) * 255.0;
    assert Mix(base, Some(x), w).value == y;
    assert Blending.MixChannel(base, x, w) == Color.ToByte(y) as real;
  }

  /** On the non-hue path, wherever the prototype's channels are numbers
      `src/utils` yields them rounded and clamped to bytes; at zero strength
      both keep the base colour. */
  lemma ChannelPathAgrees(n: Numerics, rgb: Color.Rgb, mode: string, strength: real, br: real, bg: real, bb: real, intensity: real)
    requires Color.InByteRange(rgb) && mode != "hue"
    requires Blending.ApplyBlend(n, rgb, mode, strength, br, bg, bb, intensity).Ok?
    requires !EarlyReturn(br, bg, bb, intensity)
    requires Numbers(ApplyBlend(n, rgb, mode, strength, br, bg, bb, intensity)).Some?
    ensures var modern := Blending.ApplyBlend(n, rgb, mode, strength, br, bg, bb, intensity).value;
      var legacy := Numbers(ApplyBlend(n, rgb, mode, strength, br, bg, bb, intensity)).value;
      && (strength == 0.0 ==> modern == rgb && legacy == rgb)
      && (strength != 0.0 ==> modern == LegacyColor.Clamped(legacy))
  {
    SameModes(mode);
    var m := LookupMode(mode).value;
    if strength == 0.0 {
      ZeroStrength(n, rgb, mode, br, bg, bb, intensity);
    } else {
      ChannelPathTaken(n, rgb, mode, m, strength, br, bg, bb, intensity);
      ModernChannelPath(n, rgb, mode, m, strength, br, bg, bb, intensity);
      UnitBase(rgb);
      var w := intensity * strength;
      var o := ChannelPath(n, m, rgb, br, bg, bb, w);
      ChannelMixAgrees(n, m, rgb, br, bg, bb, w, o);
    }
  }

  /** The channel path of both, channel by channel. */
  lemma ChannelMixAgrees(n: Numerics, m: ColorMath.BlendMode, rgb: Color.Rgb, br: real, bg: real, bb: real, w: real, o: Outcome)
    requires m != ColorMath.Hue && Color.InByteRange(rgb) && InUnit(br) && InUnit(bg) && InUnit(bb)
    requires o == ChannelPath(n, m, rgb, br, bg, bb, w) && Numbers(o).Some?
    ensures Blending.ChannelMix(n, m, rgb, br, bg, bb, w) == LegacyColor.Clamped(Numbers(o).value)
  {
    UnitBase(rgb);
    ChannelAgrees(n, m, rgb.r / 255.0, br);
    ChannelAgrees(n, m, rgb.g / 255.0, bg);
    ChannelAgrees(n, m, rgb.b / 255.0, bb);
    MixAgrees(rgb.r, Channel(n, m, rgb.r / 255.0, br).value, w);
    MixAgrees(rgb.g, Channel(n, m, rgb.g / 255.0, bg).value, w);
    MixAgrees(rgb.b, Channel(n, m, rgb.b / 255.0, bb).value, w);
  }

  // ---------------------------------------------------------------------
  // Properties of applySaturation

  /** The prototype logs exactly where `src/utils` throws; otherwise
      `src/utils` yields the prototype's colour clamped to bytes, and for a
      base colour in 0..255 the very same colour. */
  lemma SaturationAgrees(rgb: Color.Rgb, saturation: real, intensity: real)
    ensures ApplySaturation(rgb, saturation, intensity).SaturationLogged?
      <==> Blending.ApplySaturation(rgb, saturation, intensity).Err?
    ensures ApplySaturation(rgb, saturation, intensity).Saturated? ==>
      Blending.ApplySaturation(rgb, saturation, intensity).value == LegacyColor.Clamped(ApplySaturation(rgb, saturation, intensity).c)
    ensures ApplySaturation(rgb, saturation, intensity).Saturated? && Color.InByteRange(rgb) ==>
      Blending.ApplySaturation(rgb, saturation, intensity).value == ApplySaturation(rgb, saturation, intensity).c
  {
    if InUnit(saturation) && InUnit(intensity) {
      var hsv := LegacyColor.RgbToHsv(rgb.r, rgb.g, rgb.b);
      var s := Pushed(hsv.s, saturation, intensity);
      LegacyColor.RgbToHsvAgrees(rgb.r, rgb.g, rgb.b);
      var c := LegacyColor.HsvToRgb(hsv.h, s, hsv.v).value;
      LegacySaturationValue(rgb, saturation, intensity, hsv, s, c);
      ModernSaturationValue(rgb, saturation, intensity, hsv, s);
      LegacyColor.HsvToRgbAgrees(hsv.h, s, hsv.v);
      if Color.InByteRange(rgb) {
        SaturatedColorBytes(rgb, saturation, intensity, hsv, s);
      }
    }
  }

  /** For a base colour in 0..255 the prototype's saturated colour is bytes. */
  lemma SaturatedColorBytes(rgb: Color.Rgb, saturation: real, intensity: real, hsv: ColorMath.UnitHsv, s: real)
    requires Color.InByteRange(rgb) && InUnit(saturation) && InUnit(intensity)
    requires hsv == LegacyColor.RgbToHsv(rgb.r, rgb.g, rgb.b) && s == Pushed(hsv.s, saturation, intensity)
    ensures LegacyColor.HsvToRgb(hsv.h, s, hsv.v).Some? && Color.IsByteRgb(LegacyColor.HsvToRgb(hsv.h, s, hsv.v).value)
  {
    LegacyColor.RgbToHsvAgrees(rgb.r, rgb.g, rgb.b);
    SaturatedRange(hsv.s, saturation, intensity);
    HsvValueUnit(rgb);
    SaturatedBytes(hsv.h, s, hsv.v);
  }

  /** The pushed saturation stays in [0, 1]. */
  lemma SaturatedRange(s: real, saturation: real, intensity: real)
    requires InUnit(s) && InUnit(saturation) && InUnit(intensity)
    ensures InUnit(Pushed(s, saturation, intensity))
  {
    var k := saturation * intensity;
    MulUnit(saturation, intensity);
    assert 0.0 <= k <= 1.0;
    MulUnit(1.0 - s, k);
    assert 0.0 <= (1.0 - s) * k <= 1.0 - s;
    Associate(1.0 - s, saturation, intensity);
    assert (1.0 - s) * saturation * intensity == (1.0 - s) * k;
  }

  lemma Associate(a: real, b: real, c: real)
    ensures a * b * c == a * (b * c)
  {
  }

  lemma HsvValueUnit(rgb: Color.Rgb)
    requires Color.InByteRange(rgb)
    ensures InUnit(LegacyColor.RgbToHsv(rgb.r, rgb.g, rgb.b).v)
  {
    LegacyColor.RgbToHsvAgrees(rgb.r, rgb.g, rgb.b);
    UnitBase(rgb);
  }

  lemma LegacySaturationValue(rgb: Color.Rgb, saturation: real, intensity: real, hsv: ColorMath.UnitHsv, s: real, c: Color.Rgb)
    requires InUnit(saturation) && InUnit(intensity)
    requires hsv == LegacyColor.RgbToHsv(rgb.r, rgb.g, rgb.b) && s == Pushed(hsv.s, saturation, intensity)
    requires 0.0 <= hsv.h && LegacyColor.HsvToRgb(hsv.h, s, hsv.v) == Some(c)
    ensures ApplySaturation(rgb, saturation, intensity) == Saturated(c)
  {
    SaturationPath(rgb, saturation, intensity, hsv);
    PushedColor(hsv, saturation, intensity, s, c);
  }

  lemma SaturationPath(rgb: Color.Rgb, saturation: real, intensity: real, hsv: ColorMath.UnitHsv)
    requires InUnit(saturation) && InUnit(intensity)
    requires hsv == LegacyColor.RgbToHsv(rgb.r, rgb.g, rgb.b) && 0.0 <= hsv.h
    ensures ApplySaturation(rgb, saturation, intensity) == Saturated(PushSaturation(hsv, saturation, intensity))
  {
  }

  lemma PushedColor(hsv: ColorMath.UnitHsv, saturation: real, intensity: real, s: real, c: Color.Rgb)
    requires s == Pushed(hsv.s, saturation, intensity)
    requires 0.0 <= hsv.h && LegacyColor.HsvToRgb(hsv.h, s, hsv.v) == Some(c)
    ensures PushSaturation(hsv, saturation, intensity) == c
  {
  }

  lemma ModernSaturationValue(rgb: Color.Rgb, saturation: real, intensity: real, hsv: ColorMath.UnitHsv, s: real)
    requires InUnit(saturation) && InUnit(intensity)
    requires hsv == LegacyColor.RgbToHsv(rgb.r, rgb.g, rgb.b) && s == Pushed(hsv.s, saturation, intensity)
    ensures Blending.ApplySaturation(rgb, saturation, intensity) == Result<Color.Rgb, Blending.RangeError>.Ok(ColorMath.UnitHsvToRgb(ColorMath.UnitHsv(hsv.h, s, hsv.v)))
  {
    LegacyColor.RgbToHsvAgrees(rgb.r, rgb.g, rgb.b);
    ModernSaturationPath(rgb, saturation, intensity, hsv);
    PushedIsSaturated(hsv, saturation, intensity, s);
  }

  lemma ModernSaturationPath(rgb: Color.Rgb, saturation: real, intensity: real, hsv: ColorMath.UnitHsv)
    requires InUnit(saturation) && InUnit(intensity)
    requires hsv == ColorMath.UnitHsvOf(rgb.r / 255.0, rgb.g / 255.0, rgb.b / 255.0)
    ensures Blending.ApplySaturation(rgb, saturation, intensity)
      == Result<Color.Rgb, Blending.RangeError>.Ok(ColorMath.UnitHsvToRgb(Blending.Saturated(hsv, saturation * intensity)))
  {
  }

  lemma PushedIsSaturated(hsv: ColorMath.UnitHsv, saturation: real, intensity: real, s: real)
    requires s == Pushed(hsv.s, saturation, intensity)
    ensures Blending.Saturated(hsv, saturation * intensity) == ColorMath.UnitHsv(hsv.h, s, hsv.v)
  {
    assert Pushed(hsv.s, saturation, intensity) == hsv.s + (1.0 - hsv.s) * (saturation * intensity);
  }

  /** The prototype's `hsvToRgb` on a hue in [0, 1) and a saturation and
      value in [0, 1] yields bytes, so clamping leaves it alone. */
  lemma SaturatedBytes(h: real, s: real, v: real)
    requires 0.0 <= h < 1.0 && InUnit(s) && InUnit(v)
    ensures LegacyColor.HsvToRgb(h, s, v).Some?
    ensures Color.IsByteRgb(LegacyColor.HsvToRgb(h, s, v).value)
  {
    var u := ColorMath.UnitChannels(ColorMath.UnitHsv(h, s, v));
    UnitChannelsBounds(ColorMath.UnitHsv(h, s, v));
    RoundBetween(u.r * 255.0, 0, 255);
    RoundBetween(u.g * 255.0, 0, 255);
    RoundBetween(u.b * 255.0, 0, 255);
  }

  /** Every sector's channels lie between 0 and the value. */
  lemma UnitChannelsBounds(hsv: ColorMath.UnitHsv)
    requires InUnit(hsv.s) && InUnit(hsv.v)
    ensures InUnit(ColorMath.UnitChannels(hsv).r) && InUnit(ColorMath.UnitChannels(hsv).g) && InUnit(ColorMath.UnitChannels(hsv).b)
  {
    var k := IntRem((hsv.h * 6.0).Floor, 6);
    var f := hsv.h * 6.0 - (hsv.h * 6.0).Floor as real;
    SectorNamedBounds(hsv, k, f, hsv.v * (1.0 - hsv.s), hsv.v * (1.0 - f * hsv.s), hsv.v * (1.0 - (1.0 - f) * hsv.s));
  }

  /** `UnitChannelsBounds` with the sector, the fraction and the three
      intermediates named. */
  lemma SectorNamedBounds(hsv: ColorMath.UnitHsv, k: int, f: real, p: real, q: real, t: real)
    requires InUnit(hsv.s) && InUnit(hsv.v)
    requires k == IntRem((hsv.h * 6.0).Floor, 6) && f == hsv.h * 6.0 - (hsv.h * 6.0).Floor as real
    requires p == hsv.v * (1.0 - hsv.s) && q == hsv.v * (1.0 - f * hsv.s) && t == hsv.v * (1.0 - (1.0 - f) * hsv.s)
    ensures InUnit(ColorMath.UnitChannels(hsv).r) && InUnit(ColorMath.UnitChannels(hsv).g) && InUnit(ColorMath.UnitChannels(hsv).b)
  {
    UnitChannelsNamed(hsv, k, f, p, q, t);
    IntermediatesUnit(hsv, k, f, p, q, t);
    SectorUnit(hsv, k, hsv.v, p, q, t);
  }

  lemma UnitChannelsNamed(hsv: ColorMath.UnitHsv, k: int, f: real, p: real, q: real, t: real)
    requires k == IntRem((hsv.h * 6.0).Floor, 6) && f == hsv.h * 6.0 - (hsv.h * 6.0).Floor as real
    requires p == hsv.v * (1.0 - hsv.s) && q == hsv.v * (1.0 - f * hsv.s) && t == hsv.v * (1.0 - (1.0 - f) * hsv.s)
    ensures ColorMath.UnitChannels(hsv) == ColorMath.SectorChannels(k, hsv.v, p, q, t)
  {
    UnitChannelsOf(hsv, k, f);
  }

  lemma IntermediatesUnit(hsv: ColorMath.UnitHsv, k: int, f: real, p: real, q: real, t: real)
    requires InUnit(hsv.s) && InUnit(hsv.v)
    requires k == IntRem((hsv.h * 6.0).Floor, 6) && f == hsv.h * 6.0 - (hsv.h * 6.0).Floor as real
    requires p == hsv.v * (1.0 - hsv.s) && q == hsv.v * (1.0 - f * hsv.s) && t == hsv.v * (1.0 - (1.0 - f) * hsv.s)
    ensures InUnit(p) && InUnit(q) && InUnit(t)
  {
    UnitChannelsOf(hsv, k, f);
    FractionWeights(f, hsv.s, hsv.v);
  }

  lemma SectorUnit(hsv: ColorMath.UnitHsv, k: int, v: real, p: real, q: real, t: real)
    requires ColorMath.UnitChannels(hsv) == ColorMath.SectorChannels(k, v, p, q, t)
    requires InUnit(v) && InUnit(p) && InUnit(q) && InUnit(t)
    ensures InUnit(ColorMath.UnitChannels(hsv).r) && InUnit(ColorMath.UnitChannels(hsv).g) && InUnit(ColorMath.UnitChannels(hsv).b)
  {
    SectorBounds(ColorMath.UnitChannels(hsv), k, v, p, q, t);
  }

  /** `UnitChannels` with its sector and fraction named. */
  lemma UnitChannelsOf(hsv: ColorMath.UnitHsv, k: int, f: real)
    requires k == IntRem((hsv.h * 6.0).Floor, 6) && f == hsv.h * 6.0 - (hsv.h * 6.0).Floor as real
    ensures 0.0 <= f < 1.0
    ensures ColorMath.UnitChannels(hsv) == ColorMath.SectorChannels(k, hsv.v,
      hsv.v * (1.0 - hsv.s), hsv.v * (1.0 - f * hsv.s), hsv.v * (1.0 - (1.0 - f) * hsv.s))
  {
  }

  /** The three intermediates `p`, `q` and `t` lie in [0, v]. */
  lemma FractionWeights(f: real, s: real, v: real)
    requires 0.0 <= f <= 1.0 && InUnit(s) && InUnit(v)
    ensures InUnit(v * (1.0 - s)) && InUnit(v * (1.0 - f * s)) && InUnit(v * (1.0 - (1.0 - f) * s))
  {
    MulUnit(s, f);
    assert f * s == s * f;
    MulUnit(s, 1.0 - f);
    assert (1.0 - f) * s == s * (1.0 - f);
    MulUnit(v, 1.0 - s);
    MulUnit(v, 1.0 - f * s);
    MulUnit(v, 1.0 - (1.0 - f) * s);
  }

  lemma SectorBounds(c: Color.Rgb, k: int, v: real, p: real, q: real, t: real)
    requires c == ColorMath.SectorChannels(k, v, p, q, t)
    requires InUnit(v) && InUnit(p) && InUnit(q) && InUnit(t)
    ensures InUnit(c.r) && InUnit(c.g) && InUnit(c.b)
  {
  }
}

=== FILE: legacy_color.dfy ===
/** `ColorUtils` of the prototype in `temp/src/js`: HSL and HSV conversions
    with positional channels, relative luminance, the `#`-mandatory colour
    test, the one-decimal contrast ratio, shorthand expansion and the
    opposite colour. Each is related to its counterpart in `src/utils`. The
    `d3` parser behind `hexToRgb` is not part of this model: its results are
    passed in. */
module LegacyColor {
  import opened Wrappers
  import opened JsMath
  import opened JsText
  import opened Powers
  import Color
  import ColorMath
  import Contrast
  import LegacyMath

  /** A colour with every channel clamped and rounded the way `clampRgb`
      finishes a channel in `src/utils`. */
  function Clamped(c: Color.Rgb): (d: Color.Rgb)
    ensures Color.IsByteRgb(d)
    ensures Color.IsByteRgb(c) ==> d == c
  {
    ByteFixed(c.r);
    ByteFixed(c.g);
    ByteFixed(c.b);
    Color.Rgb(Color.ToByte(c.r) as real, Color.ToByte(c.g) as real, Color.ToByte(c.b) as real)
  }

  lemma ByteFixed(x: real)
    ensures IsInteger(x) && 0.0 <= x <= 255.0 ==> Color.ToByte(x) as real == x
  {
    RoundOfInteger(x.Floor);
  }

  /** `clampRgb(x)` is the clamp of the prototype's `Math.round(x)`. */
  lemma ChannelAgrees(x: real)
    ensures ColorMath.ClampRgb(x) == Color.ToByte(Round(x) as real) as real
  {
    RoundOfInteger(Round(x));
  }

  // ---------------------------------------------------------------------
  // HSL

  /** `rgbToHsl(r, g, b)` on channels in 0..255. */
  function RgbToHsl(r: real, g: real, b: real): (hsl: ColorMath.Hsl)
    requires 0.0 <= r <= 255.0 && 0.0 <= g <= 255.0 && 0.0 <= b <= 255.0
  {
    var rn := r / 255.0;
    var gn := g / 255.0;
    var bn := b / 255.0;
    var mx := Max(Max(rn, gn), bn);
    var mn := Min(Min(rn, gn), bn);
    var l := (mx + mn) / 2.0;
    if mx == mn then ColorMath.Hsl(0.0, 0.0, l)
    else
      var d := mx - mn;
      var s := if l > 0.5 then d / (2.0 - mx - mn) else d / (mx + mn);
      var h :=
        if mx == rn then (gn - bn) / d + (if gn < bn then 6.0 else 0.0)
        else if mx == gn then (bn - rn) / d + 2.0
        else (rn - gn) / d + 4.0;
      ColorMath.Hsl(h / 6.0, s, l)
  }

  /** The prototype's `rgbToHsl` is the one of `src/utils`, so its hue lies
      in [0, 1) and its saturation and lightness in [0, 1]. */
  lemma RgbToHslAgrees(r: real, g: real, b: real)
    requires 0.0 <= r <= 255.0 && 0.0 <= g <= 255.0 && 0.0 <= b <= 255.0
    ensures RgbToHsl(r, g, b) == ColorMath.RgbToHsl(Color.Rgb(r, g, b))
    ensures var hsl := RgbToHsl(r, g, b); 0.0 <= hsl.h < 1.0 && 0.0 <= hsl.s <= 1.0 && 0.0 <= hsl.l <= 1.0
  {
  }

  /** `hslToRgb(h, s, l)`, the three arguments carried as one triple: each
      channel is `Math.round(x * 255)`, with no clamp. Its `hue2rgb` helper
      and its intermediates `p` and `q` are those of `src/utils`. */
  function HslToRgb(hsl: ColorMath.Hsl): (c: Color.Rgb)
    ensures IsInteger(c.r) && IsInteger(c.g) && IsInteger(c.b)
    ensures hsl.s == 0.0 ==> c.r == c.g == c.b == Round(hsl.l * 255.0) as real
  {
    if hsl.s == 0.0 then
      var channel := Round(hsl.l * 255.0) as real;
      Color.Rgb(channel, channel, channel)
    else
      Color.Rgb(
        Round(ColorMath.HueToRgb(ColorMath.HslP(hsl), ColorMath.HslQ(hsl), hsl.h + 1.0 / 3.0) * 255.0) as real,
        Round(ColorMath.HueToRgb(ColorMath.HslP(hsl), ColorMath.HslQ(hsl), hsl.h) * 255.0) as real,
        Round(ColorMath.HueToRgb(ColorMath.HslP(hsl), ColorMath.HslQ(hsl), hsl.h - 1.0 / 3.0) * 255.0) as real)
  }

  /** `hslToRgb` of `src/utils` is the prototype's, clamped: wherever the
      prototype's channels are bytes the two agree. */
  lemma HslToRgbAgrees(hsl: ColorMath.Hsl)
    ensures ColorMath.HslToRgb(hsl) == Clamped(HslToRgb(hsl))
    ensures Color.IsByteRgb(HslToRgb(hsl)) ==> ColorMath.HslToRgb(hsl) == HslToRgb(hsl)
  {
    if hsl.s == 0.0 {
      ChannelAgrees(hsl.l * 255.0);
    } else {
      ClampedRounded(
        ColorMath.HueToRgb(ColorMath.HslP(hsl), ColorMath.HslQ(hsl), hsl.h + 1.0 / 3.0) * 255.0,
        ColorMath.HueToRgb(ColorMath.HslP(hsl), ColorMath.HslQ(hsl), hsl.h) * 255.0,
        ColorMath.HueToRgb(ColorMath.HslP(hsl), ColorMath.HslQ(hsl), hsl.h - 1.0 / 3.0) * 255.0);
    }
  }

  /** Clamping three rounded channels is `clampRgb` on each. */
  lemma ClampedRounded(x1: real, x2: real, x3: real)
    ensures Clamped(Color.Rgb(Round(x1) as real, Round(x2) as real, Round(x3) as real))
      == Color.Rgb(ColorMath.ClampRgb(x1), ColorMath.ClampRgb(x2), ColorMath.ClampRgb(x3))
  {
    ChannelAgrees(x1);
    ChannelAgrees(x2);
    ChannelAgrees(x3);
  }

  // ---------------------------------------------------------------------
  // HSV

  /** `rgbToHsv(r, g, b)`: the `switch (max)` tries `min` first, then the
      red, green and blue channels. */
  function RgbToHsv(r: real, g: real, b: real): (hsv: ColorMath.UnitHsv) {
    var rn := r / 255.0;
    var gn := g / 255.0;
    var bn := b / 255.0;
    var mx := Max(Max(rn, gn), bn);
    var mn := Min(Min(rn, gn), bn);
    var d := mx - mn;
    var s := if mx == 0.0 then 0.0 else d / mx;
    var h :=
      if mx == mn then 0.0
      else if mx == rn then (gn - bn + d * (if gn < bn then 6.0 else 0.0)) / (6.0 * d)
      else if mx == gn then (bn - rn + d * 2.0) / (6.0 * d)
      else (rn - gn + d * 4.0) / (6.0 * d);
    ColorMath.UnitHsv(h, s, mx)
  }

  /** The prototype's `rgbToHsv` is the unit-scale one of `src/utils`, so
      the hue lies in [0, 1) and, for non-negative channels, the saturation
      in [0, 1]. */
  lemma RgbToHsvAgrees(r: real, g: real, b: real)
    ensures RgbToHsv(r, g, b) == ColorMath.UnitHsvOf(r / 255.0, g / 255.0, b / 255.0)
    ensures 0.0 <= RgbToHsv(r, g, b).h < 1.0
    ensures 0.0 <= r && 0.0 <= g && 0.0 <= b ==> 0.0 <= RgbToHsv(r, g, b).s <= 1.0
  {
    var rn := r / 255.0;
    var gn := g / 255.0;
    var bn := b / 255.0;
    var mx := Max(Max(rn, gn), bn);
    var d := mx - Min(Min(rn, gn), bn);
    if d != 0.0 {
      assert d * 6.0 == 6.0 * d && d * 2.0 == 2.0 * d && d * 4.0 == 4.0 * d;
    }
  }

  /** `hsvToRgb(h, s, v)`: the sector `Math.floor(h * 6) % 6` picks where
      `v`, `p`, `q` and `t` go (the `unitChannels` of `src/utils`), and the
      channels are rounded but not clamped. A negative sector matches no
      `case`, leaving the channels `undefined`, whose rounding is `NaN`:
      that is the `None` here. */
  function HsvToRgb(h: real, s: real, v: real): (c: Option<Color.Rgb>)
    ensures c.Some? <==> IntRem((h * 6.0).Floor, 6) >= 0
    ensures 0.0 <= h ==> c.Some?
    ensures c.Some? ==> IsInteger(c.value.r) && IsInteger(c.value.g) && IsInteger(c.value.b)
  {
    if IntRem((h * 6.0).Floor, 6) < 0 then None
    else
      var u := ColorMath.UnitChannels(ColorMath.UnitHsv(h, s, v));
      Some(Color.Rgb(Round(u.r * 255.0) as real, Round(u.g * 255.0) as real, Round(u.b * 255.0) as real))
  }

  /** Wherever the prototype's `hsvToRgb` yields numbers, the one of
      `src/utils` yields them clamped; below a hue of zero the prototype
      can yield `NaN` where `src/utils` falls to the last sector. */
  lemma HsvToRgbAgrees(h: real, s: real, v: real)
    ensures HsvToRgb(h, s, v).Some? ==>
      ColorMath.UnitHsvToRgb(ColorMath.UnitHsv(h, s, v)) == Clamped(HsvToRgb(h, s, v).value)
    ensures HsvToRgb(-1.0 / 12.0, s, v).None?
  {
    var u := ColorMath.UnitChannels(ColorMath.UnitHsv(h, s, v));
    if HsvToRgb(h, s, v).Some? {
      ChannelAgrees(u.r * 255.0);
      ChannelAgrees(u.g * 255.0);
      ChannelAgrees(u.b * 255.0);
    }
    NegativeSector(s, v);
  }

  lemma NegativeSector(s: real, v: real)
    ensures HsvToRgb(-1.0 / 12.0, s, v).None?
  {
    assert -1.0 / 12.0 * 6.0 == -0.5;
    assert (-0.5).Floor == -1;
  }

  // ---------------------------------------------------------------------
  // Luminance

  /** `gammaCorrect` inside `getLuminance`. */
  function GammaCorrect(n: Numerics, value: real): real {
    if value <= 0.03928 then value / 12.92 else n.pow24((value + 0.055) / 1.055)
  }

  /** `getLuminance(rgb)`. */
  function GetLuminance(n: Numerics, rgb: Color.Rgb): real {
    0.2126 * GammaCorrect(n, rgb.r / 255.0) + 0.7152 * GammaCorrect(n, rgb.g / 255.0) + 0.0722 * GammaCorrect(n, rgb.b / 255.0)
  }

  /** The prototype's luminance is the WCAG relative luminance of
      `src/utils`, so it lies in [0, 1] for channels in 0..255. */
  lemma GetLuminanceAgrees(n: Numerics, rgb: Color.Rgb)
    ensures GetLuminance(n, rgb) == ColorMath.RelativeLuminance(n, rgb)
    ensures Valid(n) && Color.InByteRange(rgb) ==> 0.0 <= GetLuminance(n, rgb) <= 1.0
  {
    if Valid(n) && Color.InByteRange(rgb) {
      ColorMath.LuminanceUnit(n, rgb);
    }
  }

  // ---------------------------------------------------------------------
  // Validation and contrast

  /** `isValidColor`: `/^#[0-9a-fA-F]{6}$/`, so the `#` is mandatory and no
      white space is allowed. */
  predicate IsValidColor(color: string) {
    |color| == 7 && color[0] == '#' && AllHex(color[1..])
  }

  /** A colour the prototype accepts is exactly one `src/utils` accepts
      that starts with `#` and has no surrounding white space. */
  lemma IsValidColorAgrees(color: string)
    ensures IsValidColor(color) <==> Color.IsValidHex(color) && |color| > 0 && color[0] == '#' && Trim(color) == color
  {
    if IsValidColor(color) {
      ValidColorTrimmed(color);
    }
    if Color.IsValidHex(color) && |color| > 0 && color[0] == '#' && Trim(color) == color {
      assert Color.IsHexBody(Trim(color));
      TrimmedValidColor(color);
    }
  }

  lemma ValidColorTrimmed(color: string)
    requires IsValidColor(color)
    ensures Color.IsValidHex(color) && Trim(color) == color
  {
    assert IsHexDigit(color[1..][5]);
    HexDigitNotSpace(color[6]);
    TrimNoSpace(color);
  }

  lemma TrimmedValidColor(color: string)
    requires Color.IsHexBody(color) && |color| > 0 && color[0] == '#'
    ensures IsValidColor(color)
  {
    assert !IsHexDigit(color[0]);
  }

  /** Six digits without `#` pass `isValidHex` of `src/utils` but not the
      prototype's `isValidColor`; with the `#` they pass both. */
  lemma BareDigits(d: string)
    requires |d| == 6 && AllHex(d)
    ensures !IsValidColor(d) && Color.IsValidHex(d)
    ensures IsValidColor("#" + d)
  {
    assert !IsHexDigit(d[0]) ==> false;
    HexDigitNotSpace(d[0]);
    HexDigitNotSpace(d[5]);
    TrimNoSpace(d);
    assert ("#" + d)[1..] == d;
  }

  /** `calculateContrastRatio(color1, color2)` on the colours `hexToRgb`
      returned: `None` stands for a `null` colour, on which `getLuminance`
      throws, and for the non-finite ratio of a darker luminance of exactly
      -0.05. The ratio is rounded by `roundDecimalPlaces(ratio, 1)`. */
  function CalculateContrastRatio(n: Numerics, rgb1: Option<Color.Rgb>, rgb2: Option<Color.Rgb>): (r: Option<real>)
    ensures r.Some? ==> rgb1.Some? && rgb2.Some?
  {
    match (rgb1, rgb2)
    case (Some(c1), Some(c2)) =>
      var l1 := GetLuminance(n, c1);
      var l2 := GetLuminance(n, c2);
      var darker := Min(l1, l2) + 0.05;
      if darker == 0.0 then None
      else Some(LegacyMath.RoundDecimalPlaces((Max(l1, l2) + 0.05) / darker, 1))
    case _ => None
  }

  /** The prototype's ratio is the one of `src/utils` or one tenth above it:
      the `EPSILON` nudge can carry a value just below a rounding boundary
      over it. Both are defined for the same colours. */
  lemma ContrastAgrees(n: Numerics, c1: Color.Rgb, c2: Color.Rgb)
    ensures var legacy := CalculateContrastRatio(n, Some(c1), Some(c2));
      var modern := Contrast.ContrastOfLuminances(ColorMath.RelativeLuminance(n, c1), ColorMath.RelativeLuminance(n, c2));
      && (legacy.Some? <==> modern.Some?)
      && (legacy.Some? ==> legacy.value == modern.value || legacy.value == modern.value + 0.1)
  {
    GetLuminanceAgrees(n, c1);
    GetLuminanceAgrees(n, c2);
    var l1 := GetLuminance(n, c1);
    var l2 := GetLuminance(n, c2);
    var darker := Min(l1, l2) + 0.05;
    if darker != 0.0 {
      NudgedOneDecimal((Max(l1, l2) + 0.05) / darker);
    }
  }

  /** `roundDecimalPlaces(x, 1)` is `roundToOneDecimal(x)` or one tenth
      more. */
  lemma NudgedOneDecimal(x: real)
    ensures var r := LegacyMath.RoundDecimalPlaces(x, 1);
      r == Contrast.RoundToOneDecimal(x) || r == Contrast.RoundToOneDecimal(x) + 0.1
  {
    LegacyMath.PowTenOne();
    NudgedTenth(x);
  }

  lemma NudgedTenth(x: real)
    ensures var r := LegacyMath.RoundToScale(x, 10.0);
      r == Contrast.RoundToOneDecimal(x) || r == Contrast.RoundToOneDecimal(x) + 0.1
  {
    assert (x + LegacyMath.Epsilon) * 10.0 == x * 10.0 + 10.0 * LegacyMath.Epsilon;
    RoundShift(x * 10.0, 10.0 * LegacyMath.Epsilon);
  }

  /** A shift by less than one moves the rounding by at most one. */
  lemma RoundShift(y: real, d: real)
    requires 0.0 <= d < 1.0
    ensures Round(y + d) == Round(y) || Round(y + d) == Round(y) + 1
  {
  }

  /** The ratio does not depend on the order of the colours. */
  lemma ContrastSymmetric(n: Numerics, rgb1: Option<Color.Rgb>, rgb2: Option<Color.Rgb>)
    ensures CalculateContrastRatio(n, rgb1, rgb2) == CalculateContrastRatio(n, rgb2, rgb1)
  {
  }

  /** For colours in 0..255 the ratio is defined and at least 1. */
  lemma ContrastAtLeastOne(n: Numerics, c1: Color.Rgb, c2: Color.Rgb)
    requires Valid(n) && Color.InByteRange(c1) && Color.InByteRange(c2)
    ensures CalculateContrastRatio(n, Some(c1), Some(c2)).Some?
    ensures 1.0 <= CalculateContrastRatio(n, Some(c1), Some(c2)).value
  {
    GetLuminanceAgrees(n, c1);
    GetLuminanceAgrees(n, c2);
    var l1 := GetLuminance(n, c1);
    var l2 := GetLuminance(n, c2);
    var ratio := (Max(l1, l2) + 0.05) / (Min(l1, l2) + 0.05);
    AtLeastOne(Max(l1, l2) + 0.05, Min(l1, l2) + 0.05);
    LegacyMath.RoundDecimalPlacesMonotone(1.0, ratio, 1);
    LegacyMath.PowTenOne();
    LegacyMath.IntegerOfEqual(1.0 * 10.0, 10);
    LegacyMath.RoundDecimalPlacesOfStep(1.0, 1);
  }

  lemma AtLeastOne(a: real, b: real)
    requires 0.0 < b <= a
    ensures 1.0 <= a / b
  {
  }

  // ---------------------------------------------------------------------
  // Shorthand and opposite colours

  /** `convertShorthandToFullHexColor`: drop the first `#`, double each
      character of a three-character body, and prefix `#`. Nothing is
      trimmed, lower-cased or validated. */
  function ConvertShorthandToFullHexColor(color: string): (r: string)
    ensures |r| >= 1 && r[0] == '#'
    ensures var c := ReplaceFirst(color, '#', ""); |c| != 3 ==> r == "#" + c
  {
    var c := ReplaceFirst(color, '#', "");
    if |c| == 3 then ['#', c[0], c[0], c[1], c[1], c[2], c[2]] else "#" + c
  }

  /** On an untrimmed-free input of at most six characters after the `#`,
      `normalizeHex` of `src/utils` is the lower-cased expansion. */
  lemma ShorthandAgrees(color: string)
    requires Trim(color) == color && |ReplaceFirst(color, '#', "")| <= 6
    ensures Color.NormalizeHex(color) == ToLower(ConvertShorthandToFullHexColor(color))
  {
    var c := ReplaceFirst(color, '#', "");
    assert Color.Cleaned(color) == c;
    if |c| != 3 {
      assert Slice(c, 0, 6) == c;
    }
  }

  /** Three hex digits, with or without `#`, expand to a colour the
      prototype accepts, keeping the digits' case. */
  lemma ShorthandValid(d: string)
    requires |d| == 3 && AllHex(d)
    ensures ConvertShorthandToFullHexColor("#" + d) == ['#', d[0], d[0], d[1], d[1], d[2], d[2]]
    ensures ConvertShorthandToFullHexColor(d) == ['#', d[0], d[0], d[1], d[1], d[2], d[2]]
    ensures IsValidColor(['#', d[0], d[0], d[1], d[1], d[2], d[2]])
  {
    ReplaceFirstHead("#" + d, '#', "");
    assert ("#" + d)[1..] == d;
    assert !IsHexDigit('#');
    assert '#' !in d by {
      forall k | 0 <= k < |d| ensures d[k] != '#' { assert IsHexDigit(d[k]); }
    }
    var h := ['#', d[0], d[0], d[1], d[1], d[2], d[2]];
    assert forall k :: 0 <= k < 6 ==> h[1..][k] == d[k / 2];
  }

  /** `getOppositeColor`: the body is the six characters after a leading
      `#` (or the whole input), each channel is `255 - parseInt(pair, 16)`
      printed in hex with a `0` in front and cut to its last two characters.
      Nothing is validated: a pair that is not hex prints `aN`, the tail of
      `0NaN`. */
  function GetOppositeColor(hexColor: string): (r: string)
    ensures |r| == 7 && r[0] == '#'
  {
    OppositeOfBody(OppositeBody(hexColor))
  }

  /** `hexColor.charAt(0) === '#' ? hexColor.substring(1, 7) : hexColor`. */
  function OppositeBody(hexColor: string): (body: string)
    ensures |hexColor| > 0 && hexColor[0] == '#' ==> |body| <= 6
    ensures |hexColor| == 0 || hexColor[0] != '#' ==> body == hexColor
  {
    if |hexColor| > 0 && hexColor[0] == '#' then Slice(hexColor, 1, 7) else hexColor
  }

  /** The three printed channels behind `#`; each pair is read with
      `parseInt(pair, 16)` exactly as `hexToRgb` of `src/utils` reads it. */
  function OppositeOfBody(body: string): (r: string)
    ensures |r| == 7 && r[0] == '#'
  {
    "#" + OppositeText(Color.ParseChannel(body, 0)) + OppositeText(Color.ParseChannel(body, 2)) + OppositeText(Color.ParseChannel(body, 4))
  }

  /** `('0' + (255 - v).toString(16)).slice(-2)`, where `None` is a `NaN`
      channel, which prints `NaN`. */
  function OppositeText(v: Option<int>): (r: string)
    ensures |r| == 2
    ensures v.None? ==> r == "aN"
    ensures v.Some? && v.value <= 255 ==> IsLowerHexDigit(r[0]) && IsLowerHexDigit(r[1])
  {
    match v
    case None => "aN"
    case Some(n) => LastTwo("0" + SignedHex(255 - n))
  }

  /** `k.toString(16)` for any integer. */
  function SignedHex(k: int): (r: string)
    ensures |r| >= 1
    ensures k >= 0 ==> r == ToHexString(k)
  {
    if k >= 0 then ToHexString(k) else "-" + ToHexString(-k)
  }

  /** `s.slice(-2)` on a string of at least two characters. */
  function LastTwo(s: string): (r: string)
    requires |s| >= 2
    ensures |r| == 2 && forall k :: 0 <= k < |r| ==> r[k] == s[|s| - 2 + k]
  {
    s[|s| - 2..]
  }

  /** The three channels six hex digits spell, in any case. */
  function HexChannels(d: string): (c: Color.Rgb)
    requires |d| == 6 && AllHex(d)
    ensures Color.IsByteRgb(c)
  {
    Color.Rgb(PairByte(d[0], d[1]) as real, PairByte(d[2], d[3]) as real, PairByte(d[4], d[5]) as real)
  }

  function PairByte(a: char, b: char): (n: nat)
    requires IsHexDigit(a) && IsHexDigit(b)
    ensures n < 256
  {
    16 * HexValue(a) + HexValue(b)
  }

  /** The complement of every channel within 0..255. */
  function Invert(c: Color.Rgb): (d: Color.Rgb)
    ensures Color.IsByteRgb(c) ==> Color.IsByteRgb(d)
  {
    ComplementInteger(c.r);
    ComplementInteger(c.g);
    ComplementInteger(c.b);
    Color.Rgb(255.0 - c.r, 255.0 - c.g, 255.0 - c.b)
  }

  lemma ComplementInteger(x: real)
    ensures IsInteger(x) ==> IsInteger(255.0 - x)
  {
    if IsInteger(x) {
      LegacyMath.IntegerOfEqual(255.0 - x, 255 - x.Floor);
    }
  }

  // ---------------------------------------------------------------------
  // Properties of the opposite colour

  /** Complementing twice gives the colour back. */
  lemma InvertInvolution(c: Color.Rgb)
    ensures Invert(Invert(c)) == c
  {
  }

  /** A `0` in front and the last two characters is the two-digit form of a
      byte. */
  lemma LastTwoOfByte(w: nat)
    requires w < 256
    ensures LastTwo("0" + ToHexString(w)) == Hex2(w)
  {
    Hex2Digits(w);
    if w >= 16 {
      assert ToHexString(w / 16) == [HexChar(w / 16)];
    }
  }

  /** A channel that reads a byte prints the complement's two digits. */
  lemma OppositeOfByte(v: int)
    requires 0 <= v < 256
    ensures OppositeText(Some(v)) == Hex2(255 - v)
  {
    LastTwoOfByte(255 - v);
  }

  /** Two hex digits, in either case, read as the byte they spell. */
  lemma ChannelOfDigits(d: string, i: nat, a: char, b: char)
    requires i + 2 <= |d| && d[i] == a && d[i + 1] == b && IsHexDigit(a) && IsHexDigit(b)
    ensures Color.ParseChannel(d, i) == Some(PairByte(a, b))
  {
    var pair := d[i..i + 2];
    assert Slice(d, i, i + 2) == pair;
    PairReads(pair, a, b);
  }

  lemma PairReads(pair: string, a: char, b: char)
    requires pair == [a, b] && IsHexDigit(a) && IsHexDigit(b)
    ensures ParseHexInt(pair) == Some(PairByte(a, b))
  {
    ParseTwoHexDigits(a, b);
  }

  lemma OppositeOfChannels(body: string, r: int, g: int, b: int)
    requires Color.ParseChannel(body, 0) == Some(r) && Color.ParseChannel(body, 2) == Some(g) && Color.ParseChannel(body, 4) == Some(b)
    ensures OppositeOfBody(body) == "#" + OppositeText(Some(r)) + OppositeText(Some(g)) + OppositeText(Some(b))
  {
  }

  /** Six hex digits read as the three bytes they spell. */
  lemma ChannelsOfDigits(d: string)
    requires |d| == 6
    requires IsHexDigit(d[0]) && IsHexDigit(d[1]) && IsHexDigit(d[2]) && IsHexDigit(d[3]) && IsHexDigit(d[4]) && IsHexDigit(d[5])
    ensures Color.ParseChannel(d, 0) == Some(PairByte(d[0], d[1]))
    ensures Color.ParseChannel(d, 2) == Some(PairByte(d[2], d[3]))
    ensures Color.ParseChannel(d, 4) == Some(PairByte(d[4], d[5]))
  {
    assert Color.ParseChannel(d, 0) == Some(PairByte(d[0], d[1])) by { ChannelOfDigits(d, 0, d[0], d[1]); }
    assert Color.ParseChannel(d, 2) == Some(PairByte(d[2], d[3])) by { ChannelOfDigits(d, 2, d[2], d[3]); }
    assert Color.ParseChannel(d, 4) == Some(PairByte(d[4], d[5])) by { ChannelOfDigits(d, 4, d[4], d[5]); }
  }

  /** The complement of the digits' colour prints as the two-digit forms of
      the complemented bytes. */
  lemma ComplementPrint(d: string)
    requires |d| == 6 && AllHex(d)
    ensures Color.RgbToHex(Invert(HexChannels(d))) == "#" + Hex2(255 - PairByte(d[0], d[1])) + Hex2(255 - PairByte(d[2], d[3])) + Hex2(255 - PairByte(d[4], d[5]))
  {
    ComplementBytes(PairByte(d[0], d[1]), PairByte(d[2], d[3]), PairByte(d[4], d[5]));
  }

  lemma ComplementBytes(r: nat, g: nat, b: nat)
    requires r < 256 && g < 256 && b < 256
    ensures Color.RgbToHex(Invert(Color.Rgb(r as real, g as real, b as real))) == "#" + Hex2(255 - r) + Hex2(255 - g) + Hex2(255 - b)
  {
    assert Invert(Color.Rgb(r as real, g as real, b as real)) == Color.Rgb((255 - r) as real, (255 - g) as real, (255 - b) as real);
    PrintBytes(255 - r, 255 - g, 255 - b);
  }

  /** Three pairs that read as bytes print their complements. */
  lemma OppositeOfBytes(body: string, r: int, g: int, b: int)
    requires 0 <= r < 256 && 0 <= g < 256 && 0 <= b < 256
    requires Color.ParseChannel(body, 0) == Some(r) && Color.ParseChannel(body, 2) == Some(g) && Color.ParseChannel(body, 4) == Some(b)
    ensures OppositeOfBody(body) == "#" + Hex2(255 - r) + Hex2(255 - g) + Hex2(255 - b)
  {
    OppositeOfChannels(body, r, g, b);
    OppositeOfByte(r);
    OppositeOfByte(g);
    OppositeOfByte(b);
  }

  /** `rgbToHex` of three bytes prints their two-digit forms. */
  lemma PrintBytes(x: nat, y: nat, z: nat)
    requires x < 256 && y < 256 && z < 256
    ensures Color.RgbToHex(Color.Rgb(x as real, y as real, z as real)) == "#" + Hex2(x) + Hex2(y) + Hex2(z)
  {
    RoundOfInteger(x);
    RoundOfInteger(y);
    RoundOfInteger(z);
  }

  /** A colour the prototype accepts turns into the `rgbToHex` print of its
      complement: a canonical colour whose every channel is `255` minus the
      input's. */
  lemma OppositeIsComplement(hexColor: string)
    requires IsValidColor(hexColor)
    ensures GetOppositeColor(hexColor) == Color.RgbToHex(Invert(HexChannels(hexColor[1..])))
    ensures Color.IsCanonicalHex(GetOppositeColor(hexColor))
    ensures Color.HexToRgb(GetOppositeColor(hexColor)) == Some(Invert(HexChannels(hexColor[1..])))
  {
    var d := hexColor[1..];
    assert OppositeBody(hexColor) == d;
    ChannelsOfDigits(d);
    OppositeOfBytes(d, PairByte(d[0], d[1]), PairByte(d[2], d[3]), PairByte(d[4], d[5]));
    ComplementPrint(d);
    Color.RgbRoundTrip(Invert(HexChannels(d)));
  }

  /** The channels `hexToRgb` of `src/utils` reads from a colour the
      prototype accepts are the ones its digits spell. */
  lemma ModernChannels(hexColor: string)
    requires IsValidColor(hexColor)
    ensures Color.IsValidHex(hexColor)
    ensures Color.HexToRgb(hexColor) == Some(HexChannels(hexColor[1..]))
  {
    IsValidColorAgrees(hexColor);
    var d := hexColor[1..];
    var n := Color.NormalizeHex(hexColor);
    NormalFormOfColor(hexColor);
    Color.CanonicalIsFixed(n);
    Color.CanonicalDecode(n);
    assert Color.HexToRgb(hexColor) == Color.HexToRgb(n);
    LowerPair(d[0], d[1]);
    LowerPair(d[2], d[3]);
    LowerPair(d[4], d[5]);
  }

  /** `normalizeHex` of a colour the prototype accepts lower-cases its
      digits one by one. */
  lemma NormalFormOfColor(hexColor: string)
    requires IsValidColor(hexColor)
    ensures Color.IsValidHex(hexColor)
    ensures var n := Color.NormalizeHex(hexColor);
      && Color.IsCanonicalHex(n)
      && forall k :: 1 <= k < 7 ==> n[k] == LowerChar(hexColor[k])
  {
    ValidColorBody(hexColor);
    Color.NormalizeValid(hexColor);
    LowerAfterHash(hexColor, Color.NormalizeHex(hexColor));
  }

  /** `#` followed by the lower-cased rest lower-cases each character after
      the first. */
  lemma LowerAfterHash(h: string, n: string)
    requires |h| == 7 && n == "#" + ToLower(h[1..])
    ensures forall k :: 1 <= k < 7 ==> n[k] == LowerChar(h[k])
  {
    forall k | 1 <= k < 7
      ensures n[k] == LowerChar(h[k])
    {
      assert n[k] == ToLower(h[1..])[k - 1];
      assert h[1..][k - 1] == h[k];
    }
  }

  lemma ValidColorBody(color: string)
    requires IsValidColor(color)
    ensures Color.IsValidHex(color) && Color.HexBody(color) == color[1..]
  {
    ValidColorTrimmed(color);
  }

  /** Lower-casing two digits keeps the byte they spell. */
  lemma LowerPair(a: char, b: char)
    requires IsHexDigit(a) && IsHexDigit(b)
    ensures IsLowerHexDigit(LowerChar(a)) && IsLowerHexDigit(LowerChar(b))
    ensures Color.PairValue(LowerChar(a), LowerChar(b)) == PairByte(a, b)
  {
    LowerHexDigit(a);
    LowerHexDigit(b);
  }

  /** On a colour the prototype accepts the opposite colour is an
      involution up to case: twice gives the lower-cased input, which is
      what `normalizeHex` makes of it. */
  lemma OppositeInvolution(hexColor: string)
    requires IsValidColor(hexColor)
    ensures GetOppositeColor(GetOppositeColor(hexColor)) == Color.NormalizeHex(hexColor)
  {
    var c := HexChannels(hexColor[1..]);
    var o := GetOppositeColor(hexColor);
    OppositeIsComplement(hexColor);
    CanonicalIsColor(o);
    SecondOpposite(o, c);
    InvertInvolution(c);
    PrintOfChannels(hexColor);
  }

  /** The opposite of a colour that reads as `Invert(c)` prints `c`. */
  lemma SecondOpposite(o: string, c: Color.Rgb)
    requires IsValidColor(o) && Color.HexToRgb(o) == Some(Invert(c))
    ensures GetOppositeColor(o) == Color.RgbToHex(Invert(Invert(c)))
  {
    OppositeIsComplement(o);
    ModernChannels(o);
  }

  /** The digits of a colour the prototype accepts print back as its
      normal form. */
  lemma PrintOfChannels(hexColor: string)
    requires IsValidColor(hexColor)
    ensures Color.RgbToHex(HexChannels(hexColor[1..])) == Color.NormalizeHex(hexColor)
  {
    ModernChannels(hexColor);
    Color.HexRoundTrip(hexColor);
  }

  /** A canonical colour is one the prototype accepts. */
  lemma CanonicalIsColor(n: string)
    requires Color.IsCanonicalHex(n)
    ensures IsValidColor(n)
  {
    assert forall k :: 0 <= k < 6 ==> IsHexDigit(n[1..][k]);
  }

  /** The `#` is optional: a body that does not itself start with `#` gives
      the same colour with or without one in front. */
  lemma OppositeWithoutHash(body: string)
    requires |body| == 0 || body[0] != '#'
    ensures GetOppositeColor(body) == GetOppositeColor("#" + body)
  {
    var b := OppositeBody("#" + body);
    SameChannel(body, 0);
    SameChannel(body, 2);
    SameChannel(body, 4);
  }

  /** Cutting the body after six characters keeps every pair. */
  lemma SameChannel(body: string, i: nat)
    requires i <= 4
    ensures Color.ParseChannel(Slice("#" + body, 1, 7), i) == Color.ParseChannel(body, i)
  {
    var h := "#" + body;
    var cut := if |body| <= 6 then body else body[..6];
    assert Slice(h, 1, 7) == cut;
    assert Slice(cut, i, i + 2) == Slice(body, i, i + 2);
  }

  /** A pair that starts with a character that is neither a hex digit,
      white space nor a sign reads `NaN`. */
  lemma NonHexPair(a: char, b: char)
    requires !IsHexDigit(a) && !IsSpace(a) && a != '-' && a != '+'
    ensures ParseHexInt([a, b]).None?
  {
    var s := [a, b];
    assert TrimStart(s) == s;
    assert HexPrefixLength(s) == 0;
  }

  /** Pairs that are not hex print `aN`. */
  lemma OppositeOfNonHex()
    ensures GetOppositeColor("#zzzzzz") == "#aNaNaN"
  {
    var d := "zzzzzz";
    assert OppositeBody("#zzzzzz") == d;
    assert Slice(d, 0, 2) == "zz" && Slice(d, 2, 4) == "zz" && Slice(d, 4, 6) == "zz";
    NonHexPair('z', 'z');
  }
}

=== FILE: legacy_easing.dfy ===
/** The envelopes of the prototype in `temp/src/js`: `easeInOutQuad` and
    `cubicBezier` of `utils/easing.js`, and `getIntensityCurve` and
    `getIntensity` of `index.js`. They are compared with the functions of
    `src/utils/tonal/easing.ts` modelled in `Easing`. */
module LegacyEasing {
  import opened Wrappers
  import opened JsMath
  import Easing

  /** `easeInOutQuad(range, position)`: `4x(1 - x)` with `x = position /
      range` and no guard for an empty range, whose division yields `NaN`
      or an infinity and so no finite number (`None`). */
  function EaseInOutQuad(range: real, position: real): (e: Option<real>)
    ensures e.Some? <==> range != 0.0
  {
    if range == 0.0 then None
    else
      var x := position / range;
      Some(4.0 * x * (1.0 - x))
  }

  /** `cubicBezier(p1x, p1y, p2x, p2y)(t)`, written out as in the
      prototype: the end points (0, 0) and (1, 1) enter with weights `t1^3`
      and `t^3`. */
  function CubicBezier(c: Easing.Bezier, t: real): (p: Easing.Point)
    ensures t == 0.0 ==> p == Easing.Point(0.0, 0.0)
    ensures t == 1.0 ==> p == Easing.Point(1.0, 1.0)
  {
    var t1 := 1.0 - t;
    var t1Pow2 := t1 * t1;
    var t1Pow3 := t1Pow2 * t1;
    var tPow2 := t * t;
    var tPow3 := tPow2 * t;
    var x := t1Pow3 * 0.0 + 3.0 * t1Pow2 * t * c.p1x + 3.0 * t1 * tPow2 * c.p2x + tPow3 * 1.0;
    var y := t1Pow3 * 0.0 + 3.0 * t1Pow2 * t * c.p1y + 3.0 * t1 * tPow2 * c.p2y + tPow3 * 1.0;
    Easing.Point(x, y)
  }

  /** `getIntensityCurve(middle, spread)` of `index.js`: the parameter
      `spread` is overwritten by the effective spread. The second branch is
      `else if (middle > 0.5)`, which every real number the first branch
      leaves out satisfies. */
  function GetIntensityCurve(middle: real, spread: real): (c: Easing.Bezier)
    ensures c.p1y == 0.0 && c.p2y == 1.0
  {
    var factor := Abs(middle / 0.5 - 1.0);
    var (p1x, p2x, spread') :=
      if middle <= 0.5 then
        var p1x := 0.42 + (1.0 - 0.42) * factor;
        (p1x, 0.58, (1.0 - p1x) * spread)
      else
        var p2x := 0.58 - 0.58 * factor;
        (0.42, p2x, p2x * spread);
    Easing.Bezier(p1x + spread', 0.0, p2x - spread', 1.0)
  }

  /** `getIntensity(curve, i, luminance)` of `index.js`, with the two end
      tests written as separate returns. The division by the midpoint height
      needs that height to be non-zero, as in `Easing.GetIntensity`. */
  function GetIntensity(c: Easing.Bezier, i: real, luminance: real): (v: real)
    requires i == 0.0 || i == luminance || (luminance != 0.0 && CubicBezier(c, 0.5).y != 0.0)
    ensures i == 0.0 || i == luminance ==> v == 0.0
  {
    if i == 0.0 then 0.0
    else if i == luminance then 0.0
    else
      var positionOnCurve := CubicBezier(c, i / luminance);
      var halfpoint := CubicBezier(c, 0.5);
      var progress := positionOnCurve.x;
      var progressN := progress / halfpoint.y;
      if progress < halfpoint.y then progressN else 1.0 - (progressN - 1.0)
  }

  // ---------------------------------------------------------------------
  // Properties

  /** Over a non-empty range the prototype's envelope is the one of
      `src/utils`; over an empty range it is no number where `src/utils`
      returns 0. */
  lemma EaseAgrees(range: real, position: real)
    ensures range != 0.0 ==> EaseInOutQuad(range, position) == Some(Easing.EaseInOutQuad(range, position))
    ensures range == 0.0 ==> EaseInOutQuad(range, position).None? && Easing.EaseInOutQuad(range, position) == 0.0
  {
  }

  /** Symmetric about the middle of the range, 1 at the middle, and in
      [0, 1] for a position inside a positive range. */
  lemma EaseShape(range: real, position: real)
    requires range != 0.0
    ensures EaseInOutQuad(range, position) == EaseInOutQuad(range, range - position)
    ensures EaseInOutQuad(range, range / 2.0) == Some(1.0)
    ensures 0.0 < range && 0.0 <= position <= range ==>
      0.0 <= EaseInOutQuad(range, position).value <= 1.0
  {
    EaseAgrees(range, position);
    EaseAgrees(range, range - position);
    EaseAgrees(range, range / 2.0);
    Easing.EaseSymmetric(range, position);
    Easing.EasePeak(range);
  }

  /** The prototype's `cubicBezier` is the polynomial of `src/utils`. */
  lemma CubicBezierAgrees(c: Easing.Bezier, t: real)
    ensures CubicBezier(c, t) == Easing.Eval(c, t)
  {
    assert CubicBezier(c, t).x == Easing.Bernstein(c.p1x, c.p2x, t);
    assert CubicBezier(c, t).y == Easing.Bernstein(c.p1y, c.p2y, t);
  }

  /** The prototype's intensity curve has the control points of
      `src/utils` for every `middle` and `spread`. */
  lemma IntensityCurveAgrees(middle: real, spread: real)
    ensures GetIntensityCurve(middle, spread) == Easing.IntensityCurve(middle, spread)
  {
  }

  /** The prototype's `getIntensity` on its own curve is the intensity of
      `src/utils`: 0 at both ends and in [0, 1] between them for `middle`
      and `spread` in [0, 1]. */
  lemma IntensityAgrees(middle: real, spread: real, i: real, luminance: real)
    requires i == 0.0 || i == luminance || luminance != 0.0
    ensures var c := GetIntensityCurve(middle, spread);
      CubicBezier(c, 0.5).y == 0.5
      && GetIntensity(c, i, luminance) == Easing.GetIntensity(c, i, luminance)
    ensures 0.0 <= middle <= 1.0 && 0.0 <= spread <= 1.0 && 0.0 <= i <= luminance ==>
      0.0 <= GetIntensity(GetIntensityCurve(middle, spread), i, luminance) <= 1.0
  {
    var c := GetIntensityCurve(middle, spread);
    IntensityCurveAgrees(middle, spread);
    CubicBezierAgrees(c, 0.5);
    if i != 0.0 && i != luminance {
      CubicBezierAgrees(c, i / luminance);
    }
    if 0.0 <= middle <= 1.0 && 0.0 <= spread <= 1.0 && 0.0 <= i <= luminance {
      Easing.IntensityUnit(middle, spread, i, luminance);
    }
  }
}

=== FILE: legacy_math.dfy ===
/** `MathUtils` of the prototype in `temp/src/js`: an inclusive range test
    on whatever `Number(value)` reads, and rounding to a number of decimal
    places with `Number.EPSILON` added first. */
module LegacyMath {
  import opened Wrappers
  import opened JsMath
  import opened JsText
  import opened Powers

  /** `Number.EPSILON`, 2^-52. */
  const Epsilon: real := 1.0 / 4503599627370496.0

  /** `isInRange(value, min, max)` for a query value: `None` is a missing
      key, whose `Number(undefined)` is `NaN`. A number that is not finite
      fails one of the comparisons just as `NaN` does. */
  predicate IsInRange(value: Option<string>, min: real, max: real, fraction: string -> Option<real>) {
    match value
    case None => false
    case Some(s) =>
      var n := NumberOf(s, fraction);
      n.Some? && n.value >= min && n.value <= max
  }

  /** `roundDecimalPlaces(num, precision)`: `Math.round((num + EPSILON) *
      10^precision) / 10^precision`. */
  function RoundDecimalPlaces(num: real, precision: nat): real {
    RoundToScale(num, Pow10(precision))
  }

  /** `Math.round((num + EPSILON) * scale) / scale`. */
  function RoundToScale(num: real, scale: real): real
    requires scale > 0.0
  {
    Round((num + Epsilon) * scale) as real / scale
  }

  /** `Math.pow(10, precision)`. */
  function Pow10(p: nat): (s: real)
    ensures s >= 1.0
  {
    PowTenPositive(p);
    Pow(10.0, p)
  }

  lemma {:induction false} PowTenPositive(p: nat)
    ensures Pow(10.0, p) >= 1.0
  {
    if p > 0 {
      PowTenPositive(p - 1);
      assert Pow(10.0, p) == 10.0 * Pow(10.0, p - 1);
    }
  }

  lemma PowTenOne()
    ensures Pow10(1) == 10.0
  {
    assert Pow(10.0, 1) == 10.0 * Pow(10.0, 0);
  }

  /** `x` is a whole number of steps `1 / scale`. */
  predicate WholeSteps(x: real, scale: real) {
    IsInteger(x * scale)
  }

  // ---------------------------------------------------------------------
  // Rounding to a scale

  /** The result is a whole number of steps `1 / scale`, within half a step
      of `num + EPSILON`. */
  lemma ScaleStep(num: real, scale: real)
    requires scale > 0.0
    ensures WholeSteps(RoundToScale(num, scale), scale)
    ensures num + Epsilon - 0.5 / scale < RoundToScale(num, scale) <= num + Epsilon + 0.5 / scale
  {
    WholeQuotient(Round((num + Epsilon) * scale), scale);
    RoundBounds((num + Epsilon) * scale);
    StepBounds(num + Epsilon, scale, Round((num + Epsilon) * scale));
  }

  /** `k / scale` is a whole number of steps. */
  lemma WholeQuotient(k: int, scale: real)
    requires scale > 0.0
    ensures WholeSteps(k as real / scale, scale)
  {
    MulDiv(k as real, scale);
    IntegerOfEqual((k as real / scale) * scale, k);
  }

  lemma IntegerOfEqual(t: real, k: int)
    requires t == k as real
    ensures IsInteger(t)
  {
  }

  lemma MulDiv(a: real, d: real)
    requires d > 0.0
    ensures (a / d) * d == a
  {
  }

  /** Dividing the rounding bounds of `x * scale` by `scale`. */
  lemma StepBounds(x: real, scale: real, k: int)
    requires scale > 0.0 && x * scale - 0.5 < k as real <= x * scale + 0.5
    ensures x - 0.5 / scale < k as real / scale <= x + 0.5 / scale
  {
    var q := k as real / scale;
    assert q * scale == k as real;
    assert (x - 0.5 / scale) * scale == x * scale - 0.5;
    assert (x + 0.5 / scale) * scale == x * scale + 0.5;
    if q <= x - 0.5 / scale {
      MulLe(q, x - 0.5 / scale, scale);
    }
  }

  /** Rounding to a scale is monotone. */
  lemma ScaleMonotone(x: real, y: real, scale: real)
    requires x <= y && scale > 0.0
    ensures RoundToScale(x, scale) <= RoundToScale(y, scale)
  {
    MulLe(x + Epsilon, y + Epsilon, scale);
    RoundMonotone((x + Epsilon) * scale, (y + Epsilon) * scale);
    QuotientMonotone(Round((x + Epsilon) * scale) as real, Round((y + Epsilon) * scale) as real, scale);
  }

  lemma QuotientMonotone(a: real, b: real, d: real)
    requires a <= b && d > 0.0
    ensures a / d <= b / d
  {
    assert (a / d) * d == a && (b / d) * d == b;
  }

  /** A whole number of steps `1 / scale` nudged up by `EPSILON`, less than
      half a step, rounds back to itself. */
  lemma ScaleOfStep(x: real, scale: real)
    requires 0.0 < scale < 2251799813685248.0 && WholeSteps(x, scale)
    ensures RoundToScale(x, scale) == x
  {
    NudgeRound(x, scale);
    StepsBack(x, scale);
  }

  lemma NudgeRound(x: real, scale: real)
    requires 0.0 < scale < 2251799813685248.0 && WholeSteps(x, scale)
    ensures Round((x + Epsilon) * scale) == (x * scale).Floor
  {
    assert 0.0 <= Epsilon * scale < 0.5;
    assert (x + Epsilon) * scale == x * scale + Epsilon * scale;
  }

  lemma StepsBack(x: real, scale: real)
    requires scale > 0.0 && WholeSteps(x, scale)
    ensures (x * scale).Floor as real / scale == x
  {
    MulDiv(x, scale);
  }

  // ---------------------------------------------------------------------
  // Properties

  /** A missing value is never in range; a decimal integer string is in
      range exactly when its integer lies between the bounds, inclusive. */
  lemma InRangeOfInteger(n: int, min: real, max: real, fraction: string -> Option<real>)
    ensures !IsInRange(None, min, max, fraction)
    ensures IsInRange(Some(IntToDecimal(n)), min, max, fraction) <==> min <= n as real <= max
  {
    var s := IntToDecimal(n);
    ParseIntToDecimal(n);
    DecimalHasNoSpace(n);
    TrimNoSpace(s);
  }

  /** The printed integer starts with a digit or `-` and ends with a digit. */
  lemma DecimalHasNoSpace(n: int)
    ensures var s := IntToDecimal(n); |s| > 0 && !IsSpace(s[0]) && !IsSpace(s[|s| - 1])
  {
    if n < 0 {
      var d := NatToDecimal(-n);
      assert IntToDecimal(n)[|IntToDecimal(n)| - 1] == d[|d| - 1];
    }
  }

  /** The result is a whole number of steps `10^-precision`, within half a
      step of `num + EPSILON`. */
  lemma RoundDecimalPlacesStep(num: real, precision: nat)
    ensures WholeSteps(RoundDecimalPlaces(num, precision), Pow10(precision))
    ensures var half := 0.5 / Pow10(precision);
      num + Epsilon - half < RoundDecimalPlaces(num, precision) <= num + Epsilon + half
  {
    ScaleStep(num, Pow10(precision));
  }

  /** Rounding is monotone: a larger input never rounds lower. */
  lemma RoundDecimalPlacesMonotone(x: real, y: real, precision: nat)
    requires x <= y
    ensures RoundDecimalPlaces(x, precision) <= RoundDecimalPlaces(y, precision)
  {
    ScaleMonotone(x, y, Pow10(precision));
  }

  /** A whole number of steps is its own rounding once the `EPSILON` nudge
      is smaller than half a step. */
  lemma RoundDecimalPlacesOfStep(x: real, precision: nat)
    requires WholeSteps(x, Pow10(precision)) && Pow10(precision) < 2251799813685248.0
    ensures RoundDecimalPlaces(x, precision) == x
  {
    ScaleOfStep(x, Pow10(precision));
  }

  /** Rounding an already rounded number changes nothing, for every precision
      whose step is coarser than `EPSILON` twice over. */
  lemma RoundDecimalPlacesIdempotent(num: real, precision: nat)
    requires Pow10(precision) < 2251799813685248.0
    ensures RoundDecimalPlaces(RoundDecimalPlaces(num, precision), precision) == RoundDecimalPlaces(num, precision)
  {
    RoundDecimalPlacesStep(num, precision);
    RoundDecimalPlacesOfStep(RoundDecimalPlaces(num, precision), precision);
  }
}

=== FILE: legacy_scale.dfy ===
/** The scale logic of the prototype's `temp/src/js/index.js` that does not
    touch the page: the default parameters, the validation of parameters
    read from the query string, the search for the nearest step that reaches
    a contrast ratio, and the substitution of the base step into a partial
    index list. */
module LegacyScale {
  import opened Wrappers
  import opened JsMath
  import opened JsText
  import LegacyMath
  import LegacyColor
  import LegacyBlending

  // ---------------------------------------------------------------------
  // Parameters

  /** The scale parameters as the query string carries them: every field is
      a string. */
  datatype ScaleParams = ScaleParams(
    colorHex: string, blendMode: string, blendStrength: string,
    blendR: string, blendG: string, blendB: string,
    middle: string, spread: string, satDarker: string, satLighter: string)

  /** The ten parameters, one per field of `ScaleParams`. */
  datatype Field =
    | ColorHex | BlendMode | BlendStrength | BlendR | BlendG | BlendB
    | Middle | Spread | SatDarker | SatLighter

  /** `State.getDefaultParams()`. */
  const DefaultParams := ScaleParams("8000ff", "colordodge", "85", "0", "0", "50", "-35", "100", "30", "50")

  /** `validBlendModes` of `readScaleParamsFromQueryString`. */
  const ValidBlendModes: seq<string> :=
    ["colordodge", "overlay", "softlight", "darken", "multiply", "colorburn",
     "lighten", "screen", "hardlight", "vividlight", "hue"]

  /** The query-string key of a parameter. */
  function Key(f: Field): string {
    match f
    case ColorHex => "colorHex"
    case BlendMode => "blendMode"
    case BlendStrength => "blendStrength"
    case BlendR => "blendR"
    case BlendG => "blendG"
    case BlendB => "blendB"
    case Middle => "middle"
    case Spread => "spread"
    case SatDarker => "satDarker"
    case SatLighter => "satLighter"
  }

  /** The field of `p` for parameter `f`. */
  function FieldOf(p: ScaleParams, f: Field): string {
    match f
    case ColorHex => p.colorHex
    case BlendMode => p.blendMode
    case BlendStrength => p.blendStrength
    case BlendR => p.blendR
    case BlendG => p.blendG
    case BlendB => p.blendB
    case Middle => p.middle
    case Spread => p.spread
    case SatDarker => p.satDarker
    case SatLighter => p.satLighter
  }

  /** `scaleParams[key]` of the object built from the query string: `None`
      for a key that is not there. */
  function Get(query: map<string, string>, f: Field): (v: Option<string>)
    ensures v.Some? <==> Key(f) in query
    ensures v.Some? ==> v.value == query[Key(f)]
  {
    if Key(f) in query then Some(query[Key(f)]) else None
  }

  /** The inclusive range `readScaleParamsFromQueryString` checks a numeric
      parameter against. */
  function Bounds(f: Field): (real, real) {
    match f
    case BlendR => (0.0, 255.0)
    case BlendG => (0.0, 255.0)
    case BlendB => (0.0, 255.0)
    case Middle => (-50.0, 50.0)
    case _ => (0.0, 100.0)
  }

  /** The check of one parameter: `colorHex` must be a non-empty string
      that `isValidColor` accepts, `blendMode` one of `validBlendModes`, and
      every other parameter a number `isInRange` accepts. */
  predicate Passes(f: Field, v: Option<string>, fraction: string -> Option<real>) {
    match f
    case ColorHex => v.Some? && v.value != "" && LegacyColor.IsValidColor(v.value)
    case BlendMode => v.Some? && v.value in ValidBlendModes
    case _ => LegacyMath.IsInRange(v, Bounds(f).0, Bounds(f).1, fraction)
  }

  /** One parameter of the result: the query's value if it passes, else the
      default. */
  function ReadField(query: map<string, string>, f: Field, fraction: string -> Option<real>): (v: string)
    ensures Passes(f, Get(query, f), fraction) ==> v == query[Key(f)]
    ensures !Passes(f, Get(query, f), fraction) ==> v == FieldOf(DefaultParams, f)
  {
    if Passes(f, Get(query, f), fraction) then query[Key(f)] else FieldOf(DefaultParams, f)
  }

  /** `readScaleParamsFromQueryString` on the entries of the query string,
      with `Number` of a non-integer text answered by `fraction`. An empty
      query gives the defaults; otherwise every parameter is checked on its
      own and falls back to its default when the check fails. */
  function ReadScaleParams(query: map<string, string>, fraction: string -> Option<real>): (p: ScaleParams)
    ensures |query| == 0 ==> p == DefaultParams
    ensures |query| > 0 ==> p.colorHex == ReadField(query, ColorHex, fraction)
  {
    if |query| == 0 then DefaultParams
    else
      ScaleParams(
        ReadField(query, ColorHex, fraction), ReadField(query, BlendMode, fraction),
        ReadField(query, BlendStrength, fraction), ReadField(query, BlendR, fraction),
        ReadField(query, BlendG, fraction), ReadField(query, BlendB, fraction),
        ReadField(query, Middle, fraction), ReadField(query, Spread, fraction),
        ReadField(query, SatDarker, fraction), ReadField(query, SatLighter, fraction))
  }

  /** `colorInputHex.startsWith('#') ? colorInputHex.substring(1) :
      colorInputHex` of `getCurrentScaleParams`: the colour is written to
      the query string without its `#`. */
  function CurrentColorHex(pickerHex: string): (r: string)
    ensures |pickerHex| > 0 && pickerHex[0] == '#' ==> "#" + r == pickerHex
    ensures !(|pickerHex| > 0 && pickerHex[0] == '#') ==> r == pickerHex
  {
    if |pickerHex| > 0 && pickerHex[0] == '#' then pickerHex[1..] else pickerHex
  }

  /** The query string `updateQueryString` writes for `p`: one entry per
      parameter. */
  function QueryOf(p: ScaleParams): (q: map<string, string>)
    ensures forall f :: Key(f) in q && q[Key(f)] == FieldOf(p, f)
  {
    map["colorHex" := p.colorHex, "blendMode" := p.blendMode, "blendStrength" := p.blendStrength,
        "blendR" := p.blendR, "blendG" := p.blendG, "blendB" := p.blendB,
        "middle" := p.middle, "spread" := p.spread, "satDarker" := p.satDarker,
        "satLighter" := p.satLighter]
  }

  /** Two parameters have the same fields in every parameter. */
  lemma ParamsOfFields(p: ScaleParams, r: ScaleParams)
    requires forall f :: FieldOf(p, f) == FieldOf(r, f)
    ensures p == r
  {
    assert FieldOf(p, ColorHex) == FieldOf(r, ColorHex);
    assert FieldOf(p, BlendMode) == FieldOf(r, BlendMode);
    assert FieldOf(p, BlendStrength) == FieldOf(r, BlendStrength);
    assert FieldOf(p, BlendR) == FieldOf(r, BlendR);
    assert FieldOf(p, BlendG) == FieldOf(r, BlendG);
    assert FieldOf(p, BlendB) == FieldOf(r, BlendB);
    assert FieldOf(p, Middle) == FieldOf(r, Middle);
    assert FieldOf(p, Spread) == FieldOf(r, Spread);
    assert FieldOf(p, SatDarker) == FieldOf(r, SatDarker);
    assert FieldOf(p, SatLighter) == FieldOf(r, SatLighter);
  }

  // ---------------------------------------------------------------------
  // The colour check as evidently intended

  /** The check of `colorHex` that accepts what `getCurrentScaleParams`
      writes: six hex digits, to which `applyColorScaleParams` adds the
      `#`. */
  predicate ColorHexPassesFixed(v: Option<string>) {
    v.Some? && LegacyColor.IsValidColor("#" + v.value)
  }

  /** `readScaleParamsFromQueryString` with the corrected colour check; the
      other parameters are read as before. */
  function ReadScaleParamsFixed(query: map<string, string>, fraction: string -> Option<real>): (p: ScaleParams)
    ensures |query| == 0 ==> p == DefaultParams
    ensures |query| > 0 ==> p.colorHex == if ColorHexPassesFixed(Get(query, ColorHex)) then query["colorHex"] else DefaultParams.colorHex
    ensures |query| > 0 ==> p.(colorHex := "") == ReadScaleParams(query, fraction).(colorHex := "")
  {
    var p := ReadScaleParams(query, fraction);
    if |query| == 0 then p
    else p.(colorHex := if ColorHexPassesFixed(Get(query, ColorHex)) then query["colorHex"] else DefaultParams.colorHex)
  }

  // ---------------------------------------------------------------------
  // Properties of the parameters

  /** Every parameter of a non-empty query is read on its own. */
  lemma ReadFields(query: map<string, string>, fraction: string -> Option<real>)
    requires |query| > 0
    ensures forall f :: FieldOf(ReadScaleParams(query, fraction), f) == ReadField(query, f, fraction)
    ensures forall f :: f != ColorHex ==> FieldOf(ReadScaleParamsFixed(query, fraction), f) == ReadField(query, f, fraction)
  {
    var p := ReadScaleParams(query, fraction);
    var p' := ReadScaleParamsFixed(query, fraction);
    forall f
      ensures FieldOf(p, f) == ReadField(query, f, fraction)
      ensures f != ColorHex ==> FieldOf(p', f) == ReadField(query, f, fraction)
    {
      match f
      case ColorHex =>
      case BlendMode => assert p'.blendMode == p'.(colorHex := "").blendMode;
      case BlendStrength => assert p'.blendStrength == p'.(colorHex := "").blendStrength;
      case BlendR => assert p'.blendR == p'.(colorHex := "").blendR;
      case BlendG => assert p'.blendG == p'.(colorHex := "").blendG;
      case BlendB => assert p'.blendB == p'.(colorHex := "").blendB;
      case Middle => assert p'.middle == p'.(colorHex := "").middle;
      case Spread => assert p'.spread == p'.(colorHex := "").spread;
      case SatDarker => assert p'.satDarker == p'.(colorHex := "").satDarker;
      case SatLighter => assert p'.satLighter == p'.(colorHex := "").satLighter;
    }
  }

  /** The query keys are distinct, so each parameter reads its own entry. */
  lemma KeysDistinct(f: Field, g: Field)
    ensures Key(f) == Key(g) <==> f == g
  {
    if f != g {
      assert Key(f)[..4] != Key(g)[..4] || |Key(f)| != |Key(g)| || Key(f)[|Key(f)| - 1] != Key(g)[|Key(g)| - 1];
    }
  }

  /** The printed integers of the numeric defaults are the default strings. */
  lemma DefaultStrings()
    ensures IntToDecimal(85) == "85" && IntToDecimal(0) == "0" && IntToDecimal(50) == "50"
    ensures IntToDecimal(-35) == "-35" && IntToDecimal(100) == "100" && IntToDecimal(30) == "30"
  {
    assert NatToDecimal(85) == NatToDecimal(8) + [DigitChar(5)];
    assert NatToDecimal(50) == NatToDecimal(5) + [DigitChar(0)];
    assert NatToDecimal(35) == NatToDecimal(3) + [DigitChar(5)];
    assert NatToDecimal(30) == NatToDecimal(3) + [DigitChar(0)];
    assert NatToDecimal(100) == NatToDecimal(10) + [DigitChar(0)];
    assert NatToDecimal(10) == NatToDecimal(1) + [DigitChar(0)];
  }

  /** The default mode and every numeric default pass their checks; the
      default colour `8000ff` has no `#` and fails its own. */
  lemma DefaultsPassChecks(fraction: string -> Option<real>)
    ensures forall f :: f != ColorHex ==> Passes(f, Some(FieldOf(DefaultParams, f)), fraction)
    ensures !Passes(ColorHex, Some(DefaultParams.colorHex), fraction)
    ensures ColorHexPassesFixed(Some(DefaultParams.colorHex))
  {
    DefaultStrings();
    forall f | f != ColorHex
      ensures Passes(f, Some(FieldOf(DefaultParams, f)), fraction)
    {
      match f
      case BlendMode =>
      case BlendStrength => NumericDefault(f, 85, fraction);
      case BlendR => NumericDefault(f, 0, fraction);
      case BlendG => NumericDefault(f, 0, fraction);
      case BlendB => NumericDefault(f, 50, fraction);
      case Middle => NumericDefault(f, -35, fraction);
      case Spread => NumericDefault(f, 100, fraction);
      case SatDarker => NumericDefault(f, 30, fraction);
      case SatLighter => NumericDefault(f, 50, fraction);
    }
    SixDigits("8000ff");
  }

  /** A numeric default that prints an integer within its bounds passes. */
  lemma NumericDefault(f: Field, n: int, fraction: string -> Option<real>)
    requires f != ColorHex && f != BlendMode
    requires FieldOf(DefaultParams, f) == IntToDecimal(n)
    requires Bounds(f).0 <= n as real <= Bounds(f).1
    ensures Passes(f, Some(FieldOf(DefaultParams, f)), fraction)
  {
    LegacyMath.InRangeOfInteger(n, Bounds(f).0, Bounds(f).1, fraction);
  }

  lemma SixDigits(d: string)
    requires |d| == 6 && AllHex(d)
    ensures !LegacyColor.IsValidColor(d) && LegacyColor.IsValidColor("#" + d)
  {
    LegacyColor.BareDigits(d);
  }

  /** Every parameter of the result but the colour passes its check; the
      colour is the query's valid colour or the default. */
  lemma ReadScaleParamsPasses(query: map<string, string>, fraction: string -> Option<real>)
    ensures var p := ReadScaleParams(query, fraction);
      && (forall f :: f != ColorHex ==> Passes(f, Some(FieldOf(p, f)), fraction))
      && (LegacyColor.IsValidColor(p.colorHex) || p.colorHex == DefaultParams.colorHex)
  {
    var p := ReadScaleParams(query, fraction);
    DefaultsPassChecks(fraction);
    forall f | f != ColorHex
      ensures Passes(f, Some(FieldOf(p, f)), fraction)
    {
      if |query| > 0 && Passes(f, Get(query, f), fraction) {
        assert Get(query, f) == Some(FieldOf(p, f));
      }
    }
    if |query| > 0 {
      assert p.colorHex == ReadField(query, ColorHex, fraction);
    }
  }

  /** A parameter missing from a query reads as its default, and one that is
      there keeps its value exactly when the value passes the check or is
      the default already. */
  lemma FieldKept(query: map<string, string>, f: Field, fraction: string -> Option<real>)
    ensures Key(f) !in query ==> FieldOf(ReadScaleParams(query, fraction), f) == FieldOf(DefaultParams, f)
    ensures Key(f) in query ==>
      (FieldOf(ReadScaleParams(query, fraction), f) == query[Key(f)] <==>
       Passes(f, Some(query[Key(f)]), fraction) || query[Key(f)] == FieldOf(DefaultParams, f))
  {
    if Key(f) in query {
      assert |query| > 0 by {
        assert Key(f) in query.Keys;
      }
    }
  }

  /** Changing one entry of a non-empty query changes at most the parameter
      under that key. */
  lemma FieldsIndependent(query: map<string, string>, key: string, value: string, fraction: string -> Option<real>)
    requires |query| > 0
    ensures forall f :: Key(f) != key ==>
      FieldOf(ReadScaleParams(query[key := value], fraction), f) == FieldOf(ReadScaleParams(query, fraction), f)
  {
    var q := query[key := value];
    assert |q| > 0 by {
      assert key in q.Keys;
    }
    ReadFields(q, fraction);
    ReadFields(query, fraction);
    forall f | Key(f) != key
      ensures ReadField(q, f, fraction) == ReadField(query, f, fraction)
    {
      ReadFieldOfGet(q, query, f, fraction);
    }
  }

  /** A parameter reads the same from two queries that hold the same entry
      for it. */
  lemma ReadFieldOfGet(q: map<string, string>, q': map<string, string>, f: Field, fraction: string -> Option<real>)
    requires Get(q, f) == Get(q', f)
    ensures ReadField(q, f, fraction) == ReadField(q', f, fraction)
  {
  }

  /** A parameter whose entry passes its check reads as that entry. */
  lemma ReadFieldPassing(q: map<string, string>, f: Field, v: string, fraction: string -> Option<real>)
    requires Get(q, f) == Some(v) && Passes(f, Some(v), fraction)
    ensures ReadField(q, f, fraction) == v
  {
  }

  /** Writing parameters that all pass and reading them back gives them
      again. */
  lemma QueryRoundTrip(p: ScaleParams, fraction: string -> Option<real>)
    requires forall f :: Passes(f, Some(FieldOf(p, f)), fraction)
    ensures ReadScaleParams(QueryOf(p), fraction) == p
  {
    var q := QueryOf(p);
    assert |q| > 0 by {
      assert Key(ColorHex) in q.Keys;
    }
    var r := ReadScaleParams(q, fraction);
    ReadFields(q, fraction);
    forall f
      ensures FieldOf(r, f) == FieldOf(p, f)
    {
      ReadFieldPassing(q, f, FieldOf(p, f), fraction);
    }
    ParamsOfFields(r, p);
  }

  /** The parameters `getCurrentScaleParams` writes carry the picker's
      colour without its `#`, which `isValidColor` rejects: a reload always
      shows the default colour, whatever the picker held. */
  lemma HashlessColorLost(p: ScaleParams, digits: string, fraction: string -> Option<real>)
    requires |digits| == 6 && AllHex(digits)
    requires p.colorHex == CurrentColorHex("#" + digits)
    ensures ReadScaleParams(QueryOf(p), fraction).colorHex == DefaultParams.colorHex
  {
    assert p.colorHex == digits by {
      assert ("#" + digits)[1..] == digits;
    }
    SixDigits(digits);
    var q := QueryOf(p);
    assert |q| > 0 by {
      assert Key(ColorHex) in q.Keys;
    }
    assert Get(q, ColorHex) == Some(digits);
    assert ReadScaleParams(q, fraction).colorHex == ReadField(q, ColorHex, fraction);
  }

  /** With the corrected colour check, the parameters `getCurrentScaleParams`
      writes come back unchanged when the other parameters pass. */
  lemma QueryRoundTripFixed(p: ScaleParams, digits: string, fraction: string -> Option<real>)
    requires |digits| == 6 && AllHex(digits)
    requires p.colorHex == CurrentColorHex("#" + digits)
    requires forall f :: f != ColorHex ==> Passes(f, Some(FieldOf(p, f)), fraction)
    ensures ReadScaleParamsFixed(QueryOf(p), fraction) == p
  {
    assert p.colorHex == digits by {
      assert ("#" + digits)[1..] == digits;
    }
    SixDigits(digits);
    var q := QueryOf(p);
    assert |q| > 0 by {
      assert Key(ColorHex) in q.Keys;
    }
    var r := ReadScaleParamsFixed(q, fraction);
    ReadFields(q, fraction);
    assert Get(q, ColorHex) == Some(digits);
    forall f
      ensures FieldOf(r, f) == FieldOf(p, f)
    {
      if f != ColorHex {
        ReadFieldPassing(q, f, FieldOf(p, f), fraction);
      }
    }
    ParamsOfFields(r, p);
  }

  /** The modes the query check admits are exactly the keys of the blend
      table, so a validated mode always names a blend function. */
  lemma ValidModesAreTableKeys()
    ensures ValidBlendModes == LegacyBlending.ModeKeys
  {
  }

  // ---------------------------------------------------------------------
  // Nearest step reaching a contrast ratio

  /** A step of the scale: its position and its hex colour. */
  datatype Step = Step(index: int, hex: string)

  /** The result of the search: the position chosen and the step there. */
  datatype Found = Found(indexOnScale: int, color: Step)

  /** `calculateContrastRatio(color, scale[i].hex) >= ratio`, with the
      ratio given by `contrast`; `None` stands for a ratio that is not a
      number, which no comparison accepts. */
  predicate Reaches(contrast: (string, string) -> Option<real>, color: string, s: Step, ratio: real) {
    var r := contrast(color, s.hex);
    r.Some? && r.value >= ratio
  }

  /** The greatest position below `hi` whose step reaches the ratio. */
  function LastReaching(contrast: (string, string) -> Option<real>, color: string, scale: seq<Step>, ratio: real, hi: int): (r: Option<int>)
    requires 0 <= hi <= |scale|
    ensures r.None? <==> forall i :: 0 <= i < hi ==> !Reaches(contrast, color, scale[i], ratio)
    ensures r.Some? ==> 0 <= r.value < hi && Reaches(contrast, color, scale[r.value], ratio)
    ensures r.Some? ==> forall i :: r.value < i < hi ==> !Reaches(contrast, color, scale[i], ratio)
    decreases hi
  {
    if hi == 0 then None
    else if Reaches(contrast, color, scale[hi - 1], ratio) then Some(hi - 1)
    else LastReaching(contrast, color, scale, ratio, hi - 1)
  }

  /** The least position from `lo` on whose step reaches the ratio. */
  function FirstReaching(contrast: (string, string) -> Option<real>, color: string, scale: seq<Step>, ratio: real, lo: int): (r: Option<int>)
    requires 0 <= lo <= |scale|
    ensures r.None? <==> forall i :: lo <= i < |scale| ==> !Reaches(contrast, color, scale[i], ratio)
    ensures r.Some? ==> lo <= r.value < |scale| && Reaches(contrast, color, scale[r.value], ratio)
    ensures r.Some? ==> forall i :: lo <= i < r.value ==> !Reaches(contrast, color, scale[i], ratio)
    decreases |scale| - lo
  {
    if lo == |scale| then None
    else if Reaches(contrast, color, scale[lo], ratio) then Some(lo)
    else FirstReaching(contrast, color, scale, ratio, lo + 1)
  }

  /** What `findClosestDarkerColor` returns: the nearest darker step that
      reaches the ratio, moved `offset` further and clamped into the darker
      part `[0, colorIndex - 1]`. */
  function DarkerResult(contrast: (string, string) -> Option<real>, scale: seq<Step>, colorIndex: int, offset: int, ratio: real): (r: Option<Found>)
    requires 0 <= colorIndex < |scale|
    ensures r.None? <==> forall i :: 0 <= i < colorIndex ==> !Reaches(contrast, scale[colorIndex].hex, scale[i], ratio)
    ensures r.Some? ==> 0 <= r.value.indexOnScale < colorIndex && r.value.color == scale[r.value.indexOnScale]
    ensures r.Some? ==> var j := LastReaching(contrast, scale[colorIndex].hex, scale, ratio, colorIndex).value;
      && (0 <= j - offset < colorIndex ==> r.value.indexOnScale == j - offset)
      && (j - offset < 0 ==> r.value.indexOnScale == 0)
      && (j - offset > colorIndex - 1 ==> r.value.indexOnScale == colorIndex - 1)
  {
    match LastReaching(contrast, scale[colorIndex].hex, scale, ratio, colorIndex)
    case None => None
    case Some(j) =>
      var k := if j - offset < 0 then 0 else if j - offset > colorIndex - 1 then colorIndex - 1 else j - offset;
      Some(Found(k, scale[k]))
  }

  /** What `findClosestLighterColor` returns: the nearest lighter step that
      reaches the ratio, moved `offset` further and clamped into the lighter
      part `[colorIndex + 1, |scale| - 1]`. */
  function LighterResult(contrast: (string, string) -> Option<real>, scale: seq<Step>, colorIndex: int, offset: int, ratio: real): (r: Option<Found>)
    requires 0 <= colorIndex < |scale|
    ensures r.None? <==> forall i :: colorIndex < i < |scale| ==> !Reaches(contrast, scale[colorIndex].hex, scale[i], ratio)
    ensures r.Some? ==> colorIndex < r.value.indexOnScale < |scale| && r.value.color == scale[r.value.indexOnScale]
    ensures r.Some? ==> var j := FirstReaching(contrast, scale[colorIndex].hex, scale, ratio, colorIndex + 1).value;
      && (colorIndex < j + offset < |scale| ==> r.value.indexOnScale == j + offset)
      && (j + offset >= |scale| ==> r.value.indexOnScale == |scale| - 1)
      && (j + offset < colorIndex + 1 ==> r.value.indexOnScale == colorIndex + 1)
  {
    match FirstReaching(contrast, scale[colorIndex].hex, scale, ratio, colorIndex + 1)
    case None => None
    case Some(j) =>
      var k := if j + offset >= |scale| then |scale| - 1 else if j + offset < colorIndex + 1 then colorIndex + 1 else j + offset;
      Some(Found(k, scale[k]))
  }

  /** `findClosestDarkerColor(colorIndex, offset, scale, ratio)`: scan from
      `colorIndex - 1` down to 0 for the first step that reaches the ratio,
      then clamp the moved position. */
  method FindClosestDarkerColor(colorIndex: int, offset: int, scale: seq<Step>, ratio: real, contrast: (string, string) -> Option<real>)
    returns (r: Option<Found>)
    requires 0 <= colorIndex < |scale|
    ensures r == DarkerResult(contrast, scale, colorIndex, offset, ratio)
  {
    var color := scale[colorIndex].hex;
    var closestIndex: Option<int> := None;
    var i := colorIndex - 1;
    while i >= 0 && closestIndex.None?
      invariant -1 <= i < colorIndex
      invariant closestIndex.None? ==>
        LastReaching(contrast, color, scale, ratio, colorIndex) == LastReaching(contrast, color, scale, ratio, i + 1)
      invariant closestIndex.Some? ==> closestIndex == LastReaching(contrast, color, scale, ratio, colorIndex)
      decreases i + 1, if closestIndex.None? then 1 else 0
    {
      if Reaches(contrast, color, scale[i], ratio) {
        closestIndex := Some(i);
      } else {
        i := i - 1;
      }
    }
    var off := offset;
    var closest := closestIndex;
    if closest.Some? && closest.value - off < 0 {
      closest := Some(0);
      off := 0;
    } else if closest.Some? && closest.value - off > colorIndex - 1 {
      closest := Some(colorIndex - 1);
      off := 0;
    }
    if closest.Some? {
      var k := closest.value - off;
      r := Some(Found(k, scale[k]));
    } else {
      r := None;
    }
  }

  /** `findClosestLighterColor(colorIndex, offset, scale, ratio)`: scan from
      `colorIndex + 1` up to the last step, then clamp the moved position. */
  method FindClosestLighterColor(colorIndex: int, offset: int, scale: seq<Step>, ratio: real, contrast: (string, string) -> Option<real>)
    returns (r: Option<Found>)
    requires 0 <= colorIndex < |scale|
    ensures r == LighterResult(contrast, scale, colorIndex, offset, ratio)
  {
    var color := scale[colorIndex].hex;
    var closestIndex: Option<int> := None;
    var i := colorIndex + 1;
    while i < |scale| && closestIndex.None?
      invariant colorIndex < i <= |scale|
      invariant closestIndex.None? ==>
        FirstReaching(contrast, color, scale, ratio, colorIndex + 1) == FirstReaching(contrast, color, scale, ratio, i)
      invariant closestIndex.Some? ==> closestIndex == FirstReaching(contrast, color, scale, ratio, colorIndex + 1)
      decreases |scale| - i, if closestIndex.None? then 1 else 0
    {
      if Reaches(contrast, color, scale[i], ratio) {
        closestIndex := Some(i);
      } else {
        i := i + 1;
      }
    }
    var off := offset;
    var closest := closestIndex;
    if closest.Some? && closest.value + off >= |scale| {
      closest := Some(|scale| - 1);
      off := 0;
    } else if closest.Some? && closest.value + off < colorIndex + 1 {
      closest := Some(colorIndex + 1);
      off := 0;
    }
    if closest.Some? {
      var k := closest.value + off;
      r := Some(Found(k, scale[k]));
    } else {
      r := None;
    }
  }

  // ---------------------------------------------------------------------
  // Partial scales

  /** The index lists of the two partial scales. */
  const CustomIndexes: seq<int> := [0, 5, 10, 15, 20, 25, 30, 35, 40, 50, 60, 70, 80, 90, 95, 98, 99, 100]
  const KeyIndexes: seq<int> := [0, 10, 20, 25, 30, 35, 40, 50, 60, 70, 80, 90, 95, 98, 99, 100]

  function Dist(a: int, b: int): nat {
    if a < b then b - a else a - b
  }

  /** `p` is the first position whose entry is nearest to `luminance`:
      no entry is nearer, and every earlier entry is farther. */
  predicate NearestAt(indexes: seq<int>, luminance: int, p: int) {
    && 0 <= p < |indexes|
    && (forall j :: 0 <= j < |indexes| ==> Dist(indexes[p], luminance) <= Dist(indexes[j], luminance))
    && (forall j :: 0 <= j < p ==> Dist(indexes[p], luminance) < Dist(indexes[j], luminance))
  }

  /** `indexes.reduce((a, b) => |b - luminance| < |a - luminance| ? b : a)`
      over the first `n` entries: the entry nearest to `luminance`, the
      earliest one on a tie. */
  function Closest(indexes: seq<int>, luminance: int, n: int): (c: int)
    requires 0 < n <= |indexes|
    ensures exists p :: 0 <= p < n && indexes[p] == c && NearestAt(indexes[..n], luminance, p)
    decreases n
  {
    if n == 1 then
      assert NearestAt(indexes[..1], luminance, 0);
      indexes[0]
    else
      var a := Closest(indexes, luminance, n - 1);
      var b := indexes[n - 1];
      var pa :| 0 <= pa < n - 1 && indexes[pa] == a && NearestAt(indexes[..n - 1], luminance, pa);
      if Dist(b, luminance) < Dist(a, luminance) then
        assert NearestAt(indexes[..n], luminance, n - 1) by {
          assert forall j :: 0 <= j < n - 1 ==> indexes[..n][j] == indexes[..n - 1][j];
        }
        b
      else
        assert NearestAt(indexes[..n], luminance, pa) by {
          assert forall j :: 0 <= j < n - 1 ==> indexes[..n][j] == indexes[..n - 1][j];
        }
        a
  }

  /** `indexes.indexOf(x)`: the first position holding `x`. */
  function IndexOfInt(indexes: seq<int>, x: int): (p: nat)
    requires x in indexes
    ensures p < |indexes| && indexes[p] == x
    ensures forall j :: 0 <= j < p ==> indexes[j] != x
  {
    if indexes[0] == x then 0 else 1 + IndexOfInt(indexes[1..], x)
  }

  /** The position `renderPartialScale` overwrites. */
  function NearestPosition(indexes: seq<int>, luminance: int): (p: nat)
    requires |indexes| > 0
    ensures NearestAt(indexes, luminance, p)
  {
    var c := Closest(indexes, luminance, |indexes|);
    assert indexes[..|indexes|] == indexes;
    var p := IndexOfInt(indexes, c);
    var q :| 0 <= q < |indexes| && indexes[q] == c && NearestAt(indexes, luminance, q);
    assert p <= q;
    p
  }

  /** The index substitution of `renderPartialScale(..., indexes, ...,
      luminance)`: nothing if `luminance` is listed, otherwise the nearest
      entry (the first of equals) is replaced by `luminance` in place. The
      source's `reduce` without a start value needs a non-empty list. */
  function SubstituteLuminance(indexes: seq<int>, luminance: int): (r: seq<int>)
    requires |indexes| > 0
    ensures |r| == |indexes| && luminance in r
    ensures luminance in indexes ==> r == indexes
    ensures luminance !in indexes ==> var p := NearestPosition(indexes, luminance);
      r[p] == luminance && forall k :: 0 <= k < |r| && k != p ==> r[k] == indexes[k]
  {
    if luminance in indexes then indexes
    else
      var p := NearestPosition(indexes, luminance);
      var r := indexes[p := luminance];
      assert r[p] == luminance;
      r
  }

  predicate StrictlyIncreasing(s: seq<int>) {
    forall i, j :: 0 <= i < j < |s| ==> s[i] < s[j]
  }

  /** In a strictly increasing list the nearest entry to a value not in the
      list has its neighbours on either side of the value. */
  lemma NearestNeighbours(indexes: seq<int>, luminance: int, p: int)
    requires StrictlyIncreasing(indexes) && luminance !in indexes && NearestAt(indexes, luminance, p)
    ensures p > 0 ==> indexes[p - 1] < luminance
    ensures p < |indexes| - 1 ==> luminance < indexes[p + 1]
  {
  }

  /** Substituting the luminance keeps a strictly increasing list strictly
      increasing. */
  lemma SubstituteKeepsOrder(indexes: seq<int>, luminance: int)
    requires |indexes| > 0 && StrictlyIncreasing(indexes)
    ensures StrictlyIncreasing(SubstituteLuminance(indexes, luminance))
  {
    if luminance !in indexes {
      var p := NearestPosition(indexes, luminance);
      var r := SubstituteLuminance(indexes, luminance);
      NearestNeighbours(indexes, luminance, p);
      forall i, j | 0 <= i < j < |r|
        ensures r[i] < r[j]
      {
        if i == p {
          assert luminance < indexes[i + 1] && indexes[i + 1] <= indexes[j];
        } else if j == p {
          assert indexes[i] <= indexes[j - 1] && indexes[j - 1] < luminance;
        }
      }
    }
  }

  /** Both partial scales list steps of the 101-step scale in strictly
      increasing order, and after the substitution of any luminance in
      0..100 they still do, with the luminance among them. */
  lemma PartialScalesSubstituted(luminance: int)
    requires 0 <= luminance <= 100
    ensures var r := SubstituteLuminance(CustomIndexes, luminance);
      |r| == 18 && luminance in r && StrictlyIncreasing(r) && forall k :: 0 <= k < |r| ==> 0 <= r[k] <= 100
    ensures var r := SubstituteLuminance(KeyIndexes, luminance);
      |r| == 16 && luminance in r && StrictlyIncreasing(r) && forall k :: 0 <= k < |r| ==> 0 <= r[k] <= 100
  {
    IndexListsIncreasing();
    SubstituteKeepsOrder(CustomIndexes, luminance);
    SubstituteKeepsOrder(KeyIndexes, luminance);
    SubstituteWithin(CustomIndexes, luminance, 0, 100);
    SubstituteWithin(KeyIndexes, luminance, 0, 100);
  }

  /** Substituting a luminance within the bounds of the list keeps every
      entry within them. */
  lemma SubstituteWithin(indexes: seq<int>, luminance: int, lo: int, hi: int)
    requires |indexes| > 0 && lo <= luminance <= hi
    requires forall k :: 0 <= k < |indexes| ==> lo <= indexes[k] <= hi
    ensures var r := SubstituteLuminance(indexes, luminance);
      forall k :: 0 <= k < |r| ==> lo <= r[k] <= hi
  {
  }

  lemma IndexListsIncreasing()
    ensures StrictlyIncreasing(CustomIndexes) && StrictlyIncreasing(KeyIndexes)
    ensures forall k :: 0 <= k < |CustomIndexes| ==> 0 <= CustomIndexes[k] <= 100
    ensures forall k :: 0 <= k < |KeyIndexes| ==> 0 <= KeyIndexes[k] <= 100
  {
    Adjacent(CustomIndexes);
    Adjacent(KeyIndexes);
  }

  /** Adjacent entries in order make the whole list strictly increasing. */
  lemma {:induction false} Adjacent(s: seq<int>)
    requires forall i :: 0 <= i < |s| - 1 ==> s[i] < s[i + 1]
    ensures StrictlyIncreasing(s)
    decreases |s|
  {
    if |s| > 1 {
      Adjacent(s[1..]);
      forall i, j | 0 <= i < j < |s|
        ensures s[i] < s[j]
      {
        if i == 0 {
          assert s[0] < s[1];
          if j > 1 {
            assert s[1..][0] < s[1..][j - 1];
          }
        } else {
          assert s[1..][i - 1] < s[1..][j - 1];
        }
      }
    }
  }
}

=== FILE: locale.dfy ===
/** The locale choice of the i18n plugin: a candidate tag is matched against
    the supported locales, first whole and then by its part before the
    first `-`; the initial locale comes from storage, then from the
    browser's languages, then the default. Storage and `navigator` are
    passed in as values. */
module Locale {
  import opened Wrappers
  import opened JsText

  /** The locales the message catalogue holds. */
  const SupportedLocales: seq<string> := ["en", "fr"]

  const DefaultLocale := "en"

  /** `SUPPORTED_LOCALES.find(locale => locale === tag)`. */
  function FindSupported(tag: string): (r: Option<string>)
    ensures r.Some? <==> tag in SupportedLocales
    ensures r.Some? ==> r.value == tag
  {
    if tag == "en" then Some("en") else if tag == "fr" then Some("fr") else None
  }

  /** `tag.split('-')[0]`: everything before the first `-`. */
  function BeforeDash(tag: string): (b: string)
    ensures '-' !in b
    ensures |b| <= |tag| && b == tag[..|b|]
    ensures |b| < |tag| ==> tag[|b|] == '-'
  {
    tag[..IndexOf(tag, '-')]
  }

  /** `normalizeLocale`: nothing for a missing or empty candidate; else the
      lower-cased candidate if supported, else its part before the first
      `-` if supported, else nothing. */
  function NormalizeLocale(candidate: Option<string>): (r: Option<string>)
    ensures candidate.None? || candidate.value == "" ==> r.None?
    ensures r.Some? ==> r.value in SupportedLocales
    ensures candidate.Some? && ToLower(candidate.value) in SupportedLocales ==> r == Some(ToLower(candidate.value))
    ensures candidate.Some? && candidate.value != "" && ToLower(candidate.value) !in SupportedLocales ==>
      r == FindSupported(BeforeDash(ToLower(candidate.value)))
  {
    match candidate
    case None => None
    case Some(c) =>
      if c == "" then None
      else
        var lowered := ToLower(c);
        match FindSupported(lowered)
        case Some(exact) => Some(exact)
        case None => FindSupported(BeforeDash(lowered))
  }

  /** `languages.find(language => normalizeLocale(language))`. */
  function FirstNormalizing(languages: seq<string>): (r: Option<string>)
    ensures r.Some? ==> r.value in languages && NormalizeLocale(Some(r.value)).Some?
    ensures r.None? <==> forall k :: 0 <= k < |languages| ==> NormalizeLocale(Some(languages[k])).None?
  {
    if languages == [] then None
    else if NormalizeLocale(Some(languages[0])).Some? then Some(languages[0])
    else
      var r := FirstNormalizing(languages[1..]);
      assert forall k :: 1 <= k < |languages| ==> languages[k] == languages[1..][k - 1];
      r
  }

  /** `resolveInitialLocale`: the stored locale if it normalises, else the
      first browser language that normalises, else the default. `stored` is
      `storage?.getItem(...)` (`None` for a missing storage or key) and
      `languages` is `navigator.languages` when there is a navigator. */
  function ResolveInitialLocale(stored: Option<string>, languages: Option<seq<string>>): (r: string)
    ensures r in SupportedLocales
    ensures NormalizeLocale(stored).Some? ==> r == NormalizeLocale(stored).value
    ensures NormalizeLocale(stored).None? && languages.Some? && FirstNormalizing(languages.value).Some? ==>
      r == NormalizeLocale(FirstNormalizing(languages.value)).value
    ensures NormalizeLocale(stored).None? && (languages.None? || FirstNormalizing(languages.value).None?) ==> r == DefaultLocale
  {
    match NormalizeLocale(stored)
    case Some(locale) => locale
    case None =>
      var found := if languages.Some? then FirstNormalizing(languages.value) else None;
      match NormalizeLocale(found)
      case Some(locale) => locale
      case None => DefaultLocale
  }

  // ---------------------------------------------------------------------
  // Properties

  /** A supported locale normalises to itself, so normalising twice is
      normalising once. */
  lemma NormalizeIdempotent(candidate: Option<string>)
    ensures NormalizeLocale(candidate).Some? ==> NormalizeLocale(NormalizeLocale(candidate)) == NormalizeLocale(candidate)
  {
    if NormalizeLocale(candidate).Some? {
      var l := NormalizeLocale(candidate).value;
      assert ToLower(l) == l by {
        if l == "en" {
          assert ToLower("en") == "en";
        } else {
          assert ToLower("fr") == "fr";
        }
      }
    }
  }

  /** A regional tag falls back to its language: `fr-CA` and `EN-gb` give
      `fr` and `en`; a tag of an unsupported language gives nothing. */
  lemma RegionalTags()
    ensures NormalizeLocale(Some("fr-CA")) == Some("fr")
    ensures NormalizeLocale(Some("EN-gb")) == Some("en")
    ensures NormalizeLocale(Some("de-DE")).None?
  {
    RegionalTag("fr-CA", "fr-ca", "fr");
    RegionalTag("EN-gb", "en-gb", "en");
    RegionalTag("de-DE", "de-de", "de");
  }

  /** A five-letter tag whose lower-cased form has its dash at index 2
      normalises as its two-letter language. */
  lemma RegionalTag(tag: string, lower: string, language: string)
    requires ToLower(tag) == lower && |lower| == 5 && lower[2] == '-' && lower[..2] == language
    requires lower[0] != '-' && lower[1] != '-' && lower !in SupportedLocales
    ensures NormalizeLocale(Some(tag)) == FindSupported(language)
  {
    assert IndexOf(lower, '-') == 2;
    assert BeforeDash(lower) == language;
  }

  /** Without storage the first browser language that normalises decides,
      even after languages that do not. */
  lemma NavigatorFallback()
    ensures ResolveInitialLocale(None, Some(["de-DE", "fr-CA", "en-US"])) == "fr"
    ensures ResolveInitialLocale(Some("fr"), Some(["en-US"])) == "fr"
    ensures ResolveInitialLocale(None, None) == DefaultLocale
  {
    RegionalTags();
    var langs := ["de-DE", "fr-CA", "en-US"];
    assert langs[1..] == ["fr-CA", "en-US"];
    assert FirstNormalizing(langs) == Some("fr-CA");
    assert ToLower("fr") == "fr";
  }
}

=== FILE: picker_colors.dfy ===
/** `useTonalBuilderColors`: the two colour pickers (base and blend), each
    holding a hex string with its RGB and HSV readings, and the slider mode.
    An update normalises its input first and validates the normalised
    string, so it accepts more than `isValidHex` does on the raw input. */
module PickerColors {
  import opened Wrappers
  import opened JsText
  import Color

  datatype SliderMode = HsvSliders | RgbSliders

  /** `PickerState`; the readings are `None` where `hexToRgb` yields `NaN`
      channels. */
  datatype PickerState = PickerState(hex: string, rgb: Option<Color.Rgb>, hsv: Option<Color.Hsv>)

  datatype ColorState = ColorState(base: PickerState, blend: PickerState, sliderMode: SliderMode)

  /** The optional initial values the composable accepts. */
  datatype InitialOptions = InitialOptions(baseHex: Option<string>, blendHex: Option<string>, sliderMode: Option<SliderMode>)

  const DefaultBase := "#7c3aed"
  const DefaultBlend := "#22d3ee"

  /** A picker whose readings agree with its hex: decoded channels that
      print back as the hex, and the HSV reading of those channels. */
  predicate Coherent(p: PickerState) {
    && Color.IsCanonicalHex(p.hex)
    && p.rgb.Some? && Color.IsByteRgb(p.rgb.value) && Color.RgbToHex(p.rgb.value) == p.hex
    && p.hsv == Some(Color.RgbToHsv(p.rgb.value))
  }

  /** `buildPickerState`: the normalised hex and its two readings. A valid
      input gives a coherent picker. */
  function BuildPickerState(h: string): (p: PickerState)
    ensures p.hex == Color.NormalizeHex(h)
    ensures p.rgb.Some? <==> p.hsv.Some?
    ensures Color.IsValidHex(Color.NormalizeHex(h)) ==> Coherent(p)
  {
    var normalized := Color.NormalizeHex(h);
    var p := PickerState(normalized, Color.HexToRgb(normalized), Color.HexToHsv(normalized));
    if Color.IsValidHex(normalized) then
      ValidNormalIsCanonical(h);
      CoherentOf(normalized);
      p
    else p
  }

  /** The composable as created: the given colours or the defaults, and the
      given slider mode or HSV. */
  function Initial(init: InitialOptions): (s: ColorState)
    ensures s.base.hex == Color.NormalizeHex(init.baseHex.GetOr(DefaultBase))
    ensures s.blend.hex == Color.NormalizeHex(init.blendHex.GetOr(DefaultBlend))
    ensures init.sliderMode.None? ==> s.sliderMode == HsvSliders
  {
    ColorState(BuildPickerState(init.baseHex.GetOr(DefaultBase)), BuildPickerState(init.blendHex.GetOr(DefaultBlend)),
      init.sliderMode.GetOr(HsvSliders))
  }

  datatype Update = Update(accepted: bool, state: ColorState)

  /** `updateBase`: refused, changing nothing, unless the normalised input
      is valid; then the base picker alone is rebuilt from it. */
  function UpdateBase(s: ColorState, h: string): (r: Update)
    ensures r.accepted <==> Color.IsValidHex(Color.NormalizeHex(h))
    ensures !r.accepted ==> r.state == s
    ensures r.accepted ==> r.state.blend == s.blend && r.state.sliderMode == s.sliderMode
    ensures r.accepted ==> r.state.base.hex == Color.NormalizeHex(h) && Coherent(r.state.base)
  {
    var normalized := Color.NormalizeHex(h);
    if !Color.IsValidHex(normalized) then Update(false, s)
    else
      NormalizeAgain(h);
      Update(true, s.(base := BuildPickerState(normalized)))
  }

  /** `updateBlend`: the same for the blend picker. */
  function UpdateBlend(s: ColorState, h: string): (r: Update)
    ensures r.accepted <==> Color.IsValidHex(Color.NormalizeHex(h))
    ensures !r.accepted ==> r.state == s
    ensures r.accepted ==> r.state.base == s.base && r.state.sliderMode == s.sliderMode
    ensures r.accepted ==> r.state.blend.hex == Color.NormalizeHex(h) && Coherent(r.state.blend)
  {
    var normalized := Color.NormalizeHex(h);
    if !Color.IsValidHex(normalized) then Update(false, s)
    else
      NormalizeAgain(h);
      Update(true, s.(blend := BuildPickerState(normalized)))
  }

  /** `setSliderMode`: only the mode changes. */
  function SetSliderMode(s: ColorState, mode: SliderMode): (r: ColorState)
    ensures r.sliderMode == mode && r.base == s.base && r.blend == s.blend
  {
    s.(sliderMode := mode)
  }

  // ---------------------------------------------------------------------
  // Properties

  /** A valid normal form normalises to itself. */
  lemma NormalizeAgain(h: string)
    requires Color.IsValidHex(Color.NormalizeHex(h))
    ensures Color.NormalizeHex(Color.NormalizeHex(h)) == Color.NormalizeHex(h)
    ensures Color.IsCanonicalHex(Color.NormalizeHex(h))
  {
    ValidNormalIsCanonical(h);
    Color.CanonicalIsFixed(Color.NormalizeHex(h));
  }

  lemma LowerHex(c: char)
    requires IsHexDigit(c) && LowerChar(c) == c
    ensures IsLowerHexDigit(c)
  {
  }

  /** An output of `normalizeHex` that passes `isValidHex` is canonical: the
      leading `#` rules out the six-digit form, and the output is already
      lower case. */
  lemma ValidNormalIsCanonical(h: string)
    requires Color.IsValidHex(Color.NormalizeHex(h))
    ensures Color.IsCanonicalHex(Color.NormalizeHex(h))
  {
    var n := Color.NormalizeHex(h);
    var t := Trim(n);
    HashTrimmed(n);
    assert Color.IsHexBody(t);
    HashBody(t);
    assert t == n;
    forall k | 1 <= k < 7
      ensures IsLowerHexDigit(n[k])
    {
      assert IsHexDigit(t[1..][k - 1]);
      LowerHex(n[k]);
    }
  }

  /** Trimming text that starts with `#` keeps the `#` in front and only
      shortens it from the end. */
  lemma HashTrimmed(n: string)
    requires |n| > 0 && n[0] == '#'
    ensures var t := Trim(n); |t| > 0 && t[0] == '#' && t == n[..|t|]
  {
    assert TrimStart(n) == n;
    TrimEndDropsSpace(n);
  }

  /** A trimmed text the pattern accepts and that starts with `#` is `#`
      and six hex digits. */
  lemma HashBody(t: string)
    requires Color.IsHexBody(t) && |t| > 0 && t[0] == '#'
    ensures |t| == 7 && AllHex(t[1..])
  {
    assert !IsHexDigit(t[0]);
  }

  /** A canonical string is valid. */
  lemma CanonicalValid(n: string)
    requires Color.IsCanonicalHex(n)
    ensures Color.IsValidHex(n)
  {
    HexDigitNotSpace(n[6]);
    TrimNoSpace(n);
    assert forall k :: 0 <= k < 6 ==> IsHexDigit(n[1..][k]);
  }

  /** The picker built on a canonical hex is coherent. */
  lemma CoherentOf(n: string)
    requires Color.IsCanonicalHex(n)
    ensures Coherent(PickerState(n, Color.HexToRgb(n), Color.HexToHsv(n)))
  {
    Color.CanonicalRoundTrip(n);
  }

  /** Without options both pickers start coherent at the default colours in
      HSV mode. */
  lemma InitialDefaults()
    ensures var s := Initial(InitialOptions(None, None, None));
      && s.base.hex == DefaultBase && s.blend.hex == DefaultBlend && s.sliderMode == HsvSliders
      && Coherent(s.base) && Coherent(s.blend)
  {
    DefaultCoherent(DefaultBase);
    DefaultCoherent(DefaultBlend);
  }

  lemma DefaultCoherent(n: string)
    requires n == DefaultBase || n == DefaultBlend
    ensures BuildPickerState(n).hex == n && Coherent(BuildPickerState(n))
  {
    assert Color.IsCanonicalHex(n);
    Color.CanonicalIsFixed(n);
    CanonicalValid(n);
  }

  /** A three-digit shorthand is refused by `isValidHex` but accepted by an
      update, which stores the doubled digits. */
  lemma ShorthandAccepted(s: ColorState, d: string)
    requires |d| == 3 && AllHex(d)
    ensures !Color.IsValidHex("#" + d)
    ensures UpdateBase(s, "#" + d).accepted
    ensures UpdateBase(s, "#" + d).state.base.hex == ToLower(['#', d[0], d[0], d[1], d[1], d[2], d[2]])
  {
    Color.NormalizeShorthand(d);
    var h := ['#', d[0], d[0], d[1], d[1], d[2], d[2]];
    DoubledValid(d);
    AcceptedAs(s, "#" + d, ToLower(h));
  }

  lemma DoubledValid(d: string)
    requires |d| == 3 && AllHex(d)
    ensures Color.IsValidHex(ToLower(['#', d[0], d[0], d[1], d[1], d[2], d[2]]))
  {
    var h := ['#', d[0], d[0], d[1], d[1], d[2], d[2]];
    forall k | 1 <= k < 7
      ensures IsHexDigit(h[k])
    {
      assert h[k] == d[(k - 1) / 2];
    }
    ValidLowered(h);
  }

  /** An input whose normal form is a given valid string is accepted and
      stored as that string. */
  lemma AcceptedAs(s: ColorState, h: string, n: string)
    requires Color.NormalizeHex(h) == n && Color.IsValidHex(n)
    ensures UpdateBase(s, h).accepted && UpdateBase(s, h).state.base.hex == n
  {
  }

  /** Lower-casing `#` and six hex digits gives a valid string. */
  lemma ValidLowered(h: string)
    requires |h| == 7 && h[0] == '#' && forall k :: 1 <= k < 7 ==> IsHexDigit(h[k])
    ensures Color.IsValidHex(ToLower(h))
  {
    var n := ToLower(h);
    assert forall k :: 1 <= k < 7 ==> IsHexDigit(n[k]);
    assert forall k :: 0 <= k < 6 ==> IsHexDigit(n[1..][k]);
    HexDigitNotSpace(n[6]);
    TrimNoSpace(n);
  }

  /** `#` and six hex digits followed by anything not ending in white space
      is refused by `isValidHex` but accepted by an update, which keeps the
      first six digits. */
  lemma OverlongAccepted(s: ColorState, d: string, extra: string)
    requires |d| == 6 && AllHex(d)
    requires |extra| > 0 && !IsSpace(extra[|extra| - 1])
    ensures !Color.IsValidHex("#" + d + extra)
    ensures UpdateBase(s, "#" + d + extra).accepted
    ensures UpdateBase(s, "#" + d + extra).state.base.hex == ToLower("#" + d)
  {
    OverlongInvalid(d, extra);
    ValidLoweredSix(d);
    AcceptedAs(s, "#" + d + extra, ToLower("#" + d));
  }

  lemma ValidLoweredSix(d: string)
    requires |d| == 6 && AllHex(d)
    ensures Color.IsValidHex(ToLower("#" + d))
  {
    var h := "#" + d;
    assert forall k :: 1 <= k < 7 ==> h[k] == d[k - 1];
    ValidLowered(h);
  }

  lemma OverlongInvalid(d: string, extra: string)
    requires |d| == 6 && |extra| > 0 && !IsSpace(extra[|extra| - 1])
    ensures !Color.IsValidHex("#" + d + extra)
    ensures Color.NormalizeHex("#" + d + extra) == ToLower("#" + d)
  {
    var h := "#" + d + extra;
    assert h[|h| - 1] == extra[|extra| - 1];
    OverlongRejected(h);
    OverlongNormal(h, d, extra);
  }

  lemma OverlongRejected(h: string)
    requires |h| > 7 && h[0] == '#' && !IsSpace(h[|h| - 1])
    ensures !Color.IsValidHex(h)
  {
    TrimKeepsLength(h);
    Color.InvalidLength(h);
  }

  lemma OverlongNormal(h: string, d: string, extra: string)
    requires |d| == 6 && |extra| > 0 && h == "#" + d + extra && !IsSpace(h[|h| - 1])
    ensures Color.NormalizeHex(h) == ToLower("#" + d)
  {
    Color.CleanedNoSpace(h);
    ReplaceFirstHead(h, '#', "");
    assert h[1..] == d + extra;
    Color.NormalizeLong(h, d + extra);
    assert Slice(d + extra, 0, 6) == d;
  }

  /** Updating a picker with its own hex changes nothing. */
  lemma UpdateWithOwnHex(s: ColorState)
    requires Coherent(s.base)
    ensures UpdateBase(s, s.base.hex) == Update(true, s)
  {
    var n := s.base.hex;
    var c := s.base.rgb.value;
    Color.CanonicalIsFixed(n);
    CanonicalValid(n);
    Color.RgbRoundTrip(c);
    assert Color.HexToRgb(n) == Some(c);
    assert Color.HexToHsv(n) == s.base.hsv;
    assert BuildPickerState(n) == s.base;
  }
}

=== FILE: powers.dfy ===
/** The irrational functions the colour engine calls — `Math.sqrt`,
    `x ** 2.4`, `x ** (1 / 2.4)` and `Math.cbrt` — are not computed here. A
    `Numerics` value carries one implementation of each, and `Valid` pins every
    one of them down on the non-negative reals by its defining equation
    between integer powers (`y = x^2.4` exactly when `y^5 = x^12`). Every
    bound the rest of the model needs is derived from those equations. */
module Powers {

  /** `x` raised to a natural power. */
  function Pow(x: real, k: nat): real {
    if k == 0 then 1.0 else x * Pow(x, k - 1)
  }

  datatype Numerics = Numerics(
    sqrt: real -> real,
    pow24: real -> real,
    pow5over12: real -> real,
    cbrt: real -> real)

  /** `y` is a non-negative root of `y^j = x^k`. */
  ghost predicate IsRoot(y: real, x: real, j: nat, k: nat) {
    0.0 <= y && Pow(y, j) == Pow(x, k)
  }

  /** `y` is the non-negative `j`-th root of `x`. */
  ghost predicate IsRootOf(y: real, x: real, j: nat) {
    0.0 <= y && Pow(y, j) == x
  }

  /** Each function is the non-negative root of its defining equation on the
      non-negative reals. */
  ghost predicate Valid(n: Numerics) {
    && (forall x :: 0.0 <= x ==> IsRootOf(n.sqrt(x), x, 2))
    && (forall x :: 0.0 <= x ==> IsRoot(n.pow24(x), x, 5, 12))
    && (forall x :: 0.0 <= x ==> IsRoot(n.pow5over12(x), x, 12, 5))
    && (forall x :: 0.0 <= x ==> IsRootOf(n.cbrt(x), x, 3))
  }

  lemma {:induction false} PowNonNegative(x: real, k: nat)
    requires 0.0 <= x
    ensures 0.0 <= Pow(x, k)
  {
    if k > 0 {
      PowNonNegative(x, k - 1);
    }
  }

  lemma {:induction false} PowOfOne(k: nat)
    ensures Pow(1.0, k) == 1.0
  {
    if k > 0 {
      PowOfOne(k - 1);
    }
  }

  lemma PowSquare(x: real)
    ensures Pow(x, 2) == x * x
  {
    assert Pow(x, 1) == x;
  }

  lemma PowCube(x: real)
    ensures Pow(x, 3) == x * (x * x)
  {
    PowSquare(x);
  }

  lemma PowOfZero(k: nat)
    requires k >= 1
    ensures Pow(0.0, k) == 0.0
  {
  }

  lemma MulMono(a: real, b: real, c: real, d: real)
    requires 0.0 <= a <= b && 0.0 <= c <= d
    ensures a * c <= b * d
  {
    assert a * c <= a * d;
    assert a * d <= b * d;
  }

  lemma MulStrict(a: real, b: real, c: real, d: real)
    requires 0.0 <= a < b && 0.0 <= c <= d && 0.0 < d
    ensures a * c < b * d
  {
    assert a * c <= a * d;
    assert a * d < b * d;
  }

  /** Powers of non-negative reals are monotone in the base. */
  lemma {:induction false} PowMonotone(x: real, y: real, k: nat)
    requires 0.0 <= x <= y
    ensures Pow(x, k) <= Pow(y, k)
  {
    if k > 0 {
      PowMonotone(x, y, k - 1);
      PowNonNegative(x, k - 1);
      MulMono(x, y, Pow(x, k - 1), Pow(y, k - 1));
    }
  }

  /** ... and strictly so for a positive exponent. */
  lemma {:induction false} PowStrict(x: real, y: real, k: nat)
    requires 0.0 <= x < y && k >= 1
    ensures Pow(x, k) < Pow(y, k)
  {
    PowNonNegative(x, k - 1);
    PowMonotone(x, y, k - 1);
    if k == 1 {
    } else {
      PowStrict(x, y, k - 1);
    }
    MulStrict(x, y, Pow(x, k - 1), Pow(y, k - 1));
  }

  /** A positive power determines the order of non-negative bases. */
  lemma RootMonotone(x: real, y: real, k: nat)
    requires 0.0 <= x && 0.0 <= y && k >= 1
    requires Pow(x, k) <= Pow(y, k)
    ensures x <= y
  {
    if y < x {
      PowStrict(y, x, k);
    }
  }

  lemma RootUnique(x: real, y: real, k: nat)
    requires 0.0 <= x && 0.0 <= y && k >= 1
    requires Pow(x, k) == Pow(y, k)
    ensures x == y
  {
    RootMonotone(x, y, k);
    RootMonotone(y, x, k);
  }

  /** A power of a base in [0, 1] stays in [0, 1]. */
  lemma PowUnit(x: real, k: nat)
    requires 0.0 <= x <= 1.0
    ensures 0.0 <= Pow(x, k) <= 1.0
  {
    PowNonNegative(x, k);
    PowMonotone(x, 1.0, k);
    PowOfOne(k);
  }

  /** The root `y` with `y^j = x^k` of an `x` in [0, 1] is in [0, 1], is 0 at
      0 and 1 at 1. */
  lemma RootUnit(x: real, y: real, j: nat, k: nat)
    requires 0.0 <= x <= 1.0 && 0.0 <= y && j >= 1 && k >= 1
    requires Pow(y, j) == Pow(x, k)
    ensures y <= 1.0
    ensures x == 0.0 ==> y == 0.0
    ensures x == 1.0 ==> y == 1.0
  {
    PowUnit(x, k);
    PowOfOne(j);
    RootMonotone(y, 1.0, j);
    if x == 0.0 {
      PowOfZero(k);
      PowOfZero(j);
      RootUnique(y, 0.0, j);
    }
    if x == 1.0 {
      PowOfOne(k);
      RootUnique(y, 1.0, j);
    }
  }

  /** Two roots of ordered values are ordered the same way. */
  lemma RootOrder(x1: real, x2: real, y1: real, y2: real, j: nat, k: nat)
    requires 0.0 <= x1 <= x2 && 0.0 <= y1 && 0.0 <= y2 && j >= 1
    requires Pow(y1, j) == Pow(x1, k) && Pow(y2, j) == Pow(x2, k)
    ensures y1 <= y2
  {
    PowMonotone(x1, x2, k);
    RootMonotone(y1, y2, j);
  }

  /** `x ** 2.4` maps [0, 1] monotonically onto [0, 1], fixing 0 and 1. */
  lemma Pow24Unit(n: Numerics, x: real)
    requires Valid(n) && 0.0 <= x <= 1.0
    ensures 0.0 <= n.pow24(x) <= 1.0
    ensures x == 0.0 ==> n.pow24(x) == 0.0
    ensures x == 1.0 ==> n.pow24(x) == 1.0
  {
    RootUnit(x, n.pow24(x), 5, 12);
  }

  lemma Pow24Monotone(n: Numerics, x1: real, x2: real)
    requires Valid(n) && 0.0 <= x1 <= x2
    ensures n.pow24(x1) <= n.pow24(x2)
  {
    RootOrder(x1, x2, n.pow24(x1), n.pow24(x2), 5, 12);
  }

  /** `x ** (1 / 2.4)` maps [0, 1] monotonically onto [0, 1], fixing 0 and 1. */
  lemma Pow5Over12Unit(n: Numerics, x: real)
    requires Valid(n) && 0.0 <= x <= 1.0
    ensures 0.0 <= n.pow5over12(x) <= 1.0
    ensures x == 0.0 ==> n.pow5over12(x) == 0.0
    ensures x == 1.0 ==> n.pow5over12(x) == 1.0
  {
    RootUnit(x, n.pow5over12(x), 12, 5);
  }

  /** `Math.sqrt(a)` lies between `a` and 1 for `a` in [0, 1]. */
  lemma SqrtUnit(n: Numerics, a: real)
    requires Valid(n) && 0.0 <= a <= 1.0
    ensures a <= n.sqrt(a) <= 1.0
  {
    var y := n.sqrt(a);
    assert 0.0 <= y && Pow(y, 2) == a;
    assert Pow(a, 1) == a;
    RootUnit(a, y, 2, 1);
    PowSquare(y);
    assert a == y * y;
    MulMono(y, 1.0, y, y);
    assert 1.0 * y == y;
    assert y * y <= y;
  }

  /** Higher powers of a base in [0, 1] are no larger. */
  lemma {:induction false} PowShrinks(x: real, j: nat, k: nat)
    requires 0.0 <= x <= 1.0 && j <= k
    ensures Pow(x, k) <= Pow(x, j)
  {
    if j < k {
      PowShrinks(x, j, k - 1);
      PowUnit(x, k - 1);
      MulMono(x, 1.0, Pow(x, k - 1), Pow(x, k - 1));
    }
  }

  /** `x ** (1 / 2.4)` is at least `x` below 1 and at least 1 above it. */
  lemma Pow5Over12AtLeast(n: Numerics, x: real)
    requires Valid(n) && 0.0 <= x
    ensures x <= 1.0 ==> x <= n.pow5over12(x)
    ensures 1.0 <= x ==> 1.0 <= n.pow5over12(x)
  {
    var y := n.pow5over12(x);
    assert 0.0 <= y && Pow(y, 12) == Pow(x, 5);
    if x <= 1.0 {
      PowShrinks(x, 5, 12);
      RootMonotone(x, y, 12);
    } else {
      PowMonotone(1.0, x, 5);
      PowOfOne(5);
      PowOfOne(12);
      RootMonotone(1.0, y, 12);
    }
  }

  /** `Math.cbrt` is monotone and maps 216/24389 to 6/29. */
  lemma CbrtMonotone(n: Numerics, x1: real, x2: real)
    requires Valid(n) && 0.0 <= x1 <= x2
    ensures n.cbrt(x1) <= n.cbrt(x2)
  {
    assert Pow(x1, 1) == x1 && Pow(x2, 1) == x2;
    RootOrder(x1, x2, n.cbrt(x1), n.cbrt(x2), 3, 1);
  }

  lemma CbrtThreshold(n: Numerics)
    requires Valid(n)
    ensures n.cbrt(216.0 / 24389.0) == 6.0 / 29.0
  {
    assert Pow(6.0 / 29.0, 3) == 216.0 / 24389.0;
    RootUnique(n.cbrt(216.0 / 24389.0), 6.0 / 29.0, 3);
  }

  /** Above 1 the cube root does not exceed its argument. */
  lemma CbrtBelowArgument(n: Numerics, x: real)
    requires Valid(n) && 1.0 <= x
    ensures n.cbrt(x) <= x
  {
    var y := n.cbrt(x);
    if x < y {
      PowStrict(x, y, 3);
      PowCube(x);
      MulMono(1.0, x, 1.0, x);
      MulMono(1.0, x, 1.0, x * x);
    }
  }
}

=== FILE: scale.dfy ===
/** The tonal scale assembler of `src/utils/tonal/scale.ts`: 101 steps of
    CIELAB lightness 0..100 around a base colour. The base colour sits at
    the step of its own rounded lightness, chroma fades linearly toward both
    ends, and the darker steps may be blended and saturated while the
    lighter ones may be saturated. */
module Scale {
  import opened Wrappers
  import opened JsMath
  import opened Powers
  import Color
  import ColorMath
  import opened Blending
  import opened Easing

  /** The inputs of one scale. The numbers are on the slider scales: strength,
      spread and the two saturations 0..100, blend channels 0..255, middle
      -50..50. */
  datatype TonalScaleParams = TonalScaleParams(
    colorHex: string,
    blendMode: ColorMath.BlendMode,
    blendStrength: real,
    blendR: real,
    blendG: real,
    blendB: real,
    middle: real,
    spread: real,
    satDarker: real,
    satLighter: real)

  datatype TonalStep = TonalStep(index: int, hex: string)

  datatype TonalScale = TonalScale(colorScale: seq<TonalStep>, luminance: int)

  /** What the scale derives from the base colour once: its channels, its
      LAB colour and its rounded lightness. */
  datatype Base = Base(rgb: Color.Rgb, lab: ColorMath.Lab, luminance: int)

  function BaseOf(n: Numerics, rgb: Color.Rgb): (b: Base)
    ensures b.rgb == rgb
  {
    var lab := ColorMath.RgbToLab(n, rgb);
    Base(rgb, lab, Round(lab.l))
  }

  /** `scaleChroma`: a chroma component scaled by the distance of the target
      lightness from the base lightness, reaching 0 at lightness 0 and 100. */
  function ScaleChroma(component: real, target: int, luminance: int): (r: real)
    requires target < luminance ==> luminance != 0
    requires target > luminance ==> luminance != 100
    ensures target == luminance ==> r == component
    ensures target == 0 && luminance > 0 ==> r == 0.0
    ensures target == 100 && luminance < 100 ==> r == 0.0
    ensures 0 <= target <= 100 && 0 <= luminance <= 100 ==>
      (0.0 <= component ==> 0.0 <= r <= component) && (component <= 0.0 ==> component <= r <= 0.0)
  {
    if target < luminance then
      var f := target as real / luminance as real;
      FadeBetween(component, target as real, luminance as real);
      f * component
    else if target > luminance then
      var f := (100 - target) as real / (100 - luminance) as real;
      FadeBetween(component, (100 - target) as real, (100 - luminance) as real);
      f * component
    else component
  }

  /** `component` scaled by `num / den`: nothing at `num == 0`, and between
      0 and `component` when `0 <= num < den`. */
  lemma FadeBetween(component: real, num: real, den: real)
    requires num < den && den != 0.0
    ensures num == 0.0 ==> (num / den) * component == 0.0
    ensures 0.0 <= num ==> var r := (num / den) * component;
      (0.0 <= component ==> 0.0 <= r <= component) && (component <= 0.0 ==> component <= r <= 0.0)
  {
    if 0.0 <= num {
      Color.UnitRatio(num, den);
      FactorScales(num / den, component);
    }
  }

  lemma FactorScales(f: real, c: real)
    requires 0.0 <= f <= 1.0
    ensures 0.0 <= c ==> 0.0 <= f * c <= c
    ensures c <= 0.0 ==> c <= f * c <= 0.0
  {
    if 0.0 <= c {
      MulUnit(c, f);
    } else {
      MulUnit(-c, f);
      assert (-c) * f == -(f * c);
    }
  }

  /** `toNormalized`: a 0..255 slider value on the unit scale, clamped. */
  function ToNormalized(value: real): (r: real)
    ensures InUnit(r)
    ensures 0.0 <= value <= 255.0 ==> r == value / 255.0
  {
    Clamp(value / 255.0, 0.0, 1.0)
  }

  /** Blending runs only with a positive strength and a blend colour that is
      not black. */
  predicate BlendEnabled(p: TonalScaleParams) {
    p.blendStrength > 0.0 && (p.blendR > 0.0 || p.blendG > 0.0 || p.blendB > 0.0)
  }

  function Curve(p: TonalScaleParams): Bezier {
    IntensityCurve((p.middle + 50.0) / 100.0, p.spread / 100.0)
  }

  /** The chroma-scaled LAB colour of step `i`, before any adjustment. */
  function ScaledLab(base: ColorMath.Lab, i: int, luminance: int): ColorMath.Lab
    requires 0 <= i <= 100
  {
    ColorMath.Lab(i as real, ScaleChroma(base.a, i, luminance), ScaleChroma(base.b, i, luminance))
  }

  /** The chroma-scaled colour of step `i` back in RGB. */
  function PlainRgb(n: Numerics, base: Base, i: int): (c: Color.Rgb)
    requires 0 <= i <= 100
    ensures Color.IsByteRgb(c)
  {
    ColorMath.LabToRgb(n, ScaledLab(base.lab, i, base.luminance))
  }

  /** A step below the base: the optional blend, weighted by the intensity
      curve over steps 0..luminance - 1, then the optional saturation,
      weighted by the envelope over 0..luminance. */
  function Darker(n: Numerics, p: TonalScaleParams, luminance: int, i: int, plain: Color.Rgb): (r: Result<Color.Rgb, RangeError>)
    requires 0 <= i < luminance && Color.InByteRange(plain)
    ensures r.Ok? ==> Color.InByteRange(r.value)
  {
    var blended :-
      if BlendEnabled(p) then
        ApplyBlend(n, plain, ColorMath.ModeName(p.blendMode), p.blendStrength / 100.0,
          ToNormalized(p.blendR), ToNormalized(p.blendG), ToNormalized(p.blendB),
          GetIntensity(Curve(p), i as real, (luminance - 1) as real))
      else Ok(plain);
    if p.satDarker > 0.0 then
      ApplySaturation(blended, p.satDarker / 100.0, EaseInOutQuad(luminance as real, i as real))
    else Ok(blended)
  }

  /** A step above the base: the optional saturation, weighted by the
      envelope over luminance..100. */
  function Lighter(p: TonalScaleParams, luminance: int, i: int, plain: Color.Rgb): (r: Result<Color.Rgb, RangeError>)
    requires luminance < i && Color.InByteRange(plain)
    ensures r.Ok? ==> Color.InByteRange(r.value)
  {
    if p.satLighter > 0.0 then
      ApplySaturation(plain, p.satLighter / 100.0, EaseInOutQuad((100 - luminance) as real, (i - luminance) as real))
    else Ok(plain)
  }

  /** The colour of step `i` (one turn of the loop): the base colour at the
      base step, otherwise the plain colour adjusted on its side of the base.
      An error is the `RangeError` the adjustment throws. */
  function AdjustedRgb(n: Numerics, p: TonalScaleParams, base: Base, i: int): (r: Result<Color.Rgb, RangeError>)
    requires 0 <= i <= 100
    ensures r.Ok? && i != base.luminance ==> Color.InByteRange(r.value)
    ensures r.Ok? && i == base.luminance ==> r.value == base.rgb
  {
    if i == base.luminance then Ok(base.rgb)
    else if i < base.luminance then Darker(n, p, base.luminance, i, PlainRgb(n, base, i))
    else Lighter(p, base.luminance, i, PlainRgb(n, base, i))
  }

  /** Turn `i` of the loop: the step's index and the hex of its colour. */
  function StepAt(n: Numerics, p: TonalScaleParams, base: Base, i: int): (r: Result<TonalStep, RangeError>)
    requires 0 <= i <= 100
    ensures r.Ok? <==> AdjustedRgb(n, p, base, i).Ok?
    ensures r.Ok? ==> r.value.index == i
  {
    var rgb :- AdjustedRgb(n, p, base, i);
    Ok(TonalStep(i, ColorMath.ToHex(rgb)))
  }

  /** The loop over turn results in order: the first error stops it,
      otherwise it keeps every step. */
  function Collect<T, E>(rs: seq<Result<T, E>>): (r: Result<seq<T>, E>)
    ensures r.Ok? ==> |r.value| == |rs|
  {
    if |rs| == 0 then Ok([])
    else
      var prefix :- Collect(rs[..|rs| - 1]);
      var step :- rs[|rs| - 1];
      Ok(prefix + [step])
  }

  /** The loop succeeds exactly when every turn does, and then holds the
      step of every turn in order; otherwise it fails with the error of the
      first failing turn. */
  lemma {:induction false} CollectSpec<T, E>(rs: seq<Result<T, E>>)
    ensures Collect(rs).Ok? <==> forall k :: 0 <= k < |rs| ==> rs[k].Ok?
    ensures Collect(rs).Ok? ==> forall k :: 0 <= k < |rs| ==> Collect(rs).value[k] == rs[k].value
    ensures Collect(rs).Err? ==> exists k :: 0 <= k < |rs| && FirstError(rs, k) && Collect(rs).error == rs[k].error
  {
    if |rs| > 0 {
      var front := rs[..|rs| - 1];
      CollectSpec(front);
      assert forall k :: 0 <= k < |front| ==> front[k] == rs[k];
      if Collect(front).Err? {
        var k :| 0 <= k < |front| && FirstError(front, k) && Collect(front).error == front[k].error;
        assert FirstError(rs, k);
      } else if rs[|rs| - 1].Err? {
        assert FirstError(rs, |rs| - 1);
      }
    }
  }

  /** Turn `k` fails and every earlier turn succeeds. */
  predicate FirstError<T, E>(rs: seq<Result<T, E>>, k: int)
    requires 0 <= k < |rs|
  {
    rs[k].Err? && forall j :: 0 <= j < k ==> rs[j].Ok?
  }

  /** The results of the first `count` turns of a loop whose turn `k`
      yields `turn(k)`. */
  function Turns<T>(turn: int --> T, count: nat): (ts: seq<T>)
    requires forall k :: 0 <= k < count ==> turn.requires(k)
    ensures |ts| == count
  {
    if count == 0 then [] else Turns(turn, count - 1) + [turn(count - 1)]
  }

  /** Entry `k` of the turn results is turn `k`. */
  lemma {:induction false} TurnAt<T>(turn: int --> T, count: nat, k: int)
    requires forall j :: 0 <= j < count ==> turn.requires(j)
    requires 0 <= k < count
    ensures Turns(turn, count)[k] == turn(k)
  {
    if k < count - 1 {
      TurnAt(turn, count - 1, k);
    }
  }

  /** One turn of the scale loop. */
  function StepTurn(n: Numerics, p: TonalScaleParams, base: Base): int --> Result<TonalStep, RangeError> {
    k requires 0 <= k <= 100 => StepAt(n, p, base, k)
  }

  /** The scale around a base colour. */
  function ScaleOf(n: Numerics, p: TonalScaleParams, base: Base): (r: Result<TonalScale, RangeError>)
    ensures r.Ok? ==> |r.value.colorScale| == 101 && r.value.luminance == base.luminance
  {
    var steps :- Collect(Turns(StepTurn(n, p, base), 101));
    Ok(TonalScale(steps, base.luminance))
  }

  /** A scale holds the steps 0..100 in order. */
  lemma ScaleOfSteps(n: Numerics, p: TonalScaleParams, base: Base)
    ensures var r := ScaleOf(n, p, base);
      r.Ok? ==> forall k :: 0 <= k <= 100 ==>
        StepAt(n, p, base, k).Ok? && r.value.colorScale[k] == StepAt(n, p, base, k).value
  {
    var turns := Turns(StepTurn(n, p, base), 101);
    CollectSpec(turns);
    var r := ScaleOf(n, p, base);
    if r.Ok? {
      forall k | 0 <= k <= 100
        ensures StepAt(n, p, base, k).Ok? && r.value.colorScale[k] == StepAt(n, p, base, k).value
      {
        TurnAt(StepTurn(n, p, base), 101, k);
      }
    }
  }

  /** A scale fails exactly when one of its steps fails. */
  lemma ScaleOfFails(n: Numerics, p: TonalScaleParams, base: Base)
    ensures ScaleOf(n, p, base).Err? <==> exists k :: 0 <= k <= 100 && StepAt(n, p, base, k).Err?
  {
    ScaleOfSteps(n, p, base);
    if ScaleOf(n, p, base).Err? {
      FailingStep(n, p, base);
    }
  }

  /** A failed scale has a failing step. */
  lemma FailingStep(n: Numerics, p: TonalScaleParams, base: Base)
    requires ScaleOf(n, p, base).Err?
    ensures exists k :: 0 <= k <= 100 && StepAt(n, p, base, k).Err?
  {
    var turn := StepTurn(n, p, base);
    var k := FailingTurn(turn, 101);
    assert StepAt(n, p, base, k).Err?;
  }

  /** A failed loop has a failing turn. */
  lemma FailingTurn<T, E>(turn: int --> Result<T, E>, count: nat) returns (k: int)
    requires forall j :: 0 <= j < count ==> turn.requires(j)
    requires Collect(Turns(turn, count)).Err?
    ensures 0 <= k < count && turn(k).Err?
  {
    var turns := Turns(turn, count);
    CollectSpec(turns);
    k :| 0 <= k < count && FirstError(turns, k) && Collect(turns).error == turns[k].error;
    TurnAt(turn, count, k);
  }

  /** `generateTonalScale`: 101 steps indexed 0..100 around the base colour
      of `p.colorHex`, with the rounded lightness of that colour. */
  function GenerateTonalScale(n: Numerics, p: TonalScaleParams): (r: Result<TonalScale, RangeError>)
    requires Color.HexToRgb(p.colorHex).Some?
    ensures r.Ok? ==> |r.value.colorScale| == 101
    ensures r.Ok? ==> forall k :: 0 <= k <= 100 ==> r.value.colorScale[k].index == k
    ensures r.Ok? ==> r.value.luminance == Round(ColorMath.RgbToLab(n, Color.HexToRgb(p.colorHex).value).l)
  {
    var base := BaseOf(n, Color.HexToRgb(p.colorHex).value);
    ScaleOfSteps(n, p, base);
    ScaleOf(n, p, base)
  }

  /** The params the sliders allow: strength, spread and the saturations in
      0..100 and middle in -50..50 (blend channels are clamped anyway). */
  predicate InRange(p: TonalScaleParams) {
    && 0.0 <= p.blendStrength <= 100.0
    && -50.0 <= p.middle <= 50.0
    && 0.0 <= p.spread <= 100.0
    && 0.0 <= p.satDarker <= 100.0
    && 0.0 <= p.satLighter <= 100.0
  }

  /** With params in range every strength, channel, intensity and saturation
      handed to the adjustments lies in [0, 1], so no step throws. */
  lemma StepNeverThrows(n: Numerics, p: TonalScaleParams, base: Base, i: int)
    requires InRange(p) && 0 <= i <= 100
    ensures AdjustedRgb(n, p, base, i).Ok?
  {
    if i < base.luminance && BlendEnabled(p) {
      ColorMath.ModeNames(p.blendMode);
      IntensityUnit((p.middle + 50.0) / 100.0, p.spread / 100.0, i as real, (base.luminance - 1) as real);
    }
  }

  lemma ScaleOfNeverThrows(n: Numerics, p: TonalScaleParams, base: Base)
    requires InRange(p)
    ensures ScaleOf(n, p, base).Ok?
  {
    ScaleOfFails(n, p, base);
    forall k | 0 <= k <= 100
      ensures StepAt(n, p, base, k).Ok?
    {
      StepNeverThrows(n, p, base, k);
    }
  }

  lemma ScaleNeverThrows(n: Numerics, p: TonalScaleParams)
    requires Color.HexToRgb(p.colorHex).Some? && InRange(p)
    ensures GenerateTonalScale(n, p).Ok?
  {
    ScaleOfNeverThrows(n, p, BaseOf(n, Color.HexToRgb(p.colorHex).value));
  }

  /** The step at the base's lightness prints the base colour itself. */
  lemma BaseStepOf(n: Numerics, p: TonalScaleParams, base: Base)
    requires 0 <= base.luminance <= 100
    ensures var r := ScaleOf(n, p, base);
      r.Ok? ==> (r.value.colorScale[base.luminance] == TonalStep(base.luminance, ColorMath.ToHex(base.rgb)))
  {
    ScaleOfSteps(n, p, base);
  }

  /** The base colour keeps its place: for a valid six-digit hex the step at
      the base's rounded lightness, which lies in 0..100, prints as the
      normalised input. */
  lemma ScaleBaseStep(n: Numerics, p: TonalScaleParams)
    requires Valid(n) && Color.IsValidHex(p.colorHex)
    ensures Color.HexToRgb(p.colorHex).Some?
    ensures var r := GenerateTonalScale(n, p);
      r.Ok? ==> (0 <= r.value.luminance <= 100
        && r.value.colorScale[r.value.luminance].hex == Color.NormalizeHex(p.colorHex))
  {
    Color.HexRoundTrip(p.colorHex);
    var rgb := Color.HexToRgb(p.colorHex).value;
    ColorMath.LightnessRange(n, rgb);
    var base := BaseOf(n, rgb);
    BaseStepOf(n, p, base);
  }

  /** At lightness 0 below the base the chroma scales to 0, and LAB black is
      RGB black. */
  lemma PlainZeroBlack(n: Numerics, base: Base)
    requires base.luminance > 0
    ensures PlainRgb(n, base, 0) == Color.Rgb(0.0, 0.0, 0.0)
  {
    ColorMath.LabBlack(n);
    assert ScaledLab(base.lab, 0, base.luminance) == ColorMath.Lab(0.0, 0.0, 0.0);
  }

  /** Black at step 0 stays black: the blend intensity there is 0 and
      saturating at the envelope's zero changes nothing. */
  lemma DarkerKeepsBlack(n: Numerics, p: TonalScaleParams, luminance: int)
    requires 0 < luminance
    ensures var r := Darker(n, p, luminance, 0, Color.Rgb(0.0, 0.0, 0.0));
      r.Ok? ==> r.value == Color.Rgb(0.0, 0.0, 0.0)
  {
    var black := Color.Rgb(0.0, 0.0, 0.0);
    assert GetIntensity(Curve(p), 0.0, (luminance - 1) as real) == 0.0;
    var blended :=
      if BlendEnabled(p) then
        ApplyBlend(n, black, ColorMath.ModeName(p.blendMode), p.blendStrength / 100.0,
          ToNormalized(p.blendR), ToNormalized(p.blendG), ToNormalized(p.blendB), 0.0)
      else Ok(black);
    assert blended.Ok? ==> blended.value == black;
    assert EaseInOutQuad(luminance as real, 0.0) == 0.0;
    if blended.Ok? {
      SaturatedBlack(p.satDarker);
    }
  }

  /** Saturating black at the envelope's zero keeps it black. */
  lemma SaturatedBlack(sat: real)
    ensures var black := Color.Rgb(0.0, 0.0, 0.0);
      var r := if sat > 0.0 then ApplySaturation(black, sat / 100.0, 0.0) else Ok(black);
      r.Ok? ==> r.value == black
  {
    if sat > 0.0 && InUnit(sat / 100.0) {
      ApplySaturationZeroWeight(Color.Rgb(0.0, 0.0, 0.0), sat / 100.0, 0.0);
    }
  }

  /** Below a base of positive lightness, step 0 is black. */
  lemma StepZeroBlack(n: Numerics, p: TonalScaleParams, base: Base)
    requires base.luminance > 0 && AdjustedRgb(n, p, base, 0).Ok?
    ensures AdjustedRgb(n, p, base, 0).value == Color.Rgb(0.0, 0.0, 0.0)
  {
    PlainZeroBlack(n, base);
    DarkerKeepsBlack(n, p, base.luminance);
  }

  lemma StepZeroHex(n: Numerics, p: TonalScaleParams, base: Base)
    requires base.luminance > 0 && StepAt(n, p, base, 0).Ok?
    ensures StepAt(n, p, base, 0).value.hex == "#000000"
  {
    StepZeroBlack(n, p, base);
    Color.BlackWhiteHex();
  }

  lemma ScaleOfStartsBlack(n: Numerics, p: TonalScaleParams, base: Base)
    ensures var r := ScaleOf(n, p, base);
      r.Ok? && base.luminance > 0 ==> r.value.colorScale[0].hex == "#000000"
  {
    var r := ScaleOf(n, p, base);
    ScaleOfSteps(n, p, base);
    if r.Ok? && base.luminance > 0 {
      assert r.value.colorScale[0] == StepAt(n, p, base, 0).value;
      StepZeroHex(n, p, base);
    }
  }

  /** A scale whose base colour has positive lightness starts at black. */
  lemma ScaleStartsBlack(n: Numerics, p: TonalScaleParams)
    requires Color.HexToRgb(p.colorHex).Some?
    ensures var r := GenerateTonalScale(n, p);
      r.Ok? && r.value.luminance > 0 ==> r.value.colorScale[0].hex == "#000000"
  {
    ScaleOfStartsBlack(n, p, BaseOf(n, Color.HexToRgb(p.colorHex).value));
  }

  /** Each adjustment fires only under its own condition: a step other than
      the base with no blend and no darker saturation below the base, or no
      lighter saturation above it, is the plain LAB colour. */
  lemma UnadjustedSteps(n: Numerics, p: TonalScaleParams, base: Base, i: int)
    requires 0 <= i <= 100
    requires (i < base.luminance && !BlendEnabled(p) && p.satDarker <= 0.0)
      || (i > base.luminance && p.satLighter <= 0.0)
    ensures AdjustedRgb(n, p, base, i) == Ok(PlainRgb(n, base, i))
  {
  }

  /** Above a base of lightness below 100 the chroma at step 100 scales to
      0, and LAB white is RGB white. */
  lemma PlainHundredWhite(n: Numerics, base: Base)
    requires Valid(n) && base.luminance < 100
    ensures PlainRgb(n, base, 100) == Color.Rgb(255.0, 255.0, 255.0)
  {
    ColorMath.LabWhiteRgb(n);
    assert ScaledLab(base.lab, 100, base.luminance) == ColorMath.Lab(100.0, 0.0, 0.0);
  }

  /** Above a base of lightness below 100, step 100 is white: the
      saturation envelope is 0 at the top of its range, so saturating
      changes nothing. */
  lemma AdjustedHundredWhite(n: Numerics, p: TonalScaleParams, base: Base)
    requires Valid(n) && base.luminance < 100
    ensures AdjustedRgb(n, p, base, 100).Ok? ==> AdjustedRgb(n, p, base, 100).value == Color.Rgb(255.0, 255.0, 255.0)
    ensures InRange(p) ==> AdjustedRgb(n, p, base, 100).Ok?
  {
    PlainHundredWhite(n, base);
    assert AdjustedRgb(n, p, base, 100) == Lighter(p, base.luminance, 100, PlainRgb(n, base, 100));
    LighterKeepsWhite(p, base.luminance);
  }

  /** White at step 100 stays white on the lighter side. */
  lemma LighterKeepsWhite(p: TonalScaleParams, luminance: int)
    requires luminance < 100
    ensures var r := Lighter(p, luminance, 100, Color.Rgb(255.0, 255.0, 255.0));
      r.Ok? ==> r.value == Color.Rgb(255.0, 255.0, 255.0)
    ensures InRange(p) ==> Lighter(p, luminance, 100, Color.Rgb(255.0, 255.0, 255.0)).Ok?
  {
    EnvelopeTop((100 - luminance) as real);
    if p.satLighter > 0.0 && InUnit(p.satLighter / 100.0) {
      ApplySaturationZeroWeight(Color.Rgb(255.0, 255.0, 255.0), p.satLighter / 100.0, 0.0);
    }
  }

  /** The envelope vanishes at the top of its range. */
  lemma EnvelopeTop(range: real)
    requires 0.0 < range
    ensures EaseInOutQuad(range, range) == 0.0
  {
    assert range / range == 1.0;
  }

  lemma StepHundredWhite(n: Numerics, p: TonalScaleParams, base: Base)
    requires Valid(n) && base.luminance < 100
    ensures StepAt(n, p, base, 100).Ok? ==> StepAt(n, p, base, 100).value == TonalStep(100, "#ffffff")
    ensures InRange(p) ==> StepAt(n, p, base, 100) == Ok(TonalStep(100, "#ffffff"))
  {
    AdjustedHundredWhite(n, p, base);
    Color.BlackWhiteHex();
  }

  lemma ScaleOfEndsWhite(n: Numerics, p: TonalScaleParams, base: Base)
    requires Valid(n)
    ensures var r := ScaleOf(n, p, base);
      r.Ok? && base.luminance < 100 ==> r.value.colorScale[100].hex == "#ffffff"
  {
    var r := ScaleOf(n, p, base);
    ScaleOfSteps(n, p, base);
    if r.Ok? && base.luminance < 100 {
      assert r.value.colorScale[100] == StepAt(n, p, base, 100).value;
      StepHundredWhite(n, p, base);
    }
  }

  /** A generated scale whose base lightness rounds below 100 ends in white. */
  lemma ScaleEndsWhite(n: Numerics, p: TonalScaleParams)
    requires Valid(n) && Color.HexToRgb(p.colorHex).Some?
    ensures var r := GenerateTonalScale(n, p);
      r.Ok? && r.value.luminance < 100 ==> r.value.colorScale[100].hex == "#ffffff"
  {
    ScaleOfEndsWhite(n, p, BaseOf(n, Color.HexToRgb(p.colorHex).value));
  }
}

=== FILE: store.dfy ===
/** The pure part of the tonal scale store (`src/stores/tonalScale.ts`):
    slider clamping, the nearest-accessible-neighbour search, the strip and
    metadata selectors, the blend distribution and the state transitions of
    the setters and of `importState`. The state is an immutable record and
    each transition returns whether it was accepted together with the next
    state. */
module Store {
  import opened Wrappers
  import opened JsMath
  import opened JsText
  import opened Powers
  import Color
  import ColorMath
  import Contrast
  import opened Easing
  import opened Indices
  import Scale

  type TonalStep = Scale.TonalStep

  // ---------------------------------------------------------------------
  // Controls

  /** `BlendControlId`. */
  datatype ControlId = Strength | Middle | Spread | SatDarker | SatLighter

  datatype Controls = Controls(strength: real, middle: real, spread: real, satDarker: real, satLighter: real)

  function Lo(id: ControlId): real {
    if id == Middle then -50.0 else 0.0
  }

  function Hi(id: ControlId): real {
    if id == Middle then 50.0 else 100.0
  }

  /** `clampControl`: middle into [-50, 50], every other control into
      [0, 100]. */
  function ClampControl(id: ControlId, value: real): (r: real)
    ensures Lo(id) <= r <= Hi(id)
    ensures Lo(id) <= value <= Hi(id) ==> r == value
    ensures value < Lo(id) ==> r == Lo(id)
    ensures value > Hi(id) ==> r == Hi(id)
  {
    match id
    case Strength => Clamp(value, 0.0, 100.0)
    case Middle => Clamp(value, -50.0, 50.0)
    case Spread => Clamp(value, 0.0, 100.0)
    case SatDarker => Clamp(value, 0.0, 100.0)
    case SatLighter => Clamp(value, 0.0, 100.0)
  }

  /** Clamping twice is clamping once. */
  lemma ClampControlIdempotent(id: ControlId, value: real)
    ensures ClampControl(id, ClampControl(id, value)) == ClampControl(id, value)
  {
  }

  function Get(c: Controls, id: ControlId): real {
    match id
    case Strength => c.strength
    case Middle => c.middle
    case Spread => c.spread
    case SatDarker => c.satDarker
    case SatLighter => c.satLighter
  }

  function Set(c: Controls, id: ControlId, v: real): (r: Controls)
    ensures Get(r, id) == v
    ensures forall other :: other != id ==> Get(r, other) == Get(c, other)
  {
    match id
    case Strength => c.(strength := v)
    case Middle => c.(middle := v)
    case Spread => c.(spread := v)
    case SatDarker => c.(satDarker := v)
    case SatLighter => c.(satLighter := v)
  }

  /** Every control inside its own range. */
  predicate ControlsInRange(c: Controls) {
    && 0.0 <= c.strength <= 100.0
    && -50.0 <= c.middle <= 50.0
    && 0.0 <= c.spread <= 100.0
    && 0.0 <= c.satDarker <= 100.0
    && 0.0 <= c.satLighter <= 100.0
  }

  // ---------------------------------------------------------------------
  // Nearest accessible neighbour

  datatype ContrastCandidate = ContrastCandidate(index: int, hex: string, ratio: real)

  datatype Direction = Lighter | Darker

  function Increment(d: Direction): int {
    if d == Lighter then 1 else -1
  }

  /** `k` lies at or beyond `from` when walking in direction `d`. */
  predicate AtOrBeyond(d: Direction, from: int, k: int) {
    if d == Lighter then from <= k else k <= from
  }

  /** `k` lies strictly beyond `from` when walking in direction `d`. */
  predicate Beyond(d: Direction, from: int, k: int) {
    AtOrBeyond(d, from + Increment(d), k)
  }

  /** A contrast function: `getContrastRatio` in the store, `None` standing
      for `NaN`. The search is stated for any such function. */
  type ContrastOf = (string, string) -> Option<real>

  /** The step at position `k` reaches the contrast `ratio` against `hex`; a
      `NaN` ratio reaches nothing. */
  predicate Reaches(contrast: ContrastOf, hex: string, scale: seq<TonalStep>, k: int, ratio: real)
    requires 0 <= k < |scale|
  {
    var c := contrast(hex, scale[k].hex);
    c.Some? && c.value >= ratio
  }

  /** Position `j` is the first one beyond `origin` in direction `d` whose
      step reaches the ratio against the origin's step. */
  predicate FirstReaching(contrast: ContrastOf, scale: seq<TonalStep>, origin: int, j: int, ratio: real, d: Direction)
    requires 0 <= origin < |scale| && 0 <= j < |scale|
  {
    && Beyond(d, origin, j)
    && Reaches(contrast, scale[origin].hex, scale, j, ratio)
    && forall k :: 0 <= k < |scale| && Beyond(d, origin, k) && Beyond(d, k, j) ==>
         !Reaches(contrast, scale[origin].hex, scale, k, ratio)
  }

  /** The loop of `findClosestCandidate` from `cursor` on. */
  function Scan(contrast: ContrastOf, hex: string, scale: seq<TonalStep>, cursor: int, d: Direction, ratio: real): (r: Option<nat>)
    requires if d == Lighter then 0 <= cursor else cursor < |scale|
    ensures r.Some? ==>
      && r.value < |scale| && AtOrBeyond(d, cursor, r.value)
      && Reaches(contrast, hex, scale, r.value, ratio)
      && forall k :: 0 <= k < |scale| && AtOrBeyond(d, cursor, k) && Beyond(d, k, r.value) ==>
           !Reaches(contrast, hex, scale, k, ratio)
    ensures r.None? ==>
      forall k :: 0 <= k < |scale| && AtOrBeyond(d, cursor, k) ==> !Reaches(contrast, hex, scale, k, ratio)
    decreases if d == Lighter then |scale| - cursor else cursor + 1
  {
    if cursor < 0 || cursor >= |scale| then None
    else if Reaches(contrast, hex, scale, cursor, ratio) then Some(cursor)
    else
      var r := Scan(contrast, hex, scale, cursor + Increment(d), d, ratio);
      assert forall k :: AtOrBeyond(d, cursor, k) ==> k == cursor || AtOrBeyond(d, cursor + Increment(d), k);
      r
  }

  /** `findClosestCandidate`: the first step beyond `index` in direction `d`
      whose contrast against the step at `index` is at least `ratio`, with
      that step's index and hex and the ratio found; `None` when `index` is
      not a position of the scale or no step beyond it reaches the ratio. */
  function FindClosestCandidate(contrast: ContrastOf, index: int, scale: seq<TonalStep>, ratio: real, d: Direction): (r: Option<ContrastCandidate>)
    ensures !(0 <= index < |scale|) ==> r.None?
    ensures 0 <= index < |scale| ==>
      (r.None? <==> forall k :: 0 <= k < |scale| && Beyond(d, index, k) ==>
                      !Reaches(contrast, scale[index].hex, scale, k, ratio))
    ensures r.Some? ==> 0 <= index < |scale| && r.value.ratio >= ratio
    ensures r.Some? ==> exists j :: (
      && 0 <= j < |scale| && 0 <= index < |scale| && FirstReaching(contrast, scale, index, j, ratio, d)
      && r.value.index == scale[j].index && r.value.hex == scale[j].hex
      && contrast(scale[index].hex, scale[j].hex) == Some(r.value.ratio))
  {
    if !(0 <= index < |scale|) then None
    else
      var origin := scale[index].hex;
      match Scan(contrast, origin, scale, index + Increment(d), d, ratio)
      case None => None
      case Some(j) =>
        var c := contrast(origin, scale[j].hex);
        assert FirstReaching(contrast, scale, index, j, ratio, d);
        Some(ContrastCandidate(scale[j].index, scale[j].hex, c.value))
  }

  /** A step that reaches 4.5:1 also reaches 3:1, so whenever a search at a
      higher threshold finds a candidate, the search at a lower one finds
      one too. */
  lemma LowerThresholdFinds(contrast: ContrastOf, index: int, scale: seq<TonalStep>, lo: real, hi: real, d: Direction)
    requires lo <= hi
    requires FindClosestCandidate(contrast, index, scale, hi, d).Some?
    ensures FindClosestCandidate(contrast, index, scale, lo, d).Some?
  {
    var j :| 0 <= j < |scale| && FirstReaching(contrast, scale, index, j, hi, d);
    assert Reaches(contrast, scale[index].hex, scale, j, lo);
  }

  datatype ToneMetadata = ToneMetadata(
    tone: TonalStep,
    darker3: Option<ContrastCandidate>,
    darker45: Option<ContrastCandidate>,
    lighter3: Option<ContrastCandidate>,
    lighter45: Option<ContrastCandidate>)

  /** `buildMetadata`: one entry per step, carrying the step and its four
      searches, darker and lighter at the 3:1 and 4.5:1 thresholds. */
  function BuildMetadata(contrast: ContrastOf, scale: seq<TonalStep>): (r: seq<ToneMetadata>)
    ensures |r| == |scale|
    ensures forall k :: 0 <= k < |scale| ==> (
      && r[k].tone == scale[k]
      && r[k].darker3 == FindClosestCandidate(contrast, k, scale, 3.0, Darker)
      && r[k].darker45 == FindClosestCandidate(contrast, k, scale, 4.5, Darker)
      && r[k].lighter3 == FindClosestCandidate(contrast, k, scale, 3.0, Lighter)
      && r[k].lighter45 == FindClosestCandidate(contrast, k, scale, 4.5, Lighter))
  {
    seq(|scale|, k requires 0 <= k < |scale| =>
      ToneMetadata(scale[k],
        FindClosestCandidate(contrast, k, scale, 3.0, Darker),
        FindClosestCandidate(contrast, k, scale, 4.5, Darker),
        FindClosestCandidate(contrast, k, scale, 3.0, Lighter),
        FindClosestCandidate(contrast, k, scale, 4.5, Lighter)))
  }

  /** The first step of a scale has no darker neighbour and the last no
      lighter one; an entry with a 4.5:1 neighbour on a side has a 3:1
      neighbour on that side too. */
  lemma MetadataShape(contrast: ContrastOf, scale: seq<TonalStep>, k: int)
    requires 0 <= k < |scale|
    ensures var m := BuildMetadata(contrast, scale)[k];
      && (k == 0 ==> m.darker3.None? && m.darker45.None?)
      && (k == |scale| - 1 ==> m.lighter3.None? && m.lighter45.None?)
      && (m.darker45.Some? ==> m.darker3.Some?)
      && (m.lighter45.Some? ==> m.lighter3.Some?)
  {
    if FindClosestCandidate(contrast, k, scale, 4.5, Darker).Some? {
      LowerThresholdFinds(contrast, k, scale, 3.0, 4.5, Darker);
    }
    if FindClosestCandidate(contrast, k, scale, 4.5, Lighter).Some? {
      LowerThresholdFinds(contrast, k, scale, 3.0, 4.5, Lighter);
    }
  }

  // ---------------------------------------------------------------------
  // Strip selectors


  /** Some step of the scale carries index `i`. */
  predicate HasIndex(scale: seq<TonalStep>, i: int) {
    exists k :: 0 <= k < |scale| && scale[k].index == i
  }

  /** `scale.find((tone) => tone.index === i)`: the first step carrying
      index `i`. */
  function FindStep(scale: seq<TonalStep>, i: int): (r: Option<TonalStep>)
    ensures r.Some? <==> HasIndex(scale, i)
    ensures r.Some? ==> r.value in scale && r.value.index == i
  {
    if scale == [] then None
    else if scale[0].index == i then Some(scale[0])
    else
      var r := FindStep(scale[1..], i);
      assert HasIndex(scale, i) <==> HasIndex(scale[1..], i) by {
        if HasIndex(scale, i) {
          var k :| 0 <= k < |scale| && scale[k].index == i;
          assert scale[1..][k - 1] == scale[k];
        }
        if HasIndex(scale[1..], i) {
          var k :| 0 <= k < |scale[1..]| && scale[1..][k].index == i;
          assert scale[k + 1] == scale[1..][k];
        }
      }
      r
  }

  /** The indices the steps carry, in order. */
  function StepIndices(steps: seq<TonalStep>): (r: seq<int>)
    ensures |r| == |steps|
    ensures forall k :: 0 <= k < |steps| ==> r[k] == steps[k].index
  {
    seq(|steps|, k requires 0 <= k < |steps| => steps[k].index)
  }

  /** `pickIndices`: the step of each index in turn, silently dropping the
      indices no step carries. */
  function PickIndices(indices: seq<int>, scale: seq<TonalStep>): (r: seq<TonalStep>)
    ensures |r| <= |indices|
    ensures forall k :: 0 <= k < |r| ==> FindStep(scale, r[k].index) == Some(r[k])
  {
    if indices == [] then []
    else
      var rest := PickIndices(indices[1..], scale);
      match FindStep(scale, indices[0])
      case None => rest
      case Some(t) => [t] + rest
  }

  /** The picked steps carry exactly the requested indices some step
      carries. */
  lemma {:induction false} PickMembers(indices: seq<int>, scale: seq<TonalStep>)
    ensures forall v :: v in StepIndices(PickIndices(indices, scale)) <==> v in indices && HasIndex(scale, v)
  {
    if indices != [] {
      PickMembers(indices[1..], scale);
      var rest := PickIndices(indices[1..], scale);
      assert forall v :: v in indices <==> v == indices[0] || v in indices[1..];
      match FindStep(scale, indices[0])
      case None =>
      case Some(t) =>
        assert StepIndices([t] + rest) == [t.index] + StepIndices(rest);
    }
  }

  /** Picking keeps the order of the indices, so ascending indices give
      steps in ascending index order. */
  lemma {:induction false} PickIncreasing(indices: seq<int>, scale: seq<TonalStep>)
    requires StrictlyIncreasing(indices)
    ensures StrictlyIncreasing(StepIndices(PickIndices(indices, scale)))
  {
    if indices != [] {
      var rest := PickIndices(indices[1..], scale);
      PickIncreasing(indices[1..], scale);
      PickMembers(indices[1..], scale);
      match FindStep(scale, indices[0])
      case None =>
      case Some(t) =>
        var r := [t] + rest;
        assert StepIndices(r) == [t.index] + StepIndices(rest);
        forall v | v in StepIndices(rest)
          ensures t.index < v
        {
          var k :| 0 <= k < |indices[1..]| && indices[1..][k] == v;
          assert indices[k + 1] == v;
        }
        ConsIncreasing(t.index, StepIndices(rest));
    }
  }

  /** A value below every member of an ascending list extends it in front. */
  lemma ConsIncreasing(x: int, s: seq<int>)
    requires StrictlyIncreasing(s)
    requires forall v :: v in s ==> x < v
    ensures StrictlyIncreasing([x] + s)
  {
    forall i, j | 0 <= i < j < |[x] + s|
      ensures ([x] + s)[i] < ([x] + s)[j]
    {
      assert ([x] + s)[j] == s[j - 1];
      assert s[j - 1] in s;
    }
  }

  /** `includeBaseIndex`: the steps of the given indices plus the base index,
      each once, in ascending index order, dropping indices the scale lacks. */
  function IncludeBaseIndex(indices: seq<int>, scale: seq<TonalStep>, baseIndex: int): (r: seq<TonalStep>)
    ensures StrictlyIncreasing(StepIndices(r))
    ensures forall v :: v in StepIndices(r) <==> (v == baseIndex || v in indices) && HasIndex(scale, v)
    ensures forall t :: t in r ==> t in scale
  {
    var combined := WithBase(indices, baseIndex);
    PickMembers(combined, scale);
    PickIncreasing(combined, scale);
    PickIndices(combined, scale)
  }

  // ---------------------------------------------------------------------
  // Blend distribution

  const LightLine := "#e2e8f0"
  const DarkLine := "#0f172a"

  /** The position `pickLineColor` probes: half the base lightness, rounded
      and kept inside the scale. */
  function ProbeIndex(length: int, luminance: int): (p: int)
    ensures 0 <= p
    ensures length > 0 ==> p < length
    ensures 0 <= Round(luminance as real / 2.0) < length ==> p == Round(luminance as real / 2.0)
  {
    var half := Round(luminance as real / 2.0);
    var upper := if length - 1 < half then length - 1 else half;
    if upper < 0 then 0 else upper
  }

  /** The hex of the probed step; an empty scale probes the light colour. */
  function ProbeHex(scale: Scale.TonalScale): (h: string)
    ensures 0 < |scale.colorScale| ==> h in StepHexes(scale.colorScale)
  {
    var p := ProbeIndex(|scale.colorScale|, scale.luminance);
    if p < |scale.colorScale| then scale.colorScale[p].hex else LightLine
  }

  function StepHexes(steps: seq<TonalStep>): set<string> {
    set t | t in steps :: t.hex
  }

  /** `lightContrast >= darkContrast ? lightOption : darkOption`, where a
      comparison with `NaN` is false. */
  function ChooseLine(light: Option<real>, dark: Option<real>): (r: string)
    ensures r == LightLine || r == DarkLine
  {
    if light.Some? && dark.Some? && light.value >= dark.value then LightLine else DarkLine
  }

  /** `pickLineColor`: the light line colour when it contrasts at least as
      much with the probed step as the dark one does, else the dark one. */
  function PickLineColor(n: Numerics, scale: Scale.TonalScale): (r: string)
    ensures r == LightLine || r == DarkLine
  {
    var probe := ProbeHex(scale);
    ChooseLine(Contrast.GetContrastRatio(n, probe, LightLine), Contrast.GetContrastRatio(n, probe, DarkLine))
  }

  /** For a probe whose channels parse, both ratios exist and the choice is
      exactly their comparison. */
  lemma LineColorChoice(n: Numerics, scale: Scale.TonalScale)
    requires Valid(n) && Color.HexToRgb(ProbeHex(scale)).Some?
    ensures var probe := ProbeHex(scale);
      && Contrast.GetContrastRatio(n, probe, LightLine).Some?
      && Contrast.GetContrastRatio(n, probe, DarkLine).Some?
      && (PickLineColor(n, scale) == LightLine <==>
            Contrast.GetContrastRatio(n, probe, LightLine).value >= Contrast.GetContrastRatio(n, probe, DarkLine).value)
  {
    var probe := ProbeHex(scale);
    LineColoursParse();
    Contrast.ContrastAtLeastOne(n, probe, LightLine);
    Contrast.ContrastAtLeastOne(n, probe, DarkLine);
    LinesDiffer();
  }

  /** A probe that does not parse has `NaN` ratios and gets the dark line. */
  lemma LineColorUnparsed(n: Numerics, scale: Scale.TonalScale)
    requires Color.HexToRgb(ProbeHex(scale)).None?
    ensures PickLineColor(n, scale) == DarkLine
  {
  }

  lemma LinesDiffer()
    ensures LightLine != DarkLine
  {
    assert LightLine[1] != DarkLine[1];
  }

  lemma LineColoursParse()
    ensures Color.HexToRgb(LightLine).Some? && Color.HexToRgb(DarkLine).Some?
  {
    assert Color.IsCanonicalHex(LightLine);
    assert Color.IsCanonicalHex(DarkLine);
    Color.CanonicalDecode(LightLine);
    Color.CanonicalDecode(DarkLine);
  }

  /** The plotted intensity curve: steps and their blend intensities. */
  datatype IntensityPlot = IntensityPlot(x: seq<int>, y: seq<real>)

  datatype BlendDistribution = BlendDistribution(curve: IntensityPlot, widthPercent: int, lineColor: string)

  /** The blend intensities of steps 0..count - 1 over `range`, on the
      curve the params shape. */
  function Intensities(p: Scale.TonalScaleParams, count: nat, range: int): (ys: seq<real>)
    requires 1 <= range
    ensures |ys| == count
    ensures 0 < count ==> ys[0] == 0.0
    ensures Scale.InRange(p) && count <= range + 1 ==> forall i :: 0 <= i < count ==> 0.0 <= ys[i] <= 1.0
  {
    var ys := seq(count, i requires 0 <= i < count => GetIntensity(Scale.Curve(p), i as real, range as real));
    if Scale.InRange(p) && count <= range + 1 then
      DistributionUnit(p, range, ys);
      ys
    else ys
  }

  /** The loop of `buildBlendDistribution`: every step below the base
      lightness with its blend intensity over `max(1, luminance - 1)`. */
  function Plot(p: Scale.TonalScaleParams, luminance: int): (c: IntensityPlot)
    ensures |c.x| == |c.y| == (if luminance > 0 then luminance else 0)
    ensures forall i :: 0 <= i < |c.x| ==> c.x[i] == i
    ensures 0 < |c.y| ==> c.y[0] == 0.0
    ensures Scale.InRange(p) ==> forall i :: 0 <= i < |c.y| ==> 0.0 <= c.y[i] <= 1.0
  {
    var range := if luminance - 1 > 1 then luminance - 1 else 1;
    var count := if luminance > 0 then luminance else 0;
    IntensityPlot(seq(count, i => i), Intensities(p, count, range))
  }

  /** `buildBlendDistribution`: the plot, the width `max(0, luminance - 1)`
      of the blended range and the line colour. */
  function BuildBlendDistribution(n: Numerics, p: Scale.TonalScaleParams, scale: Scale.TonalScale): (r: BlendDistribution)
    ensures r.widthPercent == if scale.luminance > 1 then scale.luminance - 1 else 0
    ensures r.widthPercent == |r.curve.x| - 1 || (r.widthPercent == 0 && |r.curve.x| == 0)
  {
    BlendDistribution(Plot(p, scale.luminance),
      if scale.luminance - 1 > 0 then scale.luminance - 1 else 0, PickLineColor(n, scale))
  }

  lemma DistributionUnit(p: Scale.TonalScaleParams, range: int, ys: seq<real>)
    requires Scale.InRange(p) && 1 <= range && |ys| <= range + 1
    requires forall i :: 0 <= i < |ys| ==> ys[i] == GetIntensity(Scale.Curve(p), i as real, range as real)
    ensures forall i :: 0 <= i < |ys| ==> 0.0 <= ys[i] <= 1.0
  {
    forall i | 0 <= i < |ys|
      ensures 0.0 <= ys[i] <= 1.0
    {
      IntensityUnit((p.middle + 50.0) / 100.0, p.spread / 100.0, i as real, range as real);
    }
  }

  // ---------------------------------------------------------------------
  // Store state and its transitions

  const DefaultBaseHex := "#8000ff"
  const DefaultBlendHex := "#000032"

  /** `DEFAULT_PARAMS`. */
  const DefaultParams := Scale.TonalScaleParams(DefaultBaseHex, ColorMath.ColorDodge, 0.0, 0.0, 0.0, 50.0, 0.0, 50.0, 0.0, 0.0)

  /** The store's own state: the two colours, the mode and the five
      controls. */
  datatype StoreState = StoreState(baseHex: string, blendHex: string, blendMode: ColorMath.BlendMode, controls: Controls)

  /** The state the store starts in. */
  function InitialState(): (s: StoreState)
    ensures s.baseHex == Color.NormalizeHex(DefaultBaseHex) && s.blendHex == Color.NormalizeHex(DefaultBlendHex)
    ensures s.blendMode == DefaultParams.blendMode
    ensures s.controls == Controls(DefaultParams.blendStrength, DefaultParams.middle, DefaultParams.spread,
      DefaultParams.satDarker, DefaultParams.satLighter)
    ensures ControlsInRange(s.controls)
  {
    StoreState(Color.NormalizeHex(DefaultBaseHex), Color.NormalizeHex(DefaultBlendHex), DefaultParams.blendMode,
      Controls(DefaultParams.blendStrength, DefaultParams.middle, DefaultParams.spread,
        DefaultParams.satDarker, DefaultParams.satLighter))
  }

  /** What a setter returns: whether it accepted its input, and the state
      after it. */
  datatype Outcome = Outcome(accepted: bool, state: StoreState)

  /** `updateControl` of the store: the value is clamped into the control's
      range; no other control changes. */
  function UpdateControl(s: StoreState, id: ControlId, value: real): (r: StoreState)
    ensures Get(r.controls, id) == ClampControl(id, value)
    ensures forall other :: other != id ==> Get(r.controls, other) == Get(s.controls, other)
    ensures r.baseHex == s.baseHex && r.blendHex == s.blendHex && r.blendMode == s.blendMode
    ensures ControlsInRange(s.controls) ==> ControlsInRange(r.controls)
  {
    s.(controls := Set(s.controls, id, ClampControl(id, value)))
  }

  /** `setBaseHex`: a valid hex is stored normalised; anything else is
      refused and changes nothing. */
  function SetBaseHex(s: StoreState, hex: string): (r: Outcome)
    ensures r.accepted <==> Color.IsValidHex(hex)
    ensures !r.accepted ==> r.state == s
    ensures r.accepted ==> r.state == s.(baseHex := Color.NormalizeHex(hex))
    ensures r.accepted ==> Color.IsCanonicalHex(r.state.baseHex)
  {
    if !Color.IsValidHex(hex) then Outcome(false, s)
    else
      Color.NormalizeValid(hex);
      Outcome(true, s.(baseHex := Color.NormalizeHex(hex)))
  }

  /** `setBlendHex`, the same for the blend colour. */
  function SetBlendHex(s: StoreState, hex: string): (r: Outcome)
    ensures r.accepted <==> Color.IsValidHex(hex)
    ensures !r.accepted ==> r.state == s
    ensures r.accepted ==> r.state == s.(blendHex := Color.NormalizeHex(hex))
    ensures r.accepted ==> Color.IsCanonicalHex(r.state.blendHex)
  {
    if !Color.IsValidHex(hex) then Outcome(false, s)
    else
      Color.NormalizeValid(hex);
      Outcome(true, s.(blendHex := Color.NormalizeHex(hex)))
  }

  /** `setBlendMode`: a name in `BLEND_MODES` is stored; anything else is
      refused and changes nothing. */
  function SetBlendMode(s: StoreState, mode: string): (r: Outcome)
    ensures r.accepted <==> ColorMath.ParseBlendMode(mode).Some?
    ensures !r.accepted ==> r.state == s
    ensures r.accepted ==> r.state == s.(blendMode := r.state.blendMode) && ColorMath.ModeName(r.state.blendMode) == mode
  {
    match ColorMath.ParseBlendMode(mode)
    case None => Outcome(false, s)
    case Some(m) => Outcome(true, s.(blendMode := m))
  }

  /** The blend colour's channels; `None` is the `NaN` channels of a blend
      hex that does not parse, which the store never holds. */
  function BlendRgb(s: StoreState): Option<Color.Rgb> {
    Color.HexToRgb(s.blendHex)
  }

  /** `scaleParams`: the params the store hands to the scale. */
  function ScaleParams(s: StoreState): (p: Scale.TonalScaleParams)
    requires BlendRgb(s).Some?
    ensures p.colorHex == s.baseHex && p.blendMode == s.blendMode
    ensures p.blendStrength == s.controls.strength && p.middle == s.controls.middle && p.spread == s.controls.spread
    ensures p.satDarker == s.controls.satDarker && p.satLighter == s.controls.satLighter
    ensures Color.Rgb(p.blendR, p.blendG, p.blendB) == BlendRgb(s).value
  {
    var c := BlendRgb(s).value;
    Scale.TonalScaleParams(s.baseHex, s.blendMode, s.controls.strength, c.r, c.g, c.b,
      s.controls.middle, s.controls.spread, s.controls.satDarker, s.controls.satLighter)
  }

  /** The `blendR`, `blendG` and `blendB` that `scaleParams` reads from
      `hexToRgb(blendHex)`, one pair of digits each; `None` is a `NaN`
      channel, which the source hands on to the scale as it is. */
  function ScaleBlendChannels(s: StoreState): (c: (Option<real>, Option<real>, Option<real>))
    ensures c.0.Some? && c.1.Some? && c.2.Some? <==> BlendRgb(s).Some?
    ensures BlendRgb(s).Some? ==>
      c == (Some(BlendRgb(s).value.r), Some(BlendRgb(s).value.g), Some(BlendRgb(s).value.b))
  {
    var c := (BlendChannel(s, 0), BlendChannel(s, 2), BlendChannel(s, 4));
    if BlendRgb(s).Some? then BlendChannelsOfDecoded(s); c else c
  }

  /** A parsed `importState` payload: every field may be missing. Numbers
      arrive already converted by `Number(...)`. */
  datatype Payload = Payload(
    colorHex: Option<string>,
    blendMode: Option<string>,
    blendStrength: Option<real>,
    blendR: Option<real>,
    blendG: Option<real>,
    blendB: Option<real>,
    middle: Option<real>,
    spread: Option<real>,
    satDarker: Option<real>,
    satLighter: Option<real>)

  /** The colour `importState` takes: a valid hex normalised, else the
      current base colour. */
  function ImportedHex(s: StoreState, hex: Option<string>): (h: string)
    ensures Color.IsValidHex(hex.GetOr("")) ==> h == Color.NormalizeHex(hex.value) && Color.IsCanonicalHex(h)
    ensures !Color.IsValidHex(hex.GetOr("")) ==> h == s.baseHex
  {
    var candidate := hex.GetOr("");
    if Color.IsValidHex(candidate) then
      Color.NormalizeValid(candidate);
      Color.NormalizeHex(candidate)
    else s.baseHex
  }

  /** The mode `importState` takes: a known name, else the current mode. */
  function ImportedMode(s: StoreState, mode: Option<string>): (m: ColorMath.BlendMode)
    ensures mode.Some? && ColorMath.ParseBlendMode(mode.value).Some? ==> ColorMath.ModeName(m) == mode.value
    ensures mode.None? || ColorMath.ParseBlendMode(mode.value).None? ==> m == s.blendMode
  {
    if mode.Some? && ColorMath.ParseBlendMode(mode.value).Some? then ColorMath.ParseBlendMode(mode.value).value
    else s.blendMode
  }

  /** One channel of `hexToRgb(blendHex)`, read on its own at digit
      offset `i`: `parseInt` of two digits, `None` for `NaN`. */
  function BlendChannel(s: StoreState, i: nat): Option<real> {
    match Color.ParseChannel(ReplaceFirst(Color.NormalizeHex(s.blendHex), '#', ""), i)
    case None => None
    case Some(n) => Some(n as real)
  }

  /** When the blend hex decodes, its channels read one by one are the
      decoded channels. */
  lemma BlendChannelsOfDecoded(s: StoreState)
    requires BlendRgb(s).Some?
    ensures BlendChannel(s, 0) == Some(BlendRgb(s).value.r)
    ensures BlendChannel(s, 2) == Some(BlendRgb(s).value.g)
    ensures BlendChannel(s, 4) == Some(BlendRgb(s).value.b)
  {
    var digits := ReplaceFirst(Color.NormalizeHex(s.blendHex), '#', "");
    assert BlendRgb(s) == Color.DecodeDigits(digits);
    Color.DecodedChannels(digits);
  }

  /** A blend channel `importState` takes: the given number, else the
      current channel, clamped into 0..255; `None` is the `NaN` that
      `clamp` passes through when neither is a number. */
  function ImportedChannel(given: Option<real>, current: Option<real>): (c: Option<real>)
    ensures c.None? <==> given.None? && current.None?
    ensures c.Some? ==> 0.0 <= c.value <= 255.0
    ensures given.Some? && 0.0 <= given.value <= 255.0 ==> c == given
    ensures given.None? && current.Some? && 0.0 <= current.value <= 255.0 ==> c == current
    ensures given.Some? && given.value < 0.0 ==> c == Some(0.0)
    ensures given.Some? && given.value > 255.0 ==> c == Some(255.0)
    ensures given.None? && current.Some? && current.value < 0.0 ==> c == Some(0.0)
    ensures given.None? && current.Some? && current.value > 255.0 ==> c == Some(255.0)
  {
    var x := if given.Some? then given else current;
    match x
    case None => None
    case Some(v) =>
      ClampBounds(v, 0.0, 255.0);
      Some(Clamp(v, 0.0, 255.0))
  }

  /** The controls `importState` takes from a payload: each one it gives,
      clamped into its range, and each one it lacks, the current value
      clamped. */
  predicate ControlsImported(current: Controls, q: Payload, c: Controls) {
    && c.strength == ClampControl(Strength, if q.blendStrength.Some? then q.blendStrength.value else current.strength)
    && c.middle == ClampControl(Middle, if q.middle.Some? then q.middle.value else current.middle)
    && c.spread == ClampControl(Spread, if q.spread.Some? then q.spread.value else current.spread)
    && c.satDarker == ClampControl(SatDarker, if q.satDarker.Some? then q.satDarker.value else current.satDarker)
    && c.satLighter == ClampControl(SatLighter, if q.satLighter.Some? then q.satLighter.value else current.satLighter)
  }

  /** The params `importState` builds: the blend channels may be `NaN`
      (`None`) when the current blend hex does not decode. */
  datatype ImportedParams = ImportedParams(
    colorHex: string,
    blendMode: ColorMath.BlendMode,
    controls: Controls,
    blendR: Option<real>,
    blendG: Option<real>,
    blendB: Option<real>)

  /** Scale params seen as imported params: every channel a number. */
  function Lift(p: Scale.TonalScaleParams): ImportedParams {
    ImportedParams(p.colorHex, p.blendMode,
      Controls(p.blendStrength, p.middle, p.spread, p.satDarker, p.satLighter),
      Some(p.blendR), Some(p.blendG), Some(p.blendB))
  }

  /** The params `importState` derives: colour and mode as above, every
      number clamped, a missing one taken from the current state. A
      channel is `NaN` only when neither the payload nor the current blend
      hex gives it, and never when the current blend hex decodes. */
  function NextParams(s: StoreState, q: Payload): (p: ImportedParams)
    ensures p.colorHex == ImportedHex(s, q.colorHex) && p.blendMode == ImportedMode(s, q.blendMode)
    ensures ControlsInRange(p.controls) && ControlsImported(s.controls, q, p.controls)
    ensures p.blendR == ImportedChannel(q.blendR, BlendChannel(s, 0))
    ensures p.blendG == ImportedChannel(q.blendG, BlendChannel(s, 2))
    ensures p.blendB == ImportedChannel(q.blendB, BlendChannel(s, 4))
    ensures p.blendR.Some? ==> 0.0 <= p.blendR.value <= 255.0
    ensures p.blendG.Some? ==> 0.0 <= p.blendG.value <= 255.0
    ensures p.blendB.Some? ==> 0.0 <= p.blendB.value <= 255.0
    ensures p.blendR.None? <==> q.blendR.None? && BlendChannel(s, 0).None?
    ensures p.blendG.None? <==> q.blendG.None? && BlendChannel(s, 2).None?
    ensures p.blendB.None? <==> q.blendB.None? && BlendChannel(s, 4).None?
  {
    Merged(s, BlendChannel(s, 0), BlendChannel(s, 2), BlendChannel(s, 4), q)
  }

  /** The object literal of `importState`, with `r0`, `g0`, `b0` the
      current blend channels that stand in for missing ones. */
  function Merged(s: StoreState, r0: Option<real>, g0: Option<real>, b0: Option<real>, q: Payload): (p: ImportedParams)
    ensures p.colorHex == ImportedHex(s, q.colorHex) && p.blendMode == ImportedMode(s, q.blendMode)
    ensures ControlsInRange(p.controls) && ControlsImported(s.controls, q, p.controls)
    ensures p.blendR == ImportedChannel(q.blendR, r0)
    ensures p.blendG == ImportedChannel(q.blendG, g0)
    ensures p.blendB == ImportedChannel(q.blendB, b0)
    ensures p.blendR.Some? ==> 0.0 <= p.blendR.value <= 255.0
    ensures p.blendG.Some? ==> 0.0 <= p.blendG.value <= 255.0
    ensures p.blendB.Some? ==> 0.0 <= p.blendB.value <= 255.0
    ensures p.blendR.None? <==> q.blendR.None? && r0.None?
    ensures p.blendG.None? <==> q.blendG.None? && g0.None?
    ensures p.blendB.None? <==> q.blendB.None? && b0.None?
  {
    ImportedParams(
      ImportedHex(s, q.colorHex),
      ImportedMode(s, q.blendMode),
      Controls(
        ClampControl(Strength, q.blendStrength.GetOr(s.controls.strength)),
        ClampControl(Middle, q.middle.GetOr(s.controls.middle)),
        ClampControl(Spread, q.spread.GetOr(s.controls.spread)),
        ClampControl(SatDarker, q.satDarker.GetOr(s.controls.satDarker)),
        ClampControl(SatLighter, q.satLighter.GetOr(s.controls.satLighter))),
      ImportedChannel(q.blendR, r0),
      ImportedChannel(q.blendG, g0),
      ImportedChannel(q.blendB, b0))
  }

  /** A payload that carries every field, each valid and in range, is taken
      as it is: the colour normalised, the mode parsed, the numbers
      unchanged. Nothing of the current state shows through, not even a
      blend hex that does not decode. */
  lemma NextParamsOfComplete(s: StoreState, q: Payload, mode: ColorMath.BlendMode)
    requires q.colorHex.Some? && Color.IsValidHex(q.colorHex.value)
    requires q.blendMode == Some(ColorMath.ModeName(mode))
    requires q.blendStrength.Some? && q.middle.Some? && q.spread.Some? && q.satDarker.Some? && q.satLighter.Some?
    requires ControlsInRange(Controls(q.blendStrength.value, q.middle.value, q.spread.value, q.satDarker.value, q.satLighter.value))
    requires q.blendR.Some? && 0.0 <= q.blendR.value <= 255.0
    requires q.blendG.Some? && 0.0 <= q.blendG.value <= 255.0
    requires q.blendB.Some? && 0.0 <= q.blendB.value <= 255.0
    ensures NextParams(s, q) == ImportedParams(Color.NormalizeHex(q.colorHex.value), mode,
      Controls(q.blendStrength.value, q.middle.value, q.spread.value, q.satDarker.value, q.satLighter.value),
      q.blendR, q.blendG, q.blendB)
  {
    MergedOfComplete(s, BlendChannel(s, 0), BlendChannel(s, 2), BlendChannel(s, 4), q, mode);
  }

  lemma MergedOfComplete(s: StoreState, r0: Option<real>, g0: Option<real>, b0: Option<real>, q: Payload, mode: ColorMath.BlendMode)
    requires q.colorHex.Some? && Color.IsValidHex(q.colorHex.value)
    requires q.blendMode == Some(ColorMath.ModeName(mode))
    requires q.blendStrength.Some? && q.middle.Some? && q.spread.Some? && q.satDarker.Some? && q.satLighter.Some?
    requires ControlsInRange(Controls(q.blendStrength.value, q.middle.value, q.spread.value, q.satDarker.value, q.satLighter.value))
    requires q.blendR.Some? && 0.0 <= q.blendR.value <= 255.0
    requires q.blendG.Some? && 0.0 <= q.blendG.value <= 255.0
    requires q.blendB.Some? && 0.0 <= q.blendB.value <= 255.0
    ensures Merged(s, r0, g0, b0, q) == ImportedParams(Color.NormalizeHex(q.colorHex.value), mode,
      Controls(q.blendStrength.value, q.middle.value, q.spread.value, q.satDarker.value, q.satLighter.value),
      q.blendR, q.blendG, q.blendB)
  {
    ColorMath.ModeNames(mode);
    var p := Merged(s, r0, g0, b0, q);
    assert p.blendMode == mode;
    assert p.controls == Controls(q.blendStrength.value, q.middle.value, q.spread.value, q.satDarker.value, q.satLighter.value);
    assert p.blendR == q.blendR && p.blendG == q.blendG && p.blendB == q.blendB;
  }

  /** A store whose blend hex decodes imports every channel as a number:
      the given one, or else the decoded one clamped. */
  lemma NextParamsOfDecoded(s: StoreState, q: Payload)
    requires BlendRgb(s).Some?
    ensures var p := NextParams(s, q); p.blendR.Some? && p.blendG.Some? && p.blendB.Some?
    ensures q.blendR.None? ==> NextParams(s, q).blendR == Some(Clamp(BlendRgb(s).value.r, 0.0, 255.0))
    ensures q.blendG.None? ==> NextParams(s, q).blendG == Some(Clamp(BlendRgb(s).value.g, 0.0, 255.0))
    ensures q.blendB.None? ==> NextParams(s, q).blendB == Some(Clamp(BlendRgb(s).value.b, 0.0, 255.0))
  {
    BlendChannelsOfDecoded(s);
  }

  /** `channel.toString(16).padStart(2, '0')`. A whole channel prints as its
      hex digits; the digits of a fractional channel come from `radix16`,
      `Number.prototype.toString(16)`. */
  function ChannelHex(x: real, radix16: real -> string): string {
    if IsInteger(x) && 0.0 <= x then Hex2(x.Floor as nat) else PadStart(radix16(x), 2, '0')
  }

  /** A channel that may be `NaN`, printed: `NaN.toString(16)` is `NaN`,
      already longer than the padding. */
  function ChannelText(c: Option<real>, radix16: real -> string): string {
    match c
    case None => "NaN"
    case Some(x) => ChannelHex(x, radix16)
  }

  /** The blend hex `importState` stores for the imported channels. */
  function BlendHexOf(p: ImportedParams, radix16: real -> string): string {
    Color.NormalizeHex("#" + ChannelText(p.blendR, radix16) + ChannelText(p.blendG, radix16) + ChannelText(p.blendB, radix16))
  }

  /** `importState`: an unparseable payload (`None`) is refused and changes
      nothing; otherwise the derived params replace the state. */
  function ImportState(s: StoreState, payload: Option<Payload>, radix16: real -> string): (r: Outcome)
    ensures r.accepted <==> payload.Some?
    ensures !r.accepted ==> r.state == s
    ensures r.accepted ==> ControlsInRange(r.state.controls)
    ensures r.accepted ==> var p := NextParams(s, payload.value);
      && r.state.baseHex == p.colorHex && r.state.blendMode == p.blendMode
      && r.state.blendHex == BlendHexOf(p, radix16)
      && r.state.controls == p.controls
  {
    match payload
    case None => Outcome(false, s)
    case Some(q) =>
      var p := NextParams(s, q);
      Outcome(true, StoreState(p.colorHex, BlendHexOf(p, radix16), p.blendMode, p.controls))
  }

  /** The state every transition keeps: canonical colours and controls in
      range. */
  predicate Consistent(s: StoreState) {
    Color.IsCanonicalHex(s.baseHex) && Color.IsCanonicalHex(s.blendHex) && ControlsInRange(s.controls)
  }

  /** A canonical hex always parses, so `scaleParams` is defined on every
      consistent state. */
  lemma ConsistentParses(s: StoreState)
    requires Consistent(s)
    ensures BlendRgb(s).Some? && Color.HexToRgb(s.baseHex).Some?
  {
    Color.CanonicalDecode(s.blendHex);
    Color.CanonicalDecode(s.baseHex);
  }

  /** The store starts consistent, with the default colours as written. */
  lemma InitialConsistent()
    ensures InitialState().baseHex == DefaultBaseHex && InitialState().blendHex == DefaultBlendHex
    ensures Consistent(InitialState())
  {
    DefaultCanonical(DefaultBaseHex);
    DefaultCanonical(DefaultBlendHex);
    var s := InitialState();
    assert s.baseHex == DefaultBaseHex && s.blendHex == DefaultBlendHex;
  }

  /** Each default colour is canonical, so normalising keeps it. */
  lemma DefaultCanonical(hex: string)
    requires hex == DefaultBaseHex || hex == DefaultBlendHex
    ensures Color.IsCanonicalHex(hex) && Color.NormalizeHex(hex) == hex
  {
    assert Color.IsCanonicalHex(hex);
    Color.CanonicalIsFixed(hex);
  }

  /** The setters keep the state consistent. */
  lemma SettersKeepConsistent(s: StoreState, hex: string, mode: string, id: ControlId, value: real)
    requires Consistent(s)
    ensures Consistent(SetBaseHex(s, hex).state)
    ensures Consistent(SetBlendHex(s, hex).state)
    ensures Consistent(SetBlendMode(s, mode).state)
    ensures Consistent(UpdateControl(s, id, value))
  {
  }

  /** An import with whole blend channels keeps the state consistent: the
      stored blend hex is the six-digit hex of the clamped channels. */
  lemma ImportKeepsConsistent(s: StoreState, q: Payload, radix16: real -> string)
    requires Consistent(s)
    requires var p := NextParams(s, q);
      && p.blendR.Some? && IsInteger(p.blendR.value)
      && p.blendG.Some? && IsInteger(p.blendG.value)
      && p.blendB.Some? && IsInteger(p.blendB.value)
    ensures Consistent(ImportState(s, Some(q), radix16).state)
  {
    var p := NextParams(s, q);
    var printed := Color.RgbToHex(Color.Rgb(p.blendR.value, p.blendG.value, p.blendB.value));
    WholeChannelHex(p.blendR.value, radix16);
    WholeChannelHex(p.blendG.value, radix16);
    WholeChannelHex(p.blendB.value, radix16);
    assert "#" + ChannelText(p.blendR, radix16) + ChannelText(p.blendG, radix16) + ChannelText(p.blendB, radix16) == printed;
    Color.CanonicalIsFixed(printed);
  }

  /** A whole channel in 0..255 prints as `rgbToHex` prints it. */
  lemma WholeChannelHex(x: real, radix16: real -> string)
    requires IsInteger(x) && 0.0 <= x <= 255.0
    ensures ChannelHex(x, radix16) == Hex2(Color.ToByte(x))
  {
    RoundOfInteger(x.Floor);
  }

  /** A consistent store only ever asks for scales that do not throw. */
  lemma StoreScaleNeverThrows(n: Numerics, s: StoreState)
    requires Consistent(s)
    ensures BlendRgb(s).Some? && Color.HexToRgb(ScaleParams(s).colorHex).Some?
    ensures Scale.GenerateTonalScale(n, ScaleParams(s)).Ok?
  {
    ConsistentParses(s);
    Scale.ScaleNeverThrows(n, ScaleParams(s));
  }

  /** The contrast the store searches with: `getContrastRatio`. */
  function StoreContrast(n: Numerics): ContrastOf {
    (first, second) => Contrast.GetContrastRatio(n, first, second)
  }

  /** With the store's contrast every candidate found is a real ratio of at
      least 1 against its origin. */
  lemma StoreCandidateRatio(n: Numerics, index: int, scale: seq<TonalStep>, ratio: real, d: Direction)
    requires Valid(n) && FindClosestCandidate(StoreContrast(n), index, scale, ratio, d).Some?
    ensures 1.0 <= FindClosestCandidate(StoreContrast(n), index, scale, ratio, d).value.ratio
  {
    var contrast := StoreContrast(n);
    var c := FindClosestCandidate(contrast, index, scale, ratio, d).value;
    var j :| 0 <= j < |scale| && 0 <= index < |scale| && FirstReaching(contrast, scale, index, j, ratio, d)
      && c.hex == scale[j].hex && contrast(scale[index].hex, scale[j].hex) == Some(c.ratio);
    Contrast.ContrastAtLeastOne(n, scale[index].hex, scale[j].hex);
  }
}

=== FILE: strips.dfy ===
/** The preview strips of `useTonalBuilderStrips`: a quick linear stand-in
    for the tonal scale that mixes black into the base colour below the base
    luminance and the base colour into the blend colour above it. */
module Strips {
  import opened Wrappers
  import opened JsMath
  import opened Color
  import opened Indices

  /** A swatch; its colour is `None` when a channel it mixes is `NaN`, the
      colour it needs not decoding. */
  datatype Swatch = Swatch(index: int, hex: Option<string>, isBase: bool)

  /** `mixChannel`: the rounded point `amount` of the way from `start` to
      `end`. */
  function MixChannel(origin: real, target: real, amount: real): (r: int)
    ensures amount == 0.0 && IsInteger(origin) ==> r as real == origin
    ensures amount == 1.0 && IsInteger(target) ==> r as real == target
    ensures 0.0 <= amount <= 1.0 && IsInteger(origin) && IsInteger(target) ==>
      Min(origin, target) <= r as real <= Max(origin, target)
  {
    if amount == 0.0 && IsInteger(origin) then
      RoundOfInteger(origin.Floor);
      Round(origin + (target - origin) * amount)
    else if amount == 1.0 && IsInteger(target) then
      RoundOfInteger(target.Floor);
      Round(origin + (target - origin) * amount)
    else if 0.0 <= amount <= 1.0 && IsInteger(origin) && IsInteger(target) then
      MixBetween(origin, target, amount);
      RoundBetween(origin + (target - origin) * amount, Min(origin, target).Floor, Max(origin, target).Floor);
      Round(origin + (target - origin) * amount)
    else
      Round(origin + (target - origin) * amount)
  }

  /** A point between two numbers lies between them. */
  lemma MixBetween(origin: real, target: real, amount: real)
    requires 0.0 <= amount <= 1.0
    ensures Min(origin, target) <= origin + (target - origin) * amount <= Max(origin, target)
  {
    var e := target - origin;
    if e > 0.0 {
      MulUnit(e, amount);
    } else if e < 0.0 {
      MulUnit(-e, amount);
      NegateProduct(e, amount);
    }
  }

  lemma NegateProduct(x: real, y: real)
    ensures (-x) * y == -(x * y)
  {
  }

  /** Channel-wise `mixChannel`. */
  function MixRgb(start: Rgb, end: Rgb, amount: real): (c: Rgb)
    ensures IsInteger(c.r) && IsInteger(c.g) && IsInteger(c.b)
  {
    Rgb(MixChannel(start.r, end.r, amount) as real,
        MixChannel(start.g, end.g, amount) as real,
        MixChannel(start.b, end.b, amount) as real)
  }

  /** Mixing two byte colours by a fraction in [0, 1] gives a byte colour
      whose every channel lies between the two ends' channels. */
  lemma MixRgbBetween(start: Rgb, end: Rgb, amount: real)
    requires IsByteRgb(start) && IsByteRgb(end) && 0.0 <= amount <= 1.0
    ensures IsByteRgb(MixRgb(start, end, amount))
    ensures var c := MixRgb(start, end, amount);
      && Min(start.r, end.r) <= c.r <= Max(start.r, end.r)
      && Min(start.g, end.g) <= c.g <= Max(start.g, end.g)
      && Min(start.b, end.b) <= c.b <= Max(start.b, end.b)
  {
  }

  /** The ends of a mix are the colours themselves. */
  lemma MixRgbEnds(start: Rgb, end: Rgb)
    requires IsByteRgb(start) && IsByteRgb(end)
    ensures MixRgb(start, end, 0.0) == start
    ensures MixRgb(start, end, 1.0) == end
  {
  }

  /** `mixHex`: both colours decoded, mixed, and printed. `None` stands for
      a colour whose channels decode to `NaN`. */
  function MixHex(startHex: string, endHex: string, amount: real): (r: Option<string>)
    ensures r.Some? <==> HexToRgb(startHex).Some? && HexToRgb(endHex).Some?
    ensures r.Some? ==> IsCanonicalHex(r.value)
  {
    MixDecoded(HexToRgb(startHex), HexToRgb(endHex), amount)
  }

  /** The mix of two decoded colours, printed; `None` when either is. */
  function MixDecoded(start: Option<Rgb>, end: Option<Rgb>, amount: real): (r: Option<string>)
    ensures r.Some? <==> start.Some? && end.Some?
    ensures r.Some? ==> IsCanonicalHex(r.value)
  {
    if start.Some? && end.Some? then Some(RgbToHex(MixRgb(start.value, end.value, amount))) else None
  }

  /** Mixing valid colours by 0 or 1 gives the normalised start or end. */
  lemma MixHexEnds(startHex: string, endHex: string)
    requires IsValidHex(startHex) && IsValidHex(endHex)
    ensures MixHex(startHex, endHex, 0.0) == Some(NormalizeHex(startHex))
    ensures MixHex(startHex, endHex, 1.0) == Some(NormalizeHex(endHex))
  {
    HexRoundTrip(startHex);
    HexRoundTrip(endHex);
    MixRgbEnds(HexToRgb(startHex).value, HexToRgb(endHex).value);
  }

  const Black: string := "#000000"

  lemma BlackDecodes()
    ensures HexToRgb(Black) == Some(Rgb(0.0, 0.0, 0.0))
  {
    BlackWhiteHex();
    RgbRoundTrip(Rgb(0.0, 0.0, 0.0));
  }

  /** How far toward the base colour a tone below the base lies. */
  function TowardBase(index: int, baseIndex: int): real {
    if baseIndex == 0 then 0.0 else index as real / baseIndex as real
  }

  /** How far toward the blend colour a tone above the base lies. */
  function TowardBlend(index: int, baseIndex: int): real {
    if baseIndex == 100 then 1.0 else (index - baseIndex) as real / (100 - baseIndex) as real
  }

  /** The colour of one swatch: black mixed into the base up to the base
      index, the base mixed into the blend above it, each fraction clamped to
      [0, 1]. */
  function SwatchRgb(index: int, base: Rgb, blend: Rgb, baseIndex: int): (c: Rgb)
    ensures IsInteger(c.r) && IsInteger(c.g) && IsInteger(c.b)
  {
    if index <= baseIndex then MixRgb(Rgb(0.0, 0.0, 0.0), base, Clamp(TowardBase(index, baseIndex), 0.0, 1.0))
    else MixRgb(base, blend, Clamp(TowardBlend(index, baseIndex), 0.0, 1.0))
  }

  /** One swatch of `buildStrip`, for the decoded base and blend colours
      (`None` for one that does not decode). A swatch up to the base index
      needs only the base; one above it needs both. */
  function SwatchOf(index: int, base: Option<Rgb>, blend: Option<Rgb>, baseIndex: int): (w: Swatch)
    ensures w.index == index
    ensures w.isBase <==> index == baseIndex
    ensures w.hex.Some? <==> base.Some? && (index <= baseIndex || blend.Some?)
    ensures w.hex.Some? ==> IsCanonicalHex(w.hex.value)
  {
    var hex :=
      if base.None? || (index > baseIndex && blend.None?) then None
      else
        var other := if blend.Some? then blend.value else base.value;
        Some(RgbToHex(SwatchRgb(index, base.value, other, baseIndex)));
    Swatch(index, hex, index == baseIndex)
  }

  /** The swatch colour is `mixHex('#000000', baseHex, t)` up to the base
      index and `mixHex(baseHex, blendHex, t)` above it, whichever colours
      decode. */
  lemma SwatchIsMix(index: int, baseHex: string, blendHex: string, baseIndex: int)
    ensures var w := SwatchOf(index, HexToRgb(baseHex), HexToRgb(blendHex), baseIndex);
      if index <= baseIndex then w.hex == MixHex(Black, baseHex, Clamp(TowardBase(index, baseIndex), 0.0, 1.0))
      else w.hex == MixHex(baseHex, blendHex, Clamp(TowardBlend(index, baseIndex), 0.0, 1.0))
  {
    BlackDecodes();
    SwatchIsMixDecoded(index, HexToRgb(baseHex), HexToRgb(blendHex), baseIndex);
  }

  lemma SwatchIsMixDecoded(index: int, base: Option<Rgb>, blend: Option<Rgb>, baseIndex: int)
    ensures var w := SwatchOf(index, base, blend, baseIndex);
      if index <= baseIndex then w.hex == MixDecoded(Some(Rgb(0.0, 0.0, 0.0)), base, Clamp(TowardBase(index, baseIndex), 0.0, 1.0))
      else w.hex == MixDecoded(base, blend, Clamp(TowardBlend(index, baseIndex), 0.0, 1.0))
  {
  }

  /** When both colours decode, a swatch's colour is the printed mix. */
  lemma SwatchOfDecoded(index: int, base: Rgb, blend: Rgb, baseIndex: int)
    ensures SwatchOf(index, Some(base), Some(blend), baseIndex).hex == Some(RgbToHex(SwatchRgb(index, base, blend, baseIndex)))
  {
  }

  /** The swatches for a list of indices, in the order given. */
  function StripOf(indices: seq<int>, base: Option<Rgb>, blend: Option<Rgb>, baseIndex: int): (r: seq<Swatch>)
    ensures |r| == |indices|
    ensures forall k :: 0 <= k < |r| ==> r[k] == SwatchOf(indices[k], base, blend, baseIndex)
  {
    if indices == [] then []
    else [SwatchOf(indices[0], base, blend, baseIndex)] + StripOf(indices[1..], base, blend, baseIndex)
  }

  /** `buildStrip`: one swatch per index, in the order given, each carrying
      its index, the base flag exactly at the base index, and a canonical
      colour whenever the colours its side of the base mixes decode. */
  function BuildStrip(indices: seq<int>, baseHex: string, blendHex: string, baseIndex: int): (r: seq<Swatch>)
    ensures |r| == |indices|
    ensures forall k :: 0 <= k < |indices| ==>
      && r[k].index == indices[k]
      && (r[k].isBase <==> indices[k] == baseIndex)
      && (r[k].hex.Some? <==> HexToRgb(baseHex).Some? && (indices[k] <= baseIndex || HexToRgb(blendHex).Some?))
      && (r[k].hex.Some? ==> IsCanonicalHex(r[k].hex.value))
  {
    StripOf(indices, HexToRgb(baseHex), HexToRgb(blendHex), baseIndex)
  }

  /** Tone 0 is black whatever the base, and whether or not the blend
      colour decodes. */
  lemma SwatchZeroBlack(base: Rgb, blend: Option<Rgb>, baseIndex: int)
    requires 0 <= baseIndex
    ensures forall other :: SwatchRgb(0, base, other, baseIndex) == Rgb(0.0, 0.0, 0.0)
    ensures SwatchOf(0, Some(base), blend, baseIndex).hex == Some(Black)
  {
    assert Clamp(TowardBase(0, baseIndex), 0.0, 1.0) == 0.0;
    BlackWhiteHex();
  }

  /** The swatch at a positive base index is the base colour itself, and is
      marked as the base, even when the blend colour does not decode. */
  lemma SwatchAtBase(base: Rgb, blend: Rgb, baseIndex: int)
    requires IsByteRgb(base) && 0 < baseIndex
    ensures SwatchRgb(baseIndex, base, blend, baseIndex) == base
    ensures SwatchOf(baseIndex, Some(base), None, baseIndex).hex == Some(RgbToHex(base))
    ensures SwatchOf(baseIndex, Some(base), None, baseIndex).isBase
  {
    assert baseIndex as real / baseIndex as real == 1.0;
    assert Clamp(TowardBase(baseIndex, baseIndex), 0.0, 1.0) == 1.0;
    MixRgbEnds(Rgb(0.0, 0.0, 0.0), base);
  }

  /** Tone 100 is the blend colour itself when the base lies below it. */
  lemma SwatchHundredBlend(base: Rgb, blend: Rgb, baseIndex: int)
    requires IsByteRgb(blend) && baseIndex < 100
    ensures SwatchRgb(100, base, blend, baseIndex) == blend
  {
    assert (100 - baseIndex) as real / (100 - baseIndex) as real == 1.0;
    assert Clamp(TowardBlend(100, baseIndex), 0.0, 1.0) == 1.0;
  }

  /** Below the base every channel lies between black and the base's; above
      it, between the base's and the blend's. */
  lemma SwatchBetween(index: int, base: Rgb, blend: Rgb, baseIndex: int)
    requires IsByteRgb(base) && IsByteRgb(blend)
    ensures IsByteRgb(SwatchRgb(index, base, blend, baseIndex))
    ensures var c := SwatchRgb(index, base, blend, baseIndex);
      if index <= baseIndex then
        c.r <= base.r && c.g <= base.g && c.b <= base.b
      else
        && Min(base.r, blend.r) <= c.r <= Max(base.r, blend.r)
        && Min(base.g, blend.g) <= c.g <= Max(base.g, blend.g)
        && Min(base.b, blend.b) <= c.b <= Max(base.b, blend.b)
  {
    if index <= baseIndex {
      ClampBounds(TowardBase(index, baseIndex), 0.0, 1.0);
      MixRgbBetween(Rgb(0.0, 0.0, 0.0), base, Clamp(TowardBase(index, baseIndex), 0.0, 1.0));
    } else {
      ClampBounds(TowardBlend(index, baseIndex), 0.0, 1.0);
      MixRgbBetween(base, blend, Clamp(TowardBlend(index, baseIndex), 0.0, 1.0));
    }
  }

  /** A swatch of byte colours decodes back to its mixed colour. */
  lemma SwatchDecodes(index: int, base: Rgb, blend: Rgb, baseIndex: int)
    requires IsByteRgb(base) && IsByteRgb(blend)
    ensures HexToRgb(SwatchOf(index, Some(base), Some(blend), baseIndex).hex.value) == Some(SwatchRgb(index, base, blend, baseIndex))
  {
    SwatchBetween(index, base, blend, baseIndex);
    RgbRoundTrip(SwatchRgb(index, base, blend, baseIndex));
  }

  /** Every swatch carries exactly one flag: the base flag is set where the
      index is the base index and nowhere else. */
  predicate OneBase(strip: seq<Swatch>, baseIndex: int) {
    && (exists k :: 0 <= k < |strip| && strip[k].isBase && strip[k].index == baseIndex)
    && (forall k, m :: 0 <= k < |strip| && 0 <= m < |strip| && strip[k].isBase && strip[m].isBase ==> k == m)
  }

  /** A strip over ascending distinct indices that include the base index
      marks exactly one swatch as the base, the one at that index. */
  lemma StripOneBase(indices: seq<int>, base: Option<Rgb>, blend: Option<Rgb>, baseIndex: int)
    requires StrictlyIncreasing(indices) && baseIndex in indices
    ensures OneBase(StripOf(indices, base, blend, baseIndex), baseIndex)
  {
    var strip := StripOf(indices, base, blend, baseIndex);
    var k :| 0 <= k < |indices| && indices[k] == baseIndex;
    assert strip[k].isBase && strip[k].index == baseIndex;
  }

  // ---------------------------------------------------------------------
  // The composable

  /** The HSV value in percent, rounded and clamped to 1..99. */
  function LuminanceOf(c: Rgb): (l: int)
    ensures 1 <= l <= 99
  {
    ClampIntBounds(Round(RgbToHsv(c).v), 1, 99);
    ClampInt(Round(RgbToHsv(c).v), 1, 99)
  }

  /** `baseLuminance`: `hexToHsv(baseHex).v`, rounded and clamped to 1..99.
      `None` stands for a base that decodes to `NaN`. */
  function BaseLuminance(baseHex: string): (r: Option<int>)
    ensures r.Some? <==> HexToRgb(baseHex).Some?
    ensures r.Some? ==> 1 <= r.value <= 99
  {
    match HexToRgb(baseHex)
    case None => None
    case Some(c) => Some(LuminanceOf(c))
  }

  /** The base luminance of a byte colour is its brightest channel in
      percent, rounded and kept off the two ends. */
  lemma LuminanceOfBrightest(c: Rgb)
    requires InByteRange(c)
    ensures LuminanceOf(c) == ClampInt(Round(Max(Max(c.r, c.g), c.b) / 2.55), 1, 99)
  {
    RgbToHsvBounds(c);
    RoundOfInteger(Round(Max(Max(c.r, c.g), c.b) / 2.55));
  }

  datatype StripSet = StripSet(baseLuminance: int, fullStrip: seq<Swatch>, extendedStrip: seq<Swatch>, keyStrip: seq<Swatch>)

  /** `useTonalBuilderStrips` for one value of the two colours: the full
      strip over 0..100 and the extended and key strips over their index
      lists with the base luminance added. `None` stands for a base colour
      that decodes to `NaN`, whose luminance is `NaN`; a blend colour that
      does not decode only leaves the swatches above the base without a
      colour. */
  function UseStrips(baseHex: string, blendHex: string): (s: Option<StripSet>)
    ensures s.Some? <==> HexToRgb(baseHex).Some?
    ensures s.Some? ==> 1 <= s.value.baseLuminance <= 99
    ensures s.Some? ==> |s.value.fullStrip| == 101
    ensures s.Some? ==> |ExtendedScaleIndices| <= |s.value.extendedStrip| && |KeyScaleIndices| <= |s.value.keyStrip|
  {
    match HexToRgb(baseHex)
    case Some(base) =>
      var blend := HexToRgb(blendHex);
      var l := LuminanceOf(base);
      StripLengths(l);
      Some(StripSet(l,
        StripOf(FullIndices, Some(base), blend, l),
        StripOf(WithBase(ExtendedScaleIndices, l), Some(base), blend, l),
        StripOf(WithBase(KeyScaleIndices, l), Some(base), blend, l)))
    case None => None
  }

  /** The three strips are `buildStrip` over the full indices and over the
      two normalised index lists. */
  lemma UseStripsBuilds(baseHex: string, blendHex: string)
    requires UseStrips(baseHex, blendHex).Some?
    ensures var s := UseStrips(baseHex, blendHex).value;
      && s.fullStrip == BuildStrip(FullIndices, baseHex, blendHex, s.baseLuminance)
      && s.extendedStrip == BuildStrip(WithBase(ExtendedScaleIndices, s.baseLuminance), baseHex, blendHex, s.baseLuminance)
      && s.keyStrip == BuildStrip(WithBase(KeyScaleIndices, s.baseLuminance), baseHex, blendHex, s.baseLuminance)
      && Some(s.baseLuminance) == BaseLuminance(baseHex)
  {
  }

  lemma StripLengths(l: int)
    ensures |FullIndices| == 101
    ensures |ExtendedScaleIndices| <= |WithBase(ExtendedScaleIndices, l)|
    ensures |KeyScaleIndices| <= |WithBase(KeyScaleIndices, l)|
  {
    IndexListsIncreasing();
    WithBaseLength(ExtendedScaleIndices, l);
    WithBaseLength(KeyScaleIndices, l);
  }

  /** The full strip runs over 0..100 in order, marks exactly one swatch
      as the base, starts black, shows the base colour at the base index and
      the blend colour at 100. */
  lemma FullStripAnchors(base: Rgb, blend: Rgb, l: int)
    requires IsByteRgb(base) && IsByteRgb(blend) && 1 <= l <= 99
    ensures var strip := StripOf(FullIndices, Some(base), Some(blend), l);
      && |strip| == 101
      && OneBase(strip, l)
      && (forall k :: 0 <= k < 101 ==> strip[k].index == k)
      && strip[0].hex == Some(Black)
      && strip[l].hex == Some(RgbToHex(base))
      && strip[100].hex == Some(RgbToHex(blend))
  {
    IndexListsIncreasing();
    assert FullIndices[l] == l;
    StripOneBase(FullIndices, Some(base), Some(blend), l);
    SwatchZeroBlack(base, Some(blend), l);
    SwatchAtBase(base, blend, l);
    SwatchOfDecoded(l, base, blend, l);
    SwatchHundredBlend(base, blend, l);
    SwatchOfDecoded(100, base, blend, l);
  }

  /** A strip over an index list with the base index added marks exactly one
      swatch as the base. */
  lemma ListStripAnchors(indices: seq<int>, base: Option<Rgb>, blend: Option<Rgb>, l: int)
    ensures OneBase(StripOf(WithBase(indices, l), base, blend, l), l)
  {
    StripOneBase(WithBase(indices, l), base, blend, l);
  }

  /** For valid colours every strip marks exactly one swatch as the base, at
      the base luminance, and the full strip shows black at 0, the normalised
      base colour at the base luminance and the normalised blend colour at
      100. */
  lemma StripsAnchored(baseHex: string, blendHex: string)
    requires IsValidHex(baseHex) && IsValidHex(blendHex)
    ensures UseStrips(baseHex, blendHex).Some?
    ensures var s := UseStrips(baseHex, blendHex).value;
      && OneBase(s.fullStrip, s.baseLuminance)
      && OneBase(s.extendedStrip, s.baseLuminance)
      && OneBase(s.keyStrip, s.baseLuminance)
      && (forall k :: 0 <= k < 101 ==> s.fullStrip[k].index == k)
      && s.fullStrip[0].hex == Some(Black)
      && s.fullStrip[s.baseLuminance].hex == Some(NormalizeHex(baseHex))
      && s.fullStrip[100].hex == Some(NormalizeHex(blendHex))
  {
    HexRoundTrip(baseHex);
    HexRoundTrip(blendHex);
    var base, blend := HexToRgb(baseHex).value, HexToRgb(blendHex).value;
    var l := LuminanceOf(base);
    assert UseStrips(baseHex, blendHex) == Some(StripSet(l,
      StripOf(FullIndices, Some(base), Some(blend), l),
      StripOf(WithBase(ExtendedScaleIndices, l), Some(base), Some(blend), l),
      StripOf(WithBase(KeyScaleIndices, l), Some(base), Some(blend), l)));
    FullStripAnchors(base, blend, l);
    ListStripAnchors(ExtendedScaleIndices, Some(base), Some(blend), l);
    ListStripAnchors(KeyScaleIndices, Some(base), Some(blend), l);
  }
}

=== FILE: svg_export.dfy ===
/** The two SVG exporters: `buildScaleSvg` (a grid of 40-pixel cells per
    strip plus two escaped metadata lines) and `generateScaleSvg` of the
    export composable (three stacked strips, a description and two text
    lines, trimmed). The page address and `JSON.stringify(params)` are
    passed in as strings. */
module SvgExport {
  import opened JsText
  import Scale

  type TonalStep = Scale.TonalStep

  // ---------------------------------------------------------------------
  // Escaping

  /** `s.replace(/c/g, rep)`. */
  function ReplaceAll(s: string, c: char, rep: string): (r: string)
    ensures c !in rep ==> c !in r
  {
    if s == [] then "" else (if s[0] == c then rep else [s[0]]) + ReplaceAll(s[1..], c, rep)
  }

  lemma {:induction false} ReplaceAllAppend(a: string, b: string, c: char, rep: string)
    ensures ReplaceAll(a + b, c, rep) == ReplaceAll(a, c, rep) + ReplaceAll(b, c, rep)
  {
    if a != [] {
      var head := if a[0] == c then rep else [a[0]];
      var x, y := ReplaceAll(a[1..], c, rep), ReplaceAll(b, c, rep);
      assert (a + b)[0] == a[0] && (a + b)[1..] == a[1..] + b;
      assert ReplaceAll(a + b, c, rep) == head + ReplaceAll(a[1..] + b, c, rep);
      ReplaceAllAppend(a[1..], b, c, rep);
      assert ReplaceAll(a, c, rep) == head + x;
      assert head + (x + y) == (head + x) + y;
    } else {
      assert a + b == b;
    }
  }

  /** `escapeXml`: five global replacements, the ampersand first. */
  function EscapeXml(s: string): string {
    ReplaceAll(ReplaceAll(ReplaceAll(ReplaceAll(ReplaceAll(s, '&', "&amp;"), '<', "&lt;"), '>', "&gt;"), '"', "&quot;"), '\'', "&apos;")
  }

  /** The entity one character turns into. */
  function EscapeChar(c: char): string {
    match c
    case '&' => "&amp;"
    case '<' => "&lt;"
    case '>' => "&gt;"
    case '"' => "&quot;"
    case '\'' => "&apos;"
    case _ => [c]
  }

  /** Character-by-character escaping: the reference the replacement chain
      is compared with. */
  function EscapeEach(s: string): (r: string)
    ensures forall k :: 0 <= k < |r| ==> !IsMarkup(r[k])
  {
    if s == [] then "" else EscapeChar(s[0]) + EscapeEach(s[1..])
  }

  /** The characters that may not appear raw in XML text or attributes. */
  predicate IsMarkup(c: char) {
    c == '<' || c == '>' || c == '"' || c == '\''
  }

  lemma EscapeXmlAppend(a: string, b: string)
    ensures EscapeXml(a + b) == EscapeXml(a) + EscapeXml(b)
  {
    var a1, b1 := ReplaceAll(a, '&', "&amp;"), ReplaceAll(b, '&', "&amp;");
    ReplaceAllAppend(a, b, '&', "&amp;");
    var a2, b2 := ReplaceAll(a1, '<', "&lt;"), ReplaceAll(b1, '<', "&lt;");
    ReplaceAllAppend(a1, b1, '<', "&lt;");
    var a3, b3 := ReplaceAll(a2, '>', "&gt;"), ReplaceAll(b2, '>', "&gt;");
    ReplaceAllAppend(a2, b2, '>', "&gt;");
    var a4, b4 := ReplaceAll(a3, '"', "&quot;"), ReplaceAll(b3, '"', "&quot;");
    ReplaceAllAppend(a3, b3, '"', "&quot;");
    ReplaceAllAppend(a4, b4, '\'', "&apos;");
  }

  /** `c` does not occur in `s`, checked character by character. */
  predicate Lacks(s: string, c: char) {
    s == [] || (s[0] != c && Lacks(s[1..], c))
  }

  lemma {:induction false} ReplaceAllAbsent(s: string, c: char, rep: string)
    requires Lacks(s, c)
    ensures ReplaceAll(s, c, rep) == s
  {
    if s != [] {
      ReplaceAllAbsent(s[1..], c, rep);
    }
  }

  lemma ReplaceAllSingle(c: char, rep: string)
    ensures ReplaceAll([c], c, rep) == rep
  {
    assert [c][1..] == [];
  }

  lemma EscapeXmlChar(c: char)
    ensures EscapeXml([c]) == EscapeChar(c)
  {
    match c
    case '&' => EscapeXmlAmp();
    case '<' => EscapeXmlLt();
    case '>' => EscapeXmlGt();
    case '"' => EscapeXmlQuot();
    case '\'' => EscapeXmlApos();
    case _ => EscapeXmlPlain(c);
  }

  lemma EscapeXmlAmp()
    ensures EscapeXml("&") == "&amp;"
  {
    ReplaceAllSingle('&', "&amp;");
    var s1 := ReplaceAll("&", '&', "&amp;");
    assert s1 == "&amp;";
    ReplaceAllAbsent("&amp;", '<', "&lt;");
    var s2 := ReplaceAll("&amp;", '<', "&lt;");
    assert s2 == "&amp;";
    ReplaceAllAbsent("&amp;", '>', "&gt;");
    var s3 := ReplaceAll("&amp;", '>', "&gt;");
    assert s3 == "&amp;";
    ReplaceAllAbsent("&amp;", '"', "&quot;");
    var s4 := ReplaceAll("&amp;", '"', "&quot;");
    assert s4 == "&amp;";
    ReplaceAllAbsent("&amp;", '\'', "&apos;");
  }

  lemma EscapeXmlLt()
    ensures EscapeXml("<") == "&lt;"
  {
    ReplaceAllAbsent("<", '&', "&amp;");
    var s0 := ReplaceAll("<", '&', "&amp;");
    assert s0 == "<";
    ReplaceAllSingle('<', "&lt;");
    var s1 := ReplaceAll("<", '<', "&lt;");
    assert s1 == "&lt;";
    ReplaceAllAbsent("&lt;", '>', "&gt;");
    var s2 := ReplaceAll("&lt;", '>', "&gt;");
    assert s2 == "&lt;";
    ReplaceAllAbsent("&lt;", '"', "&quot;");
    var s3 := ReplaceAll("&lt;", '"', "&quot;");
    assert s3 == "&lt;";
    ReplaceAllAbsent("&lt;", '\'', "&apos;");
    var s4 := ReplaceAll("&lt;", '\'', "&apos;");
    assert s4 == "&lt;";
  }

  lemma EscapeXmlGt()
    ensures EscapeXml(">") == "&gt;"
  {
    ReplaceAllAbsent(">", '&', "&amp;");
    var s0 := ReplaceAll(">", '&', "&amp;");
    assert s0 == ">";
    ReplaceAllAbsent(">", '<', "&lt;");
    var s1 := ReplaceAll(">", '<', "&lt;");
    assert s1 == ">";
    ReplaceAllSingle('>', "&gt;");
    var s2 := ReplaceAll(">", '>', "&gt;");
    assert s2 == "&gt;";
    ReplaceAllAbsent("&gt;", '"', "&quot;");
    var s3 := ReplaceAll("&gt;", '"', "&quot;");
    assert s3 == "&gt;";
    ReplaceAllAbsent("&gt;", '\'', "&apos;");
    var s4 := ReplaceAll("&gt;", '\'', "&apos;");
    assert s4 == "&gt;";
  }

  lemma EscapeXmlQuot()
    ensures EscapeXml("\"") == "&quot;"
  {
    ReplaceAllAbsent("\"", '&', "&amp;");
    var s0 := ReplaceAll("\"", '&', "&amp;");
    assert s0 == "\"";
    ReplaceAllAbsent("\"", '<', "&lt;");
    var s1 := ReplaceAll("\"", '<', "&lt;");
    assert s1 == "\"";
    ReplaceAllAbsent("\"", '>', "&gt;");
    var s2 := ReplaceAll("\"", '>', "&gt;");
    assert s2 == "\"";
    ReplaceAllSingle('"', "&quot;");
    var s3 := ReplaceAll("\"", '"', "&quot;");
    assert s3 == "&quot;";
    ReplaceAllAbsent("&quot;", '\'', "&apos;");
    var s4 := ReplaceAll("&quot;", '\'', "&apos;");
    assert s4 == "&quot;";
  }

  lemma EscapeXmlApos()
    ensures EscapeXml("'") == "&apos;"
  {
    ReplaceAllAbsent("'", '&', "&amp;");
    var s0 := ReplaceAll("'", '&', "&amp;");
    assert s0 == "'";
    ReplaceAllAbsent("'", '<', "&lt;");
    var s1 := ReplaceAll("'", '<', "&lt;");
    assert s1 == "'";
    ReplaceAllAbsent("'", '>', "&gt;");
    var s2 := ReplaceAll("'", '>', "&gt;");
    assert s2 == "'";
    ReplaceAllAbsent("'", '"', "&quot;");
    var s3 := ReplaceAll("'", '"', "&quot;");
    assert s3 == "'";
    ReplaceAllSingle('\'', "&apos;");
    var s4 := ReplaceAll("'", '\'', "&apos;");
    assert s4 == "&apos;";
  }

  lemma EscapeXmlPlain(c: char)
    requires !IsMarkup(c) && c != '&'
    ensures EscapeXml([c]) == [c]
  {
    ReplaceAllAbsent([c], '&', "&amp;");
    ReplaceAllAbsent([c], '<', "&lt;");
    ReplaceAllAbsent([c], '>', "&gt;");
    ReplaceAllAbsent([c], '"', "&quot;");
    ReplaceAllAbsent([c], '\'', "&apos;");
  }

  /** Because the ampersand goes first, the chain of replacements escapes
      every character once: no entity it writes is escaped again. */
  lemma {:induction false} EscapeXmlIsEach(s: string)
    ensures EscapeXml(s) == EscapeEach(s)
  {
    if s != [] {
      assert s == [s[0]] + s[1..];
      EscapeXmlAppend([s[0]], s[1..]);
      EscapeXmlChar(s[0]);
      EscapeXmlIsEach(s[1..]);
    }
  }

  /** The escaped text holds no raw `<`, `>`, `"` or `'`. */
  lemma EscapeXmlNoMarkup(s: string)
    ensures forall k :: 0 <= k < |EscapeXml(s)| ==> !IsMarkup(EscapeXml(s)[k])
  {
    EscapeXmlIsEach(s);
  }

  /** An XML reader's decoding of the five entities. */
  function Unescape(t: string): string
    decreases |t|
  {
    if t == [] then ""
    else if |t| >= 5 && t[..5] == "&amp;" then "&" + Unescape(t[5..])
    else if |t| >= 4 && t[..4] == "&lt;" then "<" + Unescape(t[4..])
    else if |t| >= 4 && t[..4] == "&gt;" then ">" + Unescape(t[4..])
    else if |t| >= 6 && t[..6] == "&quot;" then "\"" + Unescape(t[6..])
    else if |t| >= 6 && t[..6] == "&apos;" then "'" + Unescape(t[6..])
    else [t[0]] + Unescape(t[1..])
  }

  lemma UnescapeStep(c: char, rest: string)
    ensures Unescape(EscapeChar(c) + rest) == [c] + Unescape(rest)
  {
    if c == '&' {
      UnescapeAmp(rest);
    } else if c == '<' {
      UnescapeLt(rest);
    } else if c == '>' {
      UnescapeGt(rest);
    } else if c == '"' {
      UnescapeQuot(rest);
    } else if c == '\'' {
      UnescapeApos(rest);
    } else {
      UnescapePlain(c, rest);
    }
  }

  lemma UnescapeAmp(rest: string)
    ensures Unescape("&amp;" + rest) == "&" + Unescape(rest)
  {
    var t := "&amp;" + rest;
    assert t[..5] == "&amp;" && t[5..] == rest;
  }

  lemma UnescapeLt(rest: string)
    ensures Unescape("&lt;" + rest) == "<" + Unescape(rest)
  {
    var t := "&lt;" + rest;
    assert t[1] == 'l';
    assert t[..4] == "&lt;" && t[4..] == rest;
  }

  lemma UnescapeGt(rest: string)
    ensures Unescape("&gt;" + rest) == ">" + Unescape(rest)
  {
    var t := "&gt;" + rest;
    assert t[1] == 'g';
    assert t[..4] == "&gt;" && t[4..] == rest;
  }

  lemma UnescapeQuot(rest: string)
    ensures Unescape("&quot;" + rest) == "\"" + Unescape(rest)
  {
    var t := "&quot;" + rest;
    assert t[1] == 'q';
    assert t[..6] == "&quot;" && t[6..] == rest;
  }

  lemma UnescapeApos(rest: string)
    ensures Unescape("&apos;" + rest) == "'" + Unescape(rest)
  {
    var t := "&apos;" + rest;
    assert t[1] == 'a' && t[2] == 'p';
    assert t[..5] != "&amp;" by {
      assert t[..5][2] == 'p';
    }
    assert t[..6] == "&apos;" && t[6..] == rest;
  }

  lemma UnescapePlain(c: char, rest: string)
    requires c != '&'
    ensures Unescape([c] + rest) == [c] + Unescape(rest)
  {
    var t := [c] + rest;
    assert t[0] == c && t[1..] == rest;
    if |t| >= 4 { assert t[..4][0] == c; }
    if |t| >= 5 { assert t[..5][0] == c; }
    if |t| >= 6 { assert t[..6][0] == c; }
  }

  /** Unescaping recovers the input. */
  lemma {:induction false} EscapeRoundTrip(s: string)
    ensures Unescape(EscapeXml(s)) == s
  {
    EscapeXmlIsEach(s);
    EachRoundTrip(s);
  }

  lemma {:induction false} EachRoundTrip(s: string)
    ensures Unescape(EscapeEach(s)) == s
  {
    if s != [] {
      UnescapeStep(s[0], EscapeEach(s[1..]));
      EachRoundTrip(s[1..]);
      assert s == [s[0]] + s[1..];
    }
  }

  // ---------------------------------------------------------------------
  // The cell grid shared by both exporters

  const CellSize: int := 40

  /** One cell: `<rect x=".." y=".." width="40" height="40" fill=".." />`. */
  function RectMarkup(x: int, y: int, fill: string): string {
    "<rect x=\"" + IntToDecimal(x) + "\" y=\"" + IntToDecimal(y)
      + "\" width=\"40\" height=\"40\" fill=\"" + fill + "\" />"
  }

  /** One row as the exporters write it: the tones mapped to cells from
      column `col` on and joined. */
  function RowMarkup(tones: seq<TonalStep>, row: int, col: int): string {
    if tones == [] then ""
    else RectMarkup(col * CellSize, row * CellSize, tones[0].hex) + RowMarkup(tones[1..], row, col + 1)
  }

  /** The rows from row `row` on, joined. */
  function RowsMarkup(rows: seq<seq<TonalStep>>, row: int): string {
    if rows == [] then "" else RowMarkup(rows[0], row, 0) + RowsMarkup(rows[1..], row + 1)
  }

  /** A cell placed on the grid. */
  datatype Cell = Cell(x: int, y: int, fill: string)

  /** The number of tones in the rows before row `r`. */
  function Offset(rows: seq<seq<TonalStep>>, r: nat): (n: nat)
    requires r <= |rows|
  {
    if r == 0 then 0 else Offset(rows, r - 1) + |rows[r - 1]|
  }

  /** The grid in row-major order: the reference the markup is compared
      with. */
  function Layout(rows: seq<seq<TonalStep>>, row: int): (cells: seq<Cell>)
    ensures |cells| == Offset(rows, |rows|)
  {
    if rows == [] then []
    else
      OffsetShift(rows);
      RowCells(rows[0], row) + Layout(rows[1..], row + 1)
  }

  /** Row `row` of the grid: column `c` holds tone `c`. */
  function RowCells(tones: seq<TonalStep>, row: int): (cells: seq<Cell>)
    ensures |cells| == |tones|
    ensures forall c :: 0 <= c < |tones| ==> cells[c] == Cell(c * CellSize, row * CellSize, tones[c].hex)
  {
    if tones == [] then []
    else
      var rest := RowCells(tones[1..], row);
      ShiftedRow(tones, row, rest);
      [Cell(0, row * CellSize, tones[0].hex)] + ShiftRight(rest)
  }

  /** The first cell in front of the rest of the row moved one column on. */
  lemma ShiftedRow(tones: seq<TonalStep>, row: int, rest: seq<Cell>)
    requires |tones| > 0 && |rest| == |tones| - 1
    requires forall c :: 0 <= c < |rest| ==> rest[c] == Cell(c * CellSize, row * CellSize, tones[1..][c].hex)
    ensures var cells := [Cell(0, row * CellSize, tones[0].hex)] + ShiftRight(rest);
      forall c :: 0 <= c < |tones| ==> cells[c] == Cell(c * CellSize, row * CellSize, tones[c].hex)
  {
    var head := [Cell(0, row * CellSize, tones[0].hex)];
    var shifted := ShiftRight(rest);
    assert |head + shifted| == |tones|;
    forall c | 1 <= c < |tones|
      ensures (head + shifted)[c] == shifted[c - 1]
    {
    }
  }

  /** The cells moved one column to the right. */
  function ShiftRight(cells: seq<Cell>): (r: seq<Cell>)
    ensures |r| == |cells|
    ensures forall k :: 0 <= k < |cells| ==> r[k] == Cell(cells[k].x + CellSize, cells[k].y, cells[k].fill)
  {
    if cells == [] then [] else [Cell(cells[0].x + CellSize, cells[0].y, cells[0].fill)] + ShiftRight(cells[1..])
  }

  lemma {:induction false} OffsetShift(rows: seq<seq<TonalStep>>)
    requires rows != []
    ensures Offset(rows, |rows|) == |rows[0]| + Offset(rows[1..], |rows| - 1)
    ensures forall r :: 1 <= r <= |rows| ==> Offset(rows, r) == |rows[0]| + Offset(rows[1..], r - 1)
  {
    forall r | 1 <= r <= |rows|
      ensures Offset(rows, r) == |rows[0]| + Offset(rows[1..], r - 1)
    {
      OffsetShiftAt(rows, r);
    }
  }

  lemma {:induction false} OffsetShiftAt(rows: seq<seq<TonalStep>>, r: nat)
    requires 1 <= r <= |rows|
    ensures Offset(rows, r) == |rows[0]| + Offset(rows[1..], r - 1)
  {
    if r > 1 {
      OffsetShiftAt(rows, r - 1);
    }
  }

  /** The tone in row `r`, column `c` is the cell at `x = 40c`, `y = 40r`
      (rows counted from `row`), and it sits at position `Offset(r) + c` of
      the row-major order. */
  lemma {:induction false} LayoutCell(rows: seq<seq<TonalStep>>, row: int, r: nat, c: nat)
    requires r < |rows| && c < |rows[r]|
    ensures Offset(rows, r) + c < |Layout(rows, row)|
    ensures Layout(rows, row)[Offset(rows, r) + c] == Cell(c * CellSize, (row + r) * CellSize, rows[r][c].hex)
  {
    OffsetGrows(rows, r);
    OffsetShift(rows);
    if r > 0 {
      LayoutCell(rows[1..], row + 1, r - 1, c);
      assert rows[1..][r - 1] == rows[r];
    }
  }

  lemma {:induction false} OffsetGrows(rows: seq<seq<TonalStep>>, r: nat)
    requires r < |rows|
    ensures Offset(rows, r) + |rows[r]| <= Offset(rows, |rows|)
  {
    if r + 1 < |rows| {
      OffsetGrows(rows[..|rows| - 1], r);
      assert forall q: nat :: q <= |rows| - 1 ==> Offset(rows[..|rows| - 1], q) == Offset(rows, q) by {
        forall q: nat | q <= |rows| - 1
          ensures Offset(rows[..|rows| - 1], q) == Offset(rows, q)
        {
          OffsetPrefix(rows, |rows| - 1, q);
        }
      }
    }
  }

  lemma {:induction false} OffsetPrefix(rows: seq<seq<TonalStep>>, n: nat, q: nat)
    requires q <= n <= |rows|
    ensures Offset(rows[..n], q) == Offset(rows, q)
  {
    if q > 0 {
      OffsetPrefix(rows, n, q - 1);
    }
  }

  /** The markup of a list of cells, in order. */
  function Render(cells: seq<Cell>): string {
    if cells == [] then "" else RectMarkup(cells[0].x, cells[0].y, cells[0].fill) + Render(cells[1..])
  }

  lemma {:induction false} RenderAppend(a: seq<Cell>, b: seq<Cell>)
    ensures Render(a + b) == Render(a) + Render(b)
  {
    if a == [] {
      assert a + b == b;
    } else {
      assert (a + b)[1..] == a[1..] + b;
      RenderAppend(a[1..], b);
    }
  }

  lemma {:induction false} RowMarkupCells(tones: seq<TonalStep>, row: int, col: int, cells: seq<Cell>)
    requires |cells| == |tones|
    requires forall c :: 0 <= c < |tones| ==> cells[c] == Cell((col + c) * CellSize, row * CellSize, tones[c].hex)
    ensures RowMarkup(tones, row, col) == Render(cells)
  {
    if tones != [] {
      RowMarkupCells(tones[1..], row, col + 1, cells[1..]);
    }
  }

  /** The markup both exporters write is exactly one cell per tone, in
      row-major order. */
  lemma {:induction false} MarkupIsLayout(rows: seq<seq<TonalStep>>, row: int)
    ensures RowsMarkup(rows, row) == Render(Layout(rows, row))
  {
    if rows != [] {
      RowMarkupCells(rows[0], row, 0, RowCells(rows[0], row));
      MarkupIsLayout(rows[1..], row + 1);
      RenderAppend(RowCells(rows[0], row), Layout(rows[1..], row + 1));
    }
  }

  /** The longest row length, `Math.max(0, ...lengths)`. */
  function MaxLength(rows: seq<seq<TonalStep>>): (n: nat)
    ensures forall k :: 0 <= k < |rows| ==> |rows[k]| <= n
    ensures n == 0 || exists k :: 0 <= k < |rows| && |rows[k]| == n
  {
    if rows == [] then 0
    else
      var rest := MaxLength(rows[1..]);
      assert forall k :: 1 <= k < |rows| ==> rows[k] == rows[1..][k - 1];
      if |rows[0]| >= rest then |rows[0]| else rest
  }

  // ---------------------------------------------------------------------
  // buildScaleSvg

  datatype StripExport = StripExport(id: string, tones: seq<TonalStep>)

  datatype ExportMetadata = ExportMetadata(url: string, exportJson: string)

  function TonesOf(strips: seq<StripExport>): (rows: seq<seq<TonalStep>>)
    ensures |rows| == |strips|
    ensures forall k :: 0 <= k < |strips| ==> rows[k] == strips[k].tones
  {
    if strips == [] then [] else [strips[0].tones] + TonesOf(strips[1..])
  }

  const SvgOpen: string := "<svg xmlns=\"http://www.w3.org/2000/svg\">"

  /** `<text x=".." y=".." font-size="12pt">..</text>`. */
  function MetaText(x: int, y: string, body: string): string {
    "<text x=\"" + IntToDecimal(x) + "\" y=\"" + y + "\" font-size=\"12pt\">" + body + "</text>"
  }

  /** The x position of the metadata: right of the widest strip. */
  function MetaX(strips: seq<StripExport>): (x: int)
    ensures x >= 20
    ensures forall k :: 0 <= k < |strips| ==> |strips[k].tones| * CellSize + 20 <= x
    ensures strips == [] ==> x == 20
  {
    MaxLength(TonesOf(strips)) * CellSize + 20
  }

  /** `buildScaleSvg`. */
  function BuildScaleSvg(strips: seq<StripExport>, metadata: ExportMetadata): string {
    var x := MetaX(strips);
    SvgOpen + RowsMarkup(TonesOf(strips), 0)
      + MetaText(x, "0", EscapeXml(metadata.url))
      + MetaText(x, "16", EscapeXml(metadata.exportJson))
      + "</svg>"
  }

  /** The output is, in order, the opening tag, one cell per tone in
      row-major order, the escaped address at y = 0, the escaped parameters
      at y = 16 and the closing tag; neither text body holds raw markup, and
      unescaping gives back what was passed in. */
  lemma BuildScaleSvgShape(strips: seq<StripExport>, metadata: ExportMetadata)
    ensures var x := MetaX(strips);
      BuildScaleSvg(strips, metadata)
        == SvgOpen + Render(Layout(TonesOf(strips), 0))
        + MetaText(x, "0", EscapeXml(metadata.url))
        + MetaText(x, "16", EscapeXml(metadata.exportJson))
        + "</svg>"
    ensures forall k :: 0 <= k < |EscapeXml(metadata.url)| ==> !IsMarkup(EscapeXml(metadata.url)[k])
    ensures forall k :: 0 <= k < |EscapeXml(metadata.exportJson)| ==> !IsMarkup(EscapeXml(metadata.exportJson)[k])
    ensures Unescape(EscapeXml(metadata.url)) == metadata.url
    ensures Unescape(EscapeXml(metadata.exportJson)) == metadata.exportJson
  {
    MarkupIsLayout(TonesOf(strips), 0);
    EscapeXmlNoMarkup(metadata.url);
    EscapeXmlNoMarkup(metadata.exportJson);
    EscapeRoundTrip(metadata.url);
    EscapeRoundTrip(metadata.exportJson);
  }

  // ---------------------------------------------------------------------
  // generateScaleSvg

  /** `maxWidth` as the loop accumulates it: the largest `strip.length * 40`
      seen so far. */
  function MaxWidth(rows: seq<seq<TonalStep>>, acc: int): int {
    if rows == [] then acc
    else MaxWidth(rows[1..], if acc < |rows[0]| * CellSize then |rows[0]| * CellSize else acc)
  }

  /** Starting from 0 the loop ends at 40 times the longest strip. */
  lemma {:induction false} MaxWidthIsLongest(rows: seq<seq<TonalStep>>, acc: int)
    requires acc >= 0
    ensures MaxWidth(rows, acc) == if acc < MaxLength(rows) * CellSize then MaxLength(rows) * CellSize else acc
  {
    if rows != [] {
      var next := if acc < |rows[0]| * CellSize then |rows[0]| * CellSize else acc;
      MaxWidthIsLongest(rows[1..], next);
    }
  }

  /** The SVG between the template's surrounding white space. */
  function GeneratedCore(rows: seq<seq<TonalStep>>, href: string, json: string): (core: string)
    ensures |core| > 0 && core[0] == '<' && core[|core| - 1] == '>'
  {
    var maxWidth := MaxWidth(rows, 0);
    var width := IntToDecimal(maxWidth + 800);
    var height := IntToDecimal(|rows| * CellSize);
    var textX := IntToDecimal(maxWidth + 20);
    var head := "<" + (
    "svg xmlns=\"http://www.w3.org/2000/svg\" viewBox=\"0 0 " + width + " " + height
      + "\" width=\"" + width + "\" height=\"" + height + "\">"
      + "\n        <desc>" + json + "</desc>"
      + "\n        " + RowsMarkup(rows, 0)
      + "\n        <text x=\"" + textX + "\" y=\"20\" font-family=\"sans-serif\" font-size=\"16\">" + href + "</text>"
      + "\n        <text x=\"" + textX + "\" y=\"50\" font-family=\"monospace\" font-size=\"12\">" + json + "</text>");
    var tail := "\n      </svg>";
    assert (head + tail)[0] == head[0];
    assert (head + tail)[|head + tail| - 1] == tail[|tail| - 1];
    head + tail
  }

  /** `generateScaleSvg`: the three strips stacked in the order full,
      extended, key, and the template literal trimmed. */
  function GenerateScaleSvg(fullStrip: seq<TonalStep>, extendedStrip: seq<TonalStep>, keyStrip: seq<TonalStep>, href: string, json: string): string {
    Trim("\n      " + GeneratedCore([fullStrip, extendedStrip, keyStrip], href, json) + "\n    ")
  }

  /** Trimming removes exactly the template's indentation: the output
      starts at `<svg` and ends at `</svg>`, is three rows (120 pixels)
      high, is 800 pixels wider than the longest strip, and places the cells
      row-major with the full strip at y = 0, the extended at 40 and the key
      at 80. */
  lemma GenerateScaleSvgShape(fullStrip: seq<TonalStep>, extendedStrip: seq<TonalStep>, keyStrip: seq<TonalStep>, href: string, json: string)
    ensures GenerateScaleSvg(fullStrip, extendedStrip, keyStrip, href, json)
      == GeneratedCore([fullStrip, extendedStrip, keyStrip], href, json)
    ensures MaxWidth([fullStrip, extendedStrip, keyStrip], 0) == MaxLength([fullStrip, extendedStrip, keyStrip]) * CellSize
    ensures |[fullStrip, extendedStrip, keyStrip]| * CellSize == 120
    ensures RowsMarkup([fullStrip, extendedStrip, keyStrip], 0) == Render(Layout([fullStrip, extendedStrip, keyStrip], 0))
  {
    GenerateIsCore(fullStrip, extendedStrip, keyStrip, href, json);
    ThreeRows([fullStrip, extendedStrip, keyStrip]);
  }

  lemma GenerateIsCore(fullStrip: seq<TonalStep>, extendedStrip: seq<TonalStep>, keyStrip: seq<TonalStep>, href: string, json: string)
    ensures GenerateScaleSvg(fullStrip, extendedStrip, keyStrip, href, json) == GeneratedCore([fullStrip, extendedStrip, keyStrip], href, json)
  {
    GenerateTrimmed([fullStrip, extendedStrip, keyStrip], href, json);
  }

  /** Three rows of strips: the width, the height and the markup. */
  lemma ThreeRows(rows: seq<seq<TonalStep>>)
    requires |rows| == 3
    ensures MaxWidth(rows, 0) == MaxLength(rows) * CellSize
    ensures |rows| * CellSize == 120
    ensures RowsMarkup(rows, 0) == Render(Layout(rows, 0))
  {
    WidthFromZero(rows);
    MarkupIsLayout(rows, 0);
  }

  /** The loop started at 0 ends at 40 times the longest strip. */
  lemma WidthFromZero(rows: seq<seq<TonalStep>>)
    ensures MaxWidth(rows, 0) == MaxLength(rows) * CellSize
  {
    MaxWidthIsLongest(rows, 0);
  }

  lemma GenerateTrimmed(rows: seq<seq<TonalStep>>, href: string, json: string)
    ensures Trim("\n      " + GeneratedCore(rows, href, json) + "\n    ") == GeneratedCore(rows, href, json)
  {
    TrimTemplate(GeneratedCore(rows, href, json));
  }

  /** The template's indentation around markup trims away. */
  lemma TrimTemplate(core: string)
    requires |core| > 0 && core[0] == '<' && core[|core| - 1] == '>'
    ensures Trim("\n      " + core + "\n    ") == core
  {
    var pre, post := "\n      ", "\n    ";
    assert forall k :: 0 <= k < |pre| ==> IsSpace(pre[k]);
    assert forall k :: 0 <= k < |post| ==> IsSpace(post[k]);
    TrimAround(pre, core, post);
  }

  /** Each tone of the three stacked strips is the cell at its column and
      its strip's row. */
  lemma GeneratedCells(fullStrip: seq<TonalStep>, extendedStrip: seq<TonalStep>, keyStrip: seq<TonalStep>, r: nat, c: nat)
    requires var rows := [fullStrip, extendedStrip, keyStrip];
      r < 3 && c < |rows[r]|
    ensures var rows := [fullStrip, extendedStrip, keyStrip];
      Offset(rows, r) + c < |Layout(rows, 0)|
    ensures var rows := [fullStrip, extendedStrip, keyStrip];
      Layout(rows, 0)[Offset(rows, r) + c] == Cell(c * CellSize, r * CellSize, rows[r][c].hex)
  {
    LayoutCell([fullStrip, extendedStrip, keyStrip], 0, r, c);
  }

}

=== FILE: title_case.dfy ===
/** `toTitleCase`: trim, collapse every run of white space into one space,
    lower-case, and upper-case each word character that starts a word
    (`/\b\w/g`). Case mapping is the ASCII one. */
module TitleCase {
  import opened JsText

  /** The regular-expression class `\w`: `[A-Za-z0-9_]`. */
  predicate IsWord(c: char) {
    ('a' <= c <= 'z') || ('A' <= c <= 'Z') || ('0' <= c <= '9') || c == '_'
  }

  /** Position `i` is a `\b\w` match: a word character with no word
      character before it. */
  predicate StartsWord(s: string, i: int)
    requires 0 <= i < |s|
  {
    IsWord(s[i]) && (i == 0 || !IsWord(s[i - 1]))
  }

  /** Spaces only as single ` ` characters between other characters. */
  predicate Collapsed(s: string) {
    && (forall k :: 0 <= k < |s| ==> (IsSpace(s[k]) ==> s[k] == ' '))
    && (forall k :: 0 <= k < |s| - 1 ==> !(s[k] == ' ' && s[k + 1] == ' '))
  }

  /** `s.replace(/\s+/g, ' ')`: every maximal run of white space becomes one
      space; everything else is kept in order. */
  function Collapse(s: string): string
    decreases |s|
  {
    if s == [] then ""
    else if IsSpace(s[0]) then
      var rest := TrimStart(s);
      assert |rest| < |s| by {
        assert |rest| > 0 ==> !IsSpace(rest[0]);
      }
      " " + Collapse(rest)
    else [s[0]] + Collapse(s[1..])
  }

  /** `s.replace(/\b\w/g, c => c.toUpperCase())`. */
  function Capitalize(s: string): (r: string)
    ensures |r| == |s|
    ensures forall k :: 0 <= k < |s| ==> r[k] == if StartsWord(s, k) then UpperChar(s[k]) else s[k]
  {
    seq(|s|, k requires 0 <= k < |s| => if StartsWord(s, k) then UpperChar(s[k]) else s[k])
  }

  /** `toTitleCase`. */
  function ToTitleCase(value: string): (r: string)
    ensures value == "" ==> r == ""
  {
    if value == "" then ""
    else Capitalize(ToLower(Collapse(Trim(value))))
  }

  // ---------------------------------------------------------------------
  // Properties

  lemma LowerKeepsKind(c: char)
    ensures IsSpace(LowerChar(c)) <==> IsSpace(c)
    ensures LowerChar(c) == ' ' <==> c == ' '
    ensures IsWord(LowerChar(c)) <==> IsWord(c)
    ensures !('A' <= LowerChar(c) <= 'Z')
  {
  }

  lemma UpperKeepsKind(c: char)
    ensures IsSpace(UpperChar(c)) <==> IsSpace(c)
    ensures UpperChar(c) == ' ' <==> c == ' '
    ensures IsWord(UpperChar(c)) <==> IsWord(c)
  {
  }

  /** The result is trimmed and collapsed: no white space at either end,
      and inside only single spaces. */
  lemma TitleCaseSpacing(value: string)
    ensures var r := ToTitleCase(value);
      && Collapsed(r)
      && (|r| > 0 ==> r[0] != ' ' && r[|r| - 1] != ' ')
  {
    if value != "" {
      var t := Trim(value);
      var c := Collapse(t);
      CollapseShape(t);
      var l := ToLower(c);
      var r := Capitalize(l);
      forall k | 0 <= k < |r|
        ensures IsSpace(r[k]) <==> IsSpace(c[k])
        ensures r[k] == ' ' <==> c[k] == ' '
      {
        LowerKeepsKind(c[k]);
        UpperKeepsKind(l[k]);
      }
    }
  }

  /** An ASCII letter of the result is upper case exactly when it starts a
      word; every other letter is lower case. */
  lemma TitleCaseLetters(value: string, i: int)
    requires 0 <= i < |ToTitleCase(value)|
    ensures var r := ToTitleCase(value);
      ('a' <= r[i] <= 'z' || 'A' <= r[i] <= 'Z') ==> ('A' <= r[i] <= 'Z' <==> StartsWord(r, i))
  {
    var c := Collapse(Trim(value));
    var l := ToLower(c);
    var r := ToTitleCase(value);
    assert r == Capitalize(l);
    LowerKeepsKind(c[i]);
    UpperKeepsKind(l[i]);
    if i > 0 {
      LowerKeepsKind(c[i - 1]);
      UpperKeepsKind(l[i - 1]);
      assert IsWord(r[i - 1]) <==> IsWord(l[i - 1]);
    }
  }

  /** Capitalising the lower-cased output of `Capitalize` gives it back:
      the words start at the same places. */
  lemma CapitalizeAgain(l: string)
    requires forall k :: 0 <= k < |l| ==> !('A' <= l[k] <= 'Z')
    ensures Capitalize(ToLower(Capitalize(l))) == Capitalize(l)
  {
    var r := Capitalize(l);
    var l2 := ToLower(r);
    forall k | 0 <= k < |l|
      ensures l2[k] == l[k]
    {
      UpperKeepsKind(l[k]);
    }
    assert l2 == l;
  }

  /** Title-casing is idempotent. */
  lemma TitleCaseIdempotent(value: string)
    ensures ToTitleCase(ToTitleCase(value)) == ToTitleCase(value)
  {
    if value != "" {
      var r := ToTitleCase(value);
      TitleCaseSpacing(value);
      if r != "" {
        TrimNoSpace(r);
        CollapseOfCollapsed(r);
        var l := ToLower(Collapse(Trim(value)));
        forall k | 0 <= k < |l|
          ensures !('A' <= l[k] <= 'Z')
        {
          LowerKeepsKind(Collapse(Trim(value))[k]);
        }
        CapitalizeAgain(l);
      }
    }
  }

  /** `Collapse` leaves no white space but single spaces, never lengthens
      its input, is empty only for empty input, and starts and ends with a
      space exactly where its input starts and ends with white space. */
  lemma CollapseShape(s: string)
    ensures var r := Collapse(s);
      && Collapsed(r)
      && |r| <= |s|
      && (|r| == 0 <==> |s| == 0)
      && (|r| > 0 ==> (r[0] == ' ' <==> IsSpace(s[0])) && (!IsSpace(s[0]) ==> r[0] == s[0]))
      && (|r| > 0 ==> (r[|r| - 1] == ' ' <==> IsSpace(s[|s| - 1])))
  {
    CollapseHead(s);
    CollapseIsCollapsed(s);
    CollapseLength(s);
    CollapseLast(s);
  }

  /** The first character: a space for leading white space, else the
      input's own first character. */
  lemma CollapseHead(s: string)
    ensures var r := Collapse(s);
      && (|r| == 0 <==> |s| == 0)
      && (|r| > 0 ==> (r[0] == ' ' <==> IsSpace(s[0])) && (!IsSpace(s[0]) ==> r[0] == s[0]))
  {
  }

  lemma {:induction false} CollapseIsCollapsed(s: string)
    ensures Collapsed(Collapse(s))
    decreases |s|
  {
    if s != [] {
      if IsSpace(s[0]) {
        var rest := TrimStart(s);
        CollapseHead(rest);
        CollapseIsCollapsed(rest);
        CollapsedCons(' ', Collapse(rest));
      } else {
        CollapseIsCollapsed(s[1..]);
        CollapsedCons(s[0], Collapse(s[1..]));
      }
    }
  }

  lemma {:induction false} CollapseLength(s: string)
    ensures |Collapse(s)| <= |s|
    decreases |s|
  {
    if s != [] {
      if IsSpace(s[0]) {
        var rest := TrimStart(s);
        assert |rest| > 0 ==> !IsSpace(rest[0]);
        CollapseLength(rest);
      } else {
        CollapseLength(s[1..]);
      }
    }
  }

  /** The last character is a space exactly for trailing white space. */
  lemma {:induction false} CollapseLast(s: string)
    ensures var r := Collapse(s);
      |r| > 0 ==> (r[|r| - 1] == ' ' <==> IsSpace(s[|s| - 1]))
    decreases |s|
  {
    if s != [] {
      if IsSpace(s[0]) {
        var rest := TrimStart(s);
        TrimStartDropsSpace(s);
        assert |rest| > 0 ==> !IsSpace(rest[0]);
        assert |rest| > 0 ==> rest[|rest| - 1] == s[|s| - 1];
        assert |rest| == 0 ==> IsSpace(s[|s| - 1]);
        CollapseHead(rest);
        CollapseLast(rest);
      } else {
        assert |s| > 1 ==> s[1..][|s| - 2] == s[|s| - 1];
        CollapseHead(s[1..]);
        CollapseLast(s[1..]);
      }
    }
  }

  /** A character in front of collapsed text keeps it collapsed unless it
      is white space other than a space, or a space before a space. */
  lemma CollapsedCons(c: char, t: string)
    requires Collapsed(t) && (IsSpace(c) ==> c == ' ') && !(c == ' ' && |t| > 0 && t[0] == ' ')
    ensures Collapsed([c] + t)
  {
    var s := [c] + t;
    assert forall k :: 1 <= k < |s| ==> s[k] == t[k - 1];
  }

  /** Collapsed text collapses to itself. */
  lemma {:induction false} CollapseOfCollapsed(s: string)
    requires Collapsed(s)
    ensures Collapse(s) == s
    decreases |s|
  {
    if s != [] {
      CollapsedTail(s);
      CollapseOfCollapsed(s[1..]);
      if IsSpace(s[0]) {
        assert s[0] == ' ';
        assert |s| > 1 ==> s[1] != ' ';
        CollapseSpaceStep(s);
      } else {
        CollapseCharStep(s);
      }
      assert s == [s[0]] + s[1..];
    }
  }

  lemma CollapsedTail(s: string)
    requires Collapsed(s) && |s| > 0
    ensures Collapsed(s[1..])
  {
    var t := s[1..];
    assert forall k :: 0 <= k < |t| ==> t[k] == s[k + 1];
  }

  /** One step of `Collapse` over a character that is not white space. */
  lemma CollapseCharStep(s: string)
    requires |s| > 0 && !IsSpace(s[0])
    ensures Collapse(s) == [s[0]] + Collapse(s[1..])
  {
  }

  /** One step of `Collapse` over a single space before a character that is
      not white space. */
  lemma CollapseSpaceStep(s: string)
    requires |s| > 0 && s[0] == ' ' && (|s| > 1 ==> !IsSpace(s[1]))
    ensures Collapse(s) == " " + Collapse(s[1..])
  {
    assert TrimStart(s[1..]) == s[1..];
    assert TrimStart(s) == TrimStart(s[1..]);
  }

  /** A run of characters that are not white space passes through
      `Collapse` unchanged. */
  lemma {:induction false} CollapseWord(word: string, rest: string)
    requires forall k :: 0 <= k < |word| ==> !IsSpace(word[k])
    ensures Collapse(word + rest) == word + Collapse(rest)
    decreases |word|
  {
    if word == [] {
      assert word + rest == rest;
    } else {
      var s := word + rest;
      assert s[0] == word[0];
      assert s[1..] == word[1..] + rest;
      CollapseCharStep(s);
      CollapseWord(word[1..], rest);
      assert word == [word[0]] + word[1..];
    }
  }

  /** A run of white space before a character that is not white space
      becomes one space. */
  lemma CollapseRun(run: string, rest: string)
    requires |run| > 0 && forall k :: 0 <= k < |run| ==> IsSpace(run[k])
    requires |rest| > 0 && !IsSpace(rest[0])
    ensures Collapse(run + rest) == " " + Collapse(rest)
  {
    TrimStartSpaces(run, rest);
  }

  /** Two words with white space around and between them come out as the
      two words, lower-cased and capitalised, joined by one space. */
  lemma TwoWords(pre: string, a: string, mid: string, b: string, post: string)
    requires forall k :: 0 <= k < |pre| ==> IsSpace(pre[k])
    requires |mid| > 0 && forall k :: 0 <= k < |mid| ==> IsSpace(mid[k])
    requires forall k :: 0 <= k < |post| ==> IsSpace(post[k])
    requires |a| > 0 && forall k :: 0 <= k < |a| ==> !IsSpace(a[k])
    requires |b| > 0 && forall k :: 0 <= k < |b| ==> !IsSpace(b[k])
    ensures ToTitleCase(pre + a + mid + b + post) == Capitalize(ToLower(a + " " + b))
  {
    var core := a + mid + b;
    assert pre + a + mid + b + post == pre + core + post;
    assert core[0] == a[0] && core[|core| - 1] == b[|b| - 1];
    TrimAround(pre, core, post);
    CollapseCore(a, mid, b);
  }

  /** The collapsing step of `TwoWords`. */
  lemma CollapseCore(a: string, mid: string, b: string)
    requires |mid| > 0 && forall k :: 0 <= k < |mid| ==> IsSpace(mid[k])
    requires forall k :: 0 <= k < |a| ==> !IsSpace(a[k])
    requires |b| > 0 && forall k :: 0 <= k < |b| ==> !IsSpace(b[k])
    ensures Collapse(a + mid + b) == a + " " + b
  {
    CollapseWord(b, "");
    assert b + "" == b;
    CollapseRun(mid, b);
    Associate(a, mid, b);
    CollapseWord(a, mid + b);
    Associate(a, " ", b);
  }

  lemma Associate(x: string, y: string, z: string)
    ensures x + y + z == x + (y + z)
  {
  }

  lemma HelloCapitalize()
    ensures Capitalize("hello world") == "Hello World"
  {
    var s := "hello world";
    var c := Capitalize(s);
    assert StartsWord(s, 0) && StartsWord(s, 6);
    assert forall k :: 0 <= k < |s| && k != 0 && k != 6 ==> !StartsWord(s, k);
    assert c[0] == 'H' && c[6] == 'W';
    assert forall k :: 0 <= k < |s| && k != 0 && k != 6 ==> c[k] == s[k];
  }
}

=== FILE: url_sync.dfy ===
/** `useTonalUrlSync`: the store's params are written into the page's query
    string whenever they change, and a non-empty query found when the page
    mounts is handed to `importState`. The router is replaced by plain maps:
    the query the watcher writes and the query the page mounts with. */
module UrlSync {
  import opened Wrappers
  import opened JsMath
  import opened JsText
  import Color
  import ColorMath
  import Scale
  import Store

  /** A router query value: `string | null | (string | null)[]`. */
  datatype QueryValue = Text(s: string) | Null | List(items: seq<Option<string>>)

  type Query = map<string, QueryValue>

  /** A property of the payload object handed to `importState`: a string,
      `null`, or `undefined` (the first element of an empty array). */
  datatype Entry = Str(s: string) | NullEntry | Undefined

  /** `Array.isArray(value) ? value[0] : value`. */
  function FirstOf(v: QueryValue): Entry {
    match v
    case Text(s) => Str(s)
    case Null => NullEntry
    case List(items) =>
      if |items| == 0 then Undefined
      else if items[0].Some? then Str(items[0].value)
      else NullEntry
  }

  /** The mount hook's payload: nothing at all for an empty query, otherwise
      one entry per key holding the key's value or the first element of its
      array. */
  function Restore(query: Query): (payload: Option<map<string, Entry>>)
    ensures payload.None? <==> |query| == 0
    ensures payload.Some? ==> payload.value.Keys == query.Keys
    ensures payload.Some? ==> forall k :: k in query && query[k].Text? ==> payload.value[k] == Str(query[k].s)
    ensures payload.Some? ==> forall k :: k in query && query[k].List? && |query[k].items| > 0 && query[k].items[0].Some? ==>
      payload.value[k] == Str(query[k].items[0].value)
    ensures payload.Some? ==> forall k :: k in query && query[k].List? && |query[k].items| == 0 ==> payload.value[k] == Undefined
  {
    if |query| == 0 then None
    else Some(map k | k in query :: FirstOf(query[k]))
  }

  // ---------------------------------------------------------------------
  // Reading the payload as `importState` does

  /** `parsed[key] ?? fallback` for a string field: `null` and `undefined`
      both fall back. */
  function TextField(e: map<string, Entry>, key: string): Option<string> {
    if key in e && e[key].Str? then Some(e[key].s) else None
  }

  /** `Number(parsed[key] ?? fallback)` with the fallback left to the store. */
  function NumberField(e: map<string, Entry>, key: string, fraction: string -> Option<real>): Option<real> {
    if key in e && e[key].Str? then NumberOf(e[key].s, fraction) else None
  }

  /** The payload object as the store reads it. */
  function PayloadOf(e: map<string, Entry>, fraction: string -> Option<real>): (q: Store.Payload)
    ensures "colorHex" in e && e["colorHex"].Str? <==> q.colorHex.Some?
    ensures "blendMode" in e && e["blendMode"].Str? <==> q.blendMode.Some?
    ensures "blendStrength" !in e ==> q.blendStrength.None?
    ensures "middle" !in e ==> q.middle.None?
  {
    Store.Payload(
      TextField(e, "colorHex"),
      TextField(e, "blendMode"),
      NumberField(e, "blendStrength", fraction),
      NumberField(e, "blendR", fraction),
      NumberField(e, "blendG", fraction),
      NumberField(e, "blendB", fraction),
      NumberField(e, "middle", fraction),
      NumberField(e, "spread", fraction),
      NumberField(e, "satDarker", fraction),
      NumberField(e, "satLighter", fraction))
  }

  /** The mount hook: an empty query leaves the store alone, any other query
      is imported and leaves the controls in range. */
  function OnMounted(s: Store.StoreState, query: Query, fraction: string -> Option<real>, radix16: real -> string): (r: Store.StoreState)
    requires Store.ControlsInRange(s.controls) && Color.IsCanonicalHex(s.baseHex)
    ensures |query| == 0 ==> r == s
    ensures Store.ControlsInRange(r.controls) && Color.IsCanonicalHex(r.baseHex)
  {
    match Restore(query)
    case None => s
    case Some(e) => Store.ImportState(s, Some(PayloadOf(e, fraction)), radix16).state
  }

  // ---------------------------------------------------------------------
  // Writing the query

  /** `String(x)`: an integer prints in decimal; the shortest round-trip
      digits of any other number are left to `show`. */
  function NumberText(x: real, show: real -> string): string {
    if IsInteger(x) then IntToDecimal(x.Floor) else show(x)
  }

  /** The ten keys the watcher writes, the names of the params. */
  const QueryKeys: set<string> := {"colorHex", "blendMode", "blendStrength", "blendR", "blendG", "blendB",
    "middle", "spread", "satDarker", "satLighter"}

  /** The watcher's query: the colour without its `#`, the mode's name and
      every number as `String` prints it. */
  function ToQuery(p: Scale.TonalScaleParams, show: real -> string): (q: map<string, string>)
    ensures q.Keys == QueryKeys && |q| == 10
    ensures Color.IsCanonicalHex(p.colorHex) ==> "#" + q["colorHex"] == p.colorHex && |q["colorHex"]| == 6
  {
    var digits := ReplaceFirst(p.colorHex, '#', "");
    HexDigits(p.colorHex);
    QueryMapFields(digits, ColorMath.ModeName(p.blendMode),
      NumberText(p.blendStrength, show), NumberText(p.blendR, show), NumberText(p.blendG, show),
      NumberText(p.blendB, show), NumberText(p.middle, show), NumberText(p.spread, show),
      NumberText(p.satDarker, show), NumberText(p.satLighter, show));
    QueryMap(digits, ColorMath.ModeName(p.blendMode),
      NumberText(p.blendStrength, show), NumberText(p.blendR, show), NumberText(p.blendG, show),
      NumberText(p.blendB, show), NumberText(p.middle, show), NumberText(p.spread, show),
      NumberText(p.satDarker, show), NumberText(p.satLighter, show))
  }

  /** The object literal the watcher writes, one value per key. */
  function QueryMap(colorHex: string, blendMode: string, blendStrength: string, blendR: string, blendG: string,
    blendB: string, middle: string, spread: string, satDarker: string, satLighter: string): map<string, string>
  {
    map[
      "colorHex" := colorHex,
      "blendMode" := blendMode,
      "blendStrength" := blendStrength,
      "blendR" := blendR,
      "blendG" := blendG,
      "blendB" := blendB,
      "middle" := middle,
      "spread" := spread,
      "satDarker" := satDarker,
      "satLighter" := satLighter]
  }

  /** Each key of the object literal holds its own value. */
  lemma QueryMapFields(colorHex: string, blendMode: string, blendStrength: string, blendR: string, blendG: string,
    blendB: string, middle: string, spread: string, satDarker: string, satLighter: string)
    ensures var q := QueryMap(colorHex, blendMode, blendStrength, blendR, blendG, blendB, middle, spread, satDarker, satLighter);
      && q.Keys == QueryKeys && |q| == 10
      && q["colorHex"] == colorHex && q["blendMode"] == blendMode
      && q["blendStrength"] == blendStrength && q["blendR"] == blendR && q["blendG"] == blendG
      && q["blendB"] == blendB && q["middle"] == middle && q["spread"] == spread
      && q["satDarker"] == satDarker && q["satLighter"] == satLighter
  {
    QueryMapKeys(colorHex, blendMode, blendStrength, blendR, blendG, blendB, middle, spread, satDarker, satLighter);
    QueryMapText(colorHex, blendMode, blendStrength, blendR, blendG, blendB, middle, spread, satDarker, satLighter);
    QueryMapBlend(colorHex, blendMode, blendStrength, blendR, blendG, blendB, middle, spread, satDarker, satLighter);
    QueryMapCurve(colorHex, blendMode, blendStrength, blendR, blendG, blendB, middle, spread, satDarker, satLighter);
  }

  /** The object literal has the ten keys, all distinct. */
  lemma QueryMapKeys(colorHex: string, blendMode: string, blendStrength: string, blendR: string, blendG: string,
    blendB: string, middle: string, spread: string, satDarker: string, satLighter: string)
    ensures var q := QueryMap(colorHex, blendMode, blendStrength, blendR, blendG, blendB, middle, spread, satDarker, satLighter);
      q.Keys == QueryKeys && |q| == 10
  {
    QueryMapKeySet(colorHex, blendMode, blendStrength, blendR, blendG, blendB, middle, spread, satDarker, satLighter);
    QueryKeysCount();
  }

  lemma QueryMapKeySet(colorHex: string, blendMode: string, blendStrength: string, blendR: string, blendG: string,
    blendB: string, middle: string, spread: string, satDarker: string, satLighter: string)
    ensures QueryMap(colorHex, blendMode, blendStrength, blendR, blendG, blendB, middle, spread, satDarker, satLighter).Keys == QueryKeys
  {
  }

  /** The ten key names are distinct. */
  lemma QueryKeysCount()
    ensures |QueryKeys| == 10
  {
  }

  /** The colour and the mode under their keys. */
  lemma QueryMapText(colorHex: string, blendMode: string, blendStrength: string, blendR: string, blendG: string,
    blendB: string, middle: string, spread: string, satDarker: string, satLighter: string)
    ensures var q := QueryMap(colorHex, blendMode, blendStrength, blendR, blendG, blendB, middle, spread, satDarker, satLighter);
      q["colorHex"] == colorHex && q["blendMode"] == blendMode
  {
  }

  /** The blend strength and channels under their keys. */
  lemma QueryMapBlend(colorHex: string, blendMode: string, blendStrength: string, blendR: string, blendG: string,
    blendB: string, middle: string, spread: string, satDarker: string, satLighter: string)
    ensures var q := QueryMap(colorHex, blendMode, blendStrength, blendR, blendG, blendB, middle, spread, satDarker, satLighter);
      q["blendStrength"] == blendStrength && q["blendR"] == blendR && q["blendG"] == blendG && q["blendB"] == blendB
  {
  }

  /** The curve and saturation controls under their keys. */
  lemma QueryMapCurve(colorHex: string, blendMode: string, blendStrength: string, blendR: string, blendG: string,
    blendB: string, middle: string, spread: string, satDarker: string, satLighter: string)
    ensures var q := QueryMap(colorHex, blendMode, blendStrength, blendR, blendG, blendB, middle, spread, satDarker, satLighter);
      q["middle"] == middle && q["spread"] == spread && q["satDarker"] == satDarker && q["satLighter"] == satLighter
  {
  }

  /** A canonical colour is written as its six digits. */
  lemma HexDigits(hex: string)
    ensures Color.IsCanonicalHex(hex) ==>
      "#" + ReplaceFirst(hex, '#', "") == hex && |ReplaceFirst(hex, '#', "")| == 6
  {
    if Color.IsCanonicalHex(hex) {
      Color.CanonicalDigitsLower(hex);
      ReplaceFirstHead(hex, '#', "");
    }
  }

  /** The query a page loaded from a written URL mounts with. */
  function QueryOf(q: map<string, string>): (query: Query)
    ensures query.Keys == q.Keys
    ensures forall k :: k in q ==> query[k] == Text(q[k])
  {
    map k | k in q :: Text(q[k])
  }

  // ---------------------------------------------------------------------
  // Round trip

  /** Every control holds an integer, as the sliders produce. */
  predicate WholeControls(c: Store.Controls) {
    IsInteger(c.strength) && IsInteger(c.middle) && IsInteger(c.spread) && IsInteger(c.satDarker) && IsInteger(c.satLighter)
  }

  /** An integer prints and reads back through `Number`. */
  lemma NumberOfText(x: real, show: real -> string, fraction: string -> Option<real>)
    requires IsInteger(x)
    ensures NumberOf(NumberText(x, show), fraction) == Some(x)
  {
    var s := IntToDecimal(x.Floor);
    assert |s| > 0 ==> !IsSpace(s[0]) && !IsSpace(s[|s| - 1]) by {
      if x.Floor < 0 {
        assert s[|s| - 1] == NatToDecimal(-x.Floor)[|NatToDecimal(-x.Floor)| - 1];
      }
    }
    TrimNoSpace(s);
    ParseIntToDecimal(x.Floor);
  }

  /** The six digits of a canonical colour, as the query carries them,
      normalise back to the colour. */
  lemma DigitsNormalize(hex: string)
    requires Color.IsCanonicalHex(hex)
    ensures Color.IsValidHex(hex[1..]) && Color.NormalizeHex(hex[1..]) == hex
  {
    var d := hex[1..];
    Color.CanonicalDigitsLower(hex);
    Color.BareValid(d);
    Color.NormalizeValid(d);
  }

  /** Every written key mounts as a plain string entry. */
  lemma WrittenField(q: map<string, string>, key: string)
    requires key in q
    ensures Restore(QueryOf(q)).Some?
    ensures key in Restore(QueryOf(q)).value && Restore(QueryOf(q)).value[key] == Str(q[key])
  {
    assert key in QueryOf(q);
  }

  /** A written integer field reads back as the same number. */
  lemma ReadWrittenNumber(q: map<string, string>, key: string, x: real, show: real -> string, fraction: string -> Option<real>)
    requires key in q && q[key] == NumberText(x, show) && IsInteger(x)
    ensures Restore(QueryOf(q)).Some?
    ensures NumberField(Restore(QueryOf(q)).value, key, fraction) == Some(x)
  {
    WrittenField(q, key);
    NumberOfText(x, show, fraction);
  }

  /** What the watcher writes under each key. */
  lemma QueryFields(p: Scale.TonalScaleParams, show: real -> string)
    ensures var q := ToQuery(p, show);
      && q["blendStrength"] == NumberText(p.blendStrength, show)
      && q["blendR"] == NumberText(p.blendR, show)
      && q["blendG"] == NumberText(p.blendG, show)
      && q["blendB"] == NumberText(p.blendB, show)
      && q["middle"] == NumberText(p.middle, show)
      && q["spread"] == NumberText(p.spread, show)
      && q["satDarker"] == NumberText(p.satDarker, show)
      && q["satLighter"] == NumberText(p.satLighter, show)
  {
    QueryMapFields(ReplaceFirst(p.colorHex, '#', ""), ColorMath.ModeName(p.blendMode),
      NumberText(p.blendStrength, show), NumberText(p.blendR, show), NumberText(p.blendG, show),
      NumberText(p.blendB, show), NumberText(p.middle, show), NumberText(p.spread, show),
      NumberText(p.satDarker, show), NumberText(p.satLighter, show));
  }

  /** The written payload, read back, holds every param exactly. */
  lemma WrittenPayload(p: Scale.TonalScaleParams, show: real -> string, fraction: string -> Option<real>)
    requires Color.IsCanonicalHex(p.colorHex)
    requires IsInteger(p.blendStrength) && IsInteger(p.blendR) && IsInteger(p.blendG) && IsInteger(p.blendB)
    requires IsInteger(p.middle) && IsInteger(p.spread) && IsInteger(p.satDarker) && IsInteger(p.satLighter)
    ensures Restore(QueryOf(ToQuery(p, show))).Some?
    ensures PayloadOf(Restore(QueryOf(ToQuery(p, show))).value, fraction)
      == Store.Payload(Some(p.colorHex[1..]), Some(ColorMath.ModeName(p.blendMode)),
        Some(p.blendStrength), Some(p.blendR), Some(p.blendG), Some(p.blendB),
        Some(p.middle), Some(p.spread), Some(p.satDarker), Some(p.satLighter))
  {
    WrittenText(p, show);
    WrittenBlend(p, show, fraction);
    WrittenCurve(p, show, fraction);
  }

  /** The colour's digits and the mode's name read back as written. */
  lemma WrittenText(p: Scale.TonalScaleParams, show: real -> string)
    requires Color.IsCanonicalHex(p.colorHex)
    ensures Restore(QueryOf(ToQuery(p, show))).Some?
    ensures var e := Restore(QueryOf(ToQuery(p, show))).value;
      && TextField(e, "colorHex") == Some(p.colorHex[1..])
      && TextField(e, "blendMode") == Some(ColorMath.ModeName(p.blendMode))
  {
    var q := ToQuery(p, show);
    QueryMapText(ReplaceFirst(p.colorHex, '#', ""), ColorMath.ModeName(p.blendMode),
      NumberText(p.blendStrength, show), NumberText(p.blendR, show), NumberText(p.blendG, show),
      NumberText(p.blendB, show), NumberText(p.middle, show), NumberText(p.spread, show),
      NumberText(p.satDarker, show), NumberText(p.satLighter, show));
    WrittenField(q, "colorHex");
    WrittenField(q, "blendMode");
  }

  /** The blend strength and channels read back as the same numbers. */
  lemma WrittenBlend(p: Scale.TonalScaleParams, show: real -> string, fraction: string -> Option<real>)
    requires IsInteger(p.blendStrength) && IsInteger(p.blendR) && IsInteger(p.blendG) && IsInteger(p.blendB)
    ensures Restore(QueryOf(ToQuery(p, show))).Some?
    ensures var e := Restore(QueryOf(ToQuery(p, show))).value;
      && NumberField(e, "blendStrength", fraction) == Some(p.blendStrength)
      && NumberField(e, "blendR", fraction) == Some(p.blendR)
      && NumberField(e, "blendG", fraction) == Some(p.blendG)
      && NumberField(e, "blendB", fraction) == Some(p.blendB)
  {
    var q := ToQuery(p, show);
    QueryMapBlend(ReplaceFirst(p.colorHex, '#', ""), ColorMath.ModeName(p.blendMode),
      NumberText(p.blendStrength, show), NumberText(p.blendR, show), NumberText(p.blendG, show),
      NumberText(p.blendB, show), NumberText(p.middle, show), NumberText(p.spread, show),
      NumberText(p.satDarker, show), NumberText(p.satLighter, show));
    ReadWrittenNumber(q, "blendStrength", p.blendStrength, show, fraction);
    ReadWrittenNumber(q, "blendR", p.blendR, show, fraction);
    ReadWrittenNumber(q, "blendG", p.blendG, show, fraction);
    ReadWrittenNumber(q, "blendB", p.blendB, show, fraction);
  }

  /** The curve and saturation controls read back as the same numbers. */
  lemma WrittenCurve(p: Scale.TonalScaleParams, show: real -> string, fraction: string -> Option<real>)
    requires IsInteger(p.middle) && IsInteger(p.spread) && IsInteger(p.satDarker) && IsInteger(p.satLighter)
    ensures Restore(QueryOf(ToQuery(p, show))).Some?
    ensures var e := Restore(QueryOf(ToQuery(p, show))).value;
      && NumberField(e, "middle", fraction) == Some(p.middle)
      && NumberField(e, "spread", fraction) == Some(p.spread)
      && NumberField(e, "satDarker", fraction) == Some(p.satDarker)
      && NumberField(e, "satLighter", fraction) == Some(p.satLighter)
  {
    var q := ToQuery(p, show);
    QueryMapCurve(ReplaceFirst(p.colorHex, '#', ""), ColorMath.ModeName(p.blendMode),
      NumberText(p.blendStrength, show), NumberText(p.blendR, show), NumberText(p.blendG, show),
      NumberText(p.blendB, show), NumberText(p.middle, show), NumberText(p.spread, show),
      NumberText(p.satDarker, show), NumberText(p.satLighter, show));
    ReadWrittenNumber(q, "middle", p.middle, show, fraction);
    ReadWrittenNumber(q, "spread", p.spread, show, fraction);
    ReadWrittenNumber(q, "satDarker", p.satDarker, show, fraction);
    ReadWrittenNumber(q, "satLighter", p.satLighter, show, fraction);
  }

  /** Importing the written payload reproduces the params it was written
      from, whatever state imports it. */
  lemma WrittenParams(s: Store.StoreState, t: Store.StoreState, payload: Store.Payload)
    requires Store.Consistent(s) && WholeControls(s.controls)
    requires Store.BlendRgb(s).Some?
    requires var p := Store.ScaleParams(s);
      payload == Store.Payload(Some(p.colorHex[1..]), Some(ColorMath.ModeName(p.blendMode)),
        Some(p.blendStrength), Some(p.blendR), Some(p.blendG), Some(p.blendB),
        Some(p.middle), Some(p.spread), Some(p.satDarker), Some(p.satLighter))
    ensures Store.NextParams(t, payload) == Store.Lift(Store.ScaleParams(s))
  {
    Color.CanonicalRoundTrip(s.blendHex);
    DigitsNormalize(s.baseHex);
    Store.NextParamsOfComplete(t, payload, s.blendMode);
  }

  /** Sharing a link restores the state: the query written for a consistent
      state with whole controls, mounted into any consistent store, gives
      back exactly that state. */
  lemma UrlRoundTrip(s: Store.StoreState, t: Store.StoreState, show: real -> string, fraction: string -> Option<real>, radix16: real -> string)
    requires Store.Consistent(s) && WholeControls(s.controls)
    requires Store.Consistent(t)
    requires Store.BlendRgb(s).Some?
    ensures OnMounted(t, QueryOf(ToQuery(Store.ScaleParams(s), show)), fraction, radix16) == s
  {
    Store.ConsistentParses(s);
    Store.ConsistentParses(t);
    var p := Store.ScaleParams(s);
    Color.CanonicalRoundTrip(s.blendHex);
    WrittenPayload(p, show, fraction);
    var e := Restore(QueryOf(ToQuery(p, show))).value;
    var payload := PayloadOf(e, fraction);
    WrittenParams(s, t, payload);
    ImportedBlendHex(s, radix16);
    var r := Store.ImportState(t, Some(payload), radix16);
    assert r.state == Store.StoreState(p.colorHex, Store.BlendHexOf(Store.Lift(p), radix16), p.blendMode,
      Store.Controls(p.blendStrength, p.middle, p.spread, p.satDarker, p.satLighter));
    assert OnMounted(t, QueryOf(ToQuery(p, show)), fraction, radix16) == r.state;
  }

  /** The blend hex written back for the whole channels of a canonical
      blend colour is that colour. */
  lemma ImportedBlendHex(s: Store.StoreState, radix16: real -> string)
    requires Store.Consistent(s)
    requires Store.BlendRgb(s).Some?
    ensures Store.BlendHexOf(Store.Lift(Store.ScaleParams(s)), radix16) == s.blendHex
  {
    var p := Store.ScaleParams(s);
    var blend := Store.BlendRgb(s).value;
    Color.CanonicalRoundTrip(s.blendHex);
    Store.WholeChannelHex(p.blendR, radix16);
    Store.WholeChannelHex(p.blendG, radix16);
    Store.WholeChannelHex(p.blendB, radix16);
    assert "#" + Store.ChannelText(Some(p.blendR), radix16) + Store.ChannelText(Some(p.blendG), radix16) + Store.ChannelText(Some(p.blendB), radix16)
      == Color.RgbToHex(blend);
    Color.CanonicalIsFixed(s.blendHex);
  }
}

=== FILE: wrappers.dfy ===
/** Failure-compatible result types shared by every module of the model. */
module Wrappers {

  /** A value that may be absent. In this model `None` also stands for a
      JavaScript `NaN`, `undefined` or `null` where the source produces one. */
  datatype Option<+T> = None | Some(value: T) {

    predicate IsFailure() {
      None?
    }

    function PropagateFailure<U>(): Option<U>
      requires None?
    {
      None
    }

    function Extract(): T
      requires Some?
    {
      value
    }

    function GetOr(default: T): T {
      match this
      case Some(v) => v
      case None => default
    }
  }

  /** Either a computed value or the error the source would throw. */
  datatype Result<+R, +E> = Ok(value: R) | Err(error: E) {

    predicate IsFailure() {
      Err?
    }

    function PropagateFailure<U>(): Result<U, E>
      requires Err?
    {
      Err(error)
    }

    function Extract(): R
      requires Ok?
    {
      value
    }
  }
}
